=== FILE: README.md ===
# UMKM CRM backend: a Dafny model of its core

This project models the core of a multi-tenant CRM backend for small businesses (UMKM).
Each tenant keeps customers, products, sales transactions and invoices, and reaches its
customers over WhatsApp. Every operation is a pure function over an immutable store.
The database is a value: maps keyed by id, plus sequences for detail and log tables.
A database transaction is "the new store or the old one". The clock, `Math.random`, the
gateway's HTTP client, the WhatsApp socket, `jwt.verify` and the file system's answers
are parameters.

Modules, in the order of the system's layers:

- `Wrappers`, `Text`, `Decimal`, `Numbers`, `Calendar`, `Paths`: the JavaScript and Node
  built-ins the services rely on, with the semantics they have there.
  - `Text`: `trim` with the full ECMAScript white-space set, ASCII `toLowerCase`,
    `replaceAll` with a literal pattern and case-insensitive global `replace`, both with a
    replacement string whose "$$", "$&", "$`" and "$'" patterns are expanded as
    the `GetSubstitution` operation of ECMA-262 expands them, `split`, and string `<`.
  - `Decimal`: `String(n)`, `padStart` and `parseInt`.
  - `Numbers`: `Number(v)` on JSON values.
  - `Calendar`: local date stamps.
  - `Paths`: POSIX `basename` and `extname`.
- `Watzap`: the Watzap.id gateway client. Covers phone normalisation and validation,
  image-URL acceptance, the guards before a request, and the broadcast loops that
  aggregate per-recipient results.
- `Broadcasts` and `BroadcastHttp`: the relational broadcast lifecycle and its controller.
  The lifecycle covers a draft with pending details, dispatch of pending details only,
  the final status, placeholder personalisation, the delete guard and the statistics.
  The controller maps error messages to HTTP statuses.
- `Blast`, `BlastPool` and `BlastHttp`: the log-based blast engine, the per-tenant
  connection table, and the blast controller.
  - `Blast`: selection, the second phone normaliser, case-sensitive personalisation, at most
    two attempts with exactly one log row per recipient, the bounded throttle, and media
    classification.
  - `BlastPool`: the sockets, idle timers, reconnects and session directories.
  - `BlastHttp`: request filtering, log grouping and status, the success rate, and the
    respond-once handshake.
- `Transactions`, `Products`, `Customers`, `Categories`, `ProductTypes`, `Admin`,
  `Reports`, `Invoices`: the record services.
  - `Transactions`: numbering, stock arithmetic, create and delete, and the update merge.
  - `Products`: product codes, validation, the update merge and the listing filter.
  - `Customers`, `Categories`, `ProductTypes`: the uniqueness rules and cascades.
  - `Admin`: the UMKM status machine and the growth series.
  - `Reports`: the report date range and its aggregates.
  - `Invoices`: invoice numbering and one invoice per transaction.
- `NumberKeys`, `Uploads`, `Auth`: the gateway-key controller, the broadcast image upload
  middleware, and the bearer-token and admin guards.

Money is integer cents. Time is integer milliseconds or a broken-down local date. Text is
`seq<char>`.

## Model

| member | source | states |
|---|---|---|
| Watzap.FormatPhoneNumber | src/services/watzapService.js:346-361 | the result is all digits and starts with "62" |
| Watzap.FormatPhoneNumberCases | src/services/watzapService.js:346-361 | the three cases on the digits d of the input: a leading "0" becomes "62", a number already starting "62" is kept, anything else is prefixed "62" |
| Watzap.FormatPhoneNumberIdempotent | src/services/watzapService.js:346-361 | formatting a formatted number changes nothing |
| Watzap.IsValidPhoneNumber | src/services/watzapService.js:367-371 | valid exactly when the formatted number starts "628" and has 11 to 14 characters, i.e. `/^628\d{8,11}$/` |
| Watzap.ValidityOfFormatted | src/services/watzapService.js:73-78 | validity is the same for a number and its formatted form, so the double formatting in `sendMessage` is harmless |
| Watzap.IsValidImageUrl | src/services/watzapService.js:384-415 | a URL that parses is accepted exactly when its protocol is "http:" or "https:" and its lower-cased path ends in an image extension or it has a query or a CDN-like host; an unparsable one is refused |
| Watzap.UpperCaseExtensionAccepted | src/services/watzapService.js:394-399 | the extension test lower-cases the path first, so "/A.PNG" is accepted |
| Watzap.EffectiveKey | src/services/watzapService.js:65 | the argument key when it is non-empty, else the configured default |
| Watzap.SendMessage | src/services/watzapService.js:62-110 | no request is posted exactly when the API key or the effective number key is empty or the phone is invalid; otherwise the posted request carries both keys, the formatted phone and the message; success iff the gateway delivered |
| Watzap.SendImage | src/services/watzapService.js:122-202 | the same guards plus an empty or unacceptable image URL; the posted request carries the URL, the caption and `separate_caption` as text; success iff delivered with body status "200" or 200, else the gateway message or "Gagal mengirim gambar" |
| Watzap.CheckDeviceStatus | src/services/watzapService.js:26-54 | success and connected agree; not connected comes with the not-configured text |
| Watzap.ConnectedIffSendPosts | src/services/watzapService.js:26-45 | for a valid phone, "connected" holds exactly when `sendMessage` gets past its guards and posts |
| Watzap.DeliveryOf | src/services/watzapService.js:298-312 | one detail per send: the phone, success, and "Terkirim" or the send's error |
| Watzap.RunSends | src/services/watzapService.js:282-340 | one delivery per phone in order, success plus failed equals total, a progress report after each send when a callback is given, and a pause only between consecutive sends |
| Watzap.SendBroadcast | src/services/watzapService.js:282-340 | every phone is sent the message with the default number key, in order; each detail is that send's outcome, the counts are those of the details, and each step carries, when a callback is given, the progress report after its own send (position, phone, successes and failures so far), with a pause after every send but the last |
| Watzap.SendImageBroadcast | src/services/watzapService.js:211-274 | an unacceptable image URL throws before any send; otherwise one image send per phone, each detail that send's outcome, each step carrying, when a callback is given, the progress report after its own send, with a pause after every send but the last |
| Broadcasts.Personalize | src/services/broadcastService.js:320-329 | text holding none of the three placeholders in any letter case is sent as written |
| Broadcasts.PersonalizeWithoutBraces | src/services/broadcastService.js:320-329 | text without '{' comes back unchanged for every customer |
| Broadcasts.PersonalizeIgnoresCase | src/services/broadcastService.js:324 | the `/gi` flag: "{NAMA}" alone becomes the substitution of a brace-free name for it, which is the name itself when it has no '$' |
| Broadcasts.PersonalizeOneName | src/services/broadcastService.js:324-326 | for all plain texts a and b and a brace-free name, `a{nama}b` becomes `a`, then the name with its '$' patterns expanded against a and b, then `b`, and nothing else changes; a name without '$' goes in as written |
| Broadcasts.PersonalizeDropsEmail | src/services/broadcastService.js:180-184 | the recipients are loaded without their email column, so the `{email}` placeholder is replaced by nothing and `a{email}b` is sent as `ab` |
| Broadcasts.PersonalizeLeavesNoPlaceholder | src/services/broadcastService.js:320-329 | when no field has a '$' or can rebuild a placeholder, the result holds none of the three placeholders in any letter case |
| Broadcasts.PersonalizeSinglePass | src/services/broadcastService.js:324 | replacement is a single pass: in `{{nama}ma}` the name "na" rebuilds a `{nama}` that is sent as it stands |
| Broadcasts.DollarPatternsExpanded | src/services/broadcastService.js:324 | the name is a replacement string: a name "$&" puts "{nama}" back into the message, and a name "$$" is sent as "$" |
| Broadcasts.SubstitutionOpensName | src/services/broadcastService.js:324 | a brace-free name, expanded against text whose every '{' is followed by an n, yields such text again |
| Broadcasts.OnlyNameLeft | src/services/broadcastService.js:325-326 | text whose every '{' is followed by an n goes through the `{telepon}` and `{email}` passes unchanged |
| Broadcasts.PlaceholderOpensName | src/services/broadcastService.js:324 | a name placeholder in any letter case has its '{' followed by an n |
| Broadcasts.EligibleIds | src/services/broadcastService.js:136-160 | exactly the listed ids whose customer exists and passes the filter, in order, none invented |
| Broadcasts.PendingDetails | src/services/broadcastService.js:154-159 | one pending detail per id, for the new broadcast, stamped now |
| Broadcasts.ValidateNew | src/services/broadcastService.js:112-120 | input passes exactly when title and text are non-empty and at least one customer is listed |
| Broadcasts.CollectDetails | src/services/broadcastService.js:136-160 | succeeds iff every listed customer exists, giving the pending details of the reachable ones; otherwise fails with the first missing id's message |
| Broadcasts.CreateBroadcast | src/services/broadcastService.js:108-170 | fails iff validation fails or some listed customer is missing, with the store untouched; otherwise adds one draft broadcast under the next id and the pending details of the reachable customers |
| Broadcasts.PendingIndices | src/services/broadcastService.js:174-188 | exactly the ascending positions of the broadcast's pending details |
| Broadcasts.DeliverIgnoresEmail | src/services/broadcastService.js:180-184 | what is sent never depends on the customer's stored email |
| Broadcasts.SenderUsesTenantKey | src/services/broadcastService.js:236-240 | each send goes out with the tenant's number key, the formatted phone and the personalised text |
| Broadcasts.Dispatch | src/services/broadcastService.js:224-304 | one send per pending detail in order; each becomes sent (stamped) or failed according to the send; a detail whose customer is gone ends the run; other rows are untouched |
| Broadcasts.FinalStatusCases | src/services/broadcastService.js:307-308 | completed iff nothing failed, failed iff nothing succeeded, partial iff both happened |
| Broadcasts.SendPrecheck | src/services/broadcastService.js:190-211 | no error exactly when the broadcast and its UMKM exist, the UMKM has a number key and some detail is pending |
| Broadcasts.SendBroadcast | src/services/broadcastService.js:173-317 | a failed check leaves the store unchanged; otherwise only this broadcast and its details change, and no detail that was not pending changes; a completed run settles every pending detail to sent or failed according to the send to its own customer, stamps the sent ones with the clock, counts total, success and failed from those sends and stores the status the counts give; a vanished customer leaves the broadcast 'sending' |
| Broadcasts.SendPending | src/services/broadcastService.js:213-317 | the run after the checks: details that were not pending keep their values, and a completed run reports and settles each pending detail by the send to its own customer, as for `SendBroadcast` |
| Broadcasts.RunReported | src/services/broadcastService.js:244-317 | a dispatch run stored as the service stores it keeps every other row and reports, counts and settles each pending detail by its own send |
| Broadcasts.DeleteBroadcast | src/services/broadcastService.js:332-364 | not found and still-sending are refused; otherwise the broadcast and exactly its details are removed and every other row stays |
| Broadcasts.CountStatusTotal | src/services/broadcastService.js:97-102 | sent, pending and failed details add up to all details |
| Broadcasts.CountStatusMultiset | src/services/broadcastService.js:99-101 | counting details in a status gives how often that status occurs in the status column |
| Broadcasts.SettleCounts | src/services/broadcastService.js:244-277 | marking one pending detail sent or failed moves one recipient from the pending count to that status's count |
| Broadcasts.StatsOf | src/services/broadcastService.js:53-58 | the stats block counts every recipient once, and each status count is how often that status occurs among the details |
| Broadcasts.DetailsOf | src/services/broadcastService.js:95 | exactly the details of the broadcast, each as often as it occurs in the table |
| Broadcasts.SuccessRate | src/services/broadcastService.js:413 | 0 without recipients; otherwise the rate r with r times the recipients equal to 100 times the sent ones, so between 0 and 100 |
| Broadcasts.PendingLowersRate | src/services/broadcastService.js:382-413 | recipients still pending count against the rate, so it stays below 100 |
| Broadcasts.SelectedDetails | src/services/broadcastService.js:382-406 | exactly the details whose broadcast passes the tenant and date filter, each as often as it occurs |
| Broadcasts.GetStatistik | src/services/broadcastService.js:367-415 | the broadcast count is that of the filtered broadcasts, the recipients are the selected details, sent and failed are how often those statuses occur among them, and the rate is `SuccessRate` of sent over recipients |
| Broadcasts.UnfilteredCountsAll | src/services/broadcastService.js:372-378 | without a tenant or a complete date range every broadcast is counted |
| Broadcasts.VisibleBroadcasts | src/services/broadcastService.js:19 | a falsy tenant id shows every broadcast, otherwise exactly the tenant's |
| BroadcastHttp.CreateErrorReply | src/controllers/broadcastController.js:61-74 | 400 with the message exactly when it contains "wajib diisi", "tidak ditemukan" or "Pilih minimal"; otherwise passed to `next` |
| BroadcastHttp.ValidationErrorsAreBadRequests | src/controllers/broadcastController.js:63-72 | every validation error of `createBroadcast` is answered 400 |
| BroadcastHttp.MissingCustomerIsBadRequest | src/controllers/broadcastController.js:63-72 | an unknown customer id in `createBroadcast` is answered 400 |
| BroadcastHttp.SendErrorReply | src/controllers/broadcastController.js:93-105 | as written: 400 exactly for "Broadcast tidak ditemukan" or a message containing the lower-case "tidak ada penerima" |
| BroadcastHttp.NoPendingNotMapped | src/controllers/broadcastController.js:97 | the service's "Tidak ada penerima ..." error misses that test and reaches the generic handler |
| BroadcastHttp.SendErrorReplyFolded | src/controllers/broadcastController.js:93-105 | the same handler with the substring test folded to lower case |
| BroadcastHttp.NoPendingMappedFolded | src/controllers/broadcastController.js:93-105 | with the folded test both client errors of `sendBroadcast` are answered 400 |
| BroadcastHttp.MissingUmkmPassedOn | src/controllers/broadcastController.js:93-105 | a missing UMKM reaches the generic handler |
| BroadcastHttp.DeleteErrorReply | src/controllers/broadcastController.js:118-130 | 400 exactly for "Broadcast tidak ditemukan" or a message containing "sedang diproses" |
| BroadcastHttp.DeleteErrorsAreBadRequests | src/controllers/broadcastController.js:118-130 | both refusals of `deleteBroadcast` are answered 400 |
| BroadcastHttp.GetByIdErrorReply | src/controllers/broadcastController.js:39-48 | 404 exactly for "Broadcast tidak ditemukan" |
| BroadcastHttp.StatistikFilter | src/controllers/broadcastController.js:136-141 | the forwarded filter carries the dates and no tenant |
| BroadcastHttp.StatistikSpansTenants | src/controllers/broadcastController.js:136-141 | selection depends on the date range only, so every tenant's broadcasts are counted |
| BroadcastHttp.ListingSpansTenants | src/controllers/broadcastController.js:8-15 | the listing forwards no tenant id and shows every broadcast |
| Blast.SelectContacts | src/services/WaBlastService.js:20-33 | exactly the tenant's customers, restricted to the selected ids when the selection is non-empty |
| Blast.EmptySelectionTakesAll | src/services/WaBlastService.js:28-33 | with no selection every customer of the tenant is a recipient |
| Blast.BlastPhone | src/services/WaBlastService.js:39-41 | the gateway number is all digits; a trimmed number starting "0" becomes one starting "62", any other is just its digits |
| Blast.Jid | src/services/WaBlastService.js:42 | the address is the number followed by "@s.whatsapp.net" |
| Blast.BlastPhoneMatchesFormatted | src/services/WaBlastService.js:39-41 | for a plain local number starting "0" or "62" the engine's number equals `formatPhoneNumber`'s |
| Blast.BlastPhoneKeepsBareNumber | src/services/WaBlastService.js:39-41 | for a number without its leading "0" the engine sends the digits as they are while `formatPhoneNumber` puts "62" in front |
| Blast.BlastPhoneTrimsNoBreakSpace | src/services/WaBlastService.js:39-41 | `trim` also strips the no-break space U+00A0, so "0812" with one in front is sent as "62812" |
| Blast.MessagePhone | src/services/WaBlastService.js:44-47 | the `{telepon}` value is all digits and no longer than the stored number |
| Blast.MessagePhoneOfBlastPhone | src/services/WaBlastService.js:39-47 | the number shown in the message is the same whether read from the stored or from the gateway form |
| Blast.Personalize | src/services/WaBlastService.js:49-53 | text holding none of the three placeholders, in exactly this case, is sent as written |
| Blast.PersonalizeName | src/services/WaBlastService.js:51 | "{nama}" alone becomes the name with its '$' patterns expanded, when that holds no other placeholder; without '$' it is the name |
| Blast.PersonalizeOneName | src/services/WaBlastService.js:49-53 | for all brace-free texts a, b and name, `a{nama}b` becomes `a`, then the name with its '$' patterns expanded against a and b, then `b`, and nothing else changes; a name without '$' goes in as written |
| Blast.PersonalizeLeavesNoPlaceholder | src/services/WaBlastService.js:49-53 | when no field has a '$' or can rebuild a placeholder, none of the three is left in the message |
| Blast.UpperCasePlaceholderKept | src/services/WaBlastService.js:50-53 | "{NAMA}" is left in the text here, whereas the broadcast service replaces it by the expanded name |
| Blast.DollarPatternsExpanded | src/services/WaBlastService.js:51 | the name is a replacement string: a name "$&" puts "{nama}" back into the message, and a name "$$" is sent as "$" |
| Blast.MediaKindOf | src/services/WaBlastService.js:109-118 | image iff the lower-cased extension is .jpg, .jpeg, .png or .webp; video iff it is .mp4, .mov or .3gp; document otherwise |
| Blast.BuildMediaMessage | src/services/WaBlastService.js:105-132 | the file and its kind; a caption exactly for images and videos; the generic MIME type and the base name exactly for documents |
| Blast.KindOfFileName | src/services/WaBlastService.js:109-118 | the kind depends only on the extension in any letter case; ".gif" goes out as a document |
| Blast.PayloadFor | src/services/WaBlastService.js:61-63 | a text payload exactly when no media is given; media of kind image or video carries the message as caption |
| Blast.SentRow | src/services/WaBlastService.js:67-75 | a sent row carries the media and the send time and no error |
| Blast.FailedRow | src/services/WaBlastService.js:83-90 | a failed row carries the error and neither media nor send time |
| Blast.RowOfFields | src/services/WaBlastService.js:58-94 | the row names the recipient and message; 'sent' iff one of the two attempts went through, otherwise 'failed' with the second attempt's error |
| Blast.AttemptsOf | src/services/WaBlastService.js:58 | one or two attempts, one exactly when the first succeeds |
| Blast.FailuresOf | src/services/WaBlastService.js:79-93 | every attempt failed exactly when neither went through |
| Blast.RetryPauses | src/services/WaBlastService.js:92 | one 1500 ms pause per failed attempt |
| Blast.Retry | src/services/WaBlastService.js:55-94 | the attempt loop writes exactly the one row `RowOf` gives, takes `AttemptsOf` attempts and pauses after each failure |
| Blast.RandomOffsetCoversRange | src/services/WaBlastService.js:97 | `Math.floor(Math.random() * 4000)` reaches every offset below 4000 |
| Blast.Jitter | src/services/WaBlastService.js:97-98 | the pause after a recipient lies between the delay and the delay plus 3999 ms |
| Blast.FirstNullPhone | src/services/WaBlastService.js:39 | the first recipient whose phone is NULL, where `.trim()` throws |
| Blast.SendBlastToAll | src/services/WaBlastService.js:8-100 | an empty selection throws before any send; otherwise one row and one visit per recipient in order up to the first NULL phone, which throws; every row carries the call's tenant and broadcast id |
| Blast.VisitAll | src/services/WaBlastService.js:38-99 | the recipient loop: rows and visits for every recipient before the first NULL phone, and the error exactly when one is met |
| Blast.RowsUpToKeys | src/services/WaBlastService.js:67-90 | every accumulated row carries the call's tenant and broadcast id |
| Blast.RowAtKeys | src/services/WaBlastService.js:67-90 | each row carries the call's tenant and broadcast id |
| Blast.VisitOne | src/services/WaBlastService.js:38-99 | one pass of the loop adds exactly that recipient's row and visit |
| Blast.FirstNullPhoneAt | src/services/WaBlastService.js:38-39 | the first index without a phone is `FirstNullPhone` |
| Blast.OneRowPerRecipient | src/services/WaBlastService.js:38-99 | when every customer has a phone, each gets exactly one row |
| Blast.GifNotListed | src/services/WaBlastService.js:112-117 | ".gif" is neither an image nor a video extension, so a GIF is sent as a document |
| BlastHttp.IntegerIds | src/controllers/WaBlastController.js:21-25 | exactly the entries whose `Number()` conversion is an integer, as those integers, in order |
| BlastHttp.SelectedIds | src/controllers/WaBlastController.js:19-25 | no selection without a `customer_ids` array, else the integer entries |
| BlastHttp.NoValidIdsSelectsEveryone | src/controllers/WaBlastController.js:21-28 | when no entry converts to an integer the filtered list is empty and the blast goes to every customer of the tenant |
| BlastHttp.NoIntegerEntries | src/controllers/WaBlastController.js:22-24 | entries none of which convert to an integer leave nothing |
| BlastHttp.TextIdSelects | src/controllers/WaBlastController.js:22-24 | an id sent as decimal text selects that customer |
| BlastHttp.FractionIdSelects | src/controllers/WaBlastController.js:22-24 | "7.0" selects 7 and "7.5" selects nobody: a fraction counts only when its digits are all zero |
| BlastHttp.WrappedIdSelects | src/controllers/WaBlastController.js:22-24 | a one-entry array such as `[7]` or `["7"]` selects as its entry does |
| BlastHttp.TextWithCommaDropped | src/controllers/WaBlastController.js:22-24 | text holding a comma, such as "1,2", selects nobody |
| BlastHttp.BlastMessage | src/controllers/WaBlastController.js:12-37 | a missing message is answered 500 before a socket is taken; otherwise the tenant's socket is fetched and the blast runs with the 4000 ms base delay over the tenant's contacts; no contacts is answered with that error; otherwise the log rows and visits are those of the blast's own rows for each contact up to the first one without a phone, and the answer is 200 exactly when every contact got its row |
| BlastHttp.CountIdStatus | src/controllers/WaBlastController.js:70-72 | a broadcast's rows of one status never outnumber its rows |
| BlastHttp.FirstIndexAt | src/controllers/WaBlastController.js:54-66 | a row with no earlier row of its broadcast is the one that opens its summary |
| BlastHttp.Opened | src/controllers/WaBlastController.js:55-65 | a new summary starts at zero for the row's broadcast |
| BlastHttp.Count | src/controllers/WaBlastController.js:68-72 | counting a row adds one to the total and leaves the header alone |
| BlastHttp.GroupIndex | src/controllers/WaBlastController.js:54 | the position of the broadcast's summary, or -1 exactly when there is none |
| BlastHttp.CountedStep | src/controllers/WaBlastController.js:68-72 | counting one more row keeps every summary's counts equal to its broadcast's rows |
| BlastHttp.AddRowIds | src/controllers/WaBlastController.js:51-73 | a row of a known broadcast keeps the ids; a new one appends its id |
| BlastHttp.IdsStep | src/controllers/WaBlastController.js:51-73 | the ids stay unique, cover every row seen and follow first appearance after one more row |
| BlastHttp.IdsStepNew | src/controllers/WaBlastController.js:54-66 | a row of an unseen broadcast is that broadcast's first row, and appending its id keeps the ids in order |
| BlastHttp.HeadersStep | src/controllers/WaBlastController.js:54-66 | every summary's header stays the one its broadcast's first row opened |
| BlastHttp.CountsStep | src/controllers/WaBlastController.js:68-72 | adding a row keeps every summary's counts right |
| BlastHttp.GroupedStep | src/controllers/WaBlastController.js:51-73 | one pass of the loop keeps ids, counts and headers right |
| BlastHttp.GroupLogs | src/controllers/WaBlastController.js:44-73 | one summary per broadcast id in order of first appearance, its header from its first (newest) row and its counts those of its rows |
| BlastHttp.CountsOfAbsent | src/controllers/WaBlastController.js:68-72 | a broadcast with no rows has zero counts |
| BlastHttp.StatusOf | src/controllers/WaBlastController.js:75-80 | the five statuses as the ordered rule: all failed, else all sent, else some of each, else something pending, else "done" |
| BlastHttp.StatusCountsAddUp | src/controllers/WaBlastController.js:68-72 | sent, pending and failed rows add up to the broadcast's rows |
| BlastHttp.DoneUnreachable | src/controllers/WaBlastController.js:64-80 | when the counts add up, "done" is never the status |
| BlastHttp.NoSummaryIsDone | src/controllers/WaBlastController.js:64-80 | no summary the handler builds reports "done" |
| BlastHttp.SuccessRate | src/controllers/WaBlastController.js:231-232 | at most 100, 0 without sent or failed rows, otherwise the whole percentage nearest to sent over sent plus failed, halves up |
| BlastHttp.SuccessRateExtremes | src/controllers/WaBlastController.js:231-232 | all sent gives 100 and none sent gives 0 |
| BlastHttp.RowsOf | src/controllers/WaBlastController.js:209-229 | exactly the tenant's rows |
| BlastHttp.GetBlastStatistics | src/controllers/WaBlastController.js:204-244 | distinct broadcast ids and distinct phones of the tenant's rows, sent and failed as how often those statuses occur among its rows, and the rate `SuccessRate` of the two |
| BlastHttp.SentPlusFailed | src/controllers/WaBlastController.js:223-229 | sent and failed rows never outnumber the rows |
| BlastHttp.CountStatusMultiset | src/controllers/WaBlastController.js:223-229 | counting rows in a status gives how often that status occurs in the status column |
| BlastHttp.GetBlastStatus | src/controllers/WaBlastController.js:106-125 | "connected" iff the tenant has a socket entry with a user |
| BlastHttp.Step | src/controllers/WaBlastController.js:141-170 | once responded nothing more is sent; each signal adds at most one reply, and `responded` records that a reply went out |
| BlastHttp.RespondsAtMostOnce | src/controllers/WaBlastController.js:141-170 | whatever signals arrive, the handler answers at most once |
| BlastHttp.ForeignQrSwallowsOwn | src/controllers/WaBlastController.js:153-159 | as written, another tenant's QR event detaches the `once` listener, so this tenant's own QR is never answered and the timeout replies 408 |
| BlastHttp.StepFiltered | src/controllers/WaBlastController.js:141-170 | the handshake with listeners that only detach on their own tenant's event keeps the respond-once guarantees |
| BlastHttp.OwnQrAnswered | src/controllers/WaBlastController.js:153-159 | with tenant-filtered listeners, the tenant's first own QR is answered whatever foreign events came before |
| BlastHttp.WaitingSkips | src/controllers/WaBlastController.js:153-170 | foreign events change nothing for a filtered listener |
| BlastHttp.RepliedStays | src/controllers/WaBlastController.js:141-170 | after a reply no later signal adds another |
| BlastHttp.ConnectBlast | src/controllers/WaBlastController.js:128-176 | an entry with a user answers "already connected" and changes nothing; otherwise a new socket is created and at most one reply follows |
| BlastHttp.DisconnectBlast | src/controllers/WaBlastController.js:179-201 | no entry gives 400 and no change; a throwing logout gives 500 with its message and keeps the entry; otherwise 200, the socket is logged out and its entry removed; other tenants are untouched |
| BlastHttp.LogsDetails | src/controllers/WaBlastController.js:93-103 | the details of a broadcast are exactly the tenant's log rows of that broadcast, in log order |
| BlastHttp.DetailsMatchSummary | src/controllers/WaBlastController.js:97-100 | over one tenant's logs, the details of a broadcast are as many as the summary counts for it |
| BlastHttp.ForeignBroadcastHidden | src/controllers/WaBlastController.js:98 | asking for another tenant's broadcast yields no rows at all |
| BlastPool.OnePendingTimer | src/middleware/WaBlastConnection.js:80-91 | in a consistent table no tenant ever has two idle timers pending: arming a timer cancels the one `socketTimers` held |
| BlastPool.EmptyWf | src/middleware/WaBlastConnection.js:7-8 | the empty `sockets` and `socketTimers` maps form a consistent table |
| BlastPool.CreateSocket | src/middleware/WaBlastConnection.js:13-24 | a new socket belongs to the tenant, its session directory exists afterwards, and the socket map, timers and every other tenant are untouched |
| BlastPool.ScheduleCleanup | src/middleware/WaBlastConnection.js:80-91 | a fresh timer due one hour later becomes the tenant's entry, every earlier timer of that tenant is cancelled, sockets and sessions stay, and consistency and other tenants are preserved |
| BlastPool.ClearCurrent | src/middleware/WaBlastConnection.js:81 | `clearTimeout` cancels exactly the timer the tenant's entry names and changes no other timer |
| BlastPool.ArmKeepsWf | src/middleware/WaBlastConnection.js:81-82 | cancelling the tenant's timer and then arming a pending one keeps the table consistent and touches no other tenant |
| BlastPool.GetSocketInstance | src/middleware/WaBlastConnection.js:70-77 | an existing socket is returned and its idle timer re-armed; otherwise a new socket is created and stored without arming a timer; either way the tenant ends with that socket stored |
| BlastPool.OnQr | src/middleware/WaBlastConnection.js:30-34 | a non-empty QR is emitted once for the tenant; an absent or empty one changes nothing; nothing but the event list ever changes |
| BlastPool.OnOpen | src/middleware/WaBlastConnection.js:36-41 | an open stores the socket under its tenant, emits `connected` and arms the idle timer, keeping consistency and other tenants |
| BlastPool.OnClose | src/middleware/WaBlastConnection.js:43-63 | a close always drops the tenant's socket and emits `disconnected`; a logout (401) or 440 deletes the session and schedules nothing, any other reason keeps the session and schedules exactly one reconnect 5000 ms later |
| BlastPool.ConnectionUpdate | src/middleware/WaBlastConnection.js:27-64 | after any update the tenant is stored exactly when the update opened it and absent after a close; with neither, only the QR is handled; consistency and other tenants are kept |
| BlastPool.OthersUnchangedTrans | src/middleware/WaBlastConnection.js:7-8 | steps that each leave other tenants' entries alone compose into one that does |
| BlastPool.FireIdleTimer | src/middleware/WaBlastConnection.js:82-90 | a firing idle timer ends and removes the tenant's socket if one is stored, marks itself done, and leaves other tenants alone |
| BlastPool.FireReconnect | src/middleware/WaBlastConnection.js:61 | a due reconnect creates a new socket for its tenant without storing it, and is consumed |
| Auth.BearerToken | src/middleware/authHandler.js:6-16 | a token exists exactly when the header is present and starts with "Bearer ", and it is the whole header with that prefix removed |
| Auth.AuthGuard | src/middleware/authHandler.js:5-37 | every refusal is a 401; NO_TOKEN exactly when there is no Bearer token; the request goes on exactly when the token verifies, carrying the token's userId, umkmId and role and nothing else changed; TOKEN_EXPIRED and INVALID_TOKEN exactly for an expired and any other failed token |
| Auth.OnlyTokenVerified | src/middleware/authHandler.js:16-18 | two verifiers that agree on the text after "Bearer " make the guard answer alike |
| Auth.LowerCaseSchemeRefused | src/middleware/authHandler.js:8-13 | "bearer " in lower case is refused with NO_TOKEN before any verification |
| Auth.AdminGate | src/middleware/adminAuth.js:1-7 | a request passes unchanged exactly when its `userRole` is "admin"; every other request is answered 403 |
| Auth.AdminRouteRefusesAll | src/routes/adminRoutes.js:9 | behind `auth` a request without `userRole` is always refused: 401 when `auth` refuses it, 403 when `auth` lets it through |
| Auth.AdminTokenRefused | src/routes/adminRoutes.js:9 | a valid token whose role claim is "admin" still gets 403 from the admin router |
| Auth.AdminGateByRole | src/middleware/adminAuth.js:2-6 | the corrected gate passes a request unchanged exactly when its `role` is "admin", else 403 |
| Auth.AdminRouteByRoleAdmitsAdmins | src/routes/adminRoutes.js:9 | with the corrected gate the admin router admits exactly the verified tokens whose role claim is "admin", passing on what `auth` produced, and refuses other verified tokens with 403 |
| NumberKeys.GetNumberKey | src/controllers/watzapController.js:9-39 | 404 exactly for a missing UMKM; otherwise the key is reported, as `null` when unset or empty, and `is_configured` holds exactly when a non-empty key is stored |
| NumberKeys.SetNumberKey | src/controllers/watzapController.js:44-88 | 400 exactly for a missing or blank key, checked before the lookup; otherwise 404 exactly for a missing UMKM; on success the trimmed non-empty key is stored and echoed and every other UMKM keeps its key; nothing is written on a refusal |
| NumberKeys.ClearNumberKey | src/controllers/watzapController.js:93-122 | 404 exactly for a missing UMKM; otherwise the key becomes NULL and every other UMKM keeps its key |
| NumberKeys.CheckDeviceStatus | src/controllers/watzapController.js:127-160 | 404 exactly for a missing UMKM; `is_configured` reflects the UMKM's own key while the device counts as connected when an API key is set and either that key or the default key is |
| NumberKeys.MissingUmkmNotFound | src/controllers/watzapController.js:17-22 | every handler answers 404 for a missing UMKM, except that a blank key is refused with 400 first |
| NumberKeys.BlankKeyIgnoresTable | src/controllers/watzapController.js:50-55 | a blank key is refused alike whatever UMKM and table are involved |
| NumberKeys.GetAfterSet | src/controllers/watzapController.js:67-69 | after a successful set, reading gives back the trimmed key, configured |
| NumberKeys.GetAfterClear | src/controllers/watzapController.js:105-107 | after a clear, reading gives `null`, not configured |
| NumberKeys.SetIdempotent | src/controllers/watzapController.js:67-69 | setting again the key just stored answers the same and changes nothing |
| NumberKeys.ApplyAllKeepsKeysNormal | src/controllers/watzapController.js:44-122 | through any run of sets and clears the UMKMs stay the same and every key stays NULL or trimmed non-empty text |
| NumberKeys.UnconfiguredYetConnected | src/controllers/watzapController.js:143-150 | with a default number key configured, a UMKM without its own key reports not configured yet connected |
| NumberKeys.ConnectedMeansConfigured | src/controllers/watzapController.js:143-150 | without a default number key and with an API key, connected and configured agree |
| Invoices.InvoiceNumberSplits | src/controllers/invoiceController.js:19-38 | an invoice number splits on '-' into exactly "INV", the tenant id, the YYYYMMDD date, the HHMMSS time and the sequence padded to four digits |
| Invoices.InvoiceNumberReadsBack | src/controllers/invoiceController.js:35-37 | the fields read back as the tenant id and one more than the global invoice count; the sequence has four digits exactly while that is below 10000 and is never cut |
| Invoices.SequenceWidth | src/controllers/invoiceController.js:36 | `padStart(4, '0')` gives exactly four digits iff the number is below 10000 |
| Invoices.InvoiceNumberInjective | src/controllers/invoiceController.js:19-38 | two equal invoice numbers come from the same tenant, date, time and invoice count |
| Invoices.CreateInvoice | src/controllers/invoiceController.js:41-103 | 400 exactly when the transaction already has an invoice; else 404 for a missing transaction or for a given UMKM id that does not exist, with the matching message; an UMKM id that does not parse to a number reaches the query, which fails, and answers 500; only a 201 writes, appending one invoice whose `path_file` is the returned download URL built from the numbered PDF name; a failed PDF or a taken number gives 500 and writes nothing |
| Invoices.CreateInvoiceOnce | src/controllers/invoiceController.js:48-52 | creation keeps at most one invoice per transaction, the stored path equals the download URL, and a second request for the same transaction is answered 400 |
| Invoices.OtherTenantsTransactionInvoiced | src/controllers/invoiceController.js:55-73 | the caller's tenant is never compared with the transaction's, so another tenant's sale, with a customer and products, is invoiced with 201 |
| Uploads.FileFilter | src/middleware/uploadBroadcastImage.js:38-56 | a file is either accepted or refused with the one format message; never a false acceptance |
| Uploads.FilterByParts | src/middleware/uploadBroadcastImage.js:40-51 | a name with an allowed extension, in any letter case, is accepted exactly when its declared type is allowed |
| Uploads.AcceptedHasImageSuffix | src/middleware/uploadBroadcastImage.js:40-51 | an accepted file has an allowed type and a base name ending in an allowed extension, lower-cased |
| Uploads.DotlessNameRefused | src/middleware/uploadBroadcastImage.js:41 | a name without a dot has no extension and is refused whatever its type |
| Uploads.MismatchedTypeAccepted | src/middleware/uploadBroadcastImage.js:51 | extension and type are not compared with each other: a ".png" name declared "image/gif" is accepted |
| Uploads.StoredFilename | src/middleware/uploadBroadcastImage.js:28-34 | every stored name starts with "broadcast_" |
| Uploads.StoredPrefixShape | src/middleware/uploadBroadcastImage.js:32 | the fixed prefix has no '/' or '.' and starts with 'b' |
| Uploads.StoredStemShape | src/middleware/uploadBroadcastImage.js:32 | the timestamp-and-random stem has no '/' or '.' and does not start with a dot |
| Uploads.StoredNameShape | src/middleware/uploadBroadcastImage.js:28-34 | a stored name has no directory part, is not a dot name, and keeps the original name's extension |
| Uploads.ExtensionShape | src/middleware/uploadBroadcastImage.js:30 | the extension taken from any name is empty or a dot followed by no other dot or '/' |
| Uploads.StemThenExtension | src/middleware/uploadBroadcastImage.js:30-32 | a dotless stem followed by an extension has exactly that extension |
| Uploads.StoredNameKeepsFilterDecision | src/middleware/uploadBroadcastImage.js:28-56 | the filter decides alike on the stored name as on the original name |
| Uploads.Receive | src/middleware/uploadBroadcastImage.js:59-65 | a file is stored exactly when it passes the filter and is at most 5 MiB, under its generated name; otherwise the filter's message or the size error |
| Uploads.SizeLimitBoundary | src/middleware/uploadBroadcastImage.js:62-64 | 5242880 bytes are accepted and one byte more is refused |
| Uploads.GenerateImageUrl | src/middleware/uploadBroadcastImage.js:72-77 | no file gives `null`, and only then |
| Uploads.UrlNamesStoredFile | src/middleware/uploadBroadcastImage.js:72-77 | the URL of a stored file ends in its name, and that URL leads `getImagePath` back to the same file |
| Uploads.ImagePath | src/middleware/uploadBroadcastImage.js:104-106 | the path lies directly inside the upload directory exactly when the base name is not "", "." or "..", and then names a plain entry |
| Uploads.DirectoryPartDropped | src/middleware/uploadBroadcastImage.js:105 | any directory part, `..` segments included, is dropped before the join |
| Uploads.PlainNameInside | src/middleware/uploadBroadcastImage.js:105 | a plain name that is not a dot name names itself inside the directory |
| Uploads.DotDotLeavesUploadDir | src/middleware/uploadBroadcastImage.js:104-106 | `getImagePath("..")` resolves to the directory above the upload directory |
| Uploads.ConfinedImagePath | src/middleware/uploadBroadcastImage.js:104-106 | the corrected lookup gives a plain entry inside the directory, the base name, exactly when the original stays inside, and nothing otherwise |
| Uploads.ConfinedPathInside | src/middleware/uploadBroadcastImage.js:104-106 | the corrected lookup agrees with `getImagePath` wherever that stays inside, and refuses exactly the rest |
| Uploads.DeleteImageFile | src/middleware/uploadBroadcastImage.js:83-98 | true exactly for a non-empty name whose base name is an existing regular file directly inside the directory, which alone is removed; otherwise nothing changes |
| Uploads.DeleteRemovesAtMostOne | src/middleware/uploadBroadcastImage.js:83-98 | a delete removes at most one file and answers true exactly when it removed one |
| Uploads.DeleteStoredImage | src/middleware/uploadBroadcastImage.js:83-98 | deleting a stored image by its name removes it, and deleting it again answers false |
| Numbers.Negate | src/controllers/WaBlastController.js:23 | a minus sign keeps NaN, negates a finite value and flips the sign of an infinity |
| Numbers.StringToNumber | src/controllers/WaBlastController.js:23 | blank text reads as 0, and trimmed text starting with a decimal digit and no radix prefix reads as an unsigned decimal literal |
| Numbers.TrimmedAlike | src/controllers/WaBlastController.js:23 | white space around the text never changes what `Number()` gives |
| Numbers.InfinityRead | src/controllers/WaBlastController.js:23 | text is read as an infinity exactly when it trims to "Infinity", "+Infinity" or "-Infinity", negative exactly for the minus |
| Numbers.ToNumber | src/controllers/WaBlastController.js:23 | a number is itself, true and false are 1 and 0, null and the empty array are 0, an object and an array of two or more entries are NaN, and a one-entry array holding a boolean is NaN |
| Numbers.SingletonArray | src/controllers/WaBlastController.js:23 | any other one-entry array converts as its entry does |
| Numbers.DigitsRead | src/controllers/WaBlastController.js:23-24 | a run of decimal digits reads as its decimal value |
| Numbers.NatToStringRead | src/controllers/WaBlastController.js:23-24 | the decimal writing of any natural number reads back as that number |
| Numbers.NegativeRead | src/controllers/WaBlastController.js:23-24 | a minus followed by digits reads as the negated value |
| Numbers.FractionRead | src/controllers/WaBlastController.js:23-24 | "a.b" reads as the digits of `a` and `b` together divided by 10 to the width of `b` |
| Numbers.FractionInteger | src/controllers/WaBlastController.js:23-24 | "a.b" is an integer exactly when the digits of `b` are all zero, and its integer part is `a` |
| Numbers.ExponentRead | src/controllers/WaBlastController.js:23-24 | "aEe" with decimal digits reads as `a` times 10 to the power `e` |
| Numbers.PrefixedRead | src/controllers/WaBlastController.js:23-24 | "0x", "0o" or "0b" followed by digits of that radix reads as the value in that radix |
| Numbers.CommaIsNaN | src/controllers/WaBlastController.js:23-24 | text containing a comma anywhere is NaN |
| Products.JenisPart | src/services/produkService.js:14 | the type part is at least two digits and stands for the type's `kode_jenis`, 0 when the type or its code is missing |
| Products.KodeProduk | src/services/produkService.js:9-21 | every code is "PROD" followed by at least six digits |
| Products.DecodeKode | src/services/produkService.js:19-20 | only a ten-character code reads back into three numbers |
| Products.KodeRoundTrip | src/services/produkService.js:14-20 | with tenant, type code and product id each below 100, the code reads back into exactly those three numbers |
| Products.KodeInjective | src/services/produkService.js:14-20 | below 100 each, two products with the same code have the same tenant, type code and id |
| Products.KodeGrowsPastTen | src/services/produkService.js:16-17 | `padStart` never cuts: a tenant or product id of 100 or more makes the code longer than ten characters |
| Products.KodeCollision | src/services/produkService.js:14-20 | beyond two digits the parts run together: tenant 1 with a type-10 product 101 and a type-101 product 1 get the same code |
| Products.ValidateNew | src/services/produkService.js:79-91 | a new product passes exactly when it has a name, a positive price, a tenant and a type, and the first missing one in that order names the error |
| Products.CreateProduk | src/services/produkService.js:75-123 | a validation failure is reported as such; otherwise the product is created at the next id exactly when its generated code is not already taken, with stock as given, `aktif` true unless false is given, and that code; a taken code fails with the unique index's "Validation error"; no other row changes |
| Products.CreateSmallProductSucceeds | src/services/produkService.js:98-113 | when every existing code came from the generator with small parts, a small new product never collides and its code decodes to its tenant, type and id |
| Products.UpdateProduk | src/services/produkService.js:126-142 | a missing id is an error; otherwise only name, price, stock and flag of that row change, an empty name keeping the old one and an absent field keeping its value |
| Products.UpdateProdukIdempotent | src/services/produkService.js:134-139 | applying the same update twice equals applying it once, and an empty update changes nothing |
| Products.GetProduk | src/services/produkService.js:66-72 | the row exactly when the id exists, else the not-found error |
| Products.DeleteProduk | src/services/produkService.js:145-153 | a missing id is an error; otherwise exactly that row is removed and all others stay |
| Products.ListProduk | src/services/produkService.js:24-34 | the listed ids are exactly the rows of the tenant that match the `aktif` text and contain the search text |
| Products.ListProdukTenant | src/services/produkService.js:28-30 | every listed product belongs to the tenant, and any `aktif` text other than "true" lists inactive products only |
| Transactions.LatestWithPrefix | src/services/transaksiService.js:21-28 | the lookup finds the transaction with the largest id whose number starts with the day's prefix, of any tenant, or reports that there is none |
| Transactions.SequenceText | src/services/transaksiService.js:36 | a sequence is written as at least four decimal digits that read back to it, and never contains a '-' |
| Transactions.GenerateNomor | src/services/transaksiService.js:11-37 | every generated number starts with "TRX-" and the date as YYYYMMDD |
| Transactions.GenerateNomorShape | src/services/transaksiService.js:18-36 | the number is "TRX", the date and the padded sequence joined by '-' |
| Transactions.GenerateNomorSplits | src/services/transaksiService.js:32-36 | splitting a generated number on '-' gives back exactly its three fields |
| Transactions.SequenceAdvances | src/services/transaksiService.js:30-36 | the sequence read back from a generated number is one more than the one it was generated from |
| Transactions.FirstOfDay | src/services/transaksiService.js:30-36 | with no number for the day yet, the number ends in "-0001" |
| Transactions.CheckItems | src/services/transaksiService.js:171-203 | a successful item loop keeps the set of products and yields one detail per item |
| Transactions.CheckItemsOkIff | src/services/transaksiService.js:172-184 | the loop succeeds exactly when every item's product exists, is active, and has enough stock after the earlier items' deductions |
| Transactions.CheckItemsStock | src/services/transaksiService.js:199-202 | each product's stock drops by exactly the total quantity the items take from it, and nothing else about the product changes |
| Transactions.CheckItemsDetails | src/services/transaksiService.js:182-200 | each detail carries its item's product and quantity, the item's price or else the product's, subtotal price times quantity, and the total is the sum of the subtotals |
| Transactions.CreateTransaksi | src/services/transaksiService.js:147-232 | empty items and then a missing tenant are refused before any write; otherwise the call succeeds exactly when every item passes, writing one transaction with the next number, the request's fields and the summed total, plus its details after the existing ones, and nothing else |
| Transactions.CreateTransaksiWrites | src/services/transaksiService.js:161-224 | a successful create is exactly the item loop's stock, the new transaction row and its details, all applied together |
| Transactions.DetailsOf | src/services/transaksiService.js:259 | the details fetched with a transaction all belong to it |
| Transactions.DetailsNotOf | src/services/transaksiService.js:279-282 | the details left after the delete belong to other transactions |
| Transactions.InvoicesNotOf | src/services/transaksiService.js:285-288 | the invoices left after the delete belong to other transactions |
| Transactions.Restock | src/services/transaksiService.js:268-276 | putting stock back never adds or removes a product |
| Transactions.RestockAdds | src/services/transaksiService.js:268-276 | every existing product gets back exactly the summed quantity of the deleted details that name it; details of missing products are skipped |
| Transactions.DeleteTransaksi | src/services/transaksiService.js:254-300 | a missing id throws "Transaksi tidak ditemukan"; otherwise the transaction, its details and its invoices go, its quantities return to stock, and nothing else changes |
| Transactions.DetailQtyOfItems | src/services/transaksiService.js:189-194 | the details of a checked request take from each product exactly what the items asked for |
| Transactions.RestockUndoesCheck | src/services/transaksiService.js:199-202 | putting back the quantities of the checked details gives the stock as it was before the item loop |
| Transactions.DeleteUndoes | src/services/transaksiService.js:267-291 | deleting a just-appended transaction, with only its own details after the old ones, restores the old store except for the id counter |
| Transactions.CreateThenDelete | src/services/transaksiService.js:199-202 | creating a transaction and then deleting it restores products, stock, transactions, details and invoices; only the id counter has moved on |
| Transactions.UpdateTransaksi | src/services/transaksiService.js:235-251 | a missing id throws; otherwise only that transaction changes, and only in its payment method, note and customer, where a falsy method or customer keeps the old one and an absent note keeps the old note |
| Transactions.UpdateTransaksiIdempotent | src/services/transaksiService.js:244-248 | applying the same update twice equals applying it once, and an update with only falsy or absent fields changes nothing |
| Customers.CreatePelanggan | src/services/pelangganService.js:58-85 | a missing name is refused first, then a non-empty e-mail already on any customer of any tenant; otherwise exactly one row is added, under the next id, holding the request's fields, and no other row changes |
| Customers.CreateKeepsEmailsUnique | src/services/pelangganService.js:66-72 | a successful create never gives two customers the same non-empty e-mail |
| Customers.UpdatePelanggan | src/services/pelangganService.js:88-117 | a missing id throws "Pelanggan tidak ditemukan" and a non-empty changed e-mail already in use throws; otherwise only that row changes, falsy name, gender and tenant keep the old value, absent phone, e-mail, level and address keep theirs, and the update time is set |
| Customers.UpdateKeepsEmailsUnique | src/services/pelangganService.js:97-103 | a successful update never gives two customers the same non-empty e-mail |
| Customers.UpdatePelangganIdempotent | src/services/pelangganService.js:105-114 | sending the same update again at the same time changes nothing further |
| Customers.GetPelanggan | src/services/pelangganService.js:45-55 | a lookup finds exactly the stored row, or fails when the id is missing |
| Customers.DeletePelanggan | src/services/pelangganService.js:120-129 | a missing id throws "Pelanggan tidak ditemukan"; otherwise exactly that row is removed and every other row is kept unchanged |
| Customers.ApplyAllKeepsEmailsUnique | src/services/pelangganService.js:66-103 | starting from unique non-empty e-mails, any sequence of creates, updates and deletes served one at a time keeps them unique |
| Categories.CreateKategori | src/services/kategoriService.js:15-35 | a missing name is refused first, then a name any category already has; otherwise one category is added under the next id, with the product types untouched |
| Categories.CreateKeepsNamesUnique | src/services/kategoriService.js:22-23 | a successful create keeps category names unique |
| Categories.UpdateKategori | src/services/kategoriService.js:38-52 | a missing id throws, then a truthy changed name already in use, then a name the unique column refuses; otherwise only that category changes, taking every supplied field |
| Categories.UpdateKeepsNamesUnique | src/services/kategoriService.js:43-50 | a successful update keeps category names unique |
| Categories.EmptyRenameStoppedByIndex | src/services/kategoriService.js:43 | an update to the empty name skips the service's lookup, and only the unique column refuses it when another category already has that name |
| Categories.DeleteKategori | src/services/kategoriService.js:54-64 | the category's product types are always destroyed, then the category; a missing category throws "Kategori tidak ditemukan" |
| Categories.FailedDeleteStillDropsTypes | src/services/kategoriService.js:56-62 | deleting a missing category still removes the product types that point at that id, so the failed call changes the store |
| Categories.DeleteLeavesNoOrphans | src/services/kategoriService.js:56-60 | when every product type points at an existing category before a delete, that stays true after it |
| ProductTypes.CreateJenis | src/services/jenisProdukService.js:17-31 | creation fails exactly when the pair of name and category is already taken, and otherwise adds the type under the next id |
| ProductTypes.CreateKeepsPairsUnique | src/services/jenisProdukService.js:18-27 | a successful create keeps the pairs of name and category unique |
| ProductTypes.SameNameOtherCategory | src/services/jenisProdukService.js:19-26 | an existing type's name can be created again in a category where no type exists yet |
| ProductTypes.UpdateJenis | src/services/jenisProdukService.js:33-52 | a missing id throws "Jenis produk tidak ditemukan"; a truthy changed name already used in the type's CURRENT category throws; otherwise only that row changes, taking every supplied field |
| ProductTypes.NameOnlyUpdateKeepsPairsUnique | src/services/jenisProdukService.js:38-48 | an update that renames to a non-empty name without moving the type keeps the pairs unique |
| ProductTypes.MoveCreatesDuplicate | src/services/jenisProdukService.js:43 | renaming a type while moving it into a category that already has that name is accepted and leaves two identical pairs |
| ProductTypes.UpdateJenisChecked | src/services/jenisProdukService.js:33-52 | the update with the lookup in the category the type ends up in fails exactly when the resulting pair is taken by another row |
| ProductTypes.CheckedUpdateKeepsPairsUnique | src/services/jenisProdukService.js:38-48 | every successful checked update keeps the pairs unique |
| ProductTypes.CheckedAgreesOnRenames | src/services/jenisProdukService.js:38-50 | for updates that do not move the type and do not blank the name, the checked update answers exactly as the original |
| ProductTypes.DeleteJenis | src/services/jenisProdukService.js:54-61 | a missing id throws "Jenis produk tidak ditemukan"; otherwise exactly that row is removed |
| ProductTypes.DropCategory | src/services/kategoriService.js:56 | destroying by category removes exactly the types of that category and keeps every other row unchanged |
| Admin.VerifyUmkm | src/services/adminService.js:27-45 | a missing UMKM throws "UMKM tidak ditemukan." and an active one "UMKM ini sudah aktif."; otherwise exactly that UMKM becomes active, verified by the admin at the given time |
| Admin.SuspendUmkm | src/services/adminService.js:48-65 | a missing UMKM throws and a suspended one throws "UMKM ini sudah ditangguhkan."; otherwise exactly that UMKM becomes suspended and keeps its verifier |
| Admin.NeverBackToPending | src/services/adminService.js:38-42 | no sequence of verify and suspend actions removes a UMKM or sends one back to pending: a pending UMKM afterwards is the untouched original |
| Admin.SuspendThenVerify | src/services/adminService.js:55-62 | an active UMKM can be suspended and then verified again, which leaves it active under the new verifier and time |
| Admin.ParsePeriod | src/services/adminService.js:89-107 | "day", "week" and "year" select their own grouping, and every other text falls back to months |
| Admin.StatusChangesCount | src/services/adminService.js:116-119 | a verified UMKM is among those the growth series counts and a suspended one is not |
| Admin.Insert | src/services/adminService.js:133 | inserting a row keeps every row, adds the new one, and adds its count to the total |
| Admin.InsertSorted | src/services/adminService.js:133 | inserting into rows in ascending period order keeps them in order |
| Admin.SortByPeriod | src/services/adminService.js:133 | sorting permutes the rows and keeps the total count |
| Admin.SortByPeriodSorted | src/services/adminService.js:133 | the sorted rows are in ascending period order |
| Admin.Running | src/services/adminService.js:135-146 | the running series has one row per period |
| Admin.RunningIsPrefixSum | src/services/adminService.js:132-145 | each row keeps its period and count, and its cumulative figure is the start plus the counts of all periods up to and including its own |
| Admin.RunningMonotone | src/services/adminService.js:139 | the cumulative figure never decreases along the series |
| Admin.RunningEnds | src/services/adminService.js:132-144 | the series starts at the first count and ends at the sum of all counts |
| Admin.GrowthData | src/services/adminService.js:84-149 | the answer is labelled with the key of the requested period and has one row per grouped period; row i carries the i-th period in period order, its count and the sum of the counts up to and including it |
| Admin.GrowthSeries | src/services/adminService.js:131-146 | the series holds exactly the grouped periods with their counts, in ascending period order, with a never-decreasing cumulative figure that starts at the first period's count and ends at the number of UMKM counted |
| Admin.RunningRows | src/services/adminService.js:132-145 | every running row is its period and count with the start plus the counts up to and including its own period |
| Admin.GrowthCounts | src/services/adminService.js:131-146 | the series' periods and counts, as a multiset, are the grouped rows |
| Admin.GrowthOrdered | src/services/adminService.js:131-146 | the series is in ascending period order and its cumulative figure never decreases |
| Admin.GrowthEnds | src/services/adminService.js:132-146 | the first cumulative figure is the first period's count and the last is the number of UMKM counted |
| Reports.RangeFilter | src/services/laporanService.js:9-23 | a range exists exactly when both dates are given, and then runs from the start date to one day past the end date |
| Reports.EndDayIncluded | src/services/laporanService.js:11-19 | every instant of the end day is inside the range and nothing from the following day on is |
| Reports.OneDateIsNoFilter | src/services/laporanService.js:10 | with only one of the two dates every transaction passes the date filter |
| Reports.Select | src/services/laporanService.js:37-45 | the selected transactions are exactly those in range whose customer belongs to the tenant |
| Reports.TransactionSummary | src/services/laporanService.js:27-75 | the summary counts and sums the selected transactions, its average times the count is the revenue, NULL aggregates over no rows read as 0, and gross profit is 30% of revenue |
| Reports.CountForPositive | src/services/laporanService.js:85 | a customer's count is positive exactly when one of the selected transactions is theirs |
| Reports.OrZero | src/services/laporanService.js:105-106 | a NULL aggregate reads as 0 and any other value is kept |
| Reports.CustomerReport | src/services/laporanService.js:78-112 | every listed customer carries the number and the sum of their selected transactions |
| Reports.Lookup | src/services/laporanService.js:25-115 | the service has exactly the methods `getTransactionReports` and `getCustomerReport` |
| Reports.ReportEndpoint | src/controllers/laporanController.js:3-27 | calling a method the service lacks answers 500 with the endpoint's message; otherwise 200 with the report that method computes |
| Reports.SalesReportsAlwaysFail | src/controllers/laporanController.js:3-14 | the sales endpoint calls `getSalesReports`, which the service does not define, so every request answers 500 |
| Reports.SalesReportsCorrected | src/services/laporanService.js:27-75 | calling `getTransactionReports` instead answers 200 with the summary over the selected transactions |
| Reports.CustomerReportAnswered | src/controllers/laporanController.js:16-27 | the customer endpoint answers 200 with the customer report |
| Reports.CustomerReportMembers | src/services/laporanService.js:88-96 | a customer is listed exactly when one of their transactions is in range and belongs to the tenant, and every listed customer has at least one transaction |
| Calendar.Ymd | src/services/transaksiService.js:12-18 | the date stamp is all digits |
| Calendar.Hms | src/controllers/invoiceController.js:30-32 | the time stamp is all digits |
| Calendar.StampWidths | src/controllers/invoiceController.js:23-32 | for a valid time with a four-digit year the date stamp has 8 digits and the time stamp 6 |
| Calendar.YmdRoundTrip | src/services/transaksiService.js:13-18 | the date stamp of a valid date reads back as its year, month and day |
| Paths.StripTrailingSlashes | src/middleware/uploadBroadcastImage.js:87 | only trailing '/' characters are removed, and the result does not end in one |
| Paths.Basename | src/middleware/uploadBroadcastImage.js:87 | the base name contains no '/' and ends the path once trailing slashes are dropped |
| Paths.BasenameAfterSlash | src/middleware/uploadBroadcastImage.js:105 | the base name of a directory joined with a plain name is that name |
| Paths.Extname | src/middleware/uploadBroadcastImage.js:30 | an extension is empty or a '.'-led proper suffix of the base name |
| Paths.ExtnameShape | src/middleware/uploadBroadcastImage.js:41 | a non-empty extension has exactly one '.', at its start, and no '/' |
| Paths.ExtnameOfSuffix | src/services/WaBlastService.js:109 | a name that does not start with '.', followed by a suffix with exactly one leading '.', has that suffix as its extension |
| Paths.ExtnameOfDotless | src/middleware/uploadBroadcastImage.js:41 | a plain name without any '.' has no extension |
| Text.DigitsOnly | src/services/WaBlastService.js:41 | removing non-digits leaves only digits and keeps an all-digit text as it is |
| Text.DigitsOnlyTrim | src/services/WaBlastService.js:44 | trimming first does not change which digits remain |
| Text.ToLower | src/middleware/uploadBroadcastImage.js:41 | lower-casing keeps the length and maps every character on its own |
| Text.Trim | src/controllers/watzapController.js:50 | the trimmed text starts and ends with a non-space |
| Text.TrimIsSlice | src/controllers/watzapController.js:68 | the trimmed text is a contiguous piece of the original |
| Text.TrimNoSpace | src/controllers/watzapController.js:68 | trimming a text that already starts and ends with a non-space changes nothing |
| Text.ReplaceAll | src/services/WaBlastService.js:51 | a text without the pattern is returned unchanged |
| Text.ReplaceAllFirst | src/services/WaBlastService.js:51 | the text before the first occurrence is kept, the occurrence becomes the replacement with its '$' patterns expanded against the whole text, and the scan goes on after it; a replacement without '$' goes in as written and the rest is replaced on its own |
| Text.ReplaceAllLeavesNone | src/services/WaBlastService.js:51-53 | when the replacement has no '$' and cannot create a new occurrence, none is left after replacing all |
| Text.ReplaceAllFolded | src/services/broadcastService.js:324 | a text with no case-insensitive occurrence of the pattern is returned unchanged |
| Text.ReplaceAllFoldedLower | src/services/broadcastService.js:324-326 | case-insensitive replacement agrees, after lower-casing, with exact replacement in the lower-cased text |
| Text.Substitution | src/services/broadcastService.js:324-326 | a replacement string without '$' is inserted as written |
| Text.SubstitutionPatterns | src/services/WaBlastService.js:51-53 | "$$" gives "$", "$&" the match, "$`" the text before it and "$'" the text after it, while "$1" stays as written since the patterns have no groups |
| Text.ReplaceRestUnmatched | src/services/WaBlastService.js:51-53 | the rest of a text without an occurrence is copied as it is |
| Text.ReplaceRestFoldedUnmatched | src/services/broadcastService.js:324-326 | the rest of a text without a case-insensitive occurrence is copied as it is |
| Text.ContextFree | src/services/WaBlastService.js:51-53 | with a replacement without '$', replacing in the rest of a text does not depend on the text before it |
| Text.FoldedContextFree | src/services/broadcastService.js:324-326 | the same for the case-insensitive scan |
| Text.SubstitutionLower | src/services/broadcastService.js:324-326 | lower-casing commutes with expanding the '$' patterns, which hold no letters |
| Text.LiteralReplacement | src/services/WaBlastService.js:51-53 | with a replacement without '$', replacing all is splicing the replacement into every non-overlapping occurrence |
| Text.IndexOf | src/controllers/WaBlastController.js:23 | the index found is the first occurrence of the character, or -1 when there is none |
| Text.LastIndexOf | src/middleware/uploadBroadcastImage.js:30 | the index found is the last occurrence of the character, or -1 when there is none |
| Text.SplitFirst | src/services/transaksiService.js:32 | splitting at a separator gives the part before it, then the split of the rest |
| Text.SplitNone | src/services/transaksiService.js:32 | a text without the separator splits into itself alone |
| Text.LessTransitive | src/services/adminService.js:133 | the string order used by the default sort is transitive |
| Decimal.NatToString | src/services/transaksiService.js:36 | the decimal text of a number is its digits, without a leading zero, and reads back to the number |
| Decimal.PadStart | src/services/produkService.js:16 | padding only adds leading zeros up to the width and never truncates |
| Decimal.PadStartValue | src/services/produkService.js:16-17 | leading zeros do not change the value of a digit text |
| Decimal.ParseInt | src/services/transaksiService.js:33 | `parseInt` without a radix, on the sequence field of a generated number, fails exactly when the text is empty or does not start with a digit |
| Decimal.ParsePadded | src/services/transaksiService.js:33-36 | a zero-padded number parses back to itself |
| Decimal.PadWidth | src/services/produkService.js:16-17 | a padded number has exactly the requested width iff it fits in that many digits |
| Decimal.DigitsValueInjective | src/services/produkService.js:19-20 | two digit texts of the same length with the same value are equal |
| Decimal.IntToString | src/services/transaksiService.js:183 | an integer's text is its decimal digits, preceded by '-' when it is negative |
| Text.ReplaceAllFoldedFirst | src/services/broadcastService.js:324 | the first case-insensitive occurrence is replaced by the expansion of the replacement, "$&" standing for the occurrence as written, and the scan goes on after it; without '$' the rest is replaced on its own |
| Text.ReplaceAllFoldedLeavesNone | src/services/broadcastService.js:324-326 | when the replacement has no '$' and cannot create a new occurrence, no case-insensitive occurrence is left |
| Text.TrimStartDropsSpaces | src/services/WaBlastService.js:39 | trimming the front drops exactly a run of leading white space |
| Text.TrimEndDropsSpaces | src/services/WaBlastService.js:39 | trimming the end drops exactly a run of trailing white space |

## Left out

- BlastHttp.SuccessRate: rounds the exact quotient half up, while `Math.round` works on the binary64 value. Binary64 has no exact rationals. With 29 sent and 171 failed the float product is 14.499999999999998, so the service reports 14 and the model 15.
- Broadcasts.SuccessRate: an exact percentage, not the text `toFixed(2)` makes of the float. Decimal formatting of floats is outside the model.
- Numbers.ToNumber: decides what `Number(v)` yields over exact rationals. Binary64 rounding is not modelled, so a literal too long or too large to survive it (beyond 2^53, or overflowing to Infinity) may be judged differently.
- BlastHttp.GetBlastStatistics: log rows always carry a broadcast id and a phone, so `COUNT(DISTINCT ...)` skipping NULL values has no counterpart.
- Broadcasts.SendBroadcast: leaves out the 1000 ms pause between recipients and the progress callback (broadcastService.js:290-302). Both are effects without a result; the controller's callback only logs.
- Watzap.SendMessage: the phone is text. A `null` phone, which makes `replace` throw a TypeError whose message the service returns, is outside the input type. The same holds for `Watzap.SendImage`.
- Products.Matches: the name search is a case-sensitive substring test. MySQL `LIKE` with the default collation ignores case, and `%` or `_` in the search text act as wildcards; collations are database configuration.
- Text.ToLower: lower-cases ASCII letters only. The Unicode case mapping of `toLowerCase` is not modelled; the extensions and placeholders it is applied to are ASCII.
- NumberKeys.SetNumberKey: a `wa_number_key` that is present but not text, which makes `trim` throw and the handler answer 500, is outside the input type.
- Pagination (`page`, `limit`, `offset`, `totalPages`) of every listing is left out. So are the ORDER BY orderings: they shape the response and carry no invariant.
- Listing and detail reads without further logic are left out: `getAllTransaksi`, `getTransaksiById`, `getTransaksiByPelanggan`, `getAllPelanggan`, `getPelangganByUmkm`, `getAllKategori`, `getAllJenis`, `getJenisProduk`, `getAllUmkm`, `getBroadcastById`'s eager loading, and the report's detail list.
- Aggregate statistics computed by SQL are left out: transaksiService `getStatistik` with its top-five products, and adminService `getGlobalStats`. Both are single `COUNT`/`SUM` queries.
- broadcastService `checkDeviceStatus` is not modelled on its own. It is `Watzap.CheckDeviceStatus` with the tenant's key or the default, which `NumberKeys.CheckDeviceStatus` already models, and the broadcast controller calls it without a tenant.
- watzapService `getQRCode` is left out: one GET whose answer is passed through.
- invoiceController `getInvoiceDetail` is left out: a lookup with a tenant filter. The PDF that `createInvoice` writes is reduced to a success flag.
- The Baileys socket is reduced to an identity and its owner. Its QR generation, credentials and message encoding are the library's. `DisconnectReason.loggedOut` is taken as 401.
- The file system is reduced to the set of names in the upload directory and the set of session directories. File contents and permissions are not modelled.
- Concurrency is left out: requests are served one at a time. The missing guard against two simultaneous `getSocketInstance` calls for one tenant is therefore not represented.
- Logging, `console` output and the Express wiring are left out. Only `router.use(auth, adminAuth)` on the admin router is kept (`Auth.AdminRoute`).
- Text.ReplaceAll: a literal pattern and a replacement string only. A replacer function and capture groups (`$1`, `$<name>`) do not occur in the services and are not modelled; "$1" is kept as written, as it is for a pattern without groups.
- Text.ReplaceAllFolded: the same scope as `Text.ReplaceAll`, with ASCII case folding for the `/gi` flag.
- Text.ReplaceAllLeavesNone: promised only for a replacement without '$'. A replacement holding "$&" reinserts the occurrence, so in general an occurrence can remain.
- Text.ReplaceAllFoldedLeavesNone: promised only for a replacement without '$', for the same reason as `Text.ReplaceAllLeavesNone`.
- Blast.Personalize: the customer's fields are replacement strings, so their "$$", "$&", "$`" and "$'" patterns are expanded (`Blast.DollarPatternsExpanded`); the model expands them too.
- Blast.PersonalizeLeavesNoPlaceholder: promised only for fields without '$', since a name "$&" puts "{nama}" back.
- Broadcasts.Personalize: the fields are replacement strings here too, and their '$' patterns are expanded (`Broadcasts.DollarPatternsExpanded`); the model expands them too.
- Broadcasts.PersonalizeLeavesNoPlaceholder: promised only for fields without '$', since a name "$&" puts the placeholder back as it was written.
- Customers.CreatePelanggan: the e-mail uniqueness lookup compares text exactly. MySQL's default collation compares case-insensitively and ignores trailing spaces, so "A@x.id" would collide with "a@x.id" there and not here.
- Customers.UpdatePelanggan: the e-mail-in-use lookup compares text exactly, where MySQL's default collation ignores letter case and trailing spaces.
- Categories.CreateKategori: the name lookup compares text exactly, where MySQL's default collation ignores letter case and trailing spaces.
- Categories.UpdateKategori: the name lookup, and the unique index on the name, compare text exactly here, where MySQL's default collation ignores letter case and trailing spaces.
- ProductTypes.CreateJenis: the (nama_jenis, kategori_id) lookup compares names exactly, where MySQL's default collation ignores letter case and trailing spaces.
- ProductTypes.UpdateJenis: the name lookup in the current category compares names exactly, where MySQL's default collation ignores letter case and trailing spaces.
- ProductTypes.UpdateJenisChecked: the corrected lookup compares names exactly as well; under MySQL's default collation "Teh" and "teh" would count as one name.
- ProductTypes.CreateJenis: the foreign key from `kategori_id` to KATEGORI_PRODUK (models/JenisProduk.js:9-13, created by `sequelize.sync`, sync.js:14) is not modelled; a type under a category that does not exist is accepted here, where the database refuses it.
- ProductTypes.UpdateJenis: the same foreign key is not modelled; moving a type to a category that does not exist is accepted here and refused by the database.
- ProductTypes.UpdateJenisChecked: the same foreign key is not modelled; a move to a missing category is accepted here and refused by the database.
- Categories.FailedDeleteStillDropsTypes: its premise is a product type whose category does not exist, a store the foreign key on `kategori_id` does not allow; it states the order of the service's statements, not a state a synced database reaches.
- Reports.TransactionSummary: the average and the gross profit are exact fractions. MySQL's AVG over the DECIMAL(12,2) `total` column rounds to six decimals (laporanService.js:35; for 1.00, 1.00 and 2.00 it gives 1.333333), and `parseFloat(total) * 0.3` (:63) is a binary64 product (3.00 gives 0.8999999999999999).
- Transactions.CheckItemsDetails: quantities are whole numbers. The stock check and the stock update use `item.jumlah` as sent (transaksiService.js:182 and :200), while the subtotal uses `parseInt(item.jumlah)` (:187); these agree on integers, and `jumlah` is an INTEGER column (models/DetailTransaksi.js:8). A fractional or textual quantity is outside the input type.
- Decimal.ParseInt: models `parseInt` without a radix only as it is used, on the digit field of a generated transaction number. Leading white space, a sign and the "0x" prefix, which `parseInt` also accepts, are not modelled.
- Column mapping: the model reads and writes `PRODUK.umkm_id`, `TRANSAKSI.umkm_id`, `JENIS_PRODUK.kode_jenis` and `UMKM.wa_number_key` as columns, as the services do. The Sequelize models do not declare them (models/Produk.js:7-15, models/Transaksi.js:5-12, models/JenisProduk.js:6-17, models/Umkm.js:4-14; JenisProduk does declare `umkm_id`). Sequelize drops undeclared attributes from `create` and `update` and leaves them out of queries, and whether the deployment declares them elsewhere is not part of this model.

## Findings

| source | as written | input that shows it | evidently intended | confidence | as-written member | corrected member |
|---|---|---|---|---|---|---|
| src/services/jenisProdukService.js:38-48 | the name lookup uses the type's current `kategori_id`, and then `update(data)` writes the incoming one | types 1 = ("Teh", category 1) and 2 = ("Kopi", category 2); updating 2 with nama "Teh" and kategori_id 1 succeeds and leaves two ("Teh", 1) rows | look the name up in the category the type ends up in (`UpdateJenisChecked`), which keeps (nama_jenis, kategori_id) unique | not executed | ProductTypes.MoveCreatesDuplicate | ProductTypes.CheckedUpdateKeepsPairsUnique |
| src/controllers/broadcastController.js:97 | `includes('tidak ada penerima')` is case-sensitive, and the service's message begins "Tidak ada penerima" | sending a broadcast with no pending recipient is passed to `next(error)`, the generic handler, instead of being answered 400 | compare case-insensitively (`SendErrorReplyFolded`), so the no-recipient error answers 400 | not executed | BroadcastHttp.NoPendingNotMapped | BroadcastHttp.NoPendingMappedFolded |
| src/controllers/WaBlastController.js:153-159 | `blastEvents.once("qr", ...)` is used up by the first QR event of any tenant | tenant u connects, tenant v's QR event fires first, then u's: u's QR is never answered, and u gets the 408 timeout | keep listening until an event of the requesting tenant arrives (`StepFiltered`), so its own QR is answered | not executed | BlastHttp.ForeignQrSwallowsOwn | BlastHttp.OwnQrAnswered |
| src/middleware/adminAuth.js:2 | the gate reads `req.userRole`, which `auth` never sets; `auth` sets `req.role` | a valid token whose role claim is "admin" is refused with 403 on every admin route | read `req.role` (`AdminGateByRole`), so exactly the tokens with role "admin" pass | not executed | Auth.AdminTokenRefused | Auth.AdminRouteByRoleAdmitsAdmins |
| src/middleware/uploadBroadcastImage.js:104-106 | `path.join(UPLOAD_DIR, path.basename(filename))` trusts the base name | filename ".." gives the directory above the upload directory | refuse the base names `path.join` would not keep inside the directory (`ConfinedImagePath`), so every path stays inside the upload directory | not executed | Uploads.DotDotLeavesUploadDir | Uploads.ConfinedPathInside |
| src/controllers/laporanController.js:8 | the sales endpoint calls `laporanService.getSalesReports`, which the service does not define; the method is `getTransactionReports` | any GET of the sales report: the call throws a TypeError, and the endpoint answers 500 "Gagal mengambil laporan penjualan." | call `getTransactionReports`, so the summary over the selected transactions is answered with 200 | not executed | Reports.SalesReportsAlwaysFail | Reports.SalesReportsCorrected |

=== FILE: admin.dfy ===
/**
 * The platform administrator's view of tenants (`adminService`): verifying and suspending
 * a UMKM, and the registration growth series with its running total.
 */
module Admin {
  import opened Wrappers
  import opened Text

  /** The `status` enum of a UMKM. */
  datatype Status = Pending | Active | Suspended

  /** The columns of a `Umkm` row the administrator's operations touch. */
  datatype Umkm = Umkm(status: Status, verifiedBy: Option<nat>, verifiedAt: Option<int>)

  const NotFound := "UMKM tidak ditemukan."
  const AlreadyActive := "UMKM ini sudah aktif."
  const AlreadySuspended := "UMKM ini sudah ditangguhkan."

  // ---------------------------------------------------------------- status machine

  /** `verifyUmkm`: a pending or suspended UMKM becomes active and records who verified it and when. */
  function VerifyUmkm(umkms: map<nat, Umkm>, id: nat, adminId: nat, now: int): (r: Result<map<nat, Umkm>>)
    ensures r.Err? <==> id !in umkms || umkms[id].status == Active
    ensures r.Err? && id !in umkms ==> r.msg == NotFound
    ensures r.Err? && id in umkms ==> r.msg == AlreadyActive
    ensures r.Ok? ==> r.value.Keys == umkms.Keys
    ensures r.Ok? ==> forall k :: k in umkms && k != id ==> r.value[k] == umkms[k]
    ensures r.Ok? ==> r.value[id] == Umkm(Active, Some(adminId), Some(now))
  {
    if id !in umkms then Err(NotFound)
    else if umkms[id].status == Active then Err(AlreadyActive)
    else Ok(umkms[id := Umkm(Active, Some(adminId), Some(now))])
  }

  /** `suspendUmkm`: any UMKM not yet suspended becomes suspended; the verification record stays. */
  function SuspendUmkm(umkms: map<nat, Umkm>, id: nat): (r: Result<map<nat, Umkm>>)
    ensures r.Err? <==> id !in umkms || umkms[id].status == Suspended
    ensures r.Err? && id !in umkms ==> r.msg == NotFound
    ensures r.Err? && id in umkms ==> r.msg == AlreadySuspended
    ensures r.Ok? ==> r.value.Keys == umkms.Keys
    ensures r.Ok? ==> forall k :: k in umkms && k != id ==> r.value[k] == umkms[k]
    ensures r.Ok? ==> r.value[id].status == Suspended && r.value[id].verifiedBy == umkms[id].verifiedBy
                      && r.value[id].verifiedAt == umkms[id].verifiedAt
  {
    if id !in umkms then Err(NotFound)
    else if umkms[id].status == Suspended then Err(AlreadySuspended)
    else Ok(umkms[id := umkms[id].(status := Suspended)])
  }

  /** One administrator action with the clock reading it sees. */
  datatype Action = Verify(id: nat, adminId: nat, now: int) | Suspend(id: nat)

  /** A refused action leaves the table as it was. */
  function Apply(umkms: map<nat, Umkm>, a: Action): map<nat, Umkm> {
    var r := match a
      case Verify(id, adminId, now) => VerifyUmkm(umkms, id, adminId, now)
      case Suspend(id) => SuspendUmkm(umkms, id);
    if r.Ok? then r.value else umkms
  }

  function ApplyAll(umkms: map<nat, Umkm>, actions: seq<Action>): map<nat, Umkm>
    decreases |actions|
  {
    if actions == [] then umkms else ApplyAll(Apply(umkms, actions[0]), actions[1..])
  }

  /**
   * No sequence of administrator actions sends a UMKM back to pending: a row that is
   * pending afterwards was pending before and was never touched, so it is unchanged.
   */
  lemma {:induction false} NeverBackToPending(umkms: map<nat, Umkm>, actions: seq<Action>, id: nat)
    requires id in umkms
    ensures id in ApplyAll(umkms, actions)
    ensures ApplyAll(umkms, actions)[id].status == Pending ==> ApplyAll(umkms, actions)[id] == umkms[id]
    decreases |actions|
  {
    if actions != [] {
      var next := Apply(umkms, actions[0]);
      assert id in next;
      NeverBackToPending(next, actions[1..], id);
      if ApplyAll(umkms, actions)[id].status == Pending {
        assert next[id].status == Pending;
        assert next[id] == umkms[id];
      }
    }
  }

  /** Suspending and then verifying again reactivates a UMKM under the new verifier. */
  lemma SuspendThenVerify(umkms: map<nat, Umkm>, id: nat, adminId: nat, now: int)
    requires id in umkms && umkms[id].status == Active
    ensures SuspendUmkm(umkms, id).Ok?
    ensures VerifyUmkm(SuspendUmkm(umkms, id).value, id, adminId, now).Ok?
    ensures VerifyUmkm(SuspendUmkm(umkms, id).value, id, adminId, now).value
         == umkms[id := Umkm(Active, Some(adminId), Some(now))]
  {
    var s := SuspendUmkm(umkms, id).value;
    assert s[id := Umkm(Active, Some(adminId), Some(now))] == umkms[id := Umkm(Active, Some(adminId), Some(now))];
  }

  // ---------------------------------------------------------------- growth series

  /** The grouping granularity of `getUmkmGrowthData`. */
  datatype Period = Day | Week | Month | Year

  /** The `switch (period)`: anything but "day", "week" or "year" groups by month. */
  function ParsePeriod(text: string): (p: Period)
    ensures p == Day <==> text == "day"
    ensures p == Week <==> text == "week"
    ensures p == Year <==> text == "year"
  {
    if text == "day" then Day
    else if text == "week" then Week
    else if text == "year" then Year
    else Month
  }

  /** The `date_format` pattern of each granularity. */
  function GroupFormat(p: Period): string {
    match p
    case Day => "%Y-%m-%d"
    case Week => "%Y-%v"
    case Year => "%Y"
    case Month => "%Y-%m"
  }

  /** The key each output row carries its period under. */
  function LabelKey(p: Period): string {
    match p
    case Day => "tanggal"
    case Week => "minggu"
    case Year => "tahun"
    case Month => "bulan"
  }

  /** The `where` clause: only active and pending UMKM are counted. */
  predicate Counted(s: Status) {
    s == Active || s == Pending
  }

  /** Verifying puts a UMKM into the count and suspending takes it out. */
  lemma StatusChangesCount(umkms: map<nat, Umkm>, id: nat, adminId: nat, now: int)
    ensures VerifyUmkm(umkms, id, adminId, now).Ok? ==> Counted(VerifyUmkm(umkms, id, adminId, now).value[id].status)
    ensures SuspendUmkm(umkms, id).Ok? ==> !Counted(SuspendUmkm(umkms, id).value[id].status)
  {
  }

  /** One row of the grouped query: a period key and how many UMKM registered in it. */
  datatype PeriodCount = PeriodCount(period: string, newCount: nat)

  /** One row of the answer. */
  datatype GrowthRow = GrowthRow(period: string, newUmkm: nat, cumulative: nat)

  function Total(rows: seq<PeriodCount>): nat {
    if rows == [] then 0 else rows[0].newCount + Total(rows[1..])
  }

  /** Periods in ascending order, as the array's default `sort` leaves them. */
  predicate SortedByPeriod(rows: seq<PeriodCount>) {
    forall i, j :: 0 <= i < j < |rows| ==> !Less(rows[j].period, rows[i].period)
  }

  /** Places one row in front of the first row whose period is greater. */
  function Insert(x: PeriodCount, rows: seq<PeriodCount>): (r: seq<PeriodCount>)
    ensures |r| == |rows| + 1 && multiset(r) == multiset(rows) + multiset{x}
    ensures Total(r) == x.newCount + Total(rows)
  {
    if rows == [] then [x]
    else if Less(x.period, rows[0].period) then [x] + rows
    else
      var r := [rows[0]] + Insert(x, rows[1..]);
      assert rows == [rows[0]] + rows[1..];
      assert r[1..] == Insert(x, rows[1..]);
      r
  }

  /** A row whose period is below the first of a sorted sequence is below all of them. */
  lemma BelowFirst(x: PeriodCount, rows: seq<PeriodCount>, k: nat)
    requires SortedByPeriod(rows) && k < |rows| && Less(x.period, rows[0].period)
    ensures !Less(rows[k].period, x.period)
  {
    LessIrreflexive(rows[0].period);
    if Less(rows[k].period, x.period) {
      LessTransitive(rows[k].period, x.period, rows[0].period);
      assert false;
    }
  }

  /** Inserting a row no smaller than a bound keeps every row no smaller than it. */
  lemma {:induction false} InsertKeepsLowerBound(x: PeriodCount, rows: seq<PeriodCount>, b: string)
    requires !Less(x.period, b) && forall k :: 0 <= k < |rows| ==> !Less(rows[k].period, b)
    ensures forall k :: 0 <= k < |Insert(x, rows)| ==> !Less(Insert(x, rows)[k].period, b)
    decreases |rows|
  {
    if rows != [] && !Less(x.period, rows[0].period) {
      InsertKeepsLowerBound(x, rows[1..], b);
      var r := Insert(x, rows);
      forall k | 0 <= k < |r| ensures !Less(r[k].period, b) {
        if k > 0 {
          assert r[k] == Insert(x, rows[1..])[k - 1];
        }
      }
    }
  }

  lemma {:induction false} InsertSorted(x: PeriodCount, rows: seq<PeriodCount>)
    requires SortedByPeriod(rows)
    ensures SortedByPeriod(Insert(x, rows))
    decreases |rows|
  {
    if rows == [] {
    } else if Less(x.period, rows[0].period) {
      var r := Insert(x, rows);
      forall i, j | 0 <= i < j < |r| ensures !Less(r[j].period, r[i].period) {
        assert r[j] == rows[j - 1];
        if i == 0 {
          BelowFirst(x, rows, j - 1);
        } else {
          assert r[i] == rows[i - 1];
        }
      }
    } else {
      InsertSorted(x, rows[1..]);
      var tail := Insert(x, rows[1..]);
      var r := Insert(x, rows);
      assert r == [rows[0]] + tail;
      forall k | 0 <= k < |rows[1..]| ensures !Less(rows[1..][k].period, rows[0].period) {
        assert rows[1..][k] == rows[k + 1];
      }
      InsertKeepsLowerBound(x, rows[1..], rows[0].period);
      forall i, j | 0 <= i < j < |r| ensures !Less(r[j].period, r[i].period) {
        if i == 0 {
          assert r[j] == tail[j - 1];
        } else {
          assert r[i] == tail[i - 1] && r[j] == tail[j - 1];
        }
      }
    }
  }

  /** `[...newMap.keys()].sort()`, carrying each period's count along. */
  function SortByPeriod(rows: seq<PeriodCount>): (r: seq<PeriodCount>)
    ensures |r| == |rows| && multiset(r) == multiset(rows) && Total(r) == Total(rows)
  {
    if rows == [] then []
    else
      assert rows == [rows[0]] + rows[1..];
      Insert(rows[0], SortByPeriod(rows[1..]))
  }

  lemma {:induction false} SortByPeriodSorted(rows: seq<PeriodCount>)
    ensures SortedByPeriod(SortByPeriod(rows))
    decreases |rows|
  {
    if rows != [] {
      SortByPeriodSorted(rows[1..]);
      InsertSorted(rows[0], SortByPeriod(rows[1..]));
    }
  }

  /** The `map` that adds each period's count to `cumulativeActive`, starting from `acc`. */
  function Running(rows: seq<PeriodCount>, acc: nat): (r: seq<GrowthRow>)
    ensures |r| == |rows|
  {
    if rows == [] then []
    else [GrowthRow(rows[0].period, rows[0].newCount, acc + rows[0].newCount)] + Running(rows[1..], acc + rows[0].newCount)
  }

  /** Each running total is the start plus the counts up to and including its own period. */
  lemma {:induction false} RunningIsPrefixSum(rows: seq<PeriodCount>, acc: nat, i: nat)
    requires i < |rows|
    ensures var r := Running(rows, acc);
            r[i].period == rows[i].period && r[i].newUmkm == rows[i].newCount
            && r[i].cumulative == acc + Total(rows[..i + 1])
    decreases i
  {
    if i > 0 {
      RunningIsPrefixSum(rows[1..], acc + rows[0].newCount, i - 1);
      assert rows[1..][..i] == rows[1..i + 1];
      assert rows[..i + 1] == [rows[0]] + rows[1..i + 1];
    } else {
      assert rows[..1] == [rows[0]] && rows[..1][1..] == [];
    }
  }

  /** The running rows copy each period and its count, and never drop below the start. */
  lemma {:induction false} RunningCopies(rows: seq<PeriodCount>, acc: nat, i: nat)
    requires i < |rows|
    ensures var r := Running(rows, acc);
            r[i].period == rows[i].period && r[i].newUmkm == rows[i].newCount && r[i].cumulative >= acc
    decreases i
  {
    if i > 0 {
      RunningCopies(rows[1..], acc + rows[0].newCount, i - 1);
    }
  }

  /** The running total never decreases. */
  lemma {:induction false} RunningMonotone(rows: seq<PeriodCount>, acc: nat, i: nat, j: nat)
    requires i < j < |rows|
    ensures Running(rows, acc)[i].cumulative <= Running(rows, acc)[j].cumulative
    decreases i
  {
    var c := rows[0].newCount;
    if i > 0 {
      RunningMonotone(rows[1..], acc + c, i - 1, j - 1);
    } else {
      RunningCopies(rows[1..], acc + c, j - 1);
    }
  }

  /** The running total starts at the first count and ends at the start plus every count. */
  lemma {:induction false} RunningEnds(rows: seq<PeriodCount>, acc: nat)
    requires rows != []
    ensures var r := Running(rows, acc);
            r[0].cumulative == acc + rows[0].newCount && r[|r| - 1].cumulative == acc + Total(rows)
    decreases |rows|
  {
    if |rows| > 1 {
      RunningEnds(rows[1..], acc + rows[0].newCount);
    }
  }

  /** Every running row is its period and count with the start plus the counts up to and including it. */
  lemma RunningRows(rows: seq<PeriodCount>, acc: nat)
    ensures forall i :: 0 <= i < |rows| ==>
      Running(rows, acc)[i] == GrowthRow(rows[i].period, rows[i].newCount, acc + Total(rows[..i + 1]))
  {
    forall i | 0 <= i < |rows|
      ensures Running(rows, acc)[i] == GrowthRow(rows[i].period, rows[i].newCount, acc + Total(rows[..i + 1]))
    {
      RunningIsPrefixSum(rows, acc, i);
    }
  }

  /** The answer of `getUmkmGrowthData` for the grouped query rows. */
  datatype Growth = Growth(labelKey: string, rows: seq<GrowthRow>)

  /**
   * `getUmkmGrowthData`. The query rows come from a `GROUP BY period`, so their periods
   * are distinct and the `Map` built from them keeps every row. Row `i` is the `i`-th
   * period in sorted order, its count, and the sum of the counts up to and including it.
   */
  function GrowthData(periodText: string, grouped: seq<PeriodCount>): (r: Growth)
    requires forall i, j :: 0 <= i < j < |grouped| ==> grouped[i].period != grouped[j].period
    ensures r.labelKey == LabelKey(ParsePeriod(periodText)) && |r.rows| == |grouped|
    ensures var sorted := SortByPeriod(grouped);
      forall i :: 0 <= i < |r.rows| ==>
        r.rows[i] == GrowthRow(sorted[i].period, sorted[i].newCount, Total(sorted[..i + 1]))
  {
    RunningRows(SortByPeriod(grouped), 0);
    Growth(LabelKey(ParsePeriod(periodText)), Running(SortByPeriod(grouped), 0))
  }

  /**
   * The series holds exactly the grouped periods with their counts, each once, in ascending
   * order; its running total never decreases, starts at the first period's count and ends
   * at the number of UMKM counted.
   */
  lemma GrowthSeries(periodText: string, grouped: seq<PeriodCount>)
    requires forall i, j :: 0 <= i < j < |grouped| ==> grouped[i].period != grouped[j].period
    ensures var g := GrowthData(periodText, grouped).rows;
      multiset(seq(|g|, i requires 0 <= i < |g| => PeriodCount(g[i].period, g[i].newUmkm))) == multiset(grouped)
    ensures var g := GrowthData(periodText, grouped).rows;
      && (forall i, j :: 0 <= i < j < |g| ==> !Less(g[j].period, g[i].period) && g[i].cumulative <= g[j].cumulative)
      && (|g| > 0 ==> g[0].cumulative == g[0].newUmkm)
      && (|g| > 0 ==> g[|g| - 1].cumulative == Total(grouped))
  {
    GrowthCounts(periodText, grouped);
    GrowthOrdered(periodText, grouped);
    GrowthEnds(periodText, grouped);
  }

  /** The series runs in period order and its running total never decreases. */
  lemma GrowthOrdered(periodText: string, grouped: seq<PeriodCount>)
    requires forall i, j :: 0 <= i < j < |grouped| ==> grouped[i].period != grouped[j].period
    ensures var g := GrowthData(periodText, grouped).rows;
      forall i, j :: 0 <= i < j < |g| ==> !Less(g[j].period, g[i].period) && g[i].cumulative <= g[j].cumulative
  {
    var sorted := SortByPeriod(grouped);
    var g := GrowthData(periodText, grouped).rows;
    assert g == Running(sorted, 0);
    SortByPeriodSorted(grouped);
    forall i, j | 0 <= i < j < |g|
      ensures !Less(g[j].period, g[i].period) && g[i].cumulative <= g[j].cumulative
    {
      RunningMonotone(sorted, 0, i, j);
    }
  }

  /** The series starts at the first period's count and ends at the total over every period. */
  lemma GrowthEnds(periodText: string, grouped: seq<PeriodCount>)
    requires forall i, j :: 0 <= i < j < |grouped| ==> grouped[i].period != grouped[j].period
    ensures var g := GrowthData(periodText, grouped).rows;
      && (|g| > 0 ==> g[0].cumulative == g[0].newUmkm)
      && (|g| > 0 ==> g[|g| - 1].cumulative == Total(grouped))
  {
    var sorted := SortByPeriod(grouped);
    var g := GrowthData(periodText, grouped).rows;
    if |g| > 0 {
      assert g == Running(sorted, 0);
      RunningEnds(sorted, 0);
    }
  }

  /** The series' periods and counts are the grouped rows, in sorted order. */
  lemma GrowthCounts(periodText: string, grouped: seq<PeriodCount>)
    requires forall i, j :: 0 <= i < j < |grouped| ==> grouped[i].period != grouped[j].period
    ensures var g := GrowthData(periodText, grouped).rows;
      multiset(seq(|g|, i requires 0 <= i < |g| => PeriodCount(g[i].period, g[i].newUmkm))) == multiset(grouped)
  {
    var g := GrowthData(periodText, grouped).rows;
    assert seq(|g|, i requires 0 <= i < |g| => PeriodCount(g[i].period, g[i].newUmkm)) == SortByPeriod(grouped);
  }

}

=== FILE: auth.dfy ===
/**
 * The two request guards: `auth`, which admits a request carrying a verifiable bearer
 * token and copies the token's claims onto it, and `adminAuth`, the gate of the admin
 * router, which `router.use(auth, adminAuth)` puts behind `auth`. `jwt.verify` with the
 * configured secret is an oracle from the token text to its verdict.
 */
module Auth {
  import opened Wrappers
  import opened Text

  const Bearer := "Bearer "
  const NoTokenMsg := "Akses ditolak. Tidak ada token."
  const ExpiredMsg := "Access token expired. Silakan refresh token."
  const InvalidMsg := "Token tidak valid."
  const AdminOnlyMsg := "Akses ditolak. Hanya untuk admin."

  /** The claims a token carries; a claim the payload lacks reads as `undefined`. */
  datatype Claims = Claims(userId: Option<int>, umkmId: Option<int>, role: Option<string>)

  /** What `jwt.verify` does: returns the payload, throws `TokenExpiredError`, or throws anything else. */
  datatype Verdict = Decoded(claims: Claims) | Expired | Invalid

  /** The request fields the guards read and write; `None` is `undefined`. */
  datatype Req = Req(authorization: Option<string>, userId: Option<int>, umkmId: Option<int>,
                     role: Option<string>, userRole: Option<string>)

  /** The `code` field of a 401 answer. */
  datatype Code = NoToken | TokenExpired | InvalidToken

  /**
   * What a guard does with a request: hands it, possibly updated, to `next` exactly
   * once, or answers it with a status, a `msg` and, for `auth`, a `code`.
   */
  datatype Outcome = Next(req: Req) | Reject(status: nat, msg: string, code: Option<Code>)

  /** The token text of a well-formed header: everything after "Bearer ". */
  function BearerToken(req: Req): (t: Option<string>)
    ensures t.Some? <==> req.authorization.Some? && StartsWith(req.authorization.value, Bearer)
    ensures t.Some? ==> req.authorization.value == Bearer + t.value
  {
    match req.authorization
    case None => None
    case Some(h) =>
      if StartsWith(h, Bearer) then
        assert h == h[..|Bearer|] + h[|Bearer|..];
        Some(h[|Bearer|..])
      else None
  }

  /**
   * `auth`. A missing header, an empty one, or one not starting with "Bearer " is
   * answered 401 NO_TOKEN without verifying anything. Otherwise the rest of the header
   * is verified: a valid token has its three claims copied onto the request, which goes
   * on; an expired one is answered 401 TOKEN_EXPIRED and any other failure 401 INVALID_TOKEN.
   */
  function AuthGuard(req: Req, verify: string -> Verdict): (r: Outcome)
    ensures r.Reject? ==> r.status == 401
    ensures r == Reject(401, NoTokenMsg, Some(NoToken)) <==> BearerToken(req).None?
    ensures r.Next? <==> BearerToken(req).Some? && verify(BearerToken(req).value).Decoded?
    ensures r == Reject(401, ExpiredMsg, Some(TokenExpired)) <==>
      BearerToken(req).Some? && verify(BearerToken(req).value) == Expired
    ensures r == Reject(401, InvalidMsg, Some(InvalidToken)) <==>
      BearerToken(req).Some? && verify(BearerToken(req).value) == Invalid
    ensures r.Next? ==> r.req.authorization == req.authorization && r.req.userRole == req.userRole
    ensures r.Next? ==>
      var c := verify(BearerToken(req).value).claims;
      r.req.userId == c.userId && r.req.umkmId == c.umkmId && r.req.role == c.role
  {
    var h := req.authorization;
    if h.None? || h.value == "" || !StartsWith(h.value, Bearer) then Reject(401, NoTokenMsg, Some(NoToken))
    else
      match verify(h.value[7..])
      case Decoded(c) => Next(req.(userId := c.userId, umkmId := c.umkmId, role := c.role))
      case Expired => Reject(401, ExpiredMsg, Some(TokenExpired))
      case Invalid => Reject(401, InvalidMsg, Some(InvalidToken))
  }

  /** Only the text after the prefix is verified: two headers with the same token fare the same. */
  lemma OnlyTokenVerified(req: Req, t: string, verify1: string -> Verdict, verify2: string -> Verdict)
    requires req.authorization == Some(Bearer + t)
    requires verify1(t) == verify2(t)
    ensures AuthGuard(req, verify1) == AuthGuard(req, verify2)
  {
    assert (Bearer + t)[..|Bearer|] == Bearer;
    assert (Bearer + t)[|Bearer|..] == t;
  }

  /** The prefix is matched exactly: a lower-case "bearer " never reaches verification. */
  lemma LowerCaseSchemeRefused(req: Req, t: string, verify: string -> Verdict)
    requires req.authorization == Some("bearer " + t)
    ensures AuthGuard(req, verify) == Reject(401, NoTokenMsg, Some(NoToken))
  {
    var h := "bearer " + t;
    assert h[0] == 'b' && Bearer[0] == 'B';
    assert h[..|Bearer|] != Bearer;
  }

  /**
   * `adminAuth`: the request goes on exactly when its `userRole` is the text "admin";
   * otherwise it is answered 403. `role`, which `auth` sets, is not consulted.
   */
  function AdminGate(req: Req): (r: Outcome)
    ensures r.Next? <==> req.userRole == Some("admin")
    ensures r.Next? ==> r.req == req
    ensures r.Reject? ==> r == Reject(403, AdminOnlyMsg, None)
  {
    if req.userRole.Some? && req.userRole.value != "" && req.userRole.value == "admin" then Next(req)
    else Reject(403, AdminOnlyMsg, None)
  }

  /** Two guards in a row, as `router.use(first, second)` mounts them. */
  function Chain(req: Req, first: Req -> Outcome, second: Req -> Outcome): Outcome {
    match first(req)
    case Next(req') => second(req')
    case reject => reject
  }

  /** The admin router as written: `auth`, then `adminAuth`. */
  function AdminRoute(req: Req, verify: string -> Verdict): Outcome {
    Chain(req, r => AuthGuard(r, verify), AdminGate)
  }

  /**
   * Nothing on the way sets `userRole`, so a request arriving without one is refused
   * by the admin router whatever its token: 401 from `auth`, or else 403 from `adminAuth`,
   * even when the token's role claim is "admin".
   */
  lemma AdminRouteRefusesAll(req: Req, verify: string -> Verdict)
    requires req.userRole.None?
    ensures AdminRoute(req, verify).Reject?
    ensures AdminRoute(req, verify).status == 403 <==> AuthGuard(req, verify).Next?
    ensures AdminRoute(req, verify).status == 401 <==> AuthGuard(req, verify).Reject?
  {
  }

  /** An admin holding a valid token is turned away with 403. */
  lemma AdminTokenRefused(req: Req, t: string, verify: string -> Verdict, c: Claims)
    requires req.authorization == Some(Bearer + t) && req.userRole.None?
    requires verify(t) == Decoded(c) && c.role == Some("admin")
    ensures AdminRoute(req, verify) == Reject(403, AdminOnlyMsg, None)
  {
    assert (Bearer + t)[..|Bearer|] == Bearer;
    assert (Bearer + t)[|Bearer|..] == t;
  }

  /** The gate reading the field `auth` writes: the request goes on when its `role` is "admin". */
  function AdminGateByRole(req: Req): (r: Outcome)
    ensures r.Next? <==> req.role == Some("admin")
    ensures r.Next? ==> r.req == req
    ensures r.Reject? ==> r == Reject(403, AdminOnlyMsg, None)
  {
    if req.role == Some("admin") then Next(req) else Reject(403, AdminOnlyMsg, None)
  }

  /** The admin router with the gate reading `role`. */
  function AdminRouteByRole(req: Req, verify: string -> Verdict): Outcome {
    Chain(req, r => AuthGuard(r, verify), AdminGateByRole)
  }

  /**
   * With the corrected gate the admin router admits exactly the requests whose token
   * verifies with the role claim "admin", and passes them on carrying the token's claims.
   */
  lemma AdminRouteByRoleAdmitsAdmins(req: Req, verify: string -> Verdict)
    ensures AdminRouteByRole(req, verify).Next? <==>
      BearerToken(req).Some? && verify(BearerToken(req).value).Decoded?
      && verify(BearerToken(req).value).claims.role == Some("admin")
    ensures AdminRouteByRole(req, verify).Next? ==> AdminRouteByRole(req, verify) == AuthGuard(req, verify)
    ensures AdminRouteByRole(req, verify).Reject? && AuthGuard(req, verify).Next? ==>
      AdminRouteByRole(req, verify) == Reject(403, AdminOnlyMsg, None)
  {
  }
}

=== FILE: blast.dfy ===
/**
 * The log-based blast engine (`sendBlastToAll`): it selects a tenant's customers,
 * normalises each phone for the gateway, personalises the message with a
 * case-sensitive literal replacement, tries each send at most twice and writes
 * exactly one log row per recipient, all under one broadcast id. The socket's
 * `sendMessage`, the clock and `Math.random` are parameters.
 */
module Blast {
  import opened Wrappers
  import opened Text
  import Paths
  import Watzap
  import Broadcasts

  // ---------------------------------------------------------------- rows

  /** A `Pelanggan` row as the engine reads it; only `telepon` is dereferenced when NULL. */
  datatype Contact = Contact(id: nat, umkmId: nat, nama: string, telepon: Option<string>, email: string)

  /** The values of `WA_BLAST_LOG.status`. */
  datatype LogStatus = LogPending | LogSent | LogFailed

  /**
   * A `WA_BLAST_LOG` row. `mediaUrl` and `error` are "" for NULL; `sentAt` is
   * `tanggal_kirim`, and `createdAt` the insertion time.
   */
  datatype LogRow = LogRow(umkmId: nat, broadcastId: string, phone: string, message: string,
                           status: LogStatus, error: string, mediaUrl: string,
                           sentAt: Option<int>, createdAt: int)

  const NoContacts := "Tidak ada pelanggan untuk UMKM ini"
  /** The TypeError a NULL `telepon` raises at `.trim()`. */
  const NullTelepon := "Cannot read properties of null (reading 'trim')"

  /** The default base delay of `sendBlastToAll`, in milliseconds. */
  const DefaultDelayMs: nat := 4000
  const MaxAttempts: nat := 2
  /** The pause after every failed attempt. */
  const RetryPauseMs: nat := 1500
  /** The random part of the delay is `floor(random * JitterSpanMs)`. */
  const JitterSpanMs: nat := 4000
  const JidSuffix := "@s.whatsapp.net"

  // ---------------------------------------------------------------- selection

  /** A customer of the tenant, and one of the selected ids when a selection is given. */
  predicate Chosen(c: Contact, umkmId: nat, selectedIds: seq<int>) {
    c.umkmId == umkmId && (|selectedIds| > 0 ==> c.id as int in selectedIds)
  }

  /**
   * The two `findAll` queries: only this tenant's customers, restricted to the selected
   * ids when the selection is non-empty, in table order.
   */
  function SelectContacts(contacts: seq<Contact>, umkmId: nat, selectedIds: seq<int>): (r: seq<Contact>)
    ensures forall c :: c in r <==> c in contacts && Chosen(c, umkmId, selectedIds)
    ensures |r| <= |contacts|
    decreases |contacts|
  {
    if |contacts| == 0 then []
    else
      assert contacts == [contacts[0]] + contacts[1..];
      var rest := SelectContacts(contacts[1..], umkmId, selectedIds);
      if Chosen(contacts[0], umkmId, selectedIds) then [contacts[0]] + rest else rest
  }

  /** With no selection, every customer of the tenant is a recipient. */
  lemma EmptySelectionTakesAll(contacts: seq<Contact>, umkmId: nat)
    ensures forall c :: c in SelectContacts(contacts, umkmId, []) <==> c in contacts && c.umkmId == umkmId
  {
  }

  // ---------------------------------------------------------------- phones

  /** The gateway number: trim, turn a leading "0" into "62", then drop every non-digit. */
  function BlastPhone(telepon: string): (r: string)
    ensures AllDigits(r)
    ensures StartsWith(Trim(telepon), "0") ==> StartsWith(r, "62")
    ensures !StartsWith(Trim(telepon), "0") ==> r == DigitsOnly(telepon)
  {
    var t := Trim(telepon);
    DigitsOnlyTrim(telepon);
    if StartsWith(t, "0") then
      DigitsOnlyAppend("62", t[1..]);
      DigitsOnly("62" + t[1..])
    else DigitsOnly(t)
  }

  /** The WhatsApp id the message is addressed to. */
  function Jid(phone: string): (r: string)
    ensures StartsWith(r, phone) && EndsWith(r, JidSuffix)
  {
    phone + JidSuffix
  }

  /**
   * For a plain local number (digits only, starting with "0" or "62") both
   * normalisers agree.
   */
  lemma BlastPhoneMatchesFormatted(telepon: string)
    requires AllDigits(Trim(telepon))
    requires StartsWith(Trim(telepon), "0") || StartsWith(Trim(telepon), "62")
    ensures BlastPhone(telepon) == Watzap.FormatPhoneNumber(telepon)
  {
    var t := Trim(telepon);
    DigitsOnlyTrim(telepon);
    assert DigitsOnly(telepon) == t;
    if StartsWith(t, "0") {
      AllDigitsAppend("62", t[1..]);
      assert DigitsOnly("62" + t[1..]) == "62" + t[1..];
    } else {
      assert t[0] == '6';
    }
    Watzap.FormatPhoneNumberCases(telepon);
  }

  /**
   * They differ on a number written without its leading "0": the blast engine sends
   * the digits as they are, `formatPhoneNumber` puts "62" in front.
   */
  lemma BlastPhoneKeepsBareNumber(telepon: string)
    requires AllDigits(Trim(telepon))
    requires !StartsWith(Trim(telepon), "0") && !StartsWith(Trim(telepon), "62")
    ensures BlastPhone(telepon) == Trim(telepon)
    ensures Watzap.FormatPhoneNumber(telepon) == "62" + Trim(telepon)
  {
    DigitsOnlyTrim(telepon);
    Watzap.FormatPhoneNumberCases(telepon);
  }

  /** A number padded with a no-break space is trimmed like one padded with a plain space. */
  lemma BlastPhoneTrimsNoBreakSpace()
    ensures BlastPhone("\U{00A0}0812") == "62812"
  {
    assert Trim("\U{00A0}0812") == "0812" by {
      assert TrimStart("\U{00A0}0812") == TrimStart("0812");
    }
    assert "62" + "0812"[1..] == "62812";
    AllDigitsAppend("62", "812");
  }

  /** The `{telepon}` value: the digits of the trimmed number, with a leading "62" shown as "0". */
  function MessagePhone(telepon: string): (r: string)
    ensures AllDigits(r)
    ensures |r| <= |telepon|
  {
    var d := DigitsOnly(Trim(telepon));
    if StartsWith(d, "62") then "0" + d[2..] else d
  }

  lemma DigitsHaveNoSpace(s: string)
    requires AllDigits(s)
    ensures Trim(s) == s
  {
    if |s| > 0 {
      assert IsDigit(s[0]) && IsDigit(s[|s| - 1]);
      TrimNoSpace(s);
    }
  }

  /**
   * The number shown in the message does not depend on whether the stored number was
   * normalised first: it reads the same from the raw and from the gateway form.
   */
  lemma MessagePhoneOfBlastPhone(telepon: string)
    ensures MessagePhone(BlastPhone(telepon)) == MessagePhone(telepon)
  {
    var b := BlastPhone(telepon);
    var t := Trim(telepon);
    DigitsHaveNoSpace(b);
    DigitsOnlyTrim(telepon);
    if StartsWith(t, "0") {
      var tail := DigitsOnly(t[1..]);
      DigitsOnlyAppend("62", t[1..]);
      assert b == "62" + tail;
      assert t == "0" + t[1..];
      DigitsOnlyAppend("0", t[1..]);
      assert DigitsOnly(t) == "0" + tail;
      assert b[2..] == tail;
    }
  }

  // ---------------------------------------------------------------- personalisation

  /**
   * The message for one customer: case-sensitive `replaceAll` of `{nama}`, `{telepon}` and
   * `{email}`, in that order, each with the field as replacement string (so its '$'
   * patterns are expanded); a NULL field gives "".
   */
  function Personalize(message: string, nama: string, telepon: string, email: string): (r: string)
    ensures (!Contains(message, "{nama}") && !Contains(message, "{telepon}") && !Contains(message, "{email}"))
      ==> r == message
  {
    ReplaceAll(ReplaceAll(ReplaceAll(message, "{nama}", nama), "{telepon}", telepon), "{email}", email)
  }

  /**
   * A name placeholder alone becomes the substitution of the name for it, with nothing
   * around it, when that holds no other placeholder; without '$' it is the name.
   */
  lemma PersonalizeName(nama: string, telepon: string, email: string)
    requires !Contains(Substitution(nama, "{nama}", "", ""), "{telepon}")
    requires !Contains(Substitution(nama, "{nama}", "", ""), "{email}")
    ensures Personalize("{nama}", nama, telepon, email) == Substitution(nama, "{nama}", "", "")
    ensures NoDollar(nama) ==> Personalize("{nama}", nama, telepon, email) == nama
  {
    var m := "{nama}";
    var shown := Substitution(nama, m, "", "");
    assert !Contains("" + m[..|m| - 1], m);
    ReplaceAllFirst("", "", m, nama);
    assert "" + m + "" == m && "" + shown + "" == shown;
    assert ReplaceRest("" + m, "", m, nama) == "";
  }

  /**
   * One `{nama}` in text without '{' is replaced by the substitution of the name for it,
   * with the text around it as context, and nothing else changes, when the name has no
   * '{' either; the other two placeholders find nothing to replace.
   */
  lemma PersonalizeOneName(a: string, b: string, nama: string, telepon: string, email: string)
    requires Broadcasts.NoBrace(a) && Broadcasts.NoBrace(b) && Broadcasts.NoBrace(nama)
    ensures Personalize(a + "{nama}" + b, nama, telepon, email) == a + Substitution(nama, "{nama}", a, b) + b
    ensures NoDollar(nama) ==> Personalize(a + "{nama}" + b, nama, telepon, email) == a + nama + b
  {
    var m := "{nama}";
    var t := a + m[..|m| - 1];
    forall i | 0 <= i && i + |m| <= |t| ensures t[i] != m[0] {
      assert t[i] == a[i];
    }
    AbsentCharNoContains(t, m);
    ReplaceAllFirst(a, b, m, nama);
    AbsentCharNoContains(b, m);
    ReplaceRestUnmatched(a + m, b, m, nama);
    var sub := Substitution(nama, m, a, b);
    Broadcasts.LowerUnchanged(m);
    Broadcasts.PlaceholderOpensName(m);
    Broadcasts.SubstitutionOpensName(nama, m, a, b);
    Broadcasts.BracesOpenNameAppend(a, sub);
    Broadcasts.BracesOpenNameAppend(a + sub, b);
    Broadcasts.OnlyNameLeft(a + sub + b, telepon, email);
  }

  /** The '$' patterns of the name are expanded: "$&" puts the placeholder back, "$$" is one '$'. */
  lemma DollarPatternsExpanded(telepon: string, email: string)
    ensures Personalize("{nama}", "$&", telepon, email) == "{nama}"
    ensures Personalize("{nama}", "$$", telepon, email) == "$"
  {
    SubstitutionPatterns("{nama}", "", "");
    assert "" + "{nama}" + "" == "{nama}";
    PersonalizeOneName("", "", "$&", telepon, email);
    PersonalizeOneName("", "", "$$", telepon, email);
  }

  /**
   * No placeholder survives when no field can rebuild one: each non-empty field has no
   * '$' and shares no character with the placeholders replaced before or with it.
   */
  lemma PersonalizeLeavesNoPlaceholder(message: string, nama: string, telepon: string, email: string)
    requires NoDollar(nama) && NoDollar(telepon) && NoDollar(email)
    requires |nama| > 0 && Disjoint(nama, "{nama}")
    requires |telepon| > 0 && Disjoint(telepon, "{nama}") && Disjoint(telepon, "{telepon}")
    requires |email| > 0 && Disjoint(email, "{nama}") && Disjoint(email, "{telepon}") && Disjoint(email, "{email}")
    ensures var r := Personalize(message, nama, telepon, email);
      !Contains(r, "{nama}") && !Contains(r, "{telepon}") && !Contains(r, "{email}")
  {
    var a := ReplaceAll(message, "{nama}", nama);
    var b := ReplaceAll(a, "{telepon}", telepon);
    ReplaceAllLeavesNone(message, "{nama}", nama, "{nama}");
    ReplaceAllLeavesNone(a, "{telepon}", telepon, "{nama}");
    ReplaceAllLeavesNone(a, "{telepon}", telepon, "{telepon}");
    ReplaceAllLeavesNone(b, "{email}", email, "{nama}");
    ReplaceAllLeavesNone(b, "{email}", email, "{telepon}");
    ReplaceAllLeavesNone(b, "{email}", email, "{email}");
  }

  /**
   * Upper-case placeholders stay in the text, whereas the broadcast service's
   * personalisation replaces them.
   */
  lemma UpperCasePlaceholderKept(c: Broadcasts.Customer)
    requires Broadcasts.NoBrace(c.nama)
    ensures Personalize("{NAMA}", c.nama, c.telepon, c.email) == "{NAMA}"
    ensures Broadcasts.Personalize("{NAMA}", c) == Substitution(c.nama, "{NAMA}", "", "")
    ensures NoDollar(c.nama) ==> Broadcasts.Personalize("{NAMA}", c) == c.nama
  {
    var s := "{NAMA}";
    NoPairNoContains(s, "{nama}");
    AbsentCharNoContains(s, "{telepon}");
    AbsentCharNoContains(s, "{email}");
    Broadcasts.PersonalizeIgnoresCase(c);
  }

  // ---------------------------------------------------------------- media

  datatype MediaKind = Image | Video | Document

  const ImageExtensions: seq<string> := [".jpg", ".jpeg", ".png", ".webp"]
  const VideoExtensions: seq<string> := [".mp4", ".mov", ".3gp"]
  const DocumentMimetype := "application/octet-stream"

  /** The media type chosen from the lower-cased extension of the media path. */
  function MediaKindOf(mediaPath: string): (k: MediaKind)
    ensures k == Image <==> ToLower(Paths.Extname(mediaPath)) in ImageExtensions
    ensures k == Video <==> ToLower(Paths.Extname(mediaPath)) in VideoExtensions
  {
    var ext := ToLower(Paths.Extname(mediaPath));
    if ext in ImageExtensions then Image
    else if ext in VideoExtensions then Video
    else Document
  }

  /** What is handed to the socket: a text, or a media file with its extra fields. */
  datatype Payload =
    | TextPayload(text: string)
    | MediaPayload(kind: MediaKind, file: string, caption: Option<string>,
                   mimetype: Option<string>, fileName: Option<string>)

  /**
   * `buildMediaMessage`: the file under the working directory, a caption for images
   * and videos only, and a generic MIME type and the base name for documents.
   */
  function BuildMediaMessage(mediaPath: string, caption: string): (p: Payload)
    ensures p.MediaPayload? && p.kind == MediaKindOf(mediaPath) && p.file == mediaPath
    ensures p.caption.Some? <==> p.kind != Document
    ensures p.caption.Some? ==> p.caption.value == caption
    ensures p.kind == Document <==> p.mimetype == Some(DocumentMimetype)
    ensures p.fileName.Some? <==> p.kind == Document
    ensures p.fileName.Some? ==> p.fileName.value == Paths.Basename(mediaPath)
  {
    var kind := MediaKindOf(mediaPath);
    if kind != Document then MediaPayload(kind, mediaPath, Some(caption), None, None)
    else MediaPayload(kind, mediaPath, None, Some(DocumentMimetype), Some(Paths.Basename(mediaPath)))
  }

  /**
   * The type depends only on the extension, in any letter case: a plain file name
   * with extension `ext` is an image iff `ext` lower-cased is one of the image
   * extensions (".gif" is not among them and goes out as a document).
   */
  lemma KindOfFileName(stem: string, ext: string)
    requires |stem| > 0 && stem[0] != '.'
    requires forall i :: 0 <= i < |stem| ==> stem[i] != '/'
    requires |ext| > 0 && ext[0] == '.'
    requires forall i :: 0 <= i < |ext| ==> ext[i] != '/'
    requires forall i :: 1 <= i < |ext| ==> ext[i] != '.'
    ensures MediaKindOf(stem + ext) == Image <==> ToLower(ext) in ImageExtensions
    ensures MediaKindOf(stem + ext) == Video <==> ToLower(ext) in VideoExtensions
    ensures ToLower(ext) == ".gif" ==> MediaKindOf(stem + ext) == Document
  {
    Paths.ExtnameOfSuffix(stem, ext);
    if ToLower(ext) == ".gif" {
      GifNotListed();
    }
  }

  /** ".gif" is neither an image nor a video extension. */
  lemma GifNotListed()
    ensures ".gif" !in ImageExtensions && ".gif" !in VideoExtensions
  {
    var g := ".gif";
    assert g[1] == 'g';
    assert forall e :: e in ImageExtensions ==> |e| > 1 && e[1] != 'g';
    assert forall e :: e in VideoExtensions ==> |e| > 1 && e[1] != 'g';
  }

  /** The payload of every attempt: the media message when a media path is given, else the text. */
  function PayloadFor(mediaPath: string, text: string): (p: Payload)
    ensures p.TextPayload? <==> mediaPath == ""
    ensures p.TextPayload? ==> p.text == text
    ensures p.MediaPayload? && p.kind != Document ==> p.caption == Some(text)
  {
    if mediaPath != "" then BuildMediaMessage(mediaPath, text) else TextPayload(text)
  }

  // ---------------------------------------------------------------- retry

  /** The result of one attempt: the send (and its log write) went through, or it threw. */
  datatype Attempt = Delivered | Threw(error: string)

  /** What the first and, if it comes to that, the second attempt for one recipient would do. */
  datatype Outcomes = Outcomes(first: Attempt, second: Attempt) {
    /** The outcome of attempt number `i` (counted from 0). */
    function At(i: nat): Attempt {
      if i == 0 then first else second
    }
  }

  /** What one recipient's log row is made of. */
  datatype Target = Target(umkmId: nat, broadcastId: string, phone: string, message: string, mediaUrl: string)

  /** The row written after a successful attempt: it carries the media and the send time. */
  function SentRow(t: Target, now: int): (r: LogRow)
    ensures r.status == LogSent && r.sentAt == Some(now) && r.error == "" && r.mediaUrl == t.mediaUrl
  {
    LogRow(t.umkmId, t.broadcastId, t.phone, t.message, LogSent, "", t.mediaUrl, Some(now), now)
  }

  /** The row written after the last failed attempt: the error, and neither media nor send time. */
  function FailedRow(t: Target, error: string, now: int): (r: LogRow)
    ensures r.status == LogFailed && r.sentAt.None? && r.error == error && r.mediaUrl == ""
  {
    LogRow(t.umkmId, t.broadcastId, t.phone, t.message, LogFailed, error, "", None, now)
  }

  /** The one row a recipient ends with, given the outcomes of its attempts. */
  function RowOf(t: Target, o: Outcomes, now: int): LogRow {
    if o.first.Delivered? || o.second.Delivered? then SentRow(t, now)
    else FailedRow(t, o.second.error, now)
  }

  /**
   * The row names the recipient and carries the personalised message; it is 'sent'
   * exactly when one of the two attempts went through, and otherwise 'failed' with
   * the error of the second attempt.
   */
  lemma RowOfFields(t: Target, o: Outcomes, now: int)
    ensures var r := RowOf(t, o, now);
      && r.umkmId == t.umkmId && r.broadcastId == t.broadcastId && r.phone == t.phone
      && r.message == t.message
      && (r.status == LogSent <==> o.first.Delivered? || o.second.Delivered?)
      && (r.status == LogFailed <==> !(o.first.Delivered? || o.second.Delivered?))
      && (r.status == LogFailed ==> r.error == o.second.error)
  {
  }

  /** The number of attempts one recipient takes. */
  function AttemptsOf(o: Outcomes): (n: nat)
    ensures 1 <= n <= MaxAttempts
    ensures n == 1 <==> o.first.Delivered?
  {
    if o.first.Delivered? then 1 else 2
  }

  /** The number of failed attempts among those taken. */
  function FailuresOf(o: Outcomes): (n: nat)
    ensures n <= AttemptsOf(o)
    ensures n == AttemptsOf(o) <==> !(o.first.Delivered? || o.second.Delivered?)
  {
    if o.first.Delivered? then 0 else if o.second.Delivered? then 1 else 2
  }

  /** `k` pauses of 1500 ms. */
  function RetryPauses(k: nat): (r: seq<nat>)
    ensures |r| == k && forall i :: 0 <= i < k ==> r[i] == RetryPauseMs
  {
    seq(k, i => RetryPauseMs)
  }

  /**
   * The attempt loop for one recipient: at most two attempts, stopping at the first
   * success, with a pause after every failed one. Exactly one row is written: 'sent'
   * on success, or 'failed' with the last error once the second attempt has failed.
   */
  method Retry(t: Target, o: Outcomes, now: int)
    returns (logs: seq<LogRow>, attempts: nat, pauses: seq<nat>)
    ensures logs == [RowOf(t, o, now)]
    ensures attempts == AttemptsOf(o)
    ensures pauses == RetryPauses(FailuresOf(o))
  {
    var retries: nat := 0;
    var sent := false;
    logs, attempts, pauses := [], 0, [];
    while retries < MaxAttempts && !sent
      invariant retries <= MaxAttempts
      invariant attempts == retries + (if sent then 1 else 0)
      invariant sent ==> retries < MaxAttempts && o.At(retries).Delivered?
      invariant forall k :: 0 <= k < retries ==> o.At(k).Threw?
      invariant pauses == RetryPauses(retries)
      invariant logs == (if sent then [SentRow(t, now)]
                         else if retries == MaxAttempts then [FailedRow(t, o.At(1).error, now)]
                         else [])
      decreases MaxAttempts - retries, if sent then 0 else 1
    {
      attempts := attempts + 1;
      match o.At(retries)
      case Delivered =>
        logs := logs + [SentRow(t, now)];
        sent := true;
      case Threw(error) =>
        retries := retries + 1;
        if retries >= MaxAttempts {
          logs := logs + [FailedRow(t, error, now)];
        }
        pauses := pauses + [RetryPauseMs];
    }
    assert o.At(0) == o.first && o.At(1) == o.second;
  }

  // ---------------------------------------------------------------- throttle

  /** The random part of one pause, in whole milliseconds. */
  type Offset = r: nat | r < JitterSpanMs

  /** `Math.floor(Math.random() * 4000)` for the random value `u` in [0, 1). */
  function RandomOffset(u: real): (r: Offset)
    requires 0.0 <= u < 1.0
  {
    assert u * JitterSpanMs as real < JitterSpanMs as real;
    (u * JitterSpanMs as real).Floor
  }

  /** Every offset in the range occurs for some random value. */
  lemma RandomOffsetCoversRange(k: nat)
    requires k < JitterSpanMs
    ensures RandomOffset(k as real / JitterSpanMs as real) == k
  {
    var u := k as real / JitterSpanMs as real;
    assert u * JitterSpanMs as real == k as real;
  }

  /** The pause after a recipient: the configured delay plus a random offset below 4000 ms. */
  function Jitter(delayMs: nat, r: Offset): (d: nat)
    ensures delayMs <= d <= delayMs + JitterSpanMs - 1
  {
    delayMs + r
  }

  // ---------------------------------------------------------------- the blast

  /** What happened for one recipient: the address, the payload, the attempts and the pauses. */
  datatype Visit = Visit(jid: string, payload: Payload, attempts: nat, retryPauses: seq<nat>, delayAfter: nat)

  /** The rows written, the recipients visited, and the error that ended the call, if any. */
  datatype BlastRun = BlastRun(logs: seq<LogRow>, visits: seq<Visit>, error: Option<string>)

  /** The row data for a customer with a phone. */
  function TargetFor(c: Contact, umkmId: nat, broadcastId: string, message: string, mediaUrl: string): (t: Target)
    requires c.telepon.Some?
  {
    Target(umkmId, broadcastId, BlastPhone(c.telepon.value),
           Personalize(message, c.nama, MessagePhone(c.telepon.value), c.email), mediaUrl)
  }

  /** The first index whose phone is NULL, or the length when there is none. */
  function FirstNullPhone(cs: seq<Contact>): (n: nat)
    ensures n <= |cs|
    ensures forall i :: 0 <= i < n ==> cs[i].telepon.Some?
    ensures n < |cs| ==> cs[n].telepon.None?
  {
    if |cs| == 0 || cs[0].telepon.None? then 0 else 1 + FirstNullPhone(cs[1..])
  }

  /** The parameters of one `sendBlastToAll` call, with its oracles. */
  datatype Call = Call(umkmId: nat, message: string, mediaUrl: string, delayMs: nat, broadcastId: string,
                       outcomes: nat -> Outcomes, draw: nat -> Offset, clock: nat -> int)

  /** The row the `k`-th recipient ends with. */
  function RowAt(call: Call, list: seq<Contact>, k: nat): LogRow
    requires k < |list| && list[k].telepon.Some?
  {
    RowOf(TargetFor(list[k], call.umkmId, call.broadcastId, call.message, call.mediaUrl), call.outcomes(k), call.clock(k))
  }

  /** The visit of the `k`-th recipient: its address, payload, attempts and pauses. */
  function VisitAt(call: Call, list: seq<Contact>, k: nat): Visit
    requires k < |list| && list[k].telepon.Some?
  {
    VisitOf(TargetFor(list[k], call.umkmId, call.broadcastId, call.message, call.mediaUrl),
            call.outcomes(k), call.delayMs, call.draw(k))
  }

  /** The visit of a recipient given its row data, the outcomes of its attempts and its random value. */
  function VisitOf(t: Target, o: Outcomes, delayMs: nat, u: Offset): Visit {
    Visit(Jid(t.phone), PayloadFor(t.mediaUrl, t.message), AttemptsOf(o), RetryPauses(FailuresOf(o)), Jitter(delayMs, u))
  }

  /**
   * `sendBlastToAll`. An empty selection throws before any send. Otherwise each
   * recipient, in order, gets its attempts, exactly one row under the call's
   * `broadcastId`, and then a random pause; a NULL phone throws at that recipient
   * and the rows already written stay. `outcomes(i)` gives the outcomes of the
   * attempts for the `i`-th recipient, `draw(i)` the random offset of the pause after it, and
   * `clock(i)` the time of its row.
   */
  method SendBlastToAll(contacts: seq<Contact>, selectedIds: seq<int>, call: Call)
    returns (r: BlastRun)
    ensures var list := SelectContacts(contacts, call.umkmId, selectedIds);
      && (r.error == Some(NoContacts) <==> |list| == 0)
      && (|list| == 0 ==> r.logs == [] && r.visits == [])
      && (|list| > 0 ==> |r.logs| == |r.visits| == FirstNullPhone(list))
      && (|list| > 0 ==> (r.error.None? <==> |r.logs| == |list|))
      && (r.error.Some? && |list| > 0 ==> r.error.value == NullTelepon)
    ensures forall k :: 0 <= k < |r.logs| ==>
      r.logs[k].broadcastId == call.broadcastId && r.logs[k].umkmId == call.umkmId
    ensures var list := SelectContacts(contacts, call.umkmId, selectedIds);
      forall k :: 0 <= k < |r.logs| ==>
        (k < |list| && list[k].telepon.Some? && r.logs[k] == RowAt(call, list, k))
    ensures var list := SelectContacts(contacts, call.umkmId, selectedIds);
      forall k :: 0 <= k < |r.visits| ==>
        (k < |list| && list[k].telepon.Some? && r.visits[k] == VisitAt(call, list, k))
  {
    var list := SelectContacts(contacts, call.umkmId, selectedIds);
    if |list| == 0 {
      return BlastRun([], [], Some(NoContacts));
    }
    r := VisitAll(list, call);
  }

  /** The recipient loop of `sendBlastToAll`, over a non-empty list. */
  method VisitAll(list: seq<Contact>, call: Call) returns (r: BlastRun)
    requires |list| > 0
    ensures |r.logs| == |r.visits| == FirstNullPhone(list)
    ensures r.error.None? <==> |r.logs| == |list|
    ensures r.error.Some? ==> r.error.value == NullTelepon
    ensures forall k :: 0 <= k < |r.logs| ==>
      r.logs[k].broadcastId == call.broadcastId && r.logs[k].umkmId == call.umkmId
    ensures forall k :: 0 <= k < |r.logs| ==>
      (k < |list| && list[k].telepon.Some? && r.logs[k] == RowAt(call, list, k))
    ensures forall k :: 0 <= k < |r.visits| ==>
      (k < |list| && list[k].telepon.Some? && r.visits[k] == VisitAt(call, list, k))
  {
    var logs: seq<LogRow> := [];
    var visits: seq<Visit> := [];
    var i := 0;
    while i < |list| && list[i].telepon.Some?
      invariant i <= |list|
      invariant forall k :: 0 <= k < i ==> list[k].telepon.Some?
      invariant logs == RowsUpTo(call, list, i) && visits == VisitsUpTo(call, list, i)
    {
      logs, visits := VisitOne(list, call, i, logs, visits);
      i := i + 1;
    }
    FirstNullPhoneAt(list, i);
    RowsUpToKeys(call, list, i);
    r := BlastRun(logs, visits, if i == |list| then None else Some(NullTelepon));
  }

  /** The rows of the first `n` recipients, in order. */
  function RowsUpTo(call: Call, list: seq<Contact>, n: nat): seq<LogRow>
    requires n <= |list| && forall k :: 0 <= k < n ==> list[k].telepon.Some?
  {
    seq(n, k requires 0 <= k < n => RowAt(call, list, k))
  }

  /** The visits of the first `n` recipients, in order. */
  function VisitsUpTo(call: Call, list: seq<Contact>, n: nat): seq<Visit>
    requires n <= |list| && forall k :: 0 <= k < n ==> list[k].telepon.Some?
  {
    seq(n, k requires 0 <= k < n => VisitAt(call, list, k))
  }

  /** The accumulated rows all carry the call's tenant and broadcast id. */
  lemma RowsUpToKeys(call: Call, list: seq<Contact>, n: nat)
    requires n <= |list| && forall k :: 0 <= k < n ==> list[k].telepon.Some?
    ensures forall k :: 0 <= k < n ==>
      RowsUpTo(call, list, n)[k].broadcastId == call.broadcastId && RowsUpTo(call, list, n)[k].umkmId == call.umkmId
  {
    forall k | 0 <= k < n
      ensures RowsUpTo(call, list, n)[k].broadcastId == call.broadcastId && RowsUpTo(call, list, n)[k].umkmId == call.umkmId
    {
      RowAtKeys(call, list, k);
    }
  }

  /** Every row of a call carries the call's tenant and broadcast id. */
  lemma RowAtKeys(call: Call, list: seq<Contact>, k: nat)
    requires k < |list| && list[k].telepon.Some?
    ensures RowAt(call, list, k).broadcastId == call.broadcastId && RowAt(call, list, k).umkmId == call.umkmId
  {
    RowOfFields(TargetFor(list[k], call.umkmId, call.broadcastId, call.message, call.mediaUrl),
                call.outcomes(k), call.clock(k));
  }

  /** One recipient of the loop: its attempts and row, then the visit record. */
  method VisitOne(list: seq<Contact>, call: Call, i: nat, logs: seq<LogRow>, visits: seq<Visit>)
    returns (logs': seq<LogRow>, visits': seq<Visit>)
    requires i < |list| && forall k :: 0 <= k <= i ==> list[k].telepon.Some?
    requires logs == RowsUpTo(call, list, i) && visits == VisitsUpTo(call, list, i)
    ensures logs' == RowsUpTo(call, list, i + 1) && visits' == VisitsUpTo(call, list, i + 1)
  {
    var t := TargetFor(list[i], call.umkmId, call.broadcastId, call.message, call.mediaUrl);
    var rows, attempts, pauses := Retry(t, call.outcomes(i), call.clock(i));
    var row := rows[0];
    var v := Visit(Jid(t.phone), PayloadFor(call.mediaUrl, t.message), attempts, pauses,
                   Jitter(call.delayMs, call.draw(i)));
    assert row == RowAt(call, list, i);
    assert v == VisitAt(call, list, i);
    logs' := logs + [row];
    visits' := visits + [v];
    forall k | 0 <= k < i + 1
      ensures logs'[k] == RowAt(call, list, k) && visits'[k] == VisitAt(call, list, k)
    {
      if k < i {
        assert logs'[k] == logs[k] && visits'[k] == visits[k];
      }
    }
  }

  /** `FirstNullPhone` is the first index without a phone. */
  lemma {:induction false} FirstNullPhoneAt(cs: seq<Contact>, n: nat)
    requires n <= |cs|
    requires forall k :: 0 <= k < n ==> cs[k].telepon.Some?
    requires n < |cs| ==> cs[n].telepon.None?
    ensures FirstNullPhone(cs) == n
    decreases n
  {
    if n > 0 {
      FirstNullPhoneAt(cs[1..], n - 1);
    }
  }

  /** Customers that all have a phone each get exactly one row, sent or failed. */
  lemma OneRowPerRecipient(list: seq<Contact>)
    requires forall k :: 0 <= k < |list| ==> list[k].telepon.Some?
    ensures FirstNullPhone(list) == |list|
  {
    FirstNullPhoneAt(list, |list|);
  }
}

=== FILE: blast_http.dfy ===
/**
 * The blast controller: the request filtering of `blastMessage`, the per-broadcast
 * summary of `getBlastLogs`, the success rate of `getBlastStatistics`, the connection
 * status, the respond-once handshake of `connectBlast`, and `disconnectBlast`.
 */
module BlastHttp {
  import opened Wrappers
  import opened Text
  import opened Decimal
  import opened Numbers
  import Blast
  import BlastPool

  /** A status code and the `message` of the JSON body. */
  datatype Reply = Reply(status: nat, message: string)

  // ---------------------------------------------------------------- blastMessage

  /** The entry converts to an integer: `Number.isInteger(Number(v))`. */
  predicate IntegerEntry(v: JsValue) {
    IsInteger(ToNumber(v))
  }

  /** `.map(Number).filter(Number.isInteger)`: the entries that convert to integers, in order. */
  function IntegerIds(vs: seq<JsValue>): (r: seq<int>)
    ensures |r| <= |vs|
    ensures forall x :: x in r <==> exists v :: v in vs && IntegerEntry(v) && ToNumber(v).x.Floor == x
    decreases |vs|
  {
    if |vs| == 0 then []
    else
      assert vs == [vs[0]] + vs[1..];
      var rest := IntegerIds(vs[1..]);
      if IntegerEntry(vs[0]) then [ToNumber(vs[0]).x.Floor] + rest else rest
  }

  /** The selection handed to the service: None when `customer_ids` is missing or not an array. */
  function SelectedIds(customerIds: Option<seq<JsValue>>): (r: seq<int>)
    ensures customerIds.None? ==> r == []
    ensures customerIds.Some? ==> r == IntegerIds(customerIds.value)
  {
    if customerIds.Some? then IntegerIds(customerIds.value) else []
  }

  /**
   * When no entry converts to an integer the filtered list is empty, and the
   * service then sends to every customer of the tenant instead of to nobody.
   */
  lemma NoValidIdsSelectsEveryone(contacts: seq<Blast.Contact>, umkmId: nat, vs: seq<JsValue>)
    requires forall v :: v in vs ==> !IntegerEntry(v)
    ensures forall c :: c in Blast.SelectContacts(contacts, umkmId, SelectedIds(Some(vs))) <==>
      c in contacts && c.umkmId == umkmId
  {
    NoIntegerEntries(vs);
  }

  lemma {:induction false} NoIntegerEntries(vs: seq<JsValue>)
    requires forall v :: v in vs ==> !IntegerEntry(v)
    ensures IntegerIds(vs) == []
    decreases |vs|
  {
    if |vs| > 0 {
      assert vs[0] in vs;
      NoIntegerEntries(vs[1..]);
    }
  }

  /** An id sent as text, such as "7", selects that customer. */
  lemma TextIdSelects(n: nat)
    ensures IntegerIds([JString(NatToString(n))]) == [n]
  {
    NatToStringRead(n);
  }

  /**
   * An id written with a fraction selects its whole part when the fraction digits are all
   * zero ("7.0" selects 7) and is dropped otherwise ("7.5").
   */
  lemma FractionIdSelects(a: string, b: string)
    requires |a| > 0 && AllDigits(a) && AllDigits(b)
    ensures IntegerIds([JString(a + "." + b)]) == if DigitsValue(b) == 0 then [DigitsValue(a)] else []
  {
    FractionInteger(a, b);
  }

  /** An id wrapped in a one-entry array, such as `[7]` or `["7"]`, selects as the entry does. */
  lemma WrappedIdSelects(v: JsValue)
    requires !v.JBool?
    ensures IntegerIds([JArray([v])]) == IntegerIds([v])
  {
    SingletonArray(v);
  }

  /** Text holding a ',', such as "1,2", adds nobody. */
  lemma TextWithCommaDropped(s: string, i: nat)
    requires i < |s| && s[i] == ','
    ensures IntegerIds([JString(s)]) == []
  {
    CommaIsNaN(s, i);
  }

  const MessageRequired := "Pesan wajib diisi"
  const BlastSent := "Pesan blast berhasil dikirim"

  /**
   * `blastMessage`: a missing message fails with 500 before a socket is taken;
   * otherwise the tenant's socket is fetched or created and the blast runs with
   * the 4000 ms base delay; any error the blast throws becomes a 500 with its message.
   */
  method BlastMessage(p: BlastPool.Pool, contacts: seq<Blast.Contact>, umkmId: nat, message: string,
                      mediaUrl: string, customerIds: Option<seq<JsValue>>, broadcastId: string,
                      outcomes: nat -> Blast.Outcomes, draw: nat -> Blast.Offset, clock: nat -> int, now: int)
    returns (reply: Reply, q: BlastPool.Pool, run: Option<Blast.BlastRun>)
    ensures message == "" ==> reply == Reply(500, MessageRequired) && q == p && run.None?
    ensures message != "" ==> q == BlastPool.GetSocketInstance(p, umkmId, now).0 && run.Some?
    ensures run.Some? ==>
      var list := Blast.SelectContacts(contacts, umkmId, SelectedIds(customerIds));
      var call := Blast.Call(umkmId, message, mediaUrl, Blast.DefaultDelayMs, broadcastId, outcomes, draw, clock);
      && (run.value.error == Some(Blast.NoContacts) <==> |list| == 0)
      && (|list| > 0 ==> |run.value.logs| == |run.value.visits| == Blast.FirstNullPhone(list))
      && (run.value.error.None? <==> |list| > 0 && |run.value.logs| == |list|)
      && (forall k :: 0 <= k < |run.value.logs| ==>
            k < |list| && list[k].telepon.Some? && run.value.logs[k] == Blast.RowAt(call, list, k))
      && (forall k :: 0 <= k < |run.value.visits| ==>
            k < |list| && list[k].telepon.Some? && run.value.visits[k] == Blast.VisitAt(call, list, k))
      && |run.value.logs| <= |list|
      && (forall k :: 0 <= k < |run.value.logs| ==> run.value.logs[k].broadcastId == broadcastId)
      && (forall k :: 0 <= k < |run.value.visits| ==>
            Blast.DefaultDelayMs <= run.value.visits[k].delayAfter <= Blast.DefaultDelayMs + 3999)
    ensures reply.status == 200 <==> run.Some? && run.value.error.None?
    ensures run.Some? && run.value.error.Some? ==> reply == Reply(500, run.value.error.value)
    ensures reply.status == 200 ==> reply.message == BlastSent
  {
    if message == "" {
      return Reply(500, MessageRequired), p, None;
    }
    var selected := SelectedIds(customerIds);
    var (pool, sock) := BlastPool.GetSocketInstance(p, umkmId, now);
    q := pool;
    var call := Blast.Call(umkmId, message, mediaUrl, Blast.DefaultDelayMs, broadcastId, outcomes, draw, clock);
    var r := Blast.SendBlastToAll(contacts, selected, call);
    var list := Blast.SelectContacts(contacts, umkmId, selected);
    forall k | 0 <= k < |r.visits|
      ensures Blast.DefaultDelayMs <= r.visits[k].delayAfter <= Blast.DefaultDelayMs + 3999
    {
      assert r.visits[k] == Blast.VisitAt(call, list, k);
    }
    run := Some(r);
    if r.error.Some? {
      reply := Reply(500, r.error.value);
    } else {
      reply := Reply(200, BlastSent);
    }
  }

  // ---------------------------------------------------------------- getBlastLogs

  /** The `status` of a broadcast summary. */
  datatype GroupStatus = GroupFailed | GroupSuccess | GroupPartial | GroupInProgress | GroupDone

  /** One broadcast summary: the header from its first row and the counts of its rows. */
  datatype Group = Group(broadcastId: string, isiPesan: string, tanggal: int, mediaUrl: string,
                         total: nat, sent: nat, pending: nat, failed: nat)

  /** The number of rows of broadcast `id`. */
  function CountId(logs: seq<Blast.LogRow>, id: string): (n: nat)
    ensures n <= |logs|
  {
    if |logs| == 0 then 0
    else CountId(logs[..|logs| - 1], id) + (if logs[|logs| - 1].broadcastId == id then 1 else 0)
  }

  /** The number of rows of broadcast `id` with status `st`. */
  function CountIdStatus(logs: seq<Blast.LogRow>, id: string, st: Blast.LogStatus): (n: nat)
    ensures n <= CountId(logs, id)
  {
    if |logs| == 0 then 0
    else
      var last := logs[|logs| - 1];
      CountIdStatus(logs[..|logs| - 1], id, st) + (if last.broadcastId == id && last.status == st then 1 else 0)
  }

  /** The first row of broadcast `id`, or `|logs|` when it has none. */
  function FirstIndex(logs: seq<Blast.LogRow>, id: string): (r: nat)
    ensures r <= |logs|
    ensures r < |logs| ==> logs[r].broadcastId == id
    decreases |logs|
  {
    if |logs| == 0 then 0
    else if logs[0].broadcastId == id then 0
    else 1 + FirstIndex(logs[1..], id)
  }

  /** A row of `id` with no earlier row of `id` is the first one. */
  lemma {:induction false} FirstIndexAt(logs: seq<Blast.LogRow>, id: string, i: nat)
    requires i < |logs| && logs[i].broadcastId == id
    requires forall k :: 0 <= k < i ==> logs[k].broadcastId != id
    ensures FirstIndex(logs, id) == i
    decreases i
  {
    if i > 0 {
      FirstIndexAt(logs[1..], id, i - 1);
    }
  }

  /** The summary a row opens: its message (or "-"), its send or creation time, its media. */
  function Opened(row: Blast.LogRow): (g: Group)
    ensures g.broadcastId == row.broadcastId && g.total == 0
  {
    Group(row.broadcastId, if row.message == "" then "-" else row.message,
          row.sentAt.GetOr(row.createdAt), row.mediaUrl, 0, 0, 0, 0)
  }

  /** A summary with its counts cleared: the part taken from the first row. */
  function HeaderOf(g: Group): Group {
    g.(total := 0, sent := 0, pending := 0, failed := 0)
  }

  /** One row counted into its summary. */
  function Count(g: Group, row: Blast.LogRow): (r: Group)
    ensures HeaderOf(r) == HeaderOf(g) && r.total == g.total + 1
  {
    g.(total := g.total + 1,
       sent := g.sent + (if row.status == Blast.LogSent then 1 else 0),
       pending := g.pending + (if row.status == Blast.LogPending then 1 else 0),
       failed := g.failed + (if row.status == Blast.LogFailed then 1 else 0))
  }

  /** The position of the summary of broadcast `id`, or -1. */
  function GroupIndex(groups: seq<Group>, id: string): (r: int)
    ensures -1 <= r < |groups|
    ensures r >= 0 ==> groups[r].broadcastId == id
    ensures r == -1 ==> forall j :: 0 <= j < |groups| ==> groups[j].broadcastId != id
    decreases |groups|
  {
    if |groups| == 0 then -1
    else if groups[|groups| - 1].broadcastId == id then |groups| - 1
    else GroupIndex(groups[..|groups| - 1], id)
  }

  /** The broadcast ids of the summaries, in order. */
  function IdsOf(groups: seq<Group>): (ids: seq<string>)
    ensures |ids| == |groups|
  {
    seq(|groups|, j requires 0 <= j < |groups| => groups[j].broadcastId)
  }

  /** The summary's counts are those of broadcast `id` in `logs`. */
  predicate Counted(g: Group, logs: seq<Blast.LogRow>) {
    && g.total == CountId(logs, g.broadcastId)
    && g.sent == CountIdStatus(logs, g.broadcastId, Blast.LogSent)
    && g.pending == CountIdStatus(logs, g.broadcastId, Blast.LogPending)
    && g.failed == CountIdStatus(logs, g.broadcastId, Blast.LogFailed)
  }

  /** Counting one more row keeps every summary's counts right. */
  lemma CountedStep(g: Group, logs: seq<Blast.LogRow>, row: Blast.LogRow)
    requires Counted(g, logs)
    ensures row.broadcastId == g.broadcastId ==> Counted(Count(g, row), logs + [row])
    ensures row.broadcastId != g.broadcastId ==> Counted(g, logs + [row])
  {
    assert (logs + [row])[..|logs|] == logs;
  }

  /** One pass of the loop body: count the row into its summary, opening one if needed. */
  function AddRow(groups: seq<Group>, row: Blast.LogRow): seq<Group> {
    var k := GroupIndex(groups, row.broadcastId);
    if k == -1 then groups + [Count(Opened(row), row)] else groups[k := Count(groups[k], row)]
  }

  /** A row of a known broadcast leaves the ids alone; a new one appends its id. */
  lemma AddRowIds(groups: seq<Group>, row: Blast.LogRow)
    ensures row.broadcastId in IdsOf(groups) ==> IdsOf(AddRow(groups, row)) == IdsOf(groups)
    ensures row.broadcastId !in IdsOf(groups) ==>
      IdsOf(AddRow(groups, row)) == IdsOf(groups) + [row.broadcastId]
  {
    var ids := IdsOf(groups);
    var k := GroupIndex(groups, row.broadcastId);
    if k == -1 {
      assert row.broadcastId !in ids by {
        forall j | 0 <= j < |ids| ensures ids[j] != row.broadcastId {
          assert ids[j] == groups[j].broadcastId;
        }
      }
    } else {
      assert ids[k] == row.broadcastId;
      var r := AddRow(groups, row);
      assert IdsOf(r) == ids by {
        forall j | 0 <= j < |ids| ensures IdsOf(r)[j] == ids[j] {
          assert HeaderOf(r[k]) == HeaderOf(groups[k]);
        }
      }
    }
  }

  /**
   * What the loop keeps about the ids after `i` rows: each is listed once, every row
   * seen so far has its id listed, and the ids come in order of first appearance.
   */
  ghost predicate IdsCover(ids: seq<string>, logs: seq<Blast.LogRow>, i: nat) {
    && i <= |logs|
    && (forall a, b :: 0 <= a < b < |ids| ==> ids[a] != ids[b])
    && (forall k :: 0 <= k < i ==> logs[k].broadcastId in ids)
    && (forall j :: 0 <= j < |ids| ==> FirstIndex(logs, ids[j]) < i)
    && (forall a, b :: 0 <= a < b < |ids| ==> FirstIndex(logs, ids[a]) < FirstIndex(logs, ids[b]))
  }

  /** The id bookkeeping survives one more row. */
  lemma IdsStep(ids: seq<string>, logs: seq<Blast.LogRow>, i: nat)
    requires IdsCover(ids, logs, i) && i < |logs|
    ensures logs[i].broadcastId in ids ==> IdsCover(ids, logs, i + 1)
    ensures logs[i].broadcastId !in ids ==>
      FirstIndex(logs, logs[i].broadcastId) == i && IdsCover(ids + [logs[i].broadcastId], logs, i + 1)
  {
    var id := logs[i].broadcastId;
    if id !in ids {
      IdsStepNew(ids, logs, i);
    } else {
      assert IdsCover(ids, logs, i + 1) by {
        assert forall k :: 0 <= k < i + 1 ==> logs[k].broadcastId in ids;
      }
    }
  }

  lemma IdsStepNew(ids: seq<string>, logs: seq<Blast.LogRow>, i: nat)
    requires IdsCover(ids, logs, i) && i < |logs| && logs[i].broadcastId !in ids
    ensures FirstIndex(logs, logs[i].broadcastId) == i
    ensures IdsCover(ids + [logs[i].broadcastId], logs, i + 1)
  {
    var id := logs[i].broadcastId;
    assert FirstIndex(logs, id) == i by {
      forall k | 0 <= k < i ensures logs[k].broadcastId != id {
        assert logs[k].broadcastId in ids;
      }
      FirstIndexAt(logs, id, i);
    }
    IdsAppend(ids, logs, i, id);
  }

  /** Appending the id whose first row is row `i` extends the bookkeeping to `i + 1` rows. */
  lemma IdsAppend(ids: seq<string>, logs: seq<Blast.LogRow>, i: nat, id: string)
    requires IdsCover(ids, logs, i) && i < |logs| && logs[i].broadcastId == id && id !in ids
    requires FirstIndex(logs, id) == i
    ensures IdsCover(ids + [id], logs, i + 1)
  {
    var ids' := ids + [id];
    assert forall a, b :: 0 <= a < b < |ids'| ==> ids'[a] != ids'[b] by {
      forall a, b | 0 <= a < b < |ids'| ensures ids'[a] != ids'[b] {
        assert ids'[a] == ids[a];
      }
    }
    assert forall k :: 0 <= k < i + 1 ==> logs[k].broadcastId in ids' by {
      forall k | 0 <= k < i + 1 ensures logs[k].broadcastId in ids' {
        if k < i { assert logs[k].broadcastId in ids; }
      }
    }
    assert forall j :: 0 <= j < |ids'| ==> FirstIndex(logs, ids'[j]) < i + 1 by {
      forall j | 0 <= j < |ids'| ensures FirstIndex(logs, ids'[j]) < i + 1 {
        if j < |ids| { assert ids'[j] == ids[j]; }
      }
    }
    IdsAppendOrdered(ids, logs, i, id);
  }

  /** The new id has the latest first row, so first appearances stay in order. */
  lemma IdsAppendOrdered(ids: seq<string>, logs: seq<Blast.LogRow>, i: nat, id: string)
    requires forall j :: 0 <= j < |ids| ==> FirstIndex(logs, ids[j]) < i
    requires forall a, b :: 0 <= a < b < |ids| ==> FirstIndex(logs, ids[a]) < FirstIndex(logs, ids[b])
    requires FirstIndex(logs, id) == i
    ensures var ids' := ids + [id];
      forall a, b :: 0 <= a < b < |ids'| ==> FirstIndex(logs, ids'[a]) < FirstIndex(logs, ids'[b])
  {
    var ids' := ids + [id];
    forall a, b | 0 <= a < b < |ids'| ensures FirstIndex(logs, ids'[a]) < FirstIndex(logs, ids'[b]) {
      assert ids'[a] == ids[a];
      if b < |ids| {
        assert ids'[b] == ids[b];
      } else {
        assert ids'[b] == id;
      }
    }
  }

  /** Every summary's header is the one its broadcast's first row opened, within the first `i` rows. */
  ghost predicate HeadersFrom(groups: seq<Group>, logs: seq<Blast.LogRow>, i: nat) {
    forall j :: 0 <= j < |groups| ==>
      && FirstIndex(logs, groups[j].broadcastId) < i <= |logs|
      && HeaderOf(groups[j]) == Opened(logs[FirstIndex(logs, groups[j].broadcastId)])
  }

  /** Adding row `i` keeps the headers right: a new summary is opened by row `i` itself. */
  lemma HeadersStep(groups: seq<Group>, logs: seq<Blast.LogRow>, i: nat)
    requires i < |logs| && HeadersFrom(groups, logs, i)
    requires logs[i].broadcastId !in IdsOf(groups) ==> FirstIndex(logs, logs[i].broadcastId) == i
    ensures HeadersFrom(AddRow(groups, logs[i]), logs, i + 1)
  {
    var row := logs[i];
    var k := GroupIndex(groups, row.broadcastId);
    var r := AddRow(groups, row);
    if k == -1 {
      assert row.broadcastId !in IdsOf(groups) by {
        forall j | 0 <= j < |groups| ensures IdsOf(groups)[j] != row.broadcastId {
          assert IdsOf(groups)[j] == groups[j].broadcastId;
        }
      }
    }
    forall j | 0 <= j < |r|
      ensures FirstIndex(logs, r[j].broadcastId) < i + 1 <= |logs|
      ensures HeaderOf(r[j]) == Opened(logs[FirstIndex(logs, r[j].broadcastId)])
    {
      if j < |groups| {
        assert HeaderOf(r[j]) == HeaderOf(groups[j]) by {
          if j != k {
            assert r[j] == groups[j];
          }
        }
        assert r[j].broadcastId == HeaderOf(r[j]).broadcastId;
      } else {
        assert r[j] == Count(Opened(row), row);
      }
    }
  }

  /** Adding a row keeps every summary's counts right, given that unseen ids have no rows yet. */
  lemma CountsStep(groups: seq<Group>, logs: seq<Blast.LogRow>, row: Blast.LogRow)
    requires forall j :: 0 <= j < |groups| ==> Counted(groups[j], logs)
    requires forall k :: 0 <= k < |logs| ==> logs[k].broadcastId in IdsOf(groups)
    requires forall a, b :: 0 <= a < b < |groups| ==> IdsOf(groups)[a] != IdsOf(groups)[b]
    ensures forall j :: 0 <= j < |AddRow(groups, row)| ==> Counted(AddRow(groups, row)[j], logs + [row])
  {
    var k := GroupIndex(groups, row.broadcastId);
    var r := AddRow(groups, row);
    if k == -1 {
      forall n | 0 <= n < |logs| ensures logs[n].broadcastId != row.broadcastId {
        var ids := IdsOf(groups);
        assert logs[n].broadcastId in ids;
        var m :| 0 <= m < |ids| && ids[m] == logs[n].broadcastId;
        assert ids[m] == groups[m].broadcastId;
      }
      CountsOfAbsent(logs, row.broadcastId);
    }
    forall j | 0 <= j < |r| ensures Counted(r[j], logs + [row]) {
      if k == -1 && j == |groups| {
        assert r[j] == Count(Opened(row), row);
        CountedStep(Opened(row), logs, row);
      } else if j == k {
        CountedStep(groups[k], logs, row);
      } else {
        assert r[j] == groups[j];
        assert groups[j].broadcastId != row.broadcastId by {
          if k >= 0 {
            assert IdsOf(groups)[j] == groups[j].broadcastId && IdsOf(groups)[k] == groups[k].broadcastId;
          }
        }
        CountedStep(groups[j], logs, row);
      }
    }
  }

  /** What holds of the summaries after the first `i` rows have been counted. */
  ghost predicate GroupedUpTo(groups: seq<Group>, logs: seq<Blast.LogRow>, i: nat) {
    && IdsCover(IdsOf(groups), logs, i)
    && (forall j :: 0 <= j < |groups| ==> Counted(groups[j], logs[..i]))
    && HeadersFrom(groups, logs, i)
  }

  /** One pass of the loop body keeps `GroupedUpTo`. */
  lemma GroupedStep(groups: seq<Group>, logs: seq<Blast.LogRow>, i: nat)
    requires i < |logs| && GroupedUpTo(groups, logs, i)
    ensures GroupedUpTo(AddRow(groups, logs[i]), logs, i + 1)
  {
    var row := logs[i];
    assert logs[..i + 1] == logs[..i] + [row];
    var ids := IdsOf(groups);
    IdsStep(ids, logs, i);
    AddRowIds(groups, row);
    HeadersStep(groups, logs, i);
    CountsStep(groups, logs[..i], row);
  }

  /**
   * The grouping loop of `getBlastLogs` over rows in newest-first order: one summary
   * per broadcast id, in order of first appearance, whose header comes from the
   * first (newest) row of that id and whose counts are the counts of its rows.
   */
  method GroupLogs(logs: seq<Blast.LogRow>) returns (groups: seq<Group>)
    ensures IdsCover(IdsOf(groups), logs, |logs|)
    ensures forall j :: 0 <= j < |groups| ==> Counted(groups[j], logs)
    ensures HeadersFrom(groups, logs, |logs|)
  {
    groups := [];
    var i := 0;
    while i < |logs|
      invariant i <= |logs| && GroupedUpTo(groups, logs, i)
    {
      GroupedStep(groups, logs, i);
      groups := AddRow(groups, logs[i]);
      i := i + 1;
    }
    assert logs[..|logs|] == logs;
  }

  /** A broadcast id with no rows has zero counts. */
  lemma {:induction false} CountsOfAbsent(logs: seq<Blast.LogRow>, id: string)
    requires forall k :: 0 <= k < |logs| ==> logs[k].broadcastId != id
    ensures CountId(logs, id) == 0
    ensures CountIdStatus(logs, id, Blast.LogSent) == 0 && CountIdStatus(logs, id, Blast.LogPending) == 0
    ensures CountIdStatus(logs, id, Blast.LogFailed) == 0
    decreases |logs|
  {
    if |logs| > 0 {
      CountsOfAbsent(logs[..|logs| - 1], id);
    }
  }

  /**
   * The status rule, checked in this order: every row failed, every row sent, some of
   * each, something still pending, and otherwise the initial "done".
   */
  function StatusOf(g: Group): (s: GroupStatus)
    ensures s == GroupFailed <==> g.failed == g.total
    ensures s == GroupSuccess <==> g.failed != g.total && g.sent == g.total
    ensures s == GroupPartial <==> g.failed != g.total && g.sent != g.total && g.failed > 0 && g.sent > 0
    ensures s == GroupInProgress <==>
      g.failed != g.total && g.sent != g.total && !(g.failed > 0 && g.sent > 0) && g.pending > 0
    ensures s == GroupDone <==>
      g.failed != g.total && g.sent != g.total && !(g.failed > 0 && g.sent > 0) && g.pending == 0
  {
    if g.failed == g.total then GroupFailed
    else if g.sent == g.total then GroupSuccess
    else if g.failed > 0 && g.sent > 0 then GroupPartial
    else if g.pending > 0 then GroupInProgress
    else GroupDone
  }

  /** Every row has one of the three statuses, so the counts add up to the total. */
  lemma {:induction false} StatusCountsAddUp(logs: seq<Blast.LogRow>, id: string)
    ensures CountIdStatus(logs, id, Blast.LogSent) + CountIdStatus(logs, id, Blast.LogPending)
      + CountIdStatus(logs, id, Blast.LogFailed) == CountId(logs, id)
    decreases |logs|
  {
    if |logs| > 0 {
      StatusCountsAddUp(logs[..|logs| - 1], id);
    }
  }

  /** When the counts add up to the total, "done" is never the status. */
  lemma DoneUnreachable(g: Group)
    requires g.sent + g.pending + g.failed == g.total
    ensures StatusOf(g) != GroupDone
  {
  }

  /** So no summary `getBlastLogs` builds reports "done". */
  lemma NoSummaryIsDone(g: Group, logs: seq<Blast.LogRow>)
    requires Counted(g, logs)
    ensures StatusOf(g) != GroupDone
  {
    StatusCountsAddUp(logs, g.broadcastId);
  }

  // ---------------------------------------------------------------- getBlastLogsDetails

  /**
   * `getBlastLogsDetails`: the rows of one broadcast that belong to the caller's
   * tenant, in table (insertion) order.
   */
  function LogsDetails(logs: seq<Blast.LogRow>, broadcastId: string, umkmId: nat): (r: seq<Blast.LogRow>)
    ensures |r| <= |logs|
    ensures forall row :: row in r <==> row in logs && row.broadcastId == broadcastId && row.umkmId == umkmId
  {
    if |logs| == 0 then []
    else
      var last := logs[|logs| - 1];
      assert logs == logs[..|logs| - 1] + [last];
      LogsDetails(logs[..|logs| - 1], broadcastId, umkmId)
        + (if last.broadcastId == broadcastId && last.umkmId == umkmId then [last] else [])
  }

  /**
   * Over the tenant's own rows the detail list of a broadcast has exactly as many rows
   * as its summary in `getBlastLogs` counts.
   */
  lemma {:induction false} DetailsMatchSummary(logs: seq<Blast.LogRow>, broadcastId: string, umkmId: nat)
    requires forall k :: 0 <= k < |logs| ==> logs[k].umkmId == umkmId
    ensures |LogsDetails(logs, broadcastId, umkmId)| == CountId(logs, broadcastId)
    decreases |logs|
  {
    if |logs| > 0 {
      DetailsMatchSummary(logs[..|logs| - 1], broadcastId, umkmId);
    }
  }

  /** Another tenant's broadcast id shows nothing: the tenant filter applies to every row. */
  lemma {:induction false} ForeignBroadcastHidden(logs: seq<Blast.LogRow>, broadcastId: string, umkmId: nat)
    requires forall k :: 0 <= k < |logs| && logs[k].broadcastId == broadcastId ==> logs[k].umkmId != umkmId
    ensures LogsDetails(logs, broadcastId, umkmId) == []
    decreases |logs|
  {
    if |logs| > 0 {
      var init := logs[..|logs| - 1];
      assert forall k :: 0 <= k < |init| ==> init[k] == logs[k];
      ForeignBroadcastHidden(init, broadcastId, umkmId);
    }
  }

  // ---------------------------------------------------------------- getBlastStatistics

  /**
   * `Math.round(sent / (sent + failed) * 100)`, or 0 without any sent or failed row:
   * the nearest whole percentage, halves rounded up.
   */
  function SuccessRate(sent: nat, failed: nat): (r: nat)
    ensures r <= 100
    ensures sent + failed == 0 ==> r == 0
    ensures sent + failed > 0 ==>
      (2 * (sent + failed)) * r <= 200 * sent + (sent + failed) < (2 * (sent + failed)) * (r + 1)
  {
    var n := sent + failed;
    if n == 0 then 0
    else
      RoundedBounds(200 * sent + n, 2 * n, 101);
      (200 * sent + n) / (2 * n)
  }

  /** Integer division brackets the quotient, and a numerator below `d * c` keeps it below `c`. */
  lemma RoundedBounds(a: nat, d: nat, c: nat)
    requires d > 0 && a < d * c
    ensures d * (a / d) <= a < d * (a / d + 1)
    ensures a / d < c
  {
    var q := a / d;
    assert a == d * q + a % d;
    if q >= c {
      MulMonotone(d, c, q);
    }
  }

  lemma MulMonotone(d: nat, c: nat, q: nat)
    requires c <= q
    ensures d * c <= d * q
  {
  }

  /** All sent gives 100; none sent gives 0. */
  lemma SuccessRateExtremes(sent: nat, failed: nat)
    ensures failed == 0 && sent > 0 ==> SuccessRate(sent, failed) == 100
    ensures sent == 0 ==> SuccessRate(sent, failed) == 0
  {
    var r := SuccessRate(sent, failed);
    var n := sent + failed;
    if failed == 0 && sent > 0 && r < 100 {
      MulMonotone(2 * n, r + 1, 100);
      assert false;
    }
    if sent == 0 && n > 0 && r >= 1 {
      MulMonotone(2 * n, 1, r);
      assert false;
    }
  }

  /** The numbers of `getBlastStatistics`, over the tenant's rows. */
  datatype BlastStats = BlastStats(totalBroadcast: nat, totalPenerima: nat, terkirim: nat, gagal: nat, successRate: nat)

  function RowsOf(logs: seq<Blast.LogRow>, umkmId: nat): (r: seq<Blast.LogRow>)
    ensures forall row :: row in r <==> row in logs && row.umkmId == umkmId
    decreases |logs|
  {
    if |logs| == 0 then []
    else
      assert logs == [logs[0]] + logs[1..];
      (if logs[0].umkmId == umkmId then [logs[0]] else []) + RowsOf(logs[1..], umkmId)
  }

  /** How many of `logs` have status `st`, counted from the back. */
  function CountStatus(logs: seq<Blast.LogRow>, st: Blast.LogStatus): (n: nat)
    ensures n <= |logs|
  {
    if |logs| == 0 then 0
    else CountStatus(logs[..|logs| - 1], st) + (if logs[|logs| - 1].status == st then 1 else 0)
  }

  /** The status column of `logs`, row by row. */
  function LogStatuses(logs: seq<Blast.LogRow>): (r: seq<Blast.LogStatus>)
    ensures |r| == |logs| && forall k :: 0 <= k < |logs| ==> r[k] == logs[k].status
  {
    seq(|logs|, k requires 0 <= k < |logs| => logs[k].status)
  }

  /** The count is the multiplicity of the status in the status column. */
  lemma {:induction false} CountStatusMultiset(logs: seq<Blast.LogRow>, st: Blast.LogStatus)
    ensures CountStatus(logs, st) == multiset(LogStatuses(logs))[st]
  {
    if |logs| > 0 {
      var n := |logs| - 1;
      CountStatusMultiset(logs[..n], st);
      assert LogStatuses(logs) == LogStatuses(logs[..n]) + [logs[n].status];
    }
  }

  /** Distinct broadcast ids and phone numbers, the sent and failed rows, and the rate over those two. */
  function GetBlastStatistics(logs: seq<Blast.LogRow>, umkmId: nat): (s: BlastStats)
    ensures var rows := RowsOf(logs, umkmId);
      && s.totalBroadcast == |set row | row in rows :: row.broadcastId|
      && s.totalPenerima == |set row | row in rows :: row.phone|
      && s.terkirim == multiset(LogStatuses(rows))[Blast.LogSent]
      && s.gagal == multiset(LogStatuses(rows))[Blast.LogFailed]
      && s.terkirim + s.gagal <= |rows|
    ensures s.successRate == SuccessRate(s.terkirim, s.gagal) && s.successRate <= 100
  {
    var rows := RowsOf(logs, umkmId);
    var sent := CountStatus(rows, Blast.LogSent);
    var failed := CountStatus(rows, Blast.LogFailed);
    CountStatusMultiset(rows, Blast.LogSent);
    CountStatusMultiset(rows, Blast.LogFailed);
    SentPlusFailed(rows);
    BlastStats(|set row | row in rows :: row.broadcastId|, |set row | row in rows :: row.phone|,
               sent, failed, SuccessRate(sent, failed))
  }

  lemma {:induction false} SentPlusFailed(rows: seq<Blast.LogRow>)
    ensures CountStatus(rows, Blast.LogSent) + CountStatus(rows, Blast.LogFailed) <= |rows|
    decreases |rows|
  {
    if |rows| > 0 {
      SentPlusFailed(rows[..|rows| - 1]);
    }
  }

  // ---------------------------------------------------------------- status, connect, disconnect

  /** `getBlastStatus`: "connected" iff the tenant has an entry whose socket has a user. */
  function GetBlastStatus(p: BlastPool.Pool, umkmId: nat, hasUser: nat -> bool): (connected: bool)
    ensures connected <==> umkmId in p.sockets && hasUser(p.sockets[umkmId])
  {
    umkmId in p.sockets && hasUser(p.sockets[umkmId])
  }

  /** The reply of `connectBlast`. */
  datatype ConnectReply = AlreadyConnected | QrReply(qr: string) | ConnectedReply | QrTimeout

  /** What reaches the handler after the socket is created: the 10 s timeout or an event. */
  datatype Signal = TimeoutFired | QrSignal(umkmId: nat, qr: string) | ConnectedSignal(umkmId: nat)

  /** The handler's state: the `responded` flag, which listeners are still attached, and the replies. */
  datatype Handshake = Handshake(responded: bool, timerArmed: bool, qrArmed: bool, connArmed: bool,
                                 replies: seq<ConnectReply>)

  const Start := Handshake(false, true, true, true, [])

  /**
   * One signal as written: a `once` listener is detached by the first event of its
   * name, whichever tenant it is for, and only an event for this tenant can reply.
   */
  function Step(h: Handshake, u: nat, s: Signal): (r: Handshake)
    ensures h.responded ==> r.replies == h.replies
    ensures |r.replies| <= |h.replies| + 1
    ensures r.responded <==> h.responded || |r.replies| > |h.replies|
  {
    match s
    case TimeoutFired =>
      if !h.timerArmed then h
      else if h.responded then h.(timerArmed := false)
      else h.(timerArmed := false, responded := true, replies := h.replies + [QrTimeout])
    case QrSignal(v, qr) =>
      if !h.qrArmed then h
      else if v == u && !h.responded then
        h.(qrArmed := false, responded := true, timerArmed := false, replies := h.replies + [QrReply(qr)])
      else h.(qrArmed := false)
    case ConnectedSignal(v) =>
      if !h.connArmed then h
      else if v == u && !h.responded then
        h.(connArmed := false, responded := true, timerArmed := false, replies := h.replies + [ConnectedReply])
      else h.(connArmed := false)
  }

  function Run(h: Handshake, u: nat, signals: seq<Signal>): Handshake
    decreases |signals|
  {
    if |signals| == 0 then h else Run(Step(h, u, signals[0]), u, signals[1..])
  }

  /** Whatever the signals, the flag lets at most one reply out. */
  lemma {:induction false} RespondsAtMostOnce(h: Handshake, u: nat, signals: seq<Signal>)
    requires |h.replies| <= 1 && (h.responded <==> |h.replies| == 1)
    ensures |Run(h, u, signals).replies| <= 1
    decreases |signals|
  {
    if |signals| > 0 {
      RespondsAtMostOnce(Step(h, u, signals[0]), u, signals[1..]);
    }
  }

  /**
   * Another tenant's QR arriving first detaches this tenant's QR listener, so this
   * tenant's own QR goes unanswered and the request ends in the 408 timeout.
   */
  lemma ForeignQrSwallowsOwn(u: nat, v: nat, theirs: string, ours: string)
    requires u != v
    ensures Run(Start, u, [QrSignal(v, theirs), QrSignal(u, ours), TimeoutFired]).replies == [QrTimeout]
  {
    var s := [QrSignal(v, theirs), QrSignal(u, ours), TimeoutFired];
    var h1 := Step(Start, u, s[0]);
    assert h1 == Handshake(false, true, false, true, []);
    var h2 := Step(h1, u, s[1]);
    assert h2 == h1;
    var h3 := Step(h2, u, s[2]);
    assert h3.replies == [QrTimeout];
    assert s[1..][1..][1..] == [];
    assert Run(h2, u, s[1..][1..]) == Run(h3, u, []);
    assert Run(h1, u, s[1..]) == Run(h2, u, s[1..][1..]);
    assert Run(Start, u, s) == Run(h1, u, s[1..]);
  }

  /** The listeners with the tenant check moved before detaching: other tenants' events pass by. */
  function StepFiltered(h: Handshake, u: nat, s: Signal): (r: Handshake)
    ensures h.responded ==> r.replies == h.replies
    ensures |r.replies| <= |h.replies| + 1
    ensures r.responded <==> h.responded || |r.replies| > |h.replies|
  {
    match s
    case QrSignal(v, _) => if v != u then h else Step(h, u, s)
    case ConnectedSignal(v) => if v != u then h else Step(h, u, s)
    case TimeoutFired => Step(h, u, s)
  }

  function RunFiltered(h: Handshake, u: nat, signals: seq<Signal>): Handshake
    decreases |signals|
  {
    if |signals| == 0 then h else RunFiltered(StepFiltered(h, u, signals[0]), u, signals[1..])
  }

  /** A signal that leaves a waiting handshake for `u` waiting. */
  predicate Unrelated(u: nat, s: Signal) {
    match s
    case TimeoutFired => false
    case QrSignal(v, _) => v != u
    case ConnectedSignal(v) => v != u
  }

  /**
   * With the filtered listeners, the tenant's first QR is the reply whenever it comes
   * before the timeout and before any event of its own, whatever other tenants emit
   * in between; nothing else is sent after it.
   */
  lemma {:induction false} OwnQrAnswered(u: nat, before: seq<Signal>, qr: string, after: seq<Signal>)
    requires forall k :: 0 <= k < |before| ==> Unrelated(u, before[k])
    ensures RunFiltered(Start, u, before + [QrSignal(u, qr)] + after).replies == [QrReply(qr)]
  {
    WaitingSkips(Start, u, before, [QrSignal(u, qr)] + after);
    assert before + [QrSignal(u, qr)] + after == before + ([QrSignal(u, qr)] + after);
    var h := StepFiltered(Start, u, QrSignal(u, qr));
    assert h.replies == [QrReply(qr)] && h.responded;
    assert ([QrSignal(u, qr)] + after)[1..] == after;
    RepliedStays(h, u, after);
  }

  lemma {:induction false} WaitingSkips(h: Handshake, u: nat, before: seq<Signal>, rest: seq<Signal>)
    requires forall k :: 0 <= k < |before| ==> Unrelated(u, before[k])
    ensures RunFiltered(h, u, before + rest) == RunFiltered(h, u, rest)
    decreases |before|
  {
    if |before| > 0 {
      assert (before + rest)[0] == before[0];
      assert (before + rest)[1..] == before[1..] + rest;
      assert Unrelated(u, before[0]);
      assert StepFiltered(h, u, before[0]) == h;
      WaitingSkips(h, u, before[1..], rest);
    } else {
      assert before + rest == rest;
    }
  }

  lemma {:induction false} RepliedStays(h: Handshake, u: nat, signals: seq<Signal>)
    requires h.responded
    ensures RunFiltered(h, u, signals).replies == h.replies
    decreases |signals|
  {
    if |signals| > 0 {
      RepliedStays(StepFiltered(h, u, signals[0]), u, signals[1..]);
    }
  }

  /**
   * `connectBlast`: an entry whose socket has a user is reported as connected without
   * a new socket; otherwise a new socket is created (and not stored) and the
   * handshake runs over the signals that follow.
   */
  function ConnectBlast(p: BlastPool.Pool, umkmId: nat, hasUser: nat -> bool, signals: seq<Signal>)
    : (r: (BlastPool.Pool, seq<ConnectReply>))
    ensures GetBlastStatus(p, umkmId, hasUser) ==> r == (p, [AlreadyConnected])
    ensures !GetBlastStatus(p, umkmId, hasUser) ==>
      r.0 == BlastPool.CreateSocket(p, umkmId).0 && |r.1| <= 1
  {
    if GetBlastStatus(p, umkmId, hasUser) then (p, [AlreadyConnected])
    else
      RespondsAtMostOnce(Start, umkmId, signals);
      (BlastPool.CreateSocket(p, umkmId).0, Run(Start, umkmId, signals).replies)
  }

  const NoConnection := "Tidak ada koneksi aktif untuk umkm ini"
  const Disconnected := "Koneksi WhatsApp berhasil diputus"

  /**
   * `disconnectBlast`: without an entry, 400 and nothing changes. Otherwise the socket
   * is logged out and the entry removed, leaving every other tenant as it was; when
   * `logout` throws (`logoutError` holds its message) the answer is 500 with that
   * message and the entry stays, since the removal comes after the logout.
   */
  function DisconnectBlast(p: BlastPool.Pool, umkmId: nat, logoutError: Option<string>): (r: (Reply, BlastPool.Pool))
    ensures umkmId !in p.sockets ==> r == (Reply(400, NoConnection), p)
    ensures umkmId in p.sockets && logoutError.Some? ==> r == (Reply(500, logoutError.value), p)
    ensures umkmId in p.sockets && logoutError.None? ==>
      && r.0 == Reply(200, Disconnected)
      && umkmId !in r.1.sockets
      && r.1.loggedOut == p.loggedOut + {p.sockets[umkmId]}
      && r.1.timers == p.timers && r.1.current == p.current
    ensures r.0.status == 200 <==> umkmId in p.sockets && logoutError.None?
    ensures BlastPool.Wf(p) ==> BlastPool.Wf(r.1)
    ensures BlastPool.OthersUnchanged(p, r.1, umkmId)
  {
    if umkmId !in p.sockets then (Reply(400, NoConnection), p)
    else if logoutError.Some? then (Reply(500, logoutError.value), p)
    else
      (Reply(200, Disconnected),
       p.(loggedOut := p.loggedOut + {p.sockets[umkmId]}, sockets := p.sockets - {umkmId}))
  }
}

=== FILE: blast_pool.dfy ===
/**
 * The per-tenant connection table of the blast engine: the `sockets` map, the
 * `socketTimers` idle timers, the session directories, the events emitted on
 * `blastEvents`, and the reconnects scheduled after a close. The Baileys socket is
 * reduced to an identity and its owner; timers and reconnects are records of what
 * was scheduled, and firing one is a separate step.
 */
module BlastPool {
  import opened Wrappers

  /** `SOCKET_IDLE_TIMEOUT`: 60 minutes. */
  const IdleTimeoutMs: nat := 60 * 60 * 1000
  const ReconnectDelayMs: nat := 5000
  /** Baileys' `DisconnectReason.loggedOut`. */
  const LoggedOut: int := 401
  /** The other close code that ends a session. */
  const SessionEnded: int := 440

  /** An idle timer: the tenant, when it fires, and whether it is still pending. */
  datatype Timer = Timer(umkmId: nat, due: int, pending: bool)

  /** A reconnect scheduled by a close. */
  datatype Reconnect = Reconnect(umkmId: nat, due: int)

  /** What `blastEvents` emits. */
  datatype Event =
    | QrEvent(umkmId: nat, qr: string)
    | ConnectedEvent(umkmId: nat)
    | DisconnectedEvent(umkmId: nat, reason: Option<int>)

  /**
   * The module state. Socket `s` was created for tenant `owners[s]`; `sockets` and
   * `current` are the two module-level maps; `timers` lists every idle timer armed;
   * `ended` and `loggedOut` are the sockets ended by the idle timer and logged out.
   */
  datatype Pool = Pool(owners: seq<nat>, sockets: map<nat, nat>, current: map<nat, nat>,
                       timers: seq<Timer>, sessions: set<nat>, ended: set<nat>, loggedOut: set<nat>,
                       events: seq<Event>, reconnects: seq<Reconnect>)

  const Empty := Pool([], map[], map[], [], {}, {}, {}, [], [])

  /**
   * The table is consistent: every stored socket belongs to its tenant, every
   * `socketTimers` entry names a timer of that tenant, and a pending timer is the
   * one its tenant's entry names.
   */
  ghost predicate Wf(p: Pool) {
    && (forall u :: u in p.sockets ==> p.sockets[u] < |p.owners| && p.owners[p.sockets[u]] == u)
    && (forall u :: u in p.current ==> p.current[u] < |p.timers| && p.timers[p.current[u]].umkmId == u)
    && (forall i :: 0 <= i < |p.timers| && p.timers[i].pending ==>
          p.timers[i].umkmId in p.current && p.current[p.timers[i].umkmId] == i)
  }

  /** A consistent table has at most one pending idle timer per tenant. */
  lemma OnePendingTimer(p: Pool, i: nat, j: nat)
    requires Wf(p)
    requires i < |p.timers| && j < |p.timers|
    requires p.timers[i].pending && p.timers[j].pending && p.timers[i].umkmId == p.timers[j].umkmId
    ensures i == j
  {
  }

  lemma EmptyWf()
    ensures Wf(Empty)
  {
  }

  /** Tenant `v`'s part of the table is the same in `p` and `q`. */
  ghost predicate SameFor(p: Pool, q: Pool, v: nat) {
    && (v in p.sockets <==> v in q.sockets)
    && (v in p.sockets ==> p.sockets[v] == q.sockets[v])
    && (v in p.current <==> v in q.current)
    && (v in p.current ==> p.current[v] == q.current[v])
    && (v in p.sessions <==> v in q.sessions)
    && |p.timers| <= |q.timers|
    && (forall i :: 0 <= i < |p.timers| && p.timers[i].umkmId == v ==> q.timers[i] == p.timers[i])
  }

  /** Every other tenant's part of the table is unchanged. */
  ghost predicate OthersUnchanged(p: Pool, q: Pool, u: nat) {
    forall v :: v != u ==> SameFor(p, q, v)
  }

  // ---------------------------------------------------------------- operations

  /**
   * `createBlastSocket`: makes the session directory and a new socket for the
   * tenant; the socket is not stored in `sockets` until it opens.
   */
  function CreateSocket(p: Pool, u: nat): (r: (Pool, nat))
    ensures r.1 == |p.owners| && r.0.owners == p.owners + [u]
    ensures r.0.sockets == p.sockets && r.0.current == p.current && r.0.timers == p.timers
    ensures r.0.sessions == p.sessions + {u}
    ensures Wf(p) ==> Wf(r.0)
    ensures OthersUnchanged(p, r.0, u)
  {
    (p.(owners := p.owners + [u], sessions := p.sessions + {u}), |p.owners|)
  }

  /**
   * `scheduleSocketCleanup`: the tenant's earlier timer, if any, is cleared and a new
   * one is armed to fire after the idle timeout.
   */
  function ScheduleCleanup(p: Pool, u: nat, now: int): (q: Pool)
    ensures |q.timers| == |p.timers| + 1
    ensures q.timers[|p.timers|] == Timer(u, now + IdleTimeoutMs, true)
    ensures u in q.current && q.current[u] == |p.timers|
    ensures Wf(p) ==> forall i :: 0 <= i < |p.timers| && p.timers[i].umkmId == u ==> !q.timers[i].pending
    ensures q.sockets == p.sockets && q.sessions == p.sessions && q.owners == p.owners
    ensures Wf(p) ==> Wf(q)
    ensures Wf(p) ==> OthersUnchanged(p, q, u)
  {
    var t := Timer(u, now + IdleTimeoutMs, true);
    ArmKeepsWf(p, t);
    p.(timers := ClearCurrent(p, u) + [t], current := p.current[u := |p.timers|])
  }

  /** The timers with the tenant's current one, if its entry names one, no longer pending. */
  function ClearCurrent(p: Pool, u: nat): (ts: seq<Timer>)
    ensures |ts| == |p.timers|
    ensures forall i :: 0 <= i < |ts| ==> ts[i].umkmId == p.timers[i].umkmId
    ensures forall i :: 0 <= i < |ts| && !(u in p.current && p.current[u] == i) ==> ts[i] == p.timers[i]
    ensures u in p.current && p.current[u] < |ts| ==> !ts[p.current[u]].pending
  {
    if u in p.current && p.current[u] < |p.timers|
    then p.timers[p.current[u] := p.timers[p.current[u]].(pending := false)]
    else p.timers
  }

  /**
   * Arming a pending timer as its tenant's current one, after clearing the previous
   * one, keeps the table consistent, leaves no older timer of the tenant pending,
   * and leaves every other tenant's part alone.
   */
  lemma ArmKeepsWf(p: Pool, t: Timer)
    requires t.pending
    ensures var u := t.umkmId;
      var q := p.(timers := ClearCurrent(p, u) + [t], current := p.current[u := |p.timers|]);
      && (Wf(p) ==> Wf(q))
      && (Wf(p) ==> OthersUnchanged(p, q, u))
      && (Wf(p) ==> forall i :: 0 <= i < |p.timers| && p.timers[i].umkmId == u ==> !q.timers[i].pending)
  {
    var u := t.umkmId;
    var q := p.(timers := ClearCurrent(p, u) + [t], current := p.current[u := |p.timers|]);
    if Wf(p) {
      assert forall i :: 0 <= i < |p.timers| ==> q.timers[i] == ClearCurrent(p, u)[i];
      forall v | v != u ensures SameFor(p, q, v) {
      }
    }
  }

  /**
   * `getSocketInstance`: an existing entry is returned unchanged and its idle timer
   * re-armed; otherwise a new socket is created and stored at once, before it has
   * opened, and no timer is armed.
   */
  function GetSocketInstance(p: Pool, u: nat, now: int): (r: (Pool, nat))
    ensures u in r.0.sockets && r.0.sockets[u] == r.1
    ensures u in p.sockets ==> r.1 == p.sockets[u] && r.0 == ScheduleCleanup(p, u, now)
    ensures u !in p.sockets ==> r.1 == |p.owners| && r.0.timers == p.timers && r.0.current == p.current
    ensures Wf(p) ==> Wf(r.0)
    ensures Wf(p) ==> OthersUnchanged(p, r.0, u)
  {
    if u in p.sockets then (ScheduleCleanup(p, u, now), p.sockets[u])
    else
      var (q, s) := CreateSocket(p, u);
      (q.(sockets := q.sockets[u := s]), s)
  }

  /** The `connection` field of a `connection.update`. */
  datatype Connection = Unchanged | Connecting | Open | Close

  /** One `connection.update`: the connection state, a QR string ("" for none), and the close code. */
  datatype Update = Update(connection: Connection, qr: string, reason: Option<int>)

  /** Only a logout or a 440 ends the session instead of reconnecting. */
  predicate EndsSession(reason: Option<int>) {
    reason == Some(LoggedOut) || reason == Some(SessionEnded)
  }

  /** The QR part of the handler: a non-empty QR string is emitted with the tenant id. */
  function OnQr(p: Pool, u: nat, qr: string): (q: Pool)
    ensures qr != "" ==> q.events == p.events + [QrEvent(u, qr)]
    ensures qr == "" ==> q == p
    ensures q.(events := p.events) == p
  {
    if qr != "" then p.(events := p.events + [QrEvent(u, qr)]) else p
  }

  /** `connection: "open"`: the socket is stored under its tenant, announced, and its idle timer armed. */
  function OnOpen(p: Pool, s: nat, now: int): (q: Pool)
    requires s < |p.owners|
    ensures var u := p.owners[s];
      && u in q.sockets && q.sockets[u] == s
      && q.events == p.events + [ConnectedEvent(u)]
      && |q.timers| == |p.timers| + 1 && q.timers[|p.timers|] == Timer(u, now + IdleTimeoutMs, true)
      && u in q.current && q.current[u] == |p.timers|
    ensures Wf(p) ==> Wf(q)
    ensures Wf(p) ==> OthersUnchanged(p, q, p.owners[s])
  {
    var u := p.owners[s];
    var stored := p.(sockets := p.sockets[u := s], events := p.events + [ConnectedEvent(u)]);
    assert OthersUnchanged(p, stored, u) && (Wf(p) ==> Wf(stored));
    var q := ScheduleCleanup(stored, u, now);
    OthersUnchangedTrans(p, stored, q, u);
    q
  }

  /**
   * `connection: "close"`: the tenant's entry is always removed and the close is
   * announced with its reason; a logout or a 440 removes the session directory,
   * any other reason schedules exactly one reconnect 5 seconds later, with no limit
   * on how often that happens.
   */
  function OnClose(p: Pool, s: nat, reason: Option<int>, now: int): (q: Pool)
    requires s < |p.owners|
    ensures var u := p.owners[s];
      && u !in q.sockets
      && q.events == p.events + [DisconnectedEvent(u, reason)]
      && (EndsSession(reason) ==> u !in q.sessions && q.reconnects == p.reconnects)
      && (!EndsSession(reason) ==> q.sessions == p.sessions
                                   && q.reconnects == p.reconnects + [Reconnect(u, now + ReconnectDelayMs)])
    ensures q.timers == p.timers && q.current == p.current
    ensures Wf(p) ==> Wf(q)
    ensures OthersUnchanged(p, q, p.owners[s])
  {
    var u := p.owners[s];
    var closed := p.(sockets := p.sockets - {u}, events := p.events + [DisconnectedEvent(u, reason)]);
    if EndsSession(reason) then closed.(sessions := closed.sessions - {u})
    else closed.(reconnects := closed.reconnects + [Reconnect(u, now + ReconnectDelayMs)])
  }

  /** The `connection.update` handler of socket `s`: the QR, then open or close. */
  function ConnectionUpdate(p: Pool, s: nat, upd: Update, now: int): (q: Pool)
    requires s < |p.owners|
    ensures Wf(p) ==> Wf(q)
    ensures Wf(p) ==> OthersUnchanged(p, q, p.owners[s])
    ensures upd.connection == Close ==> p.owners[s] !in q.sockets
    ensures upd.connection == Open ==> p.owners[s] in q.sockets && q.sockets[p.owners[s]] == s
    ensures upd.connection in {Unchanged, Connecting} ==> q == OnQr(p, p.owners[s], upd.qr)
  {
    var afterQr := OnQr(p, p.owners[s], upd.qr);
    assert OthersUnchanged(p, afterQr, p.owners[s]);
    var q := match upd.connection
      case Open => OnOpen(afterQr, s, now)
      case Close => OnClose(afterQr, s, upd.reason, now)
      case _ => afterQr;
    OthersUnchangedTrans(p, afterQr, q, p.owners[s]);
    q
  }

  lemma OthersUnchangedTrans(p: Pool, q: Pool, r: Pool, u: nat)
    requires OthersUnchanged(p, q, u) && (Wf(q) ==> OthersUnchanged(q, r, u)) && (Wf(p) ==> Wf(q))
    ensures Wf(p) ==> OthersUnchanged(p, r, u)
  {
    if Wf(p) {
      forall v | v != u
        ensures SameFor(p, r, v)
      {
        assert SameFor(p, q, v) && SameFor(q, r, v);
      }
    }
  }

  /**
   * A pending idle timer fires: if its tenant still has an entry, that socket is
   * ended and the entry removed. The fired timer stays in `socketTimers`.
   */
  function FireIdleTimer(p: Pool, i: nat): (q: Pool)
    requires i < |p.timers| && p.timers[i].pending
    ensures var u := p.timers[i].umkmId;
      && u !in q.sockets
      && (u in p.sockets ==> q.ended == p.ended + {p.sockets[u]})
      && (u !in p.sockets ==> q.ended == p.ended && q.sockets == p.sockets)
    ensures |q.timers| == |p.timers| && !q.timers[i].pending && q.current == p.current
    ensures Wf(p) ==> Wf(q)
    ensures OthersUnchanged(p, q, p.timers[i].umkmId)
  {
    var u := p.timers[i].umkmId;
    var fired := p.(timers := p.timers[i := p.timers[i].(pending := false)]);
    if u in p.sockets then fired.(ended := p.ended + {p.sockets[u]}, sockets := p.sockets - {u})
    else fired
  }

  /** A scheduled reconnect fires: a new socket is created for the tenant (and not stored). */
  function FireReconnect(p: Pool, j: nat): (q: Pool)
    requires j < |p.reconnects|
    ensures q.owners == p.owners + [p.reconnects[j].umkmId]
    ensures q.reconnects == p.reconnects[..j] + p.reconnects[j + 1..]
    ensures q.sockets == p.sockets
    ensures Wf(p) ==> Wf(q)
    ensures OthersUnchanged(p, q, p.reconnects[j].umkmId)
  {
    var u := p.reconnects[j].umkmId;
    CreateSocket(p, u).0.(reconnects := p.reconnects[..j] + p.reconnects[j + 1..])
  }
}

=== FILE: broadcast_http.dfy ===
/**
 * The broadcast controller: which service errors become a 400/404 response and which
 * are passed to the generic error handler, and which filters reach the service.
 */
module BroadcastHttp {
  import opened Wrappers
  import opened Text
  import opened Decimal
  import Broadcasts

  /** A handled error (a status and the message) or `next(error)`. */
  datatype ErrorReply = Respond(status: nat, message: string) | PassOn(message: string)

  // ---------------------------------------------------------------- createBroadcast

  /** `createBroadcast`'s handler: three substrings select 400. */
  function CreateErrorReply(msg: string): (r: ErrorReply)
    ensures r.Respond? <==> Contains(msg, "wajib diisi") || Contains(msg, "tidak ditemukan") || Contains(msg, "Pilih minimal")
    ensures r.Respond? ==> r == Respond(400, msg)
    ensures r.PassOn? ==> r.message == msg
  {
    if Contains(msg, "wajib diisi") || Contains(msg, "tidak ditemukan") || Contains(msg, "Pilih minimal")
    then Respond(400, msg) else PassOn(msg)
  }

  /** Every validation error of `createBroadcast` is answered with 400. */
  lemma ValidationErrorsAreBadRequests(input: Broadcasts.NewBroadcast)
    ensures Broadcasts.ValidateNew(input).Some? ==>
      CreateErrorReply(Broadcasts.ValidateNew(input).value) == Respond(400, Broadcasts.ValidateNew(input).value)
  {
    if input.judul == "" {
      ContainsAt("Judul pesan wajib diisi", "wajib diisi", 12);
    } else if input.isi == "" {
      ContainsAt("Isi pesan wajib diisi", "wajib diisi", 10);
    } else if |input.pelangganIds| == 0 {
      ContainsAt("Pilih minimal 1 pelanggan penerima", "Pilih minimal", 0);
    }
  }

  /** An unknown customer id in `createBroadcast` is answered with 400 as well. */
  lemma MissingCustomerIsBadRequest(id: nat)
    ensures CreateErrorReply(Broadcasts.MissingCustomer(id)) == Respond(400, Broadcasts.MissingCustomer(id))
  {
    var prefix := "Pelanggan dengan ID " + NatToString(id) + " ";
    assert Broadcasts.MissingCustomer(id) == prefix + "tidak ditemukan" + "";
    ContainsMiddle(prefix, "tidak ditemukan", "");
  }

  // ---------------------------------------------------------------- sendBroadcast

  /** `sendBroadcast`'s handler as written: an exact match, or the lower-case substring. */
  function SendErrorReply(msg: string): (r: ErrorReply)
    ensures r.Respond? <==> msg == Broadcasts.NotFound || Contains(msg, "tidak ada penerima")
    ensures r.Respond? ==> r == Respond(400, msg)
  {
    if msg == Broadcasts.NotFound || Contains(msg, "tidak ada penerima") then Respond(400, msg) else PassOn(msg)
  }

  /**
   * The service's "no pending recipient" error starts with a capital 'T', so the
   * case-sensitive test misses it and the client gets the generic error instead of 400.
   */
  lemma NoPendingNotMapped()
    ensures SendErrorReply(Broadcasts.NoPending) == PassOn(Broadcasts.NoPending)
  {
    NoPairNoContains(Broadcasts.NoPending, "tidak ada penerima");
  }

  /** The handler with the substring test made case-insensitive, as the error text needs. */
  function SendErrorReplyFolded(msg: string): (r: ErrorReply)
    ensures r.Respond? <==> msg == Broadcasts.NotFound || Contains(ToLower(msg), "tidak ada penerima")
    ensures r.Respond? ==> r == Respond(400, msg)
  {
    if msg == Broadcasts.NotFound || Contains(ToLower(msg), "tidak ada penerima") then Respond(400, msg) else PassOn(msg)
  }

  /** With the folded test, both client errors of `sendBroadcast` are answered with 400. */
  lemma NoPendingMappedFolded()
    ensures SendErrorReplyFolded(Broadcasts.NoPending) == Respond(400, Broadcasts.NoPending)
    ensures SendErrorReplyFolded(Broadcasts.NotFound) == Respond(400, Broadcasts.NotFound)
  {
    assert Contains(ToLower(Broadcasts.NoPending), "tidak ada penerima") by {
      NoPendingFolded();
    }
  }

  lemma NoPendingFolded()
    ensures Contains(ToLower(Broadcasts.NoPending), "tidak ada penerima")
  {
    var head, rest := "Tidak ada penerima", " dengan status pending";
    assert Broadcasts.NoPending == head + rest;
    LowerHead();
    ContainsLowerPrefix(head, rest, "tidak ada penerima");
  }

  lemma LowerHead()
    ensures ToLower("Tidak ada penerima") == "tidak ada penerima"
  {
    var l := ToLower("Tidak ada penerima");
    forall k | 0 <= k < 18
      ensures l[k] == "tidak ada penerima"[k]
    {
    }
  }

  /** A missing tenant is a server-side error for `sendBroadcast`: it reaches the generic handler. */
  lemma MissingUmkmPassedOn()
    ensures SendErrorReply(Broadcasts.NoUmkm) == PassOn(Broadcasts.NoUmkm)
  {
    AbsentCharNoContains(Broadcasts.NoUmkm, "tidak ada penerima");
  }

  // ---------------------------------------------------------------- deleteBroadcast, getBroadcastById

  function DeleteErrorReply(msg: string): (r: ErrorReply)
    ensures r.Respond? <==> msg == Broadcasts.NotFound || Contains(msg, "sedang diproses")
    ensures r.Respond? ==> r == Respond(400, msg)
  {
    if msg == Broadcasts.NotFound || Contains(msg, "sedang diproses") then Respond(400, msg) else PassOn(msg)
  }

  /** Both errors of `deleteBroadcast`, the missing broadcast and the sending guard, give 400. */
  lemma DeleteErrorsAreBadRequests(db: Broadcasts.Db, id: nat)
    ensures Broadcasts.DeleteBroadcast(db, id).Err? ==>
      DeleteErrorReply(Broadcasts.DeleteBroadcast(db, id).msg) == Respond(400, Broadcasts.DeleteBroadcast(db, id).msg)
  {
    var s := Broadcasts.StillSending;
    assert s[37..52] == "sedang diproses";
    ContainsAt(s, "sedang diproses", 37);
  }

  function GetByIdErrorReply(msg: string): (r: ErrorReply)
    ensures r.Respond? <==> msg == Broadcasts.NotFound
    ensures r.Respond? ==> r.status == 404
  {
    if msg == Broadcasts.NotFound then Respond(404, msg) else PassOn(msg)
  }

  // ---------------------------------------------------------------- filters

  /** The filters `getStatistik` forwards: the date range from the query, and no tenant. */
  function StatistikFilter(startDate: Option<int>, endDate: Option<int>): (f: Broadcasts.StatFilter)
    ensures f.umkmId == 0
  {
    Broadcasts.StatFilter(0, startDate, endDate)
  }

  /**
   * Because no tenant id reaches the service, the statistics cover the broadcasts of
   * every tenant: selection depends on the date range only.
   */
  lemma StatistikSpansTenants(b: Broadcasts.Broadcast, startDate: Option<int>, endDate: Option<int>)
    ensures Broadcasts.Selected(b, StatistikFilter(startDate, endDate)) <==>
      (startDate.Some? && endDate.Some? ==> startDate.value <= b.sentAt <= endDate.value)
  {
  }

  /** `getAllBroadcast` forwards no tenant id either, so the listing is every broadcast. */
  lemma ListingSpansTenants(db: Broadcasts.Db)
    ensures Broadcasts.VisibleBroadcasts(db, 0) == db.broadcasts.Keys
  {
  }
}

=== FILE: broadcasts.dfy ===
/**
 * The relational broadcast lifecycle: a broadcast is created as a draft with one
 * pending detail per reachable customer, dispatched over its pending details, and
 * deleted together with its details unless it is being sent. The store is a value;
 * every operation returns the store it leaves behind.
 */
module Broadcasts {
  import opened Wrappers
  import opened Text
  import opened Decimal
  import Watzap

  // ---------------------------------------------------------------- store

  /** A customer row; "" stands for a NULL column. */
  datatype Customer = Customer(nama: string, telepon: string, email: string)

  /** The tenant's Watzap number key ("" when not configured). */
  datatype Umkm = Umkm(waNumberKey: string)

  /** The status values the service writes into `broadcast.status`. */
  datatype BroadcastStatus = Draft | Sending | Completed | Partial | Failed

  datatype DetailStatus = Pending | Sent | DetailFailed

  /** A broadcast row; `userId` 0 stands for NULL. */
  datatype Broadcast = Broadcast(judul: string, isi: string, sentAt: int, status: BroadcastStatus,
                                 userId: nat, umkmId: nat)

  /** A broadcast detail row, one recipient of one broadcast. */
  datatype Detail = Detail(broadcastId: nat, pelangganId: nat, sentAt: int, status: DetailStatus)

  /**
   * The tables the service touches. Details are kept in primary-key order, which is
   * the order the eager load returns them in; `nextId` is the next broadcast id.
   */
  datatype Db = Db(customers: map<nat, Customer>, umkms: map<nat, Umkm>,
                   broadcasts: map<nat, Broadcast>, details: seq<Detail>, nextId: nat)

  const NotFound := "Broadcast tidak ditemukan"

  // ---------------------------------------------------------------- personalisation

  /**
   * `personalizeMessage`: `{nama}`, `{telepon}` and `{email}` are replaced, ignoring
   * case, in that order, by the customer's field ("" when NULL).
   */
  function Personalize(message: string, c: Customer): (r: string)
    ensures (!Contains(ToLower(message), "{nama}") && !Contains(ToLower(message), "{telepon}")
             && !Contains(ToLower(message), "{email}")) ==> r == message
  {
    var a := ReplaceAllFolded(message, "{nama}", c.nama);
    var b := ReplaceAllFolded(a, "{telepon}", c.telepon);
    ReplaceAllFolded(b, "{email}", c.email)
  }

  /** Text with no '{' has no placeholder and is sent as written. */
  lemma PersonalizeWithoutBraces(message: string, c: Customer)
    requires forall i :: 0 <= i < |message| ==> message[i] != '{'
    ensures Personalize(message, c) == message
  {
    var lower := ToLower(message);
    assert forall i :: 0 <= i < |lower| ==> lower[i] != '{';
    AbsentCharNoContains(lower, "{nama}");
    AbsentCharNoContains(lower, "{telepon}");
    AbsentCharNoContains(lower, "{email}");
  }

  /** Text without '{'. */
  predicate NoBrace(s: string) {
    forall i :: 0 <= i < |s| ==> s[i] != '{'
  }

  /** Lower-casing neither adds nor removes a '{'. */
  lemma NoBraceLower(s: string)
    requires NoBrace(s)
    ensures NoBrace(ToLower(s))
  {
  }

  /** Text without '{' holds none of the placeholders, whatever the case. */
  lemma NoBraceUnchanged(s: string, pat: string, rep: string)
    requires NoBrace(s) && |pat| > 0 && pat[0] == '{'
    ensures ReplaceAllFolded(s, pat, rep) == s
  {
    NoBraceLower(s);
    AbsentCharNoContains(ToLower(s), pat);
  }

  /**
   * Text whose every '{' is followed by an 'n' in either case, as in `{nama}`: it can
   * hold neither a `{telepon}` nor an `{email}` placeholder.
   */
  predicate BracesOpenName(s: string) {
    forall i :: 0 <= i < |s| && s[i] == '{' ==> i + 1 < |s| && LowerChar(s[i + 1]) == 'n'
  }

  lemma BracesOpenNameAppend(a: string, b: string)
    requires BracesOpenName(a) && BracesOpenName(b)
    ensures BracesOpenName(a + b)
  {
  }

  /**
   * A substitution from a replacement without '{' keeps the property when the matched
   * text and its surroundings have it: its only braces are copied from them.
   */
  lemma {:induction false} SubstitutionOpensName(rep: string, m: string, b: string, a: string)
    requires NoBrace(rep) && BracesOpenName(m) && BracesOpenName(b) && BracesOpenName(a)
    ensures BracesOpenName(Substitution(rep, m, b, a))
    decreases |rep|
  {
    if |rep| > 0 {
      if rep[0] == '$' && |rep| >= 2 && (rep[1] == '$' || rep[1] == '&' || rep[1] == '`' || rep[1] == '\'') {
        var piece := if rep[1] == '$' then "$" else if rep[1] == '&' then m
                     else if rep[1] == '`' then b else a;
        assert Substitution(rep, m, b, a) == piece + Substitution(rep[2..], m, b, a);
        SubstitutionOpensName(rep[2..], m, b, a);
        BracesOpenNameAppend(piece, Substitution(rep[2..], m, b, a));
      } else {
        assert Substitution(rep, m, b, a) == [rep[0]] + Substitution(rep[1..], m, b, a);
        SubstitutionOpensName(rep[1..], m, b, a);
        BracesOpenNameAppend([rep[0]], Substitution(rep[1..], m, b, a));
      }
    }
  }

  /** A name placeholder, in any case, has the property. */
  lemma PlaceholderOpensName(m: string)
    requires ToLower(m) == "{nama}"
    ensures BracesOpenName(m)
  {
    var l := ToLower(m);
    assert forall i :: 0 <= i < |m| && m[i] == '{' ==> l[i] == '{';
    assert forall i :: 0 <= i < |l| && l[i] == '{' ==> i == 0;
  }

  /** Such text goes through the `{telepon}` and `{email}` passes unchanged. */
  lemma OnlyNameLeft(s: string, telepon: string, email: string)
    requires BracesOpenName(s)
    ensures ReplaceAllFolded(s, "{telepon}", telepon) == s
    ensures ReplaceAllFolded(s, "{email}", email) == s
    ensures ReplaceAll(s, "{telepon}", telepon) == s
    ensures ReplaceAll(s, "{email}", email) == s
  {
    var l := ToLower(s);
    assert forall i :: 0 <= i < |l| && l[i] == '{' ==> s[i] == '{';
    NoPairNoContains(l, "{telepon}");
    NoPairNoContains(l, "{email}");
    NoPairNoContains(s, "{telepon}");
    NoPairNoContains(s, "{email}");
  }

  /**
   * Placeholders match in any letter case: `{NAMA}` alone becomes the substitution of the
   * name for it, which is the name itself when the name has no '$'.
   */
  lemma PersonalizeIgnoresCase(c: Customer)
    requires NoBrace(c.nama)
    ensures Personalize("{NAMA}", c) == Substitution(c.nama, "{NAMA}", "", "")
    ensures NoDollar(c.nama) ==> Personalize("{NAMA}", c) == c.nama
  {
    var m := "{NAMA}";
    assert ToLower(m) == "{nama}";
    assert !Contains(ToLower("" + m[..|m| - 1]), "{nama}");
    ReplaceAllFoldedFirst("", m, "", "{nama}", c.nama);
    var r := Substitution(c.nama, m, "", "");
    assert "" + m + "" == m && "" + r + "" == r;
    assert ReplaceRestFolded("" + m, "", "{nama}", c.nama) == "";
    PlaceholderOpensName(m);
    SubstitutionOpensName(c.nama, m, "", "");
    OnlyNameLeft(r, c.telepon, c.email);
  }

  /** Text without upper-case letters is its own lower-case form. */
  lemma LowerUnchanged(s: string)
    requires forall i :: 0 <= i < |s| ==> !('A' <= s[i] <= 'Z')
    ensures ToLower(s) == s
  {
  }

  /** In lower case, plain text around a placeholder has its only '{' where the placeholder starts. */
  lemma OnlyBraceAt(a: string, m: string, b: string)
    requires NoBrace(a) && NoBrace(b) && |m| > 0 && NoBrace(m[1..])
    ensures var l := ToLower(a + m + b);
      && (forall i :: 0 <= i < |l| && l[i] == '{' ==> i == |a|)
      && l[|a|..|a| + |m|] == ToLower(m)
  {
    var s := a + m + b;
    var l := ToLower(s);
    assert forall i :: 0 <= i < |l| && l[i] == '{' ==> i == |a|;
    assert s[|a|..|a| + |m|] == m;
  }

  /** A placeholder whose first character is the only '{' in reach is the first occurrence. */
  lemma FirstPlaceholder(a: string, m: string)
    requires NoBrace(a) && |m| > 1 && m[0] == '{'
    ensures !Contains(ToLower(a + m[..|m| - 1]), m)
  {
    var t := ToLower(a + m[..|m| - 1]);
    forall i | 0 <= i && i + |m| <= |t| ensures t[i] != m[0] {
      assert t[i] == LowerChar(a[i]);
    }
    AbsentCharNoContains(t, m);
  }

  /**
   * One `{nama}` in otherwise plain text is replaced by the substitution of the name for
   * it, with the text around it as context, and nothing else changes, when neither the
   * text nor the name has a '{'; a name without '$' goes in as it stands.
   */
  lemma PersonalizeOneName(a: string, b: string, c: Customer)
    requires NoBrace(a) && NoBrace(b) && NoBrace(c.nama)
    ensures Personalize(a + "{nama}" + b, c) == a + Substitution(c.nama, "{nama}", a, b) + b
    ensures NoDollar(c.nama) ==> Personalize(a + "{nama}" + b, c) == a + c.nama + b
  {
    var m := "{nama}";
    LowerUnchanged(m);
    FirstPlaceholder(a, m);
    ReplaceAllFoldedFirst(a, m, b, m, c.nama);
    NoBraceLower(b);
    AbsentCharNoContains(ToLower(b), m);
    ReplaceRestFoldedUnmatched(a + m, b, m, c.nama);
    var sub := Substitution(c.nama, m, a, b);
    PlaceholderOpensName(m);
    SubstitutionOpensName(c.nama, m, a, b);
    BracesOpenNameAppend(a, sub);
    BracesOpenNameAppend(a + sub, b);
    OnlyNameLeft(a + sub + b, c.telepon, c.email);
  }

  /** The '$' patterns of the name are expanded: "$&" puts the placeholder back, "$$" is one '$'. */
  lemma DollarPatternsExpanded(telepon: string, email: string)
    ensures Personalize("{nama}", Customer("$&", telepon, email)) == "{nama}"
    ensures Personalize("{nama}", Customer("$$", telepon, email)) == "$"
  {
    SubstitutionPatterns("{nama}", "", "");
    assert "" + "{nama}" + "" == "{nama}";
    PersonalizeOneName("", "", Customer("$&", telepon, email));
    PersonalizeOneName("", "", Customer("$$", telepon, email));
  }

  /** As `Deliver` sends it, one `{email}` in otherwise plain text is removed. */
  lemma PersonalizeDropsEmail(a: string, b: string, c: Customer)
    requires NoBrace(a) && NoBrace(b)
    ensures Personalize(a + "{email}" + b, c.(email := "")) == a + b
  {
    var m := "{email}";
    var s := a + m + b;
    LowerUnchanged(m);
    assert ReplaceAllFolded(s, "{nama}", c.nama) == s && ReplaceAllFolded(s, "{telepon}", c.telepon) == s by {
      var l := ToLower(s);
      OnlyBraceAt(a, m, b);
      assert l[|a| + 1] == m[1] == 'e' && l[|a| + 2] == m[2] == 'm';
      NoPairNoContains(l, "{nama}");
      NoTripleNoContains(l, "{telepon}");
    }
    FirstPlaceholder(a, m);
    ReplaceAllFoldedFirst(a, m, b, m, "");
    NoBraceUnchanged(b, m, "");
    JoinEmpty(a, "", b);
  }

  lemma JoinEmpty<T>(a: seq<T>, e: seq<T>, b: seq<T>)
    requires |e| == 0
    ensures a + e + b == a + b
  {
    assert a + e == a;
  }

  /**
   * When each field is non-empty, has no '$', and none of its characters, in lower case,
   * occurs in the placeholders still to be replaced or already replaced, no placeholder
   * is left in the result in any letter case.
   */
  lemma PersonalizeLeavesNoPlaceholder(message: string, c: Customer)
    requires NoDollar(c.nama) && NoDollar(c.telepon) && NoDollar(c.email)
    requires |c.nama| > 0 && Disjoint(ToLower(c.nama), "{nama}")
    requires |c.telepon| > 0 && Disjoint(ToLower(c.telepon), "{nama}") && Disjoint(ToLower(c.telepon), "{telepon}")
    requires |c.email| > 0 && Disjoint(ToLower(c.email), "{nama}") && Disjoint(ToLower(c.email), "{telepon}")
             && Disjoint(ToLower(c.email), "{email}")
    ensures var r := ToLower(Personalize(message, c));
      !Contains(r, "{nama}") && !Contains(r, "{telepon}") && !Contains(r, "{email}")
  {
    var a := ReplaceAllFolded(message, "{nama}", c.nama);
    var b := ReplaceAllFolded(a, "{telepon}", c.telepon);
    var r := ReplaceAllFolded(b, "{email}", c.email);
    ReplaceAllFoldedLeavesNone(message, "{nama}", c.nama, "{nama}");
    ReplaceAllFoldedLeavesNone(a, "{telepon}", c.telepon, "{nama}");
    ReplaceAllFoldedLeavesNone(a, "{telepon}", c.telepon, "{telepon}");
    ReplaceAllFoldedLeavesNone(b, "{email}", c.email, "{nama}");
    ReplaceAllFoldedLeavesNone(b, "{email}", c.email, "{telepon}");
    ReplaceAllFoldedLeavesNone(b, "{email}", c.email, "{email}");
  }

  /**
   * The replacement is one pass: in `{{nama}ma}` the name `na` completes a new `{nama}`
   * around the one it replaced, and that placeholder is sent as it stands.
   */
  lemma PersonalizeSinglePass()
    ensures Personalize("{" + "{nama}" + "ma}", Customer("na", "", "")) == "{" + "na" + "ma}"
  {
    var a, m, b := "{", "{nama}", "ma}";
    LowerUnchanged(m);
    assert !Contains(ToLower(a + m[..5]), m) by {
      var t := ToLower(a + m[..5]);
      assert |t| == |m| && t[1] == '{' != m[1];
      forall i | 0 <= i && i + |m| <= |t| ensures t[i..][..|m|] != m {
        assert t[i..][..|m|][1] != m[1];
      }
    }
    ReplaceAllFoldedFirst(a, m, b, m, "na");
    assert ReplaceAllFolded(b, m, "na") == b;
  }

  // ---------------------------------------------------------------- creation

  /** A customer gets a detail only with a phone that passes `isValidPhoneNumber`. */
  predicate Reachable(c: Customer) {
    c.telepon != "" && Watzap.IsValidPhoneNumber(c.telepon)
  }

  /**
   * The listed ids, in order and with repeats, whose customers exist and satisfy
   * `keep` (`Reachable`, for `createBroadcast`).
   */
  function EligibleIds(customers: map<nat, Customer>, ids: seq<nat>, keep: Customer -> bool): (r: seq<nat>)
    ensures |r| <= |ids|
    ensures forall k :: 0 <= k < |r| ==> r[k] in customers && keep(customers[r[k]])
    ensures forall k :: 0 <= k < |ids| && ids[k] in customers && keep(customers[ids[k]]) ==> ids[k] in r
    ensures forall x :: x in r ==> x in ids
    decreases |ids|
  {
    if |ids| == 0 then []
    else
      var n := |ids| - 1;
      var front := EligibleIds(customers, ids[..n], keep);
      assert forall k :: 0 <= k < n ==> ids[..n][k] == ids[k];
      if ids[n] in customers && keep(customers[ids[n]]) then front + [ids[n]] else front
  }

  /** The pending details written for the eligible ids of a new broadcast. */
  function PendingDetails(bid: nat, ids: seq<nat>, now: int): (r: seq<Detail>)
    ensures |r| == |ids|
    ensures forall k :: 0 <= k < |r| ==> r[k] == Detail(bid, ids[k], now, Pending)
  {
    seq(|ids|, k requires 0 <= k < |ids| => Detail(bid, ids[k], now, Pending))
  }

  datatype NewBroadcast = NewBroadcast(judul: string, isi: string, pelangganIds: seq<nat>,
                                       userId: nat, umkmId: nat)

  function MissingCustomer(id: nat): string {
    "Pelanggan dengan ID " + NatToString(id) + " tidak ditemukan"
  }

  /** The input checks of `createBroadcast`, in order, before anything is written. */
  function ValidateNew(input: NewBroadcast): (r: Option<string>)
    ensures r.None? <==> input.judul != "" && input.isi != "" && |input.pelangganIds| > 0
  {
    if input.judul == "" then Some("Judul pesan wajib diisi")
    else if input.isi == "" then Some("Isi pesan wajib diisi")
    else if |input.pelangganIds| == 0 then Some("Pilih minimal 1 pelanggan penerima")
    else None
  }

  /**
   * The detail-creating loop of `createBroadcast`: one pending detail per listed id
   * whose customer satisfies `keep`; the first id without a customer throws.
   */
  method CollectDetails(customers: map<nat, Customer>, ids: seq<nat>, keep: Customer -> bool,
                        bid: nat, now: int) returns (r: Result<seq<Detail>>)
    ensures r.Ok? <==> forall k :: 0 <= k < |ids| ==> ids[k] in customers
    ensures r.Ok? ==> r.value == PendingDetails(bid, EligibleIds(customers, ids, keep), now)
    ensures r.Err? ==>
      exists k :: 0 <= k < |ids| && ids[k] !in customers
        && (forall j :: 0 <= j < k ==> ids[j] in customers)
        && r.msg == MissingCustomer(ids[k])
  {
    var added: seq<Detail> := [];
    var k := 0;
    while k < |ids|
      invariant 0 <= k <= |ids|
      invariant forall j :: 0 <= j < k ==> ids[j] in customers
      invariant added == PendingDetails(bid, EligibleIds(customers, ids[..k], keep), now)
    {
      var id := ids[k];
      if id !in customers {
        return Err(MissingCustomer(id));
      }
      assert ids[..k + 1][..k] == ids[..k];
      if keep(customers[id]) {
        added := added + [Detail(bid, id, now, Pending)];
      }
      k := k + 1;
    }
    assert ids[..k] == ids;
    r := Ok(added);
  }

  /**
   * `createBroadcast`: after validation, a draft broadcast and one pending detail per
   * listed id whose customer has a valid phone. An id without a customer throws, and
   * the transaction rollback leaves the store as it was.
   */
  method CreateBroadcast(db: Db, input: NewBroadcast, now: int) returns (r: Result<Db>, bid: nat)
    ensures r.Err? <==> ValidateNew(input).Some?
                        || exists k :: 0 <= k < |input.pelangganIds| && input.pelangganIds[k] !in db.customers
    ensures ValidateNew(input).Some? ==> r == Err(ValidateNew(input).value)
    ensures r.Err? && ValidateNew(input).None? ==>
      exists k :: 0 <= k < |input.pelangganIds| && input.pelangganIds[k] !in db.customers
        && (forall j :: 0 <= j < k ==> input.pelangganIds[j] in db.customers)
        && r.msg == MissingCustomer(input.pelangganIds[k])
    ensures r.Ok? ==> bid == db.nextId && r.value.nextId == db.nextId + 1
    ensures r.Ok? ==>
      r.value.broadcasts == db.broadcasts[bid := Broadcast(input.judul, input.isi, now, Draft, input.userId, input.umkmId)]
    ensures r.Ok? ==> r.value.customers == db.customers && r.value.umkms == db.umkms
    ensures r.Ok? ==>
      r.value.details == db.details + PendingDetails(bid, EligibleIds(db.customers, input.pelangganIds, Reachable), now)
  {
    bid := db.nextId;
    var invalid := ValidateNew(input);
    if invalid.Some? {
      return Err(invalid.value), bid;
    }
    var added := CollectDetails(db.customers, input.pelangganIds, Reachable, bid, now);
    if added.Err? {
      return Err(added.msg), bid;
    }
    var b := Broadcast(input.judul, input.isi, now, Draft, input.userId, input.umkmId);
    r := Ok(db.(broadcasts := db.broadcasts[bid := b], details := db.details + added.value, nextId := db.nextId + 1));
  }

  // ---------------------------------------------------------------- dispatch

  /** The positions of the broadcast's pending details, ascending. */
  function PendingIndices(ds: seq<Detail>, bid: nat): (r: seq<nat>)
    ensures forall k :: 0 <= k < |r| ==> r[k] < |ds| && ds[r[k]].broadcastId == bid && ds[r[k]].status == Pending
    ensures forall i :: 0 <= i < |ds| && ds[i].broadcastId == bid && ds[i].status == Pending ==> i in r
    ensures forall j, k :: 0 <= j < k < |r| ==> r[j] < r[k]
    decreases |ds|
  {
    if |ds| == 0 then []
    else
      var n := |ds| - 1;
      var front := PendingIndices(ds[..n], bid);
      if ds[n].broadcastId == bid && ds[n].status == Pending then front + [n] else front
  }

  /** One entry of `results.details`. */
  datatype Recipient = Recipient(pelangganId: nat, nama: string, telepon: string, sent: bool, error: string)

  /**
   * The message a customer receives, sent with the tenant's number key. The dispatch
   * loads the customer without its email column, so `{email}` always becomes "".
   */
  function Deliver(cfg: Watzap.Config, key: string, isi: string, c: Customer,
                   post: Watzap.Request -> Watzap.Reply): Watzap.SendResult
  {
    Watzap.SendMessage(cfg, c.telepon, Personalize(isi, c.(email := "")), key, post)
  }

  /** What is sent does not depend on the customer's stored email. */
  lemma DeliverIgnoresEmail(cfg: Watzap.Config, key: string, isi: string, c: Customer, e: string,
                            post: Watzap.Request -> Watzap.Reply)
    ensures Deliver(cfg, key, isi, c, post) == Deliver(cfg, key, isi, c.(email := e), post)
  {
    assert c.(email := "") == c.(email := e).(email := "");
  }

  /** `Deliver` as a function of the customer, for one broadcast and one tenant key. */
  function Sender(cfg: Watzap.Config, key: string, isi: string, post: Watzap.Request -> Watzap.Reply)
    : Customer -> Watzap.SendResult
  {
    c => Deliver(cfg, key, isi, c, post)
  }

  /**
   * Each customer is sent the personalised text through the tenant's own number key,
   * so the configured default key is never used while the tenant has one.
   */
  lemma SenderUsesTenantKey(cfg: Watzap.Config, key: string, isi: string, post: Watzap.Request -> Watzap.Reply,
                            c: Customer)
    requires cfg.apiKey != "" && key != "" && Watzap.IsValidPhoneNumber(c.telepon)
    ensures Sender(cfg, key, isi, post)(c).request ==
      Some(Watzap.TextRequest(cfg.apiKey, key, Watzap.FormatPhoneNumber(c.telepon), Personalize(isi, c.(email := ""))))
  {
  }

  /** The state of a dispatch run: the detail table, the results so far, and whether it threw. */
  datatype Run = Run(details: seq<Detail>, results: seq<Recipient>, aborted: bool)

  /**
   * The per-detail loop of `sendBroadcast` over the positions `pend`, with `send` the
   * send to one customer (`Sender`). A detail whose customer row no longer exists
   * throws from the error handler itself, which ends the run; otherwise the detail
   * becomes sent (stamped with `clock(k)` for the `k`-th send) or failed.
   */
  method Dispatch(ds: seq<Detail>, pend: seq<nat>, customers: map<nat, Customer>,
                  send: Customer -> Watzap.SendResult, clock: nat -> int) returns (r: Run)
    requires forall k :: 0 <= k < |pend| ==> pend[k] < |ds|
    requires forall j, k :: 0 <= j < k < |pend| ==> pend[j] < pend[k]
    ensures |r.details| == |ds|
    ensures |r.results| <= |pend|
    ensures r.aborted <==> |r.results| < |pend|
    ensures r.aborted ==> ds[pend[|r.results|]].pelangganId !in customers
    ensures forall i :: 0 <= i < |ds| && i !in pend ==> r.details[i] == ds[i]
    ensures forall k :: |r.results| <= k < |pend| ==> r.details[pend[k]] == ds[pend[k]]
    ensures forall k :: 0 <= k < |r.results| ==> ds[pend[k]].pelangganId in customers
    ensures forall k :: 0 <= k < |r.results| ==>
      && r.results[k].sent == send(customers[ds[pend[k]].pelangganId]).success
      && r.results[k].pelangganId == ds[pend[k]].pelangganId
      && r.details[pend[k]].status == (if r.results[k].sent then Sent else DetailFailed)
      && r.details[pend[k]].sentAt == (if r.results[k].sent then clock(k) else ds[pend[k]].sentAt)
  {
    var details := ds;
    var results: seq<Recipient> := [];
    var k := 0;
    while k < |pend|
      invariant 0 <= k <= |pend|
      invariant |details| == |ds| && |results| == k
      invariant forall i :: 0 <= i < |ds| && i !in pend ==> details[i] == ds[i]
      invariant forall j :: k <= j < |pend| ==> details[pend[j]] == ds[pend[j]]
      invariant forall j :: 0 <= j < k ==> ds[pend[j]].pelangganId in customers
      invariant forall j :: 0 <= j < k ==>
        && results[j].sent == send(customers[ds[pend[j]].pelangganId]).success
        && results[j].pelangganId == ds[pend[j]].pelangganId
        && details[pend[j]].status == (if results[j].sent then Sent else DetailFailed)
        && details[pend[j]].sentAt == (if results[j].sent then clock(j) else ds[pend[j]].sentAt)
    {
      var i := pend[k];
      var d := details[i];
      if d.pelangganId !in customers {
        return Run(details, results, true);
      }
      var c := customers[d.pelangganId];
      var res := send(c);
      var d' := if res.success then d.(status := Sent, sentAt := clock(k)) else d.(status := DetailFailed);
      assert forall j :: 0 <= j < |pend| && j != k ==> pend[j] != i;
      details := details[i := d'];
      results := results + [Recipient(d.pelangganId, c.nama, c.telepon, res.success,
                                      if res.success then "" else res.error)];
      k := k + 1;
    }
    r := Run(details, results, false);
  }

  function CountSent(rs: seq<Recipient>): (n: nat)
    ensures n <= |rs|
  {
    if |rs| == 0 then 0 else CountSent(rs[..|rs| - 1]) + (if rs[|rs| - 1].sent then 1 else 0)
  }

  /** `finalStatus`, read from the counts of one run. */
  function FinalStatus(success: nat, failed: nat): (s: BroadcastStatus)
  {
    if failed == 0 then Completed else if success == 0 then Failed else Partial
  }

  /** The three outcomes of a run that sent to `success + failed > 0` recipients. */
  lemma FinalStatusCases(success: nat, failed: nat)
    requires success + failed > 0
    ensures FinalStatus(success, failed) == Completed <==> success == success + failed
    ensures FinalStatus(success, failed) == Failed <==> failed == success + failed
    ensures FinalStatus(success, failed) == Partial <==> 0 < success && 0 < failed
  {
  }

  datatype SendReport = SendReport(broadcastId: nat, status: BroadcastStatus, total: nat,
                                   success: nat, failed: nat, recipients: seq<Recipient>)

  /** A result together with the store left behind, whether or not the call threw. */
  datatype Outcome<T> = Outcome(result: Result<T>, db: Db)

  const NoPending := "Tidak ada penerima dengan status pending"
  const NoUmkm := "UMKM tidak ditemukan"
  const NoNumberKey := "Number key Watzap.id belum dikonfigurasi untuk UMKM ini. Silakan set number key terlebih dahulu."
  const NullCustomer := "Cannot read properties of null (reading 'nama')"

  /** The error `sendBroadcast` raises before it writes anything, if any. */
  function SendPrecheck(db: Db, id: nat): (r: Option<string>)
    ensures r.None? <==> id in db.broadcasts && db.broadcasts[id].umkmId in db.umkms
                         && db.umkms[db.broadcasts[id].umkmId].waNumberKey != ""
                         && |PendingIndices(db.details, id)| > 0
  {
    if id !in db.broadcasts then Some(NotFound)
    else if db.broadcasts[id].umkmId !in db.umkms then Some(NoUmkm)
    else if db.umkms[db.broadcasts[id].umkmId].waNumberKey == "" then Some(NoNumberKey)
    else if |PendingIndices(db.details, id)| == 0 then Some(NoPending)
    else None
  }

  /**
   * `sendBroadcast`: the checks, then status 'sending', then one send per pending
   * detail with the tenant's number key, then the final status from this run's counts.
   * The broadcast's current status is not consulted.
   */
  method SendBroadcast(db: Db, id: nat, cfg: Watzap.Config, post: Watzap.Request -> Watzap.Reply,
                       clock: nat -> int) returns (r: Outcome<SendReport>)
    ensures SendPrecheck(db, id).Some? ==> r == Outcome(Err(SendPrecheck(db, id).value), db)
    ensures SendPrecheck(db, id).None? ==> KeepsOtherRows(db, r.db, id)
    ensures SendPrecheck(db, id).None? ==> KeepsSettled(db, r.db, id)
    ensures r.result.Ok? ==> ReportsRun(db, id, RunSender(db, id, cfg, post), clock, r)
    ensures SendPrecheck(db, id).None? && r.result.Err? ==>
      r.result.msg == NullCustomer && r.db.broadcasts[id].status == Sending
  {
    var pre := SendPrecheck(db, id);
    if pre.Some? {
      return Outcome(Err(pre.value), db);
    }
    r := SendPending(db, id, cfg, post, clock);
  }

  /** `db'` differs from `db` at most in broadcast `id` and that broadcast's details. */
  predicate KeepsOtherRows(db: Db, db': Db, id: nat) {
    && db'.customers == db.customers && db'.umkms == db.umkms && db'.nextId == db.nextId
    && db'.broadcasts.Keys == db.broadcasts.Keys
    && (forall b :: b in db.broadcasts && b != id ==> db'.broadcasts[b] == db.broadcasts[b])
    && |db'.details| == |db.details|
    && (forall i :: 0 <= i < |db.details| && db.details[i].broadcastId != id ==> db'.details[i] == db.details[i])
  }

  /** Every detail that was not pending for broadcast `id` is left as it was. */
  predicate KeepsSettled(db: Db, db': Db, id: nat)
    requires |db'.details| == |db.details|
  {
    var pend := PendingIndices(db.details, id);
    forall i :: 0 <= i < |db.details| && i !in pend ==> db'.details[i] == db.details[i]
  }

  /**
   * A completed run: one recipient per pending detail, in order, each sent the
   * personalised text with the tenant's key; each such detail becomes sent (stamped with
   * its send's time) or failed as its own send went; the counts add up and the
   * broadcast's status is the one they give.
   */
  predicate ReportsRun(db: Db, id: nat, send: Customer -> Watzap.SendResult, clock: nat -> int,
                       r: Outcome<SendReport>)
    requires r.result.Ok? && SendPrecheck(db, id).None? && KeepsOtherRows(db, r.db, id)
  {
    RunCounted(db, id, r) && RunSettles(db, id, send, clock, r)
  }

  /** The report's counts and the broadcast's final status. */
  predicate RunCounted(db: Db, id: nat, r: Outcome<SendReport>)
    requires r.result.Ok? && SendPrecheck(db, id).None? && KeepsOtherRows(db, r.db, id)
  {
    var rep := r.result.value;
    && rep.total == |PendingIndices(db.details, id)| == |rep.recipients|
    && rep.success + rep.failed == rep.total
    && rep.success == CountSent(rep.recipients)
    && rep.status == FinalStatus(rep.success, rep.failed)
    && r.db.broadcasts[id] == db.broadcasts[id].(status := rep.status)
  }

  /** Each pending detail of the broadcast, with its recipient entry: sent to its customer and settled by that send. */
  predicate RunSettles(db: Db, id: nat, send: Customer -> Watzap.SendResult, clock: nat -> int, r: Outcome<SendReport>)
    requires r.result.Ok? && SendPrecheck(db, id).None? && KeepsOtherRows(db, r.db, id)
    requires |r.result.value.recipients| == |PendingIndices(db.details, id)|
  {
    var rep := r.result.value;
    var pend := PendingIndices(db.details, id);
    && (forall k :: 0 <= k < |pend| ==> r.db.details[pend[k]].status != Pending)
    && (forall k :: 0 <= k < |pend| ==>
          && r.db.details[pend[k]].status == (if rep.recipients[k].sent then Sent else DetailFailed)
          && r.db.details[pend[k]].sentAt == (if rep.recipients[k].sent then clock(k) else db.details[pend[k]].sentAt))
    && (forall k :: 0 <= k < |pend| ==>
          db.details[pend[k]].pelangganId in db.customers
          && rep.recipients[k].sent == send(db.customers[db.details[pend[k]].pelangganId]).success)
  }

  /** The send `sendBroadcast` uses for broadcast `id`: the tenant's number key and the broadcast's text. */
  function RunSender(db: Db, id: nat, cfg: Watzap.Config, post: Watzap.Request -> Watzap.Reply)
    : Customer -> Watzap.SendResult
    requires id in db.broadcasts && db.broadcasts[id].umkmId in db.umkms
  {
    Sender(cfg, db.umkms[db.broadcasts[id].umkmId].waNumberKey, db.broadcasts[id].isi, post)
  }

  /** The part of `sendBroadcast` after its checks have passed. */
  method SendPending(db: Db, id: nat, cfg: Watzap.Config, post: Watzap.Request -> Watzap.Reply,
                     clock: nat -> int) returns (r: Outcome<SendReport>)
    requires SendPrecheck(db, id).None?
    ensures KeepsOtherRows(db, r.db, id)
    ensures KeepsSettled(db, r.db, id)
    ensures r.result.Ok? ==> ReportsRun(db, id, RunSender(db, id, cfg, post), clock, r)
    ensures r.result.Err? ==> r.result.msg == NullCustomer && r.db.broadcasts[id].status == Sending
  {
    var b := db.broadcasts[id];
    var key := db.umkms[b.umkmId].waNumberKey;
    var pend := PendingIndices(db.details, id);
    var send := Sender(cfg, key, b.isi, post);
    var run := Dispatch(db.details, pend, db.customers, send, clock);
    assert forall i :: 0 <= i < |db.details| && db.details[i].broadcastId != id ==> i !in pend;
    if run.aborted {
      KeepsWithStatus(db, id, Sending, run.details);
      return Outcome(Err(NullCustomer), db.(broadcasts := db.broadcasts[id := b.(status := Sending)], details := run.details));
    }
    assert |run.results| == |pend|;
    var success := CountSent(run.results);
    var failed := |run.results| - success;
    var status := FinalStatus(success, failed);
    var db' := db.(broadcasts := db.broadcasts[id := b.(status := status)], details := run.details);
    var rep := SendReport(id, status, |pend|, success, failed, run.results);
    r := Outcome(Ok(rep), db');
    RunReported(db, id, send, clock, run, r);
  }

  /** A dispatch over all of the broadcast's pending details that did not abort is reported as `ReportsRun` says. */
  lemma RunReported(db: Db, id: nat, send: Customer -> Watzap.SendResult, clock: nat -> int, run: Run,
                    r: Outcome<SendReport>)
    requires SendPrecheck(db, id).None?
    requires |run.details| == |db.details| && |run.results| == |PendingIndices(db.details, id)|
    requires forall i :: 0 <= i < |db.details| && db.details[i].broadcastId != id ==> run.details[i] == db.details[i]
    requires var pend := PendingIndices(db.details, id);
      forall k :: 0 <= k < |pend| ==>
        && db.details[pend[k]].pelangganId in db.customers
        && run.results[k].sent == send(db.customers[db.details[pend[k]].pelangganId]).success
        && run.details[pend[k]].status == (if run.results[k].sent then Sent else DetailFailed)
        && run.details[pend[k]].sentAt == (if run.results[k].sent then clock(k) else db.details[pend[k]].sentAt)
    requires r.result.Ok? && r.result.value.recipients == run.results && r.result.value.total == |run.results|
    requires r.result.value.success == CountSent(run.results)
    requires r.result.value.failed == |run.results| - r.result.value.success
    requires r.result.value.status == FinalStatus(r.result.value.success, r.result.value.failed)
    requires r.db == db.(broadcasts := db.broadcasts[id := db.broadcasts[id].(status := r.result.value.status)],
                         details := run.details)
    ensures KeepsOtherRows(db, r.db, id) && ReportsRun(db, id, send, clock, r)
  {
    KeepsWithStatus(db, id, r.result.value.status, run.details);
    RunSettled(db, id, send, clock, run, r);
  }

  /** The per-detail half of `RunReported`. */
  lemma RunSettled(db: Db, id: nat, send: Customer -> Watzap.SendResult, clock: nat -> int, run: Run,
                   r: Outcome<SendReport>)
    requires SendPrecheck(db, id).None?
    requires |run.details| == |db.details| && |run.results| == |PendingIndices(db.details, id)|
    requires var pend := PendingIndices(db.details, id);
      forall k :: 0 <= k < |pend| ==>
        && db.details[pend[k]].pelangganId in db.customers
        && run.results[k].sent == send(db.customers[db.details[pend[k]].pelangganId]).success
        && run.details[pend[k]].status == (if run.results[k].sent then Sent else DetailFailed)
        && run.details[pend[k]].sentAt == (if run.results[k].sent then clock(k) else db.details[pend[k]].sentAt)
    requires r.result.Ok? && r.result.value.recipients == run.results && r.db.details == run.details
    requires KeepsOtherRows(db, r.db, id)
    ensures RunSettles(db, id, send, clock, r)
  {
  }

  /** Setting the broadcast's status and rewriting only its own details keeps every other row. */
  lemma KeepsWithStatus(db: Db, id: nat, s: BroadcastStatus, details: seq<Detail>)
    requires id in db.broadcasts && |details| == |db.details|
    requires forall i :: 0 <= i < |db.details| && db.details[i].broadcastId != id ==> details[i] == db.details[i]
    ensures KeepsOtherRows(db, db.(broadcasts := db.broadcasts[id := db.broadcasts[id].(status := s)], details := details), id)
  {
  }

  // ---------------------------------------------------------------- deletion

  function DetailsNotOf(ds: seq<Detail>, bid: nat): (r: seq<Detail>)
    ensures forall k :: 0 <= k < |r| ==> r[k].broadcastId != bid
    ensures forall d :: d in ds && d.broadcastId != bid ==> d in r
    ensures forall d :: d in r ==> d in ds
  {
    if |ds| == 0 then []
    else
      var front := DetailsNotOf(ds[..|ds| - 1], bid);
      assert forall d :: d in ds ==> d in ds[..|ds| - 1] || d == ds[|ds| - 1];
      if ds[|ds| - 1].broadcastId != bid then front + [ds[|ds| - 1]] else front
  }

  const StillSending := "Tidak dapat menghapus broadcast yang sedang diproses"

  /**
   * `deleteBroadcast`: a missing or a 'sending' broadcast throws and nothing changes;
   * otherwise the broadcast and all its details are removed together.
   */
  function DeleteBroadcast(db: Db, id: nat): (r: Result<Db>)
    ensures id !in db.broadcasts ==> r == Err(NotFound)
    ensures id in db.broadcasts && db.broadcasts[id].status == Sending ==> r == Err(StillSending)
    ensures r.Ok? <==> id in db.broadcasts && db.broadcasts[id].status != Sending
    ensures r.Ok? ==> r.value.broadcasts == db.broadcasts - {id}
    ensures r.Ok? ==> forall d :: d in r.value.details ==> d.broadcastId != id && d in db.details
    ensures r.Ok? ==> forall d :: d in db.details && d.broadcastId != id ==> d in r.value.details
    ensures r.Ok? ==> r.value.customers == db.customers && r.value.umkms == db.umkms
  {
    if id !in db.broadcasts then Err(NotFound)
    else if db.broadcasts[id].status == Sending then Err(StillSending)
    else Ok(db.(broadcasts := db.broadcasts - {id}, details := DetailsNotOf(db.details, id)))
  }

  // ---------------------------------------------------------------- statistics

  /** How many of `ds` have status `s`, counted from the back. */
  function CountStatus(ds: seq<Detail>, s: DetailStatus): (n: nat)
    ensures n <= |ds|
  {
    if |ds| == 0 then 0 else CountStatus(ds[..|ds| - 1], s) + (if ds[|ds| - 1].status == s then 1 else 0)
  }

  /** The status column of `ds`, row by row. */
  function Statuses(ds: seq<Detail>): (r: seq<DetailStatus>)
    ensures |r| == |ds| && forall k :: 0 <= k < |ds| ==> r[k] == ds[k].status
  {
    seq(|ds|, k requires 0 <= k < |ds| => ds[k].status)
  }

  /** The count is the multiplicity of the status in the status column. */
  lemma {:induction false} CountStatusMultiset(ds: seq<Detail>, s: DetailStatus)
    ensures CountStatus(ds, s) == multiset(Statuses(ds))[s]
  {
    if |ds| > 0 {
      var n := |ds| - 1;
      CountStatusMultiset(ds[..n], s);
      assert Statuses(ds) == Statuses(ds[..n]) + [ds[n].status];
    }
  }

  /** The three status counts add up to the number of details. */
  lemma {:induction false} CountStatusTotal(ds: seq<Detail>)
    ensures CountStatus(ds, Sent) + CountStatus(ds, Pending) + CountStatus(ds, DetailFailed) == |ds|
  {
    if |ds| > 0 {
      CountStatusTotal(ds[..|ds| - 1]);
    }
  }

  /** The `stats` block attached to a broadcast. */
  datatype Stats = Stats(totalPenerima: nat, terkirim: nat, pending: nat, gagal: nat)

  /** The recipients, and how many of them are in each status. */
  function StatsOf(ds: seq<Detail>): (s: Stats)
    ensures s.totalPenerima == |ds|
    ensures s.terkirim + s.pending + s.gagal == s.totalPenerima
    ensures var col := multiset(Statuses(ds));
      s.terkirim == col[Sent] && s.pending == col[Pending] && s.gagal == col[DetailFailed]
  {
    CountStatusTotal(ds);
    CountStatusMultiset(ds, Sent);
    CountStatusMultiset(ds, Pending);
    CountStatusMultiset(ds, DetailFailed);
    Stats(|ds|, CountStatus(ds, Sent), CountStatus(ds, Pending), CountStatus(ds, DetailFailed))
  }

  /**
   * Settling one pending detail as sent or failed moves one recipient out of the pending
   * count into that status's count and leaves the rest alone.
   */
  lemma SettleCounts(ds: seq<Detail>, k: nat, st: DetailStatus)
    requires k < |ds| && ds[k].status == Pending && st != Pending
    ensures var s, s' := StatsOf(ds), StatsOf(ds[k := ds[k].(status := st)]);
      && s'.totalPenerima == s.totalPenerima
      && s'.pending == s.pending - 1
      && s'.terkirim == s.terkirim + (if st == Sent then 1 else 0)
      && s'.gagal == s.gagal + (if st == DetailFailed then 1 else 0)
  {
    var ds' := ds[k := ds[k].(status := st)];
    assert Statuses(ds') == Statuses(ds)[k := st];
  }

  /** The details of broadcast `bid`, in table order: each of them, as often as it occurs. */
  function DetailsOf(ds: seq<Detail>, bid: nat): (r: seq<Detail>)
    ensures |r| <= |ds|
    ensures forall k :: 0 <= k < |r| ==> r[k].broadcastId == bid && r[k] in ds
    ensures forall d :: multiset(r)[d] == (if d.broadcastId == bid then multiset(ds)[d] else 0)
  {
    if |ds| == 0 then []
    else
      var n := |ds| - 1;
      var front := DetailsOf(ds[..n], bid);
      assert ds == ds[..n] + [ds[n]];
      if ds[n].broadcastId == bid then front + [ds[n]] else front
  }

  /**
   * `success_rate` of `getStatistik`, as an exact percentage: the one rate that sent
   * recipients are of all recipients, pending ones included; 0 without recipients.
   */
  function SuccessRate(terkirim: nat, totalPenerima: nat): (r: real)
    requires terkirim <= totalPenerima
    ensures 0.0 <= r <= 100.0
    ensures totalPenerima == 0 ==> r == 0.0
    ensures totalPenerima > 0 ==> r * totalPenerima as real == terkirim as real * 100.0
  {
    if totalPenerima > 0 then (terkirim as real / totalPenerima as real) * 100.0 else 0.0
  }

  /** Pending recipients count against the rate: a broadcast with one still pending is below 100. */
  lemma PendingLowersRate(ds: seq<Detail>)
    requires StatsOf(ds).pending > 0
    ensures SuccessRate(StatsOf(ds).terkirim, StatsOf(ds).totalPenerima) < 100.0
  {
    var s := StatsOf(ds);
    var r := SuccessRate(s.terkirim, s.totalPenerima);
    assert s.terkirim < s.totalPenerima;
    assert r * s.totalPenerima as real < s.totalPenerima as real * 100.0;
  }

  /** The filter of `getStatistik`: a truthy umkm_id, and a date range only when both ends are given. */
  datatype StatFilter = StatFilter(umkmId: nat, start: Option<int>, end: Option<int>)

  predicate Selected(b: Broadcast, f: StatFilter) {
    && (f.umkmId != 0 ==> b.umkmId == f.umkmId)
    && (f.start.Some? && f.end.Some? ==> f.start.value <= b.sentAt <= f.end.value)
  }

  /** The counts of `getStatistik`. */
  datatype Statistik = Statistik(totalBroadcast: nat, totalPenerima: nat, terkirim: nat, gagal: nat, successRate: real)

  /** The details of the selected broadcasts, in table order: each of them, as often as it occurs. */
  function SelectedDetails(db: Db, ds: seq<Detail>, f: StatFilter): (r: seq<Detail>)
    ensures |r| <= |ds|
    ensures forall k :: 0 <= k < |r| ==> r[k].broadcastId in db.broadcasts && Selected(db.broadcasts[r[k].broadcastId], f)
    ensures forall d :: multiset(r)[d] == (if d.broadcastId in db.broadcasts && Selected(db.broadcasts[d.broadcastId], f)
                                           then multiset(ds)[d] else 0)
  {
    if |ds| == 0 then []
    else
      var n := |ds| - 1;
      var front := SelectedDetails(db, ds[..n], f);
      var d := ds[n];
      assert ds == ds[..n] + [d];
      if d.broadcastId in db.broadcasts && Selected(db.broadcasts[d.broadcastId], f) then front + [d] else front
  }

  /**
   * `getStatistik`: the selected broadcasts, their details as recipients, the sent and
   * failed ones among them, and the share sent.
   */
  function GetStatistik(db: Db, f: StatFilter): (r: Statistik)
    ensures r.totalBroadcast == |set b | b in db.broadcasts && Selected(db.broadcasts[b], f)|
    ensures var sel := SelectedDetails(db, db.details, f);
      && r.totalPenerima == |sel|
      && r.terkirim == multiset(Statuses(sel))[Sent]
      && r.gagal == multiset(Statuses(sel))[DetailFailed]
    ensures r.terkirim + r.gagal <= r.totalPenerima
    ensures r.successRate == SuccessRate(r.terkirim, r.totalPenerima)
  {
    var ds := SelectedDetails(db, db.details, f);
    var s := StatsOf(ds);
    Statistik(|set b | b in db.broadcasts && Selected(db.broadcasts[b], f)|, s.totalPenerima, s.terkirim, s.gagal,
              SuccessRate(s.terkirim, s.totalPenerima))
  }

  /** Without a tenant id or a complete date range, every broadcast is counted. */
  lemma UnfilteredCountsAll(db: Db)
    ensures GetStatistik(db, StatFilter(0, None, None)).totalBroadcast == |db.broadcasts.Keys|
  {
    assert (set b | b in db.broadcasts && Selected(db.broadcasts[b], StatFilter(0, None, None))) == db.broadcasts.Keys;
  }

  /** `getAllBroadcast`'s tenant filter: every broadcast when `umkm_id` is falsy. */
  function VisibleBroadcasts(db: Db, umkmId: nat): (r: set<nat>)
    ensures r <= db.broadcasts.Keys
    ensures umkmId == 0 ==> r == db.broadcasts.Keys
    ensures umkmId != 0 ==> forall b :: b in r <==> b in db.broadcasts && db.broadcasts[b].umkmId == umkmId
  {
    set b | b in db.broadcasts && (umkmId != 0 ==> db.broadcasts[b].umkmId == umkmId)
  }
}

=== FILE: calendar.dfy ===
/**
 * Local calendar time as `new Date()` reports it through `getFullYear`, `getMonth() + 1`,
 * `getDate`, `getHours`, `getMinutes` and `getSeconds`, and the digit stamps that the
 * transaction and invoice numbers are built from.
 */
module Calendar {
  import opened Text
  import opened Decimal

  /** A broken-down local time; `month` is already 1-based. */
  datatype DateTime = DateTime(year: nat, month: nat, day: nat, hour: nat, minute: nat, second: nat)

  predicate Valid(d: DateTime) {
    1000 <= d.year <= 9999 && 1 <= d.month <= 12 && 1 <= d.day <= 31
    && d.hour < 24 && d.minute < 60 && d.second < 60
  }

  /** `${year}${month}${day}` with month and day padded to two digits. */
  function Ymd(d: DateTime): (r: string)
    ensures AllDigits(r) && |r| >= 5
  {
    var y, m, dd := NatToString(d.year), Pad(d.month, 2), Pad(d.day, 2);
    AllDigitsAppend(y, m);
    AllDigitsAppend(y + m, dd);
    y + m + dd
  }

  /** `${hours}${minutes}${seconds}`, each padded to two digits. */
  function Hms(d: DateTime): (r: string)
    ensures AllDigits(r) && |r| >= 6
  {
    var h, m, s := Pad(d.hour, 2), Pad(d.minute, 2), Pad(d.second, 2);
    AllDigitsAppend(h, m);
    AllDigitsAppend(h + m, s);
    h + m + s
  }

  /** For a valid time both stamps have their fixed widths. */
  lemma StampWidths(d: DateTime)
    requires Valid(d)
    ensures |Ymd(d)| == 8 && |Hms(d)| == 6
  {
    NatToStringWidth(d.year, 4);
    assert Pow10(2) == 100 && Pow10(4) == 10000;
    PadWidth(d.month, 2);
    PadWidth(d.day, 2);
    PadWidth(d.hour, 2);
    PadWidth(d.minute, 2);
    PadWidth(d.second, 2);
  }

  /** For valid times the date stamp reads back as year, month and day. */
  lemma YmdRoundTrip(d: DateTime)
    requires Valid(d)
    ensures var r := Ymd(d);
      && |r| == 8 && AllDigits(r[..4]) && AllDigits(r[4..6]) && AllDigits(r[6..8])
      && DigitsValue(r[..4]) == d.year && DigitsValue(r[4..6]) == d.month && DigitsValue(r[6..8]) == d.day
  {
    YmdFields(d);
  }

  /** A valid date stamp is the four-digit year, then the two-digit month and day. */
  lemma YmdFields(d: DateTime)
    requires Valid(d)
    ensures var r := Ymd(d);
      && |r| == 8 && r[..4] == NatToString(d.year) && r[4..6] == Pad(d.month, 2) && r[6..8] == Pad(d.day, 2)
  {
    var y, m, dd := NatToString(d.year), Pad(d.month, 2), Pad(d.day, 2);
    assert |y| == 4 by {
      YearWidth(d.year);
    }
    assert |m| == 2 && |dd| == 2 by {
      assert Pow10(2) == 100;
      PadWidth(d.month, 2);
      PadWidth(d.day, 2);
    }
    var r := Ymd(d);
    assert r == y + m + dd;
    SliceThree(y, m, dd);
  }

  lemma YearWidth(year: nat)
    requires 1000 <= year <= 9999
    ensures |NatToString(year)| == 4
  {
    assert Pow10(4) == 10000;
    NatToStringWidth(year, 4);
    var k := |NatToString(year)|;
    var j := if k < 3 then k else 3;
    PowMonotone(j, 3);
    assert Pow10(3) == 1000;
  }

  /** Three joined texts are sliced back apart at their lengths. */
  lemma SliceThree(a: string, b: string, c: string)
    ensures var r := a + b + c;
      && r[..|a|] == a && r[|a|..|a| + |b|] == b && r[|a| + |b|..] == c
  {
  }
}

=== FILE: categories.dfy ===
/**
 * Product categories (`KategoriService`): a category name is unique, both by the service's
 * lookups and by the column's own unique constraint; deleting a category first deletes
 * its product types.
 */
module Categories {
  import opened Wrappers
  import ProductTypes

  /** A `KategoriProduk` row; a NULL description is `None`. */
  datatype Kategori = Kategori(nama: string, deskripsi: Option<string>)

  /** The category table together with the product types that point into it. */
  datatype Catalog = Catalog(kategori: map<nat, Kategori>, nextId: nat, jenis: ProductTypes.Table)

  const NotFound := "Kategori tidak ditemukan"
  const NamaRequired := "Nama kategori wajib diisi"
  const NamaTaken := "Nama kategori sudah ada"
  /** What the unique index on `nama_kategori` raises when a write would duplicate a name. */
  const UniqueViolation := "Validation error"

  predicate NameUsed(rows: map<nat, Kategori>, nama: string) {
    exists id :: id in rows && rows[id].nama == nama
  }

  /** Some row other than `id` has this name. */
  predicate NameUsedElsewhere(rows: map<nat, Kategori>, id: nat, nama: string) {
    exists k :: k in rows && k != id && rows[k].nama == nama
  }

  predicate UniqueNames(rows: map<nat, Kategori>) {
    forall i, j :: i in rows && j in rows && i != j ==> rows[i].nama != rows[j].nama
  }

  // ---------------------------------------------------------------- create

  /** `createKategori`: the name is required and must not exist yet. */
  function CreateKategori(c: Catalog, nama: string, deskripsi: Option<string>): (r: Result<Catalog>)
    ensures r.Ok? <==> nama != "" && !NameUsed(c.kategori, nama)
    ensures r.Err? && nama == "" ==> r.msg == NamaRequired
    ensures r.Err? && nama != "" ==> r.msg == NamaTaken
    ensures r.Ok? ==> r.value == c.(kategori := c.kategori[c.nextId := Kategori(nama, deskripsi)], nextId := c.nextId + 1)
  {
    if nama == "" then Err(NamaRequired)
    else if NameUsed(c.kategori, nama) then Err(NamaTaken)
    else Ok(c.(kategori := c.kategori[c.nextId := Kategori(nama, deskripsi)], nextId := c.nextId + 1))
  }

  /** A successful create keeps names unique. */
  lemma CreateKeepsNamesUnique(c: Catalog, nama: string, deskripsi: Option<string>)
    requires UniqueNames(c.kategori) && CreateKategori(c, nama, deskripsi).Ok?
    ensures UniqueNames(CreateKategori(c, nama, deskripsi).value.kategori)
  {
    var rows := CreateKategori(c, nama, deskripsi).value.kategori;
    forall i, j | i in rows && j in rows && i != j
      ensures rows[i].nama != rows[j].nama
    {
      if i == c.nextId {
        assert j in c.kategori;
      } else if j == c.nextId {
        assert i in c.kategori;
      }
    }
  }

  // ---------------------------------------------------------------- update

  /** The body of an update request: every supplied field is written, even an empty name. */
  datatype KategoriPatch = KategoriPatch(nama: Option<string>, deskripsi: Option<Option<string>>)

  /** The service's own lookup: it runs only for a truthy name that differs from the stored one. */
  predicate ServiceRejects(rows: map<nat, Kategori>, id: nat, patch: KategoriPatch)
    requires id in rows
  {
    patch.nama.Some? && patch.nama.value != "" && patch.nama.value != rows[id].nama
    && NameUsed(rows, patch.nama.value)
  }

  /** The unique index refuses a name that another row already holds. */
  predicate IndexRejects(rows: map<nat, Kategori>, id: nat, patch: KategoriPatch) {
    patch.nama.Some? && NameUsedElsewhere(rows, id, patch.nama.value)
  }

  /**
   * `updateKategori`: a missing id throws; a clashing truthy new name throws; then
   * `kategori.update(data)` writes the supplied fields, which the unique index refuses
   * when the name would be duplicated.
   */
  function UpdateKategori(c: Catalog, id: nat, patch: KategoriPatch): (r: Result<Catalog>)
    ensures r.Ok? <==> id in c.kategori && !ServiceRejects(c.kategori, id, patch)
                       && !IndexRejects(c.kategori, id, patch)
    ensures r.Err? && id !in c.kategori ==> r.msg == NotFound
    ensures r.Err? && id in c.kategori && ServiceRejects(c.kategori, id, patch) ==> r.msg == NamaTaken
    ensures r.Err? && id in c.kategori && !ServiceRejects(c.kategori, id, patch) ==> r.msg == UniqueViolation
    ensures r.Ok? ==> r.value.kategori.Keys == c.kategori.Keys && r.value.jenis == c.jenis
                      && r.value.nextId == c.nextId
    ensures r.Ok? ==> forall k :: k in c.kategori && k != id ==> r.value.kategori[k] == c.kategori[k]
    ensures r.Ok? ==> var q := r.value.kategori[id];
      && q.nama == patch.nama.GetOr(c.kategori[id].nama) && q.deskripsi == patch.deskripsi.GetOr(c.kategori[id].deskripsi)
  {
    if id !in c.kategori then Err(NotFound)
    else if ServiceRejects(c.kategori, id, patch) then Err(NamaTaken)
    else if IndexRejects(c.kategori, id, patch) then Err(UniqueViolation)
    else
      var k := c.kategori[id];
      Ok(c.(kategori := c.kategori[id := Kategori(patch.nama.GetOr(k.nama), patch.deskripsi.GetOr(k.deskripsi))]))
  }

  /** A successful update keeps names unique. */
  lemma UpdateKeepsNamesUnique(c: Catalog, id: nat, patch: KategoriPatch)
    requires UniqueNames(c.kategori) && UpdateKategori(c, id, patch).Ok?
    ensures UniqueNames(UpdateKategori(c, id, patch).value.kategori)
  {
    var rows := UpdateKategori(c, id, patch).value.kategori;
    forall i, j | i in rows && j in rows && i != j
      ensures rows[i].nama != rows[j].nama
    {
      if i == id || j == id {
        var other := if i == id then j else i;
        assert rows[other] == c.kategori[other];
      }
    }
  }

  /**
   * Renaming to "" skips the service's lookup, so when another category already has the
   * empty name only the unique index stops the write.
   */
  lemma EmptyRenameStoppedByIndex(c: Catalog, id: nat, other: nat)
    requires id in c.kategori && other in c.kategori && id != other
    requires c.kategori[other].nama == ""
    ensures !ServiceRejects(c.kategori, id, KategoriPatch(Some(""), None))
    ensures UpdateKategori(c, id, KategoriPatch(Some(""), None)) == Err(UniqueViolation)
  {
    assert IndexRejects(c.kategori, id, KategoriPatch(Some(""), None));
  }

  // ---------------------------------------------------------------- delete

  /** A delete answers with an error or with success, and leaves a catalog behind either way. */
  datatype Outcome = Outcome(error: Option<string>, after: Catalog)

  /**
   * `deleteKategori`: the category's product types are destroyed first, outside any
   * transaction; only then does a missing category throw.
   */
  function DeleteKategori(c: Catalog, id: nat): (r: Outcome)
    ensures r.error.Some? <==> id !in c.kategori
    ensures r.error.Some? ==> r.error.value == NotFound
    ensures r.after.kategori == c.kategori - {id} && r.after.nextId == c.nextId
    ensures r.after.jenis.nextId == c.jenis.nextId
    ensures forall k :: k in r.after.jenis.rows <==> k in c.jenis.rows && c.jenis.rows[k].kategoriId != id
    ensures forall k :: k in r.after.jenis.rows ==> r.after.jenis.rows[k] == c.jenis.rows[k]
  {
    var jenis := ProductTypes.DropCategory(c.jenis, id);
    if id !in c.kategori then Outcome(Some(NotFound), c.(jenis := jenis))
    else Outcome(None, c.(kategori := c.kategori - {id}, jenis := jenis))
  }

  /**
   * Deleting a category that does not exist still destroys the product types that name it.
   * Such a type is an orphan, which the foreign key on `kategori_id` refuses to store; the
   * lemma shows the order of the service's statements, not a state a synced database reaches.
   */
  lemma FailedDeleteStillDropsTypes(c: Catalog, id: nat, j: nat)
    requires id !in c.kategori && j in c.jenis.rows && c.jenis.rows[j].kategoriId == id
    ensures DeleteKategori(c, id).error == Some(NotFound)
    ensures DeleteKategori(c, id).after != c
  {
    assert j !in DeleteKategori(c, id).after.jenis.rows;
  }

  /** After a successful delete no product type points at the deleted category. */
  lemma DeleteLeavesNoOrphans(c: Catalog, id: nat)
    requires forall j :: j in c.jenis.rows ==> c.jenis.rows[j].kategoriId in c.kategori
    ensures var a := DeleteKategori(c, id).after;
            forall j :: j in a.jenis.rows ==> a.jenis.rows[j].kategoriId in a.kategori
  {
  }
}

=== FILE: customers.dfy ===
/**
 * The customer book of every tenant (`PelangganService`): creating a customer with a
 * required name and a globally unique e-mail, merging an update, reading and deleting.
 */
module Customers {
  import opened Wrappers

  /**
   * A `Pelanggan` row. NULL columns are `None`; `umkmId` 0 stands for a NULL tenant;
   * `updatedAt` is the millisecond clock reading of the last write.
   */
  datatype Pelanggan = Pelanggan(nama: string, telepon: Option<string>, email: Option<string>,
                                 gender: Option<string>, alamat: Option<string>, level: Option<string>,
                                 umkmId: nat, updatedAt: int)

  datatype Table = Table(rows: map<nat, Pelanggan>, nextId: nat)

  const NotFound := "Pelanggan tidak ditemukan"
  const NamaRequired := "Nama pelanggan wajib diisi"
  const EmailTaken := "Email sudah terdaftar"

  /** A JavaScript value that is a non-empty string; NULL and "" are falsy. */
  predicate Truthy(s: Option<string>) {
    s.Some? && s.value != ""
  }

  /** `Pelanggan.findOne({ where: { email } })` finds a row: the lookup spans every tenant. */
  predicate EmailUsed(rows: map<nat, Pelanggan>, e: string) {
    exists id :: id in rows && rows[id].email == Some(e)
  }

  /** No two customers share a non-empty e-mail address. */
  predicate UniqueEmails(rows: map<nat, Pelanggan>) {
    forall i, j :: i in rows && j in rows && i != j && Truthy(rows[i].email) ==> rows[i].email != rows[j].email
  }

  // ---------------------------------------------------------------- create

  /** The body of a create request; absent and NULL fields are both `None`, an absent tenant is 0. */
  datatype NewPelanggan = NewPelanggan(nama: string, telepon: Option<string>, email: Option<string>,
                                       gender: Option<string>, alamat: Option<string>, level: Option<string>,
                                       umkmId: nat)

  /**
   * `createPelanggan`: the name is required, a non-empty e-mail must not be on any row of
   * any tenant, and the new row takes the next id with its fields as given.
   */
  function CreatePelanggan(t: Table, input: NewPelanggan, now: int): (r: Result<Table>)
    ensures r.Ok? <==> input.nama != "" && !(Truthy(input.email) && EmailUsed(t.rows, input.email.value))
    ensures r.Err? && input.nama == "" ==> r.msg == NamaRequired
    ensures r.Err? && input.nama != "" ==> r.msg == EmailTaken
    ensures r.Ok? ==> r.value.nextId == t.nextId + 1 && r.value.rows.Keys == t.rows.Keys + {t.nextId}
    ensures r.Ok? ==> forall j :: j in t.rows && j != t.nextId ==> r.value.rows[j] == t.rows[j]
    ensures r.Ok? ==> var p := r.value.rows[t.nextId];
      && p.nama == input.nama && p.email == input.email && p.telepon == input.telepon
      && p.gender == input.gender && p.alamat == input.alamat && p.level == input.level
      && p.umkmId == input.umkmId && p.updatedAt == now
  {
    if input.nama == "" then Err(NamaRequired)
    else if Truthy(input.email) && EmailUsed(t.rows, input.email.value) then Err(EmailTaken)
    else
      var p := Pelanggan(input.nama, input.telepon, input.email, input.gender, input.alamat,
                         input.level, input.umkmId, now);
      Ok(t.(rows := t.rows[t.nextId := p], nextId := t.nextId + 1))
  }

  /** A successful create keeps e-mails unique. */
  lemma CreateKeepsEmailsUnique(t: Table, input: NewPelanggan, now: int)
    requires UniqueEmails(t.rows) && CreatePelanggan(t, input, now).Ok?
    ensures UniqueEmails(CreatePelanggan(t, input, now).value.rows)
  {
    var rows := CreatePelanggan(t, input, now).value.rows;
    forall i, j | i in rows && j in rows && i != j && Truthy(rows[i].email)
      ensures rows[i].email != rows[j].email
    {
      if i == t.nextId {
        assert j in t.rows;
      } else if j == t.nextId {
        assert i in t.rows;
      }
    }
  }

  // ---------------------------------------------------------------- update

  /**
   * The body of an update request. `nama` and `gender` are kept when falsy (""), and
   * `umkmId` when 0; the other four fields are kept only when absent (the outer `None`)
   * and can be cleared with an explicit NULL (`Some(None)`).
   */
  datatype PelangganPatch = PelangganPatch(nama: string, telepon: Option<Option<string>>,
                                           email: Option<Option<string>>, gender: string,
                                           alamat: Option<Option<string>>, level: Option<Option<string>>,
                                           umkmId: nat)

  /** The e-mail an update would write when it names one. */
  function NewEmail(patch: PelangganPatch): Option<string> {
    if patch.email.Some? then patch.email.value else None
  }

  /** The uniqueness lookup runs only for a non-empty e-mail that differs from the stored one. */
  predicate EmailChangeClashes(rows: map<nat, Pelanggan>, p: Pelanggan, patch: PelangganPatch) {
    Truthy(NewEmail(patch)) && NewEmail(patch) != p.email && EmailUsed(rows, NewEmail(patch).value)
  }

  function Merge(p: Pelanggan, patch: PelangganPatch, now: int): Pelanggan {
    Pelanggan(if patch.nama != "" then patch.nama else p.nama,
              patch.telepon.GetOr(p.telepon),
              patch.email.GetOr(p.email),
              if patch.gender != "" then Some(patch.gender) else p.gender,
              patch.alamat.GetOr(p.alamat),
              patch.level.GetOr(p.level),
              if patch.umkmId != 0 then patch.umkmId else p.umkmId,
              now)
  }

  /** `updatePelanggan`: a missing id or a clashing new e-mail throws; otherwise only that row changes. */
  function UpdatePelanggan(t: Table, id: nat, patch: PelangganPatch, now: int): (r: Result<Table>)
    ensures r.Ok? <==> id in t.rows && !EmailChangeClashes(t.rows, t.rows[id], patch)
    ensures r.Err? && id !in t.rows ==> r.msg == NotFound
    ensures r.Err? && id in t.rows ==> r.msg == EmailTaken
    ensures r.Ok? ==> r.value.rows.Keys == t.rows.Keys && r.value.nextId == t.nextId
    ensures r.Ok? ==> forall j :: j in t.rows && j != id ==> r.value.rows[j] == t.rows[j]
    ensures r.Ok? ==> var p, q := t.rows[id], r.value.rows[id];
      && (patch.email.None? ==> q.email == p.email) && (patch.email.Some? ==> q.email == patch.email.value)
      && (patch.telepon.None? ==> q.telepon == p.telepon) && (patch.telepon.Some? ==> q.telepon == patch.telepon.value)
      && (patch.nama == "" ==> q.nama == p.nama) && (patch.nama != "" ==> q.nama == patch.nama)
      && (patch.alamat.None? ==> q.alamat == p.alamat) && (patch.alamat.Some? ==> q.alamat == patch.alamat.value)
      && (patch.level.None? ==> q.level == p.level) && (patch.level.Some? ==> q.level == patch.level.value)
      && (patch.gender == "" ==> q.gender == p.gender) && (patch.gender != "" ==> q.gender == Some(patch.gender))
      && (patch.umkmId == 0 ==> q.umkmId == p.umkmId) && (patch.umkmId != 0 ==> q.umkmId == patch.umkmId)
      && q.updatedAt == now
  {
    if id !in t.rows then Err(NotFound)
    else if EmailChangeClashes(t.rows, t.rows[id], patch) then Err(EmailTaken)
    else Ok(t.(rows := t.rows[id := Merge(t.rows[id], patch, now)]))
  }

  /** A successful update keeps e-mails unique: keeping one's own address needs no lookup. */
  lemma UpdateKeepsEmailsUnique(t: Table, id: nat, patch: PelangganPatch, now: int)
    requires UniqueEmails(t.rows) && UpdatePelanggan(t, id, patch, now).Ok?
    ensures UniqueEmails(UpdatePelanggan(t, id, patch, now).value.rows)
  {
    var rows := UpdatePelanggan(t, id, patch, now).value.rows;
    forall i, j | i in rows && j in rows && i != j && Truthy(rows[i].email)
      ensures rows[i].email != rows[j].email
    {
      if i == id {
        assert j in t.rows && rows[j] == t.rows[j];
        if rows[i].email != t.rows[id].email {
          assert !EmailUsed(t.rows, rows[i].email.value);
        }
      } else if j == id {
        assert rows[i] == t.rows[i];
        if rows[j].email != t.rows[id].email && Truthy(rows[j].email) {
          assert !EmailUsed(t.rows, rows[j].email.value);
        }
      }
    }
  }

  /** Repeating an update with the same clock reading changes nothing more. */
  lemma UpdatePelangganIdempotent(t: Table, id: nat, patch: PelangganPatch, now: int)
    requires UpdatePelanggan(t, id, patch, now).Ok?
    ensures UpdatePelanggan(UpdatePelanggan(t, id, patch, now).value, id, patch, now)
         == UpdatePelanggan(t, id, patch, now)
  {
    var once := UpdatePelanggan(t, id, patch, now).value;
    assert !EmailChangeClashes(once.rows, once.rows[id], patch);
    assert once.rows[id := Merge(once.rows[id], patch, now)] == once.rows;
  }

  // ---------------------------------------------------------------- read, delete

  /** `getPelangganById`. */
  function GetPelanggan(t: Table, id: nat): (r: Result<Pelanggan>)
    ensures r.Ok? <==> id in t.rows
    ensures r.Ok? ==> r.value == t.rows[id]
    ensures r.Err? ==> r.msg == NotFound
  {
    if id in t.rows then Ok(t.rows[id]) else Err(NotFound)
  }

  /** `deletePelanggan`: a missing id throws; otherwise exactly that row goes. */
  function DeletePelanggan(t: Table, id: nat): (r: Result<Table>)
    ensures r.Err? <==> id !in t.rows
    ensures r.Err? ==> r.msg == NotFound
    ensures r.Ok? ==> r.value.rows.Keys == t.rows.Keys - {id}
    ensures r.Ok? ==> forall j :: j in r.value.rows ==> r.value.rows[j] == t.rows[j]
  {
    if id !in t.rows then Err(NotFound) else Ok(t.(rows := t.rows - {id}))
  }

  // ---------------------------------------------------------------- runs of requests

  /** One request to the customer service, with the clock reading it sees. */
  datatype Request =
    | Create(input: NewPelanggan, now: int)
    | Update(id: nat, patch: PelangganPatch, now: int)
    | Delete(id: nat)

  /** A failed request leaves the table as it was. */
  function Apply(t: Table, q: Request): Table {
    var r := match q
      case Create(input, now) => CreatePelanggan(t, input, now)
      case Update(id, patch, now) => UpdatePelanggan(t, id, patch, now)
      case Delete(id) => DeletePelanggan(t, id);
    if r.Ok? then r.value else t
  }

  function ApplyAll(t: Table, qs: seq<Request>): Table
    decreases |qs|
  {
    if qs == [] then t else ApplyAll(Apply(t, qs[0]), qs[1..])
  }

  /** Requests served one at a time never leave two customers with the same non-empty e-mail. */
  lemma {:induction false} ApplyAllKeepsEmailsUnique(t: Table, qs: seq<Request>)
    requires UniqueEmails(t.rows)
    ensures UniqueEmails(ApplyAll(t, qs).rows)
    decreases |qs|
  {
    if qs != [] {
      match qs[0] {
      case Create(input, now) =>
        if CreatePelanggan(t, input, now).Ok? { CreateKeepsEmailsUnique(t, input, now); }
      case Update(id, patch, now) =>
        if UpdatePelanggan(t, id, patch, now).Ok? { UpdateKeepsEmailsUnique(t, id, patch, now); }
      case Delete(id) =>
        assert UniqueEmails(Apply(t, qs[0]).rows);
      }
      ApplyAllKeepsEmailsUnique(Apply(t, qs[0]), qs[1..]);
    }
  }
}

=== FILE: decimal.dfy ===
/**
 * Decimal text of non-negative integers: `String(n)`, `padStart(w, '0')` and
 * `parseInt(s, 10)` on digit strings, with the round trips the numbering code relies on.
 */
module Decimal {
  import opened Wrappers
  import opened Text

  function DigitChar(d: nat): (c: char)
    requires d < 10
    ensures IsDigit(c)
  {
    ('0' as int + d) as char
  }

  function DigitValue(c: char): (d: nat)
    requires IsDigit(c)
    ensures d < 10
  {
    c as int - '0' as int
  }

  /** The value of a string of decimal digits (the empty string counts as 0). */
  function DigitsValue(s: string): nat
    requires AllDigits(s)
    decreases |s|
  {
    if |s| == 0 then 0 else DigitsValue(s[..|s| - 1]) * 10 + DigitValue(s[|s| - 1])
  }

  function Pow10(k: nat): (p: nat)
    ensures p >= 1
  {
    if k == 0 then 1 else 10 * Pow10(k - 1)
  }

  /** `String(n)`: the canonical decimal form, without leading zeros, that reads back as `n`. */
  function NatToString(n: nat): (r: string)
    ensures |r| >= 1 && AllDigits(r)
    ensures |r| > 1 ==> r[0] != '0'
    ensures DigitsValue(r) == n
    ensures n < Pow10(|r|)
    ensures |r| > 1 ==> Pow10(|r| - 1) <= n
    decreases n
  {
    if n < 10 then [DigitChar(n)]
    else
      var r := NatToString(n / 10) + [DigitChar(n % 10)];
      assert r[..|r| - 1] == NatToString(n / 10);
      r
  }

  /** Writing `10q + d` appends the digit `d` to the writing of `q >= 1`. */
  lemma NatToStringDigit(q: nat, d: nat)
    requires q >= 1 && d < 10
    ensures NatToString(10 * q + d) == NatToString(q) + [DigitChar(d)]
  {
    var n := 10 * q + d;
    assert n / 10 == q && n % 10 == d;
  }

  /** `String(n)` has at most `k >= 1` digits when `n < 10^k`. */
  lemma {:induction false} NatToStringWidth(n: nat, k: nat)
    requires k >= 1 && n < Pow10(k)
    ensures |NatToString(n)| <= k
  {
    var r := NatToString(n);
    if |r| > k {
      PowMonotone(k, |r| - 1);
    }
  }

  lemma {:induction false} PowMonotone(a: nat, b: nat)
    requires a <= b
    ensures Pow10(a) <= Pow10(b)
    decreases b
  {
    if a < b {
      PowMonotone(a, b - 1);
    }
  }

  function Zeros(k: nat): (r: string)
    ensures |r| == k && AllDigits(r)
    ensures forall i :: 0 <= i < k ==> r[i] == '0'
  {
    seq(k, i => '0')
  }

  /** `s.padStart(w, '0')`: left-pads with zeros; never truncates. */
  function PadStart(s: string, w: nat): (r: string)
    ensures |r| == if |s| >= w then |s| else w
    ensures EndsWith(r, s)
    ensures forall i :: 0 <= i < |r| - |s| ==> r[i] == '0'
  {
    if |s| >= w then s else Zeros(w - |s|) + s
  }

  /** Leading zeros do not change the value of a digit string. */
  lemma {:induction false} ZerosValue(k: nat, s: string)
    requires AllDigits(s)
    ensures AllDigits(Zeros(k) + s)
    ensures DigitsValue(Zeros(k) + s) == DigitsValue(s)
    decreases |s|
  {
    var z := Zeros(k) + s;
    if |s| == 0 {
      assert z == Zeros(k);
      ZerosOnlyValue(k);
    } else {
      assert z[..|z| - 1] == Zeros(k) + s[..|s| - 1];
      ZerosValue(k, s[..|s| - 1]);
    }
  }

  lemma {:induction false} ZerosOnlyValue(k: nat)
    ensures DigitsValue(Zeros(k)) == 0
    decreases k
  {
    if k > 0 {
      assert Zeros(k)[..k - 1] == Zeros(k - 1);
      ZerosOnlyValue(k - 1);
    }
  }

  /** Padding a digit string keeps its value. */
  lemma PadStartValue(s: string, w: nat)
    requires AllDigits(s)
    ensures AllDigits(PadStart(s, w))
    ensures DigitsValue(PadStart(s, w)) == DigitsValue(s)
  {
    if |s| < w {
      ZerosValue(w - |s|, s);
    }
  }

  /** The longest run of digits at the front of `s`. */
  function LeadingDigits(s: string): (r: string)
    ensures AllDigits(r) && StartsWith(s, r)
    ensures |r| < |s| ==> !IsDigit(s[|r|])
    decreases |s|
  {
    if |s| > 0 && IsDigit(s[0]) then [s[0]] + LeadingDigits(s[1..]) else ""
  }

  /**
   * `parseInt(s)`, called without a radix, on text without leading white space, sign or
   * "0x" prefix: the value of the leading decimal digits, or None (JavaScript's NaN) when
   * `s` does not start with a digit.
   */
  function ParseInt(s: string): (r: Option<nat>)
    ensures r.None? <==> (|s| == 0 || !IsDigit(s[0]))
  {
    var d := LeadingDigits(s);
    if d == "" then None else Some(DigitsValue(d))
  }

  lemma {:induction false} LeadingDigitsOfDigits(s: string)
    requires AllDigits(s)
    ensures LeadingDigits(s) == s
    decreases |s|
  {
    if |s| > 0 {
      LeadingDigitsOfDigits(s[1..]);
    }
  }

  /** `parseInt` reads back a zero-padded `String(n)`. */
  lemma ParsePadded(n: nat, w: nat)
    ensures ParseInt(PadStart(NatToString(n), w)) == Some(n)
  {
    var p := PadStart(NatToString(n), w);
    PadStartValue(NatToString(n), w);
    LeadingDigitsOfDigits(p);
  }

  /** `String(n).padStart(w, '0')`: at least `w` digits, never truncated, reading back as `n`. */
  function Pad(n: nat, w: nat): (r: string)
    ensures AllDigits(r) && |r| >= w && |r| >= 1
    ensures DigitsValue(r) == n
  {
    PadStartValue(NatToString(n), w);
    PadStart(NatToString(n), w)
  }

  /** Padding to `w >= 1` digits is exactly `w` digits long iff the number is below `10^w`. */
  lemma PadWidth(n: nat, w: nat)
    requires w >= 1
    ensures |Pad(n, w)| == w <==> n < Pow10(w)
  {
    if n < Pow10(w) {
      NatToStringWidth(n, w);
    } else {
      var s := NatToString(n);
      if |s| <= w {
        PowMonotone(|s|, w);
      }
    }
  }

  /** Two digit strings of one width with the same value are the same string. */
  lemma {:induction false} DigitsValueInjective(a: string, b: string)
    requires AllDigits(a) && AllDigits(b) && |a| == |b|
    requires DigitsValue(a) == DigitsValue(b)
    ensures a == b
    decreases |a|
  {
    if |a| > 0 {
      var n := |a| - 1;
      DigitsValueInjective(a[..n], b[..n]);
      assert a == a[..n] + [a[n]] && b == b[..n] + [b[n]];
    }
  }

  /** `String(n)` for an integer, with a leading '-' when it is negative. */
  function IntToString(n: int): (r: string)
    ensures n >= 0 ==> r == NatToString(n)
    ensures n < 0 ==> r == "-" + NatToString(-n)
  {
    if n >= 0 then NatToString(n) else "-" + NatToString(-n)
  }
}

=== FILE: invoices.dfy ===
/**
 * Invoices (`invoiceController`): the invoice number, and the guards and the record of
 * `createInvoice`. The PDF itself is not modelled; whether writing it succeeded is a parameter.
 */
module Invoices {
  import opened Wrappers
  import opened Text
  import opened Decimal
  import opened Calendar
  import Transactions

  type Db = Transactions.Db
  type Invoice = Transactions.Invoice

  // ---------------------------------------------------------------- numbering

  /** Two fields joined by '-'. */
  function Dash(a: string, b: string): string {
    a + ['-'] + b
  }

  /**
   * `generateInvoiceNumber`: `INV-<umkm>-<YYYYMMDD>-<HHMMSS>-<sequence>`, the sequence being
   * one more than the number of invoices of every tenant, padded to four digits and never cut.
   */
  function InvoiceNumber(umkmId: nat, d: DateTime, count: nat): string {
    Dash("INV", Dash(NatToString(umkmId), Dash(Ymd(d), Dash(Hms(d), Pad(count + 1, 4)))))
  }

  predicate NoDash(s: string) {
    forall i :: 0 <= i < |s| ==> s[i] != '-'
  }

  lemma DigitsNoDash(s: string)
    requires AllDigits(s)
    ensures NoDash(s)
  {
  }

  /** A dash-free field in front of a joined text is split off ahead of that text's fields. */
  lemma SplitCons(a: string, rest: string, parts: seq<string>)
    requires NoDash(a) && Split(rest, '-') == parts
    ensures Split(Dash(a, rest), '-') == [a] + parts
  {
    SplitFirst(a, '-', rest);
  }

  /** Three dash-free fields joined by '-' split back into those fields. */
  lemma SplitThree(c: string, e: string, f: string)
    requires NoDash(c) && NoDash(e) && NoDash(f)
    ensures var p := Split(Dash(c, Dash(e, f)), '-');
            |p| == 3 && p[0] == c && p[1] == e && p[2] == f
  {
    SplitNone(f, '-');
    var p3 := [e] + [f];
    SplitCons(e, f, [f]);
    SplitCons(c, Dash(e, f), p3);
    var p2 := [c] + p3;
    assert p2[1..] == p3;
  }

  /** Five dash-free fields joined by '-' split back into those fields. */
  lemma SplitFive(a: string, b: string, c: string, e: string, f: string)
    requires NoDash(a) && NoDash(b) && NoDash(c) && NoDash(e) && NoDash(f)
    ensures var p := Split(Dash(a, Dash(b, Dash(c, Dash(e, f)))), '-');
            |p| == 5 && p[0] == a && p[1] == b && p[2] == c && p[3] == e && p[4] == f
  {
    var rest := Dash(c, Dash(e, f));
    var p2 := Split(rest, '-');
    SplitThree(c, e, f);
    SplitCons(b, rest, p2);
    var p1 := [b] + p2;
    SplitCons(a, Dash(b, rest), p1);
    var p := [a] + p1;
    assert p[1..] == p1 && p1[1..] == p2;
  }

  /** An invoice number splits on '-' into "INV", the tenant, the date, the time and the sequence. */
  lemma InvoiceNumberSplits(umkmId: nat, d: DateTime, count: nat)
    ensures var p := Split(InvoiceNumber(umkmId, d, count), '-');
            |p| == 5 && p[0] == "INV" && p[1] == NatToString(umkmId) && p[2] == Ymd(d) && p[3] == Hms(d)
            && p[4] == Pad(count + 1, 4)
  {
    var u, y, h, q := NatToString(umkmId), Ymd(d), Hms(d), Pad(count + 1, 4);
    DigitsNoDash(u);
    DigitsNoDash(y);
    DigitsNoDash(h);
    DigitsNoDash(q);
    var inv := "INV";
    assert inv[0] == 'I' && inv[1] == 'N' && inv[2] == 'V';
    forall i | 0 <= i < |inv| ensures inv[i] != '-' {
      if i == 0 {} else if i == 1 {} else {}
    }
    SplitFive(inv, u, y, h, q);
  }

  /**
   * The fields read back: the tenant id, the date and time stamps and the sequence; the
   * sequence has exactly four digits until the 10000th invoice and more from then on.
   */
  lemma InvoiceNumberReadsBack(umkmId: nat, d: DateTime, count: nat)
    ensures var p := Split(InvoiceNumber(umkmId, d, count), '-');
      && |p| == 5 && p[0] == "INV" && AllDigits(p[1]) && AllDigits(p[4])
      && DigitsValue(p[1]) == umkmId && DigitsValue(p[4]) == count + 1
      && p[2] == Ymd(d) && p[3] == Hms(d)
      && (|p[4]| == 4 <==> count + 1 < 10000)
  {
    InvoiceNumberSplits(umkmId, d, count);
    SequenceWidth(count + 1);
  }

  lemma SequenceWidth(n: nat)
    ensures |Pad(n, 4)| == 4 <==> n < 10000
  {
    PadWidth(n, 4);
    assert Pow10(4) == 10000 by {
      assert Pow10(2) == 100;
    }
  }

  /** Equal numbers come from the same tenant, stamps and invoice count. */
  lemma InvoiceNumberInjective(u1: nat, d1: DateTime, c1: nat, u2: nat, d2: DateTime, c2: nat)
    requires InvoiceNumber(u1, d1, c1) == InvoiceNumber(u2, d2, c2)
    ensures u1 == u2 && c1 == c2 && Ymd(d1) == Ymd(d2) && Hms(d1) == Hms(d2)
  {
    InvoiceNumberReadsBack(u1, d1, c1);
    InvoiceNumberReadsBack(u2, d2, c2);
  }

  // ---------------------------------------------------------------- createInvoice

  const AlreadyInvoiced := "Transaksi ini sudah memiliki Invoice."
  const TransaksiMissing := "Transaksi tidak ditemukan."
  const UmkmMissing := "Data UMKM tidak ditemukan."
  const Created := "Invoice berhasil dibuat dan disimpan."
  const ServerError := "Gagal membuat Invoice. Terjadi kesalahan server."

  /** The HTTP answer: status, `msg`, and the `download_url` of a created invoice. */
  datatype Reply = Reply(status: nat, msg: string, downloadUrl: Option<string>)

  /** The public path of an invoice's PDF. */
  function PathFor(nomor: string): string {
    "/invoices/" + nomor + ".pdf"
  }

  predicate Invoiced(invoices: seq<Invoice>, transaksiId: nat) {
    exists k :: 0 <= k < |invoices| && invoices[k].transaksiId == transaksiId
  }

  predicate NomorUsed(invoices: seq<Invoice>, nomor: string) {
    exists k :: 0 <= k < |invoices| && invoices[k].nomor == nomor
  }

  /** At most one invoice per transaction. */
  predicate OnePerTransaction(invoices: seq<Invoice>) {
    forall i, j :: 0 <= i < j < |invoices| ==> invoices[i].transaksiId != invoices[j].transaksiId
  }

  /**
   * `createInvoice`. `umkmId` is `parseInt` of the token's tenant (`None` for NaN) and
   * `umkms` the ids of existing UMKM rows; `pdfOk` says whether the PDF was written, and a
   * number already taken fails the insert on the unique column. `findByPk` short-cuts only
   * null and undefined, so a NaN tenant reaches the query, which fails into the 500 answer.
   * Only a 201 writes.
   */
  function CreateInvoice(db: Db, umkms: set<nat>, transaksiId: nat, umkmId: Option<nat>,
                         d: DateTime, now: int, pdfOk: bool): (r: (Reply, Db))
    ensures r.0.status == 400 <==> Invoiced(db.invoices, transaksiId)
    ensures r.0.status == 400 ==> r.0.msg == AlreadyInvoiced
    ensures r.0.status == 404 <==> !Invoiced(db.invoices, transaksiId)
                                   && (transaksiId !in db.txs || (umkmId.Some? && umkmId.value !in umkms))
    ensures r.0.status == 404 && transaksiId !in db.txs ==> r.0.msg == TransaksiMissing
    ensures r.0.status == 404 && transaksiId in db.txs ==> r.0.msg == UmkmMissing
    ensures !Invoiced(db.invoices, transaksiId) && transaksiId in db.txs && umkmId.None? ==>
              r == (Reply(500, ServerError, None), db)
    ensures r.0.status == 500 ==> r.0.msg == ServerError
    ensures r.0.status in {201, 400, 404, 500}
    ensures r.0.status != 201 ==> r.1 == db && r.0.downloadUrl.None?
    ensures r.0.status == 201 ==>
      && umkmId.Some? && transaksiId in db.txs
      && var nomor := InvoiceNumber(umkmId.value, d, |db.invoices|);
      && r.1 == db.(invoices := db.invoices + [Transactions.Invoice(transaksiId, nomor, now, PathFor(nomor))])
      && r.0.downloadUrl == Some(PathFor(nomor))
  {
    if Invoiced(db.invoices, transaksiId) then (Reply(400, AlreadyInvoiced, None), db)
    else if transaksiId !in db.txs then (Reply(404, TransaksiMissing, None), db)
    else if umkmId.None? then (Reply(500, ServerError, None), db)
    else if umkmId.value !in umkms then (Reply(404, UmkmMissing, None), db)
    else
      var nomor := InvoiceNumber(umkmId.value, d, |db.invoices|);
      if !pdfOk || NomorUsed(db.invoices, nomor) then (Reply(500, ServerError, None), db)
      else
        var inv := Transactions.Invoice(transaksiId, nomor, now, PathFor(nomor));
        (Reply(201, Created, Some(PathFor(nomor))), db.(invoices := db.invoices + [inv]))
  }

  /**
   * Creating invoices keeps at most one per transaction, the stored `path_file` is the
   * returned `download_url`, and asking again for the same transaction answers 400.
   */
  lemma CreateInvoiceOnce(db: Db, umkms: set<nat>, transaksiId: nat, umkmId: Option<nat>,
                          d: DateTime, now: int, pdfOk: bool,
                          umkmId2: Option<nat>, d2: DateTime, now2: int, pdfOk2: bool)
    requires OnePerTransaction(db.invoices)
    ensures var (reply, db1) := CreateInvoice(db, umkms, transaksiId, umkmId, d, now, pdfOk);
      && OnePerTransaction(db1.invoices)
      && (reply.status == 201 ==> db1.invoices[|db1.invoices| - 1].pathFile == reply.downloadUrl.value)
      && (reply.status == 201 ==>
            CreateInvoice(db1, umkms, transaksiId, umkmId2, d2, now2, pdfOk2) == (Reply(400, AlreadyInvoiced, None), db1))
  {
    var (reply, db1) := CreateInvoice(db, umkms, transaksiId, umkmId, d, now, pdfOk);
    if reply.status == 201 {
      var n := |db.invoices|;
      assert db1.invoices[n].transaksiId == transaksiId;
      assert Invoiced(db1.invoices, transaksiId);
      forall i, j | 0 <= i < j < |db1.invoices| ensures db1.invoices[i].transaksiId != db1.invoices[j].transaksiId {
        if j == n {
          assert db1.invoices[i] == db.invoices[i];
        } else {
          assert db1.invoices[i] == db.invoices[i] && db1.invoices[j] == db.invoices[j];
        }
      }
    }
  }

  /**
   * The caller's tenant is never compared with the transaction's: another tenant's sale is
   * invoiced too. The PDF is taken as written (`pdfOk`), which holds for a sale with a customer
   * and products; the PDF builder reads the customer's name and throws for a sale without one.
   */
  lemma OtherTenantsTransactionInvoiced(db: Db, umkms: set<nat>, transaksiId: nat, umkmId: nat,
                                        d: DateTime, now: int)
    requires transaksiId in db.txs && db.txs[transaksiId].umkmId != umkmId && umkmId in umkms
    requires !Invoiced(db.invoices, transaksiId)
    requires !NomorUsed(db.invoices, InvoiceNumber(umkmId, d, |db.invoices|))
    ensures CreateInvoice(db, umkms, transaksiId, Some(umkmId), d, now, true).0.status == 201
  {
  }
}

=== FILE: jenis.dfy ===
/**
 * Product types (`JenisProdukService`): a type name is meant to be unique inside its
 * category; creating, updating and deleting types.
 */
module ProductTypes {
  import opened Wrappers

  /** A `JenisProduk` row; `umkmId` 0 stands for a NULL tenant. */
  datatype Jenis = Jenis(nama: string, kategoriId: nat, umkmId: nat)

  datatype Table = Table(rows: map<nat, Jenis>, nextId: nat)

  const NotFound := "Jenis produk tidak ditemukan"
  const PairTaken := "Jenis produk sudah ada dalam kategori ini"
  const NameTaken := "Jenis produk dengan nama tersebut sudah ada"

  /** The `findOne` on both columns finds a row. */
  predicate PairUsed(rows: map<nat, Jenis>, nama: string, kategoriId: nat) {
    exists id :: id in rows && rows[id].nama == nama && rows[id].kategoriId == kategoriId
  }

  /** No two types share both name and category. */
  predicate UniquePairs(rows: map<nat, Jenis>) {
    forall i, j :: i in rows && j in rows && i != j ==>
      rows[i].nama != rows[j].nama || rows[i].kategoriId != rows[j].kategoriId
  }

  // ---------------------------------------------------------------- create

  /** `createJenis`: an existing (name, category) pair throws; the same name elsewhere is allowed. */
  function CreateJenis(t: Table, input: Jenis): (r: Result<Table>)
    ensures r.Ok? <==> !PairUsed(t.rows, input.nama, input.kategoriId)
    ensures r.Err? ==> r.msg == PairTaken
    ensures r.Ok? ==> r.value == Table(t.rows[t.nextId := input], t.nextId + 1)
  {
    if PairUsed(t.rows, input.nama, input.kategoriId) then Err(PairTaken)
    else Ok(Table(t.rows[t.nextId := input], t.nextId + 1))
  }

  /** A successful create keeps pairs unique. */
  lemma CreateKeepsPairsUnique(t: Table, input: Jenis)
    requires UniquePairs(t.rows) && CreateJenis(t, input).Ok?
    ensures UniquePairs(CreateJenis(t, input).value.rows)
  {
    var rows := CreateJenis(t, input).value.rows;
    forall i, j | i in rows && j in rows && i != j
      ensures rows[i].nama != rows[j].nama || rows[i].kategoriId != rows[j].kategoriId
    {
      if i == t.nextId {
        assert j in t.rows;
      } else if j == t.nextId {
        assert i in t.rows;
      }
    }
  }

  /** Two categories may each hold a type of the same name. */
  lemma SameNameOtherCategory(t: Table, id: nat, k: nat)
    requires id in t.rows && k != t.rows[id].kategoriId
    requires forall j :: j in t.rows ==> t.rows[j].kategoriId != k
    ensures CreateJenis(t, t.rows[id].(kategoriId := k)).Ok?
  {
  }

  // ---------------------------------------------------------------- update

  /**
   * The body of an update request: each field is written when present; a name is
   * written even when it is "" (only the uniqueness lookup treats it as falsy).
   */
  datatype JenisPatch = JenisPatch(nama: Option<string>, kategoriId: Option<nat>, umkmId: Option<nat>)

  function Write(j: Jenis, patch: JenisPatch): Jenis {
    Jenis(patch.nama.GetOr(j.nama), patch.kategoriId.GetOr(j.kategoriId), patch.umkmId.GetOr(j.umkmId))
  }

  /** A truthy name that differs from the stored one. */
  predicate Renames(j: Jenis, patch: JenisPatch) {
    patch.nama.Some? && patch.nama.value != "" && patch.nama.value != j.nama
  }

  /**
   * `updateJenis` as written: a missing id throws; a renaming is checked against the
   * row's CURRENT category, whatever category the request moves it to; then every
   * supplied field is written.
   */
  function UpdateJenis(t: Table, id: nat, patch: JenisPatch): (r: Result<Table>)
    ensures r.Ok? <==> id in t.rows && !(Renames(t.rows[id], patch)
                                         && PairUsed(t.rows, patch.nama.value, t.rows[id].kategoriId))
    ensures r.Err? && id !in t.rows ==> r.msg == NotFound
    ensures r.Err? && id in t.rows ==> r.msg == NameTaken
    ensures r.Ok? ==> r.value.nextId == t.nextId && r.value.rows.Keys == t.rows.Keys
    ensures r.Ok? ==> forall k :: k in t.rows && k != id ==> r.value.rows[k] == t.rows[k]
    ensures r.Ok? ==> var q := r.value.rows[id];
      && (patch.nama.Some? ==> q.nama == patch.nama.value) && (patch.nama.None? ==> q.nama == t.rows[id].nama)
      && (patch.kategoriId.Some? ==> q.kategoriId == patch.kategoriId.value)
      && (patch.kategoriId.None? ==> q.kategoriId == t.rows[id].kategoriId)
  {
    if id !in t.rows then Err(NotFound)
    else
      var j := t.rows[id];
      if Renames(j, patch) && PairUsed(t.rows, patch.nama.value, j.kategoriId) then Err(NameTaken)
      else Ok(t.(rows := t.rows[id := Write(j, patch)]))
  }

  /** An update that keeps the category and either keeps the name or gives a non-empty one keeps pairs unique. */
  lemma NameOnlyUpdateKeepsPairsUnique(t: Table, id: nat, patch: JenisPatch)
    requires UniquePairs(t.rows) && UpdateJenis(t, id, patch).Ok?
    requires patch.kategoriId.None? || patch.kategoriId == Some(t.rows[id].kategoriId)
    requires patch.nama.Some? ==> patch.nama.value != ""
    ensures UniquePairs(UpdateJenis(t, id, patch).value.rows)
  {
    var rows := UpdateJenis(t, id, patch).value.rows;
    var cur := t.rows[id];
    forall i, j | i in rows && j in rows && i != j
      ensures rows[i].nama != rows[j].nama || rows[i].kategoriId != rows[j].kategoriId
    {
      if i == id || j == id {
        var other := if i == id then j else i;
        assert rows[other] == t.rows[other];
        if rows[id].nama != cur.nama {
          assert !PairUsed(t.rows, rows[id].nama, cur.kategoriId);
        }
      }
    }
  }

  /**
   * Moving a type into a category that already has a type of the requested name goes
   * through: the lookup searched the category the type is leaving.
   */
  lemma MoveCreatesDuplicate()
    ensures var t := Table(map[1 := Jenis("Teh", 1, 0), 2 := Jenis("Kopi", 2, 0)], 3);
            var r := UpdateJenis(t, 2, JenisPatch(Some("Teh"), Some(1), None));
            UniquePairs(t.rows) && r.Ok? && !UniquePairs(r.value.rows)
  {
    var t := Table(map[1 := Jenis("Teh", 1, 0), 2 := Jenis("Kopi", 2, 0)], 3);
    assert "Teh" != "Kopi" by {
      assert "Teh"[0] == 'T' && "Kopi"[0] == 'K';
    }
    assert !PairUsed(t.rows, "Teh", 2);
    var r := UpdateJenis(t, 2, JenisPatch(Some("Teh"), Some(1), None));
    assert r.value.rows[1] == r.value.rows[2];
  }

  /** The pair a request would leave the row with. */
  function Target(j: Jenis, patch: JenisPatch): (string, nat) {
    (patch.nama.GetOr(j.nama), patch.kategoriId.GetOr(j.kategoriId))
  }

  /**
   * `updateJenis` with the lookup the create path uses: whenever the request changes the
   * row's (name, category) pair, the new pair must be free.
   */
  function UpdateJenisChecked(t: Table, id: nat, patch: JenisPatch): (r: Result<Table>)
    ensures r.Ok? <==> id in t.rows && var (n, k) := Target(t.rows[id], patch);
                       !((n, k) != (t.rows[id].nama, t.rows[id].kategoriId) && PairUsed(t.rows, n, k))
    ensures r.Err? && id !in t.rows ==> r.msg == NotFound
    ensures r.Err? && id in t.rows ==> r.msg == NameTaken
    ensures r.Ok? ==> r.value.nextId == t.nextId && r.value.rows.Keys == t.rows.Keys
    ensures r.Ok? ==> forall k :: k in t.rows && k != id ==> r.value.rows[k] == t.rows[k]
    ensures r.Ok? ==> var q := r.value.rows[id]; (q.nama, q.kategoriId) == Target(t.rows[id], patch)
  {
    if id !in t.rows then Err(NotFound)
    else
      var j := t.rows[id];
      var (n, k) := Target(j, patch);
      if (n, k) != (j.nama, j.kategoriId) && PairUsed(t.rows, n, k) then Err(NameTaken)
      else Ok(t.(rows := t.rows[id := Write(j, patch)]))
  }

  /** The corrected update keeps pairs unique for every request. */
  lemma CheckedUpdateKeepsPairsUnique(t: Table, id: nat, patch: JenisPatch)
    requires UniquePairs(t.rows) && UpdateJenisChecked(t, id, patch).Ok?
    ensures UniquePairs(UpdateJenisChecked(t, id, patch).value.rows)
  {
    var rows := UpdateJenisChecked(t, id, patch).value.rows;
    var cur := t.rows[id];
    forall i, j | i in rows && j in rows && i != j
      ensures rows[i].nama != rows[j].nama || rows[i].kategoriId != rows[j].kategoriId
    {
      if i == id || j == id {
        var other := if i == id then j else i;
        assert rows[other] == t.rows[other];
        if (rows[id].nama, rows[id].kategoriId) != (cur.nama, cur.kategoriId) {
          assert !PairUsed(t.rows, rows[id].nama, rows[id].kategoriId);
        }
      }
    }
  }

  /** On a plain renaming inside the category the corrected update answers exactly as the written one. */
  lemma CheckedAgreesOnRenames(t: Table, id: nat, patch: JenisPatch)
    requires patch.kategoriId.None? && (patch.nama.Some? ==> patch.nama.value != "")
    ensures UpdateJenisChecked(t, id, patch) == UpdateJenis(t, id, patch)
  {
  }

  // ---------------------------------------------------------------- delete

  /** `deleteJenis`: nothing destroyed means a missing id, which throws. */
  function DeleteJenis(t: Table, id: nat): (r: Result<Table>)
    ensures r.Err? <==> id !in t.rows
    ensures r.Err? ==> r.msg == NotFound
    ensures r.Ok? ==> r.value.rows.Keys == t.rows.Keys - {id} && r.value.nextId == t.nextId
    ensures r.Ok? ==> forall k :: k in r.value.rows ==> r.value.rows[k] == t.rows[k]
  {
    if id !in t.rows then Err(NotFound) else Ok(t.(rows := t.rows - {id}))
  }

  /** `JenisProduk.destroy({ where: { kategori_id } })`: drops every type of one category. */
  function DropCategory(t: Table, kategoriId: nat): (r: Table)
    ensures r.nextId == t.nextId
    ensures forall k :: k in r.rows <==> k in t.rows && t.rows[k].kategoriId != kategoriId
    ensures forall k :: k in r.rows ==> r.rows[k] == t.rows[k]
  {
    t.(rows := map k | k in t.rows && t.rows[k].kategoriId != kategoriId :: t.rows[k])
  }
}

=== FILE: number_keys.dfy ===
/**
 * Per-tenant gateway keys (`WatzapController`): reading, setting and clearing a UMKM's
 * `wa_number_key`, and the device status reported for it.
 */
module NumberKeys {
  import opened Wrappers
  import opened Text
  import Watzap

  /** The `wa_number_key` column of every UMKM row, by `umkm_id`; NULL is `None`. */
  type Keys = map<nat, Option<string>>

  const UmkmMissing := "UMKM tidak ditemukan"
  const KeyRequired := "Number key tidak boleh kosong"
  const KeyUpdated := "Watzap number key berhasil diperbarui"
  const KeyCleared := "Watzap number key berhasil dihapus"

  /** The JSON answers of the four handlers. */
  datatype Answer =
    | NotFound
    | BadRequest
    | KeyInfo(umkmId: nat, waNumberKey: Option<string>, isConfigured: bool)
    | KeySet(umkmId: nat, key: string)
    | Cleared
    | DeviceInfo(umkmId: nat, configured: bool, device: Watzap.DeviceStatus)
  {
    function Status(): nat {
      match this
      case NotFound => 404
      case BadRequest => 400
      case _ => 200
    }

    function Message(): string {
      match this
      case NotFound => UmkmMissing
      case BadRequest => KeyRequired
      case KeySet(_, _) => KeyUpdated
      case Cleared => KeyCleared
      case _ => ""
    }
  }

  /** JavaScript truthiness of a stored key: NULL and "" are both falsy. */
  predicate Truthy(k: Option<string>) {
    k.Some? && k.value != ""
  }

  /** `getNumberKey`: the stored key, `null` when unset, and whether it is configured. */
  function GetNumberKey(keys: Keys, umkmId: nat): (r: Answer)
    ensures r.NotFound? <==> umkmId !in keys
    ensures r.NotFound? || r.KeyInfo?
    ensures r.KeyInfo? ==> r.umkmId == umkmId && (r.isConfigured <==> Truthy(keys[umkmId]))
    ensures r.KeyInfo? ==> (r.waNumberKey.Some? <==> Truthy(keys[umkmId]))
    ensures r.KeyInfo? && r.waNumberKey.Some? ==> r.waNumberKey == keys[umkmId]
  {
    if umkmId !in keys then NotFound
    else
      var k := keys[umkmId];
      KeyInfo(umkmId, if Truthy(k) then k else None, Truthy(k))
  }

  /**
   * `setNumberKey`: a missing or blank key answers 400 before the UMKM is looked up; a
   * missing UMKM answers 404; otherwise the trimmed key is stored and echoed.
   */
  function SetNumberKey(keys: Keys, umkmId: nat, body: Option<string>): (r: (Answer, Keys))
    ensures r.0.BadRequest? <==> body.None? || Trim(body.value) == ""
    ensures r.0.NotFound? <==> !r.0.BadRequest? && umkmId !in keys
    ensures r.0.BadRequest? || r.0.NotFound? || r.0.KeySet?
    ensures !r.0.KeySet? ==> r.1 == keys
    ensures r.0.KeySet? ==> r.0.umkmId == umkmId && r.0.key == Trim(body.value) && r.0.key != ""
    ensures r.0.KeySet? ==> r.1.Keys == keys.Keys && r.1[umkmId] == Some(r.0.key)
    ensures r.0.KeySet? ==> forall u :: u in keys && u != umkmId ==> r.1[u] == keys[u]
  {
    if body.None? || Trim(body.value) == "" then (BadRequest, keys)
    else if umkmId !in keys then (NotFound, keys)
    else
      var k := Trim(body.value);
      (KeySet(umkmId, k), keys[umkmId := Some(k)])
  }

  /** `clearNumberKey`: a missing UMKM answers 404; otherwise the key becomes NULL. */
  function ClearNumberKey(keys: Keys, umkmId: nat): (r: (Answer, Keys))
    ensures r.0.NotFound? <==> umkmId !in keys
    ensures r.0.NotFound? || r.0.Cleared?
    ensures r.0.NotFound? ==> r.1 == keys
    ensures r.0.Cleared? ==> r.1.Keys == keys.Keys && r.1[umkmId].None?
    ensures r.0.Cleared? ==> forall u :: u in keys && u != umkmId ==> r.1[u] == keys[u]
  {
    if umkmId !in keys then (NotFound, keys) else (Cleared, keys[umkmId := None])
  }

  /**
   * `checkDeviceStatus`: `is_configured` says whether the UMKM has its own key, while the
   * device status comes from the service, which falls back to the configured default key.
   */
  function CheckDeviceStatus(cfg: Watzap.Config, keys: Keys, umkmId: nat): (r: Answer)
    ensures r.NotFound? <==> umkmId !in keys
    ensures r.NotFound? || r.DeviceInfo?
    ensures r.DeviceInfo? ==> r.umkmId == umkmId && (r.configured <==> Truthy(keys[umkmId]))
    ensures r.DeviceInfo? ==>
      (r.device.connected <==> cfg.apiKey != "" && (Truthy(keys[umkmId]) || cfg.numberKey != ""))
  {
    if umkmId !in keys then NotFound
    else
      var k := keys[umkmId];
      DeviceInfo(umkmId, Truthy(k), Watzap.CheckDeviceStatus(cfg, k.GetOr("")))
  }

  // ---------------------------------------------------------------- properties

  /** Every handler answers 404 for a missing UMKM, except a blank key, which is refused first. */
  lemma MissingUmkmNotFound(cfg: Watzap.Config, keys: Keys, umkmId: nat, body: Option<string>)
    requires umkmId !in keys
    ensures GetNumberKey(keys, umkmId).Status() == 404
    ensures ClearNumberKey(keys, umkmId).0.Status() == 404
    ensures CheckDeviceStatus(cfg, keys, umkmId).Status() == 404
    ensures SetNumberKey(keys, umkmId, body).0.Status() == 404 <==> body.Some? && Trim(body.value) != ""
    ensures SetNumberKey(keys, umkmId, body).0.Status() == 400 <==> body.None? || Trim(body.value) == ""
  {
  }

  /** A blank key is refused the same way whatever the table holds: no lookup happens first. */
  lemma BlankKeyIgnoresTable(keys1: Keys, keys2: Keys, umkmId1: nat, umkmId2: nat, body: Option<string>)
    requires body.None? || Trim(body.value) == ""
    ensures SetNumberKey(keys1, umkmId1, body).0 == SetNumberKey(keys2, umkmId2, body).0 == BadRequest
  {
  }

  /** After a successful set, reading the key gives the trimmed key back, configured. */
  lemma GetAfterSet(keys: Keys, umkmId: nat, body: Option<string>)
    requires SetNumberKey(keys, umkmId, body).0.KeySet?
    ensures GetNumberKey(SetNumberKey(keys, umkmId, body).1, umkmId)
              == KeyInfo(umkmId, Some(Trim(body.value)), true)
  {
  }

  /** After a clear, reading the key gives `null` and not configured. */
  lemma GetAfterClear(keys: Keys, umkmId: nat)
    requires umkmId in keys
    ensures GetNumberKey(ClearNumberKey(keys, umkmId).1, umkmId) == KeyInfo(umkmId, None, false)
  {
  }

  /** A stored key is NULL, or non-empty text with no white space at either end. */
  predicate Normal(k: Option<string>) {
    k.None? || (k.value != "" && !IsSpace(k.value[0]) && !IsSpace(k.value[|k.value| - 1]))
  }

  /** Setting again the key a handler just stored changes nothing. */
  lemma SetIdempotent(keys: Keys, umkmId: nat, body: Option<string>)
    requires SetNumberKey(keys, umkmId, body).0.KeySet?
    ensures var (a, keys1) := SetNumberKey(keys, umkmId, body);
            SetNumberKey(keys1, umkmId, Some(a.key)) == (a, keys1)
  {
    var k := Trim(body.value);
    TrimNoSpace(k);
    var keys1 := SetNumberKey(keys, umkmId, body).1;
    assert keys1[umkmId := Some(k)] == keys1;
  }

  /** A request to one of the writing handlers. */
  datatype Request = Set(umkmId: nat, body: Option<string>) | Clear(umkmId: nat)

  function Apply(keys: Keys, req: Request): Keys {
    match req
    case Set(u, b) => SetNumberKey(keys, u, b).1
    case Clear(u) => ClearNumberKey(keys, u).1
  }

  function ApplyAll(keys: Keys, reqs: seq<Request>): Keys
    decreases |reqs|
  {
    if reqs == [] then keys else ApplyAll(Apply(keys, reqs[0]), reqs[1..])
  }

  /**
   * Through any run of set and clear requests the tenants stay the same and every stored
   * key stays normal, so a configured key is always exactly what a tenant sees as configured.
   */
  lemma {:induction false} ApplyAllKeepsKeysNormal(keys: Keys, reqs: seq<Request>)
    requires forall u :: u in keys ==> Normal(keys[u])
    ensures ApplyAll(keys, reqs).Keys == keys.Keys
    ensures forall u :: u in ApplyAll(keys, reqs) ==> Normal(ApplyAll(keys, reqs)[u])
    decreases |reqs|
  {
    if reqs != [] {
      var next := Apply(keys, reqs[0]);
      forall u | u in next ensures Normal(next[u]) {
        if reqs[0].Set? && SetNumberKey(keys, reqs[0].umkmId, reqs[0].body).0.KeySet? && u == reqs[0].umkmId {
          assert next[u] == Some(Trim(reqs[0].body.value));
        }
      }
      ApplyAllKeepsKeysNormal(next, reqs[1..]);
    }
  }

  /**
   * With an API key and a default number key configured, a UMKM without its own key is
   * reported as not configured and yet connected.
   */
  lemma UnconfiguredYetConnected(cfg: Watzap.Config, keys: Keys, umkmId: nat)
    requires cfg.apiKey != "" && cfg.numberKey != ""
    requires umkmId in keys && keys[umkmId].None?
    ensures var r := CheckDeviceStatus(cfg, keys, umkmId);
            r.DeviceInfo? && !r.configured && r.device.connected
  {
  }

  /** Without a default number key, "connected" and "configured" agree once an API key is set. */
  lemma ConnectedMeansConfigured(cfg: Watzap.Config, keys: Keys, umkmId: nat)
    requires cfg.apiKey != "" && cfg.numberKey == "" && umkmId in keys
    ensures var r := CheckDeviceStatus(cfg, keys, umkmId);
            r.DeviceInfo? && (r.device.connected <==> r.configured)
  {
  }
}

=== FILE: numbers.dfy ===
/**
 * JavaScript's `Number(v)` on the JSON values a request body can hold, with the text
 * grammar of `StringToNumber` (section 7.1.4.1.1 of ECMA-262): surrounding white space
 * is trimmed, the empty text is 0, and what is left must be a whole literal. Values are
 * exact rationals: the rounding to binary64 is not modelled.
 */
module Numbers {
  import opened Wrappers
  import opened Text
  import opened Decimal

  /** A JavaScript number: NaN, an infinity of either sign, or a finite value. */
  datatype Num = NaN | Infinite(negative: bool) | Finite(x: real)

  /** The JSON values an array entry of a request body can hold. */
  datatype JsValue = JNumber(x: real) | JString(s: string) | JBool(b: bool) | JNull | JObject
                   | JArray(items: seq<JsValue>)

  /** `Number.isInteger(n)`. */
  predicate IsInteger(n: Num) {
    n.Finite? && n.x.Floor as real == n.x
  }

  function Negate(n: Num): (r: Num)
    ensures r.NaN? <==> n.NaN?
    ensures n.Finite? ==> r == Finite(-n.x)
    ensures n.Infinite? ==> r == Infinite(!n.negative)
  {
    match n
    case NaN => NaN
    case Infinite(neg) => Infinite(!neg)
    case Finite(x) => Finite(-x)
  }

  // ---------------------------------------------------------------- digits of a radix

  /** The value of `c` as a digit of `radix` (2, 8, 10 or 16), case-blind for hex letters. */
  function DigitOf(c: char, radix: nat): (d: Option<nat>)
    ensures d.Some? ==> d.value < radix
    ensures radix == 10 ==> (d.Some? <==> IsDigit(c))
  {
    var v := if '0' <= c <= '9' then c as int - '0' as int
             else if 'a' <= c <= 'f' then c as int - 'a' as int + 10
             else if 'A' <= c <= 'F' then c as int - 'A' as int + 10
             else 16;
    if v < radix then Some(v) else None
  }

  predicate AllDigitsOf(s: string, radix: nat) {
    forall i :: 0 <= i < |s| ==> DigitOf(s[i], radix).Some?
  }

  /** The value of a run of `radix` digits, most significant first. */
  function RadixValue(s: string, radix: nat): nat
    requires AllDigitsOf(s, radix)
    decreases |s|
  {
    if |s| == 0 then 0
    else RadixValue(s[..|s| - 1], radix) * radix + DigitOf(s[|s| - 1], radix).value
  }

  /** Read in radix 10, the general digit value is the decimal one. */
  lemma {:induction false} RadixTenIsDecimal(s: string)
    requires AllDigits(s)
    ensures AllDigitsOf(s, 10) && RadixValue(s, 10) == DigitsValue(s)
    decreases |s|
  {
    if |s| > 0 {
      RadixTenIsDecimal(s[..|s| - 1]);
    }
  }

  /** The radix a `0x`, `0o` or `0b` prefix letter announces, or 0 for any other character. */
  function PrefixRadix(c: char): (r: nat)
    ensures r in {0, 2, 8, 16}
  {
    if c == 'x' || c == 'X' then 16 else if c == 'o' || c == 'O' then 8
    else if c == 'b' || c == 'B' then 2 else 0
  }

  // ---------------------------------------------------------------- decimal literals

  predicate IsExponentMark(c: char) {
    c == 'e' || c == 'E'
  }

  /** Index of the first 'e' or 'E' in `s`, or -1. */
  function ExponentMark(s: string): (r: int)
    ensures -1 <= r < |s|
    ensures r >= 0 ==> IsExponentMark(s[r]) && forall i :: 0 <= i < r ==> !IsExponentMark(s[i])
    ensures r == -1 ==> forall i :: 0 <= i < |s| ==> !IsExponentMark(s[i])
    decreases |s|
  {
    if |s| == 0 then -1
    else if IsExponentMark(s[0]) then 0
    else
      var k := ExponentMark(s[1..]);
      if k == -1 then -1 else k + 1
  }

  /** `m * 10^e` for an integer exponent. */
  function Scale(m: nat, e: int): real {
    if e >= 0 then (m * Pow10(e)) as real else m as real / Pow10(-e) as real
  }

  /**
   * The digits before and after an optional '.', as the value of all of them together and
   * the number of fraction digits; at least one digit is needed.
   */
  function Mantissa(s: string): (r: Option<(nat, nat)>)
    ensures r.Some? && AllDigits(s) ==> r.value == (DigitsValue(s), 0)
  {
    var k := IndexOf(s, '.');
    if k < 0 then
      if |s| > 0 && AllDigits(s) then Some((DigitsValue(s), 0)) else None
    else
      var ip, fp := s[..k], s[k + 1..];
      if AllDigits(ip) && AllDigits(fp) && |ip| + |fp| > 0 then
        AllDigitsAppend(ip, fp);
        Some((DigitsValue(ip + fp), |fp|))
      else None
  }

  /** An exponent: decimal digits with an optional sign. */
  function Exponent(s: string): (r: Option<int>)
    ensures r.Some? ==> |s| > 0
  {
    if |s| > 1 && (s[0] == '+' || s[0] == '-') && AllDigits(s[1..]) then
      var d: int := DigitsValue(s[1..]);
      Some(if s[0] == '-' then -d else d)
    else if |s| > 0 && AllDigits(s) then Some(DigitsValue(s))
    else None
  }

  /** `StrUnsignedDecimalLiteral`: "Infinity", or a mantissa with an optional exponent. */
  function Unsigned(u: string): Num {
    if u == "Infinity" then Infinite(false)
    else
      var k := ExponentMark(u);
      var m := Mantissa(if k < 0 then u else u[..k]);
      var e := if k < 0 then Some(0) else Exponent(u[k + 1..]);
      if m.Some? && e.Some? then Finite(Scale(m.value.0, e.value - m.value.1)) else NaN
  }

  /** `0x`, `0o` or `0b` followed by at least one digit of that radix. */
  predicate Prefixed(t: string) {
    |t| > 2 && t[0] == '0' && PrefixRadix(t[1]) > 0 && AllDigitsOf(t[2..], PrefixRadix(t[1]))
  }

  /**
   * `StringNumericLiteral` on trimmed text: empty text is 0; a radix prefix reads the
   * rest in that radix, without a sign; otherwise an optional sign and an unsigned
   * decimal literal. Anything else is NaN.
   */
  function Literal(t: string): Num {
    if t == "" then Finite(0.0)
    else if Prefixed(t) then Finite(RadixValue(t[2..], PrefixRadix(t[1])) as real)
    else if t[0] == '-' then Negate(Unsigned(t[1..]))
    else if t[0] == '+' then Unsigned(t[1..])
    else Unsigned(t)
  }

  /** `Number(s)` for text: the literal that is left once white space is trimmed from both ends. */
  function StringToNumber(s: string): (r: Num)
    ensures Trim(s) == "" ==> r == Finite(0.0)
    ensures |Trim(s)| > 0 && IsDigit(Trim(s)[0]) && !Prefixed(Trim(s)) ==> r == Unsigned(Trim(s))
  {
    Literal(Trim(s))
  }

  /** White space around the text changes nothing: `Number(s)` and `Number(s.trim())` agree. */
  lemma TrimmedAlike(s: string)
    ensures StringToNumber(Trim(s)) == StringToNumber(s)
  {
    TrimNoSpace(Trim(s));
  }

  /** Exactly "Infinity", "+Infinity" and "-Infinity", trimmed, are infinite, with their sign. */
  lemma InfinityRead(s: string)
    ensures var t := Trim(s);
      StringToNumber(s).Infinite? <==> t == "Infinity" || t == "+Infinity" || t == "-Infinity"
    ensures StringToNumber(s).Infinite? ==> (StringToNumber(s).negative <==> Trim(s)[0] == '-')
  {
    var t := Trim(s);
    if t != "" && !Prefixed(t) && (t[0] == '-' || t[0] == '+') {
      assert t == [t[0]] + t[1..];
      assert t == "-Infinity" <==> t[0] == '-' && t[1..] == "Infinity";
      assert t == "+Infinity" <==> t[0] == '+' && t[1..] == "Infinity";
    }
  }

  /**
   * `Number(v)`. An array converts through its text, the entries joined by ','. The empty
   * array is "" and so 0; a single entry is that entry's text, which for `true` and `false`
   * is NaN and otherwise converts as the entry does; two or more entries put a ',' in
   * the text, which no literal contains (`CommaIsNaN`).
   */
  function ToNumber(v: JsValue): (r: Num)
    ensures v.JNumber? ==> r == Finite(v.x)
    ensures v.JBool? ==> r == Finite(if v.b then 1.0 else 0.0)
    ensures v.JNull? ==> r == Finite(0.0)
    ensures v.JObject? ==> r.NaN?
    ensures v.JArray? && |v.items| == 0 ==> r == Finite(0.0)
    ensures v.JArray? && |v.items| >= 2 ==> r.NaN?
    ensures v.JArray? && |v.items| == 1 && v.items[0].JBool? ==> r.NaN?
  {
    match v
    case JNumber(x) => Finite(x)
    case JString(s) => StringToNumber(s)
    case JBool(b) => Finite(if b then 1.0 else 0.0)
    case JNull => Finite(0.0)
    case JObject => NaN
    case JArray(items) =>
      if |items| == 0 then Finite(0.0)
      else if |items| >= 2 || items[0].JBool? then NaN
      else ToNumber(items[0])
  }

  // ---------------------------------------------------------------- what reads as what

  /** Text that neither starts nor ends with white space is read as it stands. */
  lemma ReadsAsLiteral(t: string)
    requires |t| > 0 && !IsSpace(t[0]) && !IsSpace(t[|t| - 1])
    ensures StringToNumber(t) == Literal(t)
  {
    TrimNoSpace(t);
  }

  /** `DigitsValue(a + b)` shifts `a` left by the width of `b`. */
  lemma {:induction false} DigitsValueAppend(a: string, b: string)
    requires AllDigits(a) && AllDigits(b)
    ensures AllDigits(a + b)
    ensures DigitsValue(a + b) == DigitsValue(a) * Pow10(|b|) + DigitsValue(b)
    decreases |b|
  {
    var s := a + b;
    if |b| == 0 {
      assert s == a;
    } else {
      var b' := b[..|b| - 1];
      var d := DigitValue(b[|b| - 1]);
      DigitsValueAppend(a, b');
      var x, p, y := DigitsValue(a), Pow10(|b'|), DigitsValue(b');
      assert DigitsValue(s) == (x * p + y) * 10 + d by {
        assert s[..|s| - 1] == a + b' && s[|s| - 1] == b[|b| - 1];
      }
      assert DigitsValue(b) == y * 10 + d && Pow10(|b|) == p * 10;
      ShiftDigit(x, p, y, d);
      assert DigitsValue(s) == x * (p * 10) + (y * 10 + d);
    }
  }

  lemma ShiftDigit(x: int, p: int, y: int, d: int)
    ensures (x * p + y) * 10 + d == x * (p * 10) + (y * 10 + d)
  {
    assert (x * p + y) * 10 == x * p * 10 + y * 10;
    assert x * p * 10 == x * (p * 10);
  }

  /** A value of `k` digits is below `10^k`. */
  lemma {:induction false} DigitsValueBelow(s: string)
    requires AllDigits(s)
    ensures DigitsValue(s) < Pow10(|s|)
    decreases |s|
  {
    if |s| > 0 {
      DigitsValueBelow(s[..|s| - 1]);
    }
  }

  /** Digits with no '.', no exponent and no sign are an unsigned literal of their value. */
  lemma UnsignedDigits(a: string)
    requires |a| > 0 && AllDigits(a)
    ensures Unsigned(a) == Finite(DigitsValue(a) as real)
  {
    assert a != "Infinity" by {
      assert IsDigit(a[0]);
    }
    assert ExponentMark(a) == -1;
    assert IndexOf(a, '.') == -1;
  }

  /** A leading digit rules out a radix prefix unless the second character is a prefix letter. */
  lemma NotPrefixed(t: string)
    requires |t| > 1 && IsDigit(t[1])
    ensures !Prefixed(t)
  {
  }

  /** A non-empty run of decimal digits reads as its value. */
  lemma DigitsRead(a: string)
    requires |a| > 0 && AllDigits(a)
    ensures StringToNumber(a) == Finite(DigitsValue(a) as real)
  {
    ReadsAsLiteral(a);
    if |a| > 1 {
      NotPrefixed(a);
    }
    UnsignedDigits(a);
  }

  /** `String(n)` reads back as `n`. */
  lemma NatToStringRead(n: nat)
    ensures StringToNumber(NatToString(n)) == Finite(n as real)
  {
    DigitsRead(NatToString(n));
  }

  /** A '-' in front of digits reads as the negated value. */
  lemma NegativeRead(a: string)
    requires |a| > 0 && AllDigits(a)
    ensures StringToNumber("-" + a).Finite?
    ensures StringToNumber("-" + a).x == -(DigitsValue(a) as real)
  {
    var t := "-" + a;
    assert StringToNumber(t) == Literal(t) by {
      assert t[0] == '-' && t[|t| - 1] == a[|a| - 1];
      ReadsAsLiteral(t);
    }
    assert Literal(t) == Negate(Unsigned(a)) by {
      assert t[0] == '-' && t[1..] == a;
      assert !Prefixed(t);
    }
    UnsignedDigits(a);
  }

  /**
   * Digits, a '.', and digits: all the digits read as one number, scaled down by the
   * width of the fraction.
   */
  lemma FractionRead(a: string, b: string)
    requires |a| > 0 && AllDigits(a) && AllDigits(b)
    ensures AllDigits(a + b)
    ensures StringToNumber(a + "." + b).Finite?
    ensures StringToNumber(a + "." + b).x == DigitsValue(a + b) as real / Pow10(|b|) as real
  {
    var t := a + "." + b;
    assert StringToNumber(t) == Literal(t) by {
      assert t[0] == a[0];
      if |b| > 0 {
        assert t[|t| - 1] == b[|b| - 1];
      }
      ReadsAsLiteral(t);
    }
    FractionLiteral(a, b);
  }

  lemma FractionLiteral(a: string, b: string)
    requires |a| > 0 && AllDigits(a) && AllDigits(b)
    ensures AllDigits(a + b)
    ensures Literal(a + "." + b) == Finite(DigitsValue(a + b) as real / Pow10(|b|) as real)
  {
    var t := a + "." + b;
    assert t[0] == a[0] && t[|a|] == '.';
    assert !Prefixed(t) by {
      if |a| > 1 {
        assert t[1] == a[1];
      }
    }
    assert t != "Infinity" by {
      assert IsDigit(t[0]);
    }
    assert ExponentMark(t) == -1 by {
      assert forall i :: 0 <= i < |t| ==> !IsExponentMark(t[i]);
    }
    FractionMantissa(a, b);
    var m, k := DigitsValue(a + b), |b|;
    assert Literal(t) == Finite(Scale(m, 0 - k));
    ScaleDown(m, k);
  }

  lemma ScaleDown(m: nat, k: nat)
    ensures Scale(m, 0 - k) == m as real / Pow10(k) as real
  {
  }

  lemma FractionMantissa(a: string, b: string)
    requires AllDigits(a) && AllDigits(b) && |a| > 0
    ensures AllDigits(a + b)
    ensures Mantissa(a + "." + b) == Some((DigitsValue(a + b), |b|))
  {
    var t := a + "." + b;
    var k := |a|;
    assert t[k] == '.' && t[..k] == a && t[k + 1..] == b;
    assert IndexOf(t, '.') == k by {
      assert forall i :: 0 <= i < k ==> t[i] == a[i];
    }
    AllDigitsAppend(a, b);
  }

  lemma Divide(x: nat, p: nat, y: nat)
    requires p > 0
    ensures (x * p + y) as real / p as real == x as real + y as real / p as real
  {
    var P, X, Y := p as real, x as real, y as real;
    assert (x * p + y) as real == X * P + Y;
    var q := Y / P;
    assert q * P == Y;
    assert (X + q) * P == X * P + Y;
  }

  /**
   * Such a number is the whole part plus a fraction below 1, so it is an integer exactly
   * when its fraction digits are all zero, and then it is the whole part.
   */
  lemma FractionInteger(a: string, b: string)
    requires |a| > 0 && AllDigits(a) && AllDigits(b)
    ensures StringToNumber(a + "." + b).Finite?
    ensures IsInteger(StringToNumber(a + "." + b)) <==> DigitsValue(b) == 0
    ensures StringToNumber(a + "." + b).x.Floor == DigitsValue(a)
  {
    FractionRead(a, b);
    var x := StringToNumber(a + "." + b).x;
    DigitsValueAppend(a, b);
    DigitsValueBelow(b);
    WholePlusFraction(DigitsValue(a), DigitsValue(b), Pow10(|b|), DigitsValue(a + b), x);
  }

  /** `(a * p + b) / p` with `b < p` has the whole part `a`, and is whole exactly when `b` is 0. */
  lemma WholePlusFraction(a: nat, b: nat, p: nat, m: nat, x: real)
    requires 0 <= b < p && m == a * p + b && x == m as real / p as real
    ensures x.Floor == a
    ensures x.Floor as real == x <==> b == 0
  {
    Divide(a, p, b);
    var f := b as real / p as real;
    assert 0.0 <= f < 1.0 by {
      assert f * p as real == b as real;
    }
    assert f == 0.0 <==> b == 0 by {
      assert f * p as real == b as real;
    }
  }

  /** Digits with an unsigned decimal exponent: the value times that power of ten. */
  lemma ExponentRead(a: string, e: string)
    requires |a| > 0 && AllDigits(a) && |e| > 0 && AllDigits(e)
    ensures StringToNumber(a + "e" + e).Finite?
    ensures StringToNumber(a + "e" + e).x == (DigitsValue(a) * Pow10(DigitsValue(e))) as real
  {
    var t := a + "e" + e;
    assert StringToNumber(t) == Literal(t) by {
      assert t[0] == a[0] && t[|t| - 1] == e[|e| - 1];
      ReadsAsLiteral(t);
    }
    ExponentLiteral(a, e);
  }

  lemma ExponentLiteral(a: string, e: string)
    requires |a| > 0 && AllDigits(a) && |e| > 0 && AllDigits(e)
    ensures Literal(a + "e" + e) == Finite((DigitsValue(a) * Pow10(DigitsValue(e))) as real)
  {
    var t := a + "e" + e;
    var k := |a|;
    assert t[k] == 'e' && t[..k] == a && t[k + 1..] == e && t[0] == a[0];
    assert !Prefixed(t) by {
      if |a| > 1 {
        assert t[1] == a[1];
      }
    }
    assert t != "Infinity" by {
      assert IsDigit(t[0]);
    }
    assert ExponentMark(t) == k by {
      assert forall i :: 0 <= i < k ==> t[i] == a[i];
    }
    assert Literal(t) == Unsigned(t);
    assert Mantissa(a) == Some((DigitsValue(a), 0)) by {
      assert IndexOf(a, '.') == -1;
    }
    assert Exponent(e) == Some(DigitsValue(e));
    assert Unsigned(t) == Finite(Scale(DigitsValue(a), DigitsValue(e) - 0));
  }

  /** `0x`, `0o` or `0b` and digits of that radix read in that radix. */
  lemma PrefixedRead(c: char, h: string)
    requires PrefixRadix(c) > 0 && |h| > 0 && AllDigitsOf(h, PrefixRadix(c))
    ensures StringToNumber(['0', c] + h) == Finite(RadixValue(h, PrefixRadix(c)) as real)
  {
    var t := ['0', c] + h;
    assert t[|t| - 1] == h[|h| - 1];
    assert !IsSpace(t[|t| - 1]) by {
      assert DigitOf(h[|h| - 1], PrefixRadix(c)).Some?;
    }
    ReadsAsLiteral(t);
    assert t[2..] == h;
  }

  /** Text holding a ',' is NaN: no numeric literal has one. */
  lemma CommaIsNaN(s: string, i: nat)
    requires i < |s| && s[i] == ','
    ensures StringToNumber(s).NaN?
  {
    var t := Trim(s);
    var k := TrimKeeps(s, i);
    assert 2 <= k < |t| ==> t[2..][k - 2] == ',';
    assert !Prefixed(t);
    var u := if t[0] == '-' || t[0] == '+' then t[1..] else t;
    assert u != "Infinity";
    assert ',' in u by {
      if u != t {
        assert u[k - 1] == ',';
      }
    }
    UnsignedCommaIsNaN(u);
  }

  /** A character that is not white space survives trimming. */
  lemma TrimKeeps(s: string, i: nat) returns (k: nat)
    requires i < |s| && !IsSpace(s[i])
    ensures k < |Trim(s)| && Trim(s)[k] == s[i]
  {
    var t := TrimStart(s);
    TrimStartDropsSpaces(s);
    TrimEndDropsSpaces(t);
    var j := |s| - |t|;
    assert s[i] == t[i - j];
    k := i - j;
  }

  lemma UnsignedCommaIsNaN(u: string)
    requires ',' in u
    ensures Unsigned(u).NaN?
  {
    var c :| 0 <= c < |u| && u[c] == ',';
    assert u != "Infinity" by {
      var w := "Infinity";
      assert forall i :: 0 <= i < |w| ==> w[i] != ',';
    }
    var k := ExponentMark(u);
    if k < 0 {
      MantissaCommaIsNone(u, c);
    } else if c < k {
      assert u[..k][c] == ',';
      MantissaCommaIsNone(u[..k], c);
    } else {
      ExponentCommaIsNone(u[k + 1..], c - k - 1);
    }
  }

  lemma ExponentCommaIsNone(e: string, c: nat)
    requires c < |e| && e[c] == ','
    ensures Exponent(e).None?
  {
    if |e| > 1 && (e[0] == '+' || e[0] == '-') {
      assert c > 0 ==> e[1..][c - 1] == ',';
    }
  }

  lemma MantissaCommaIsNone(m: string, c: nat)
    requires c < |m| && m[c] == ','
    ensures Mantissa(m).None?
  {
    var k := IndexOf(m, '.');
    if k >= 0 {
      if c < k {
        assert m[..k][c] == ',';
      } else {
        assert m[k + 1..][c - k - 1] == ',';
      }
    }
  }

  /** A one-entry array converts as its entry does, unless the entry is a boolean. */
  lemma SingletonArray(v: JsValue)
    requires !v.JBool?
    ensures ToNumber(JArray([v])) == ToNumber(v)
  {
  }
}

=== FILE: paths.dfy ===
/**
 * POSIX `path.basename` and `path.extname` for the shapes of names the upload and
 * blast code handles: trailing slashes are ignored, the base name is the text after
 * the last '/', and the extension runs from the last '.' of the base name unless
 * that dot starts it.
 */
module Paths {
  import opened Text

  /** The path without its trailing '/' characters. */
  function StripTrailingSlashes(p: string): (r: string)
    ensures |r| <= |p| && r == p[..|r|]
    ensures |r| > 0 ==> r[|r| - 1] != '/'
    ensures forall i :: |r| <= i < |p| ==> p[i] == '/'
    decreases |p|
  {
    if |p| > 0 && p[|p| - 1] == '/' then StripTrailingSlashes(p[..|p| - 1]) else p
  }

  /** `path.basename(p)`: the last component, which never contains a '/'. */
  function Basename(p: string): (r: string)
    ensures forall i :: 0 <= i < |r| ==> r[i] != '/'
    ensures EndsWith(StripTrailingSlashes(p), r)
  {
    var s := StripTrailingSlashes(p);
    var k := LastIndexOf(s, '/');
    s[k + 1..]
  }

  /** A name without '/' and without trailing slashes is its own base name. */
  lemma BasenameOfPlainName(name: string)
    requires forall i :: 0 <= i < |name| ==> name[i] != '/'
    ensures Basename(name) == name
  {
  }

  /** `path.extname(p)`: from the last '.' of the base name, or "" when there is none or it leads. */
  function Extname(p: string): (r: string)
    ensures r == "" || (r[0] == '.' && EndsWith(Basename(p), r) && |r| < |Basename(p)|)
  {
    var b := Basename(p);
    var k := LastIndexOf(b, '.');
    if k <= 0 || b == ".." then "" else b[k..]
  }

  /** The extension is the text after the last dot, so `name + ext` yields `ext` back. */
  lemma ExtnameOfSuffix(stem: string, ext: string)
    requires |stem| > 0 && stem[0] != '.'
    requires forall i :: 0 <= i < |stem| ==> stem[i] != '/'
    requires |ext| > 0 && ext[0] == '.'
    requires forall i :: 0 <= i < |ext| ==> ext[i] != '/'
    requires forall i :: 1 <= i < |ext| ==> ext[i] != '.'
    ensures Extname(stem + ext) == ext
  {
    var n := stem + ext;
    assert Basename(n) == n by {
      PlainJoin(stem, ext);
      BasenameOfPlainName(n);
    }
    assert LastIndexOf(n, '.') == |stem| by {
      LastDotOfJoin(stem, ext);
    }
    assert n[|stem|..] == ext;
    assert n != ".." by {
      assert n[0] == stem[0];
    }
  }

  lemma PlainJoin(a: string, b: string)
    requires forall i :: 0 <= i < |a| ==> a[i] != '/'
    requires forall i :: 0 <= i < |b| ==> b[i] != '/'
    ensures forall i :: 0 <= i < |a + b| ==> (a + b)[i] != '/'
  {
  }

  lemma LastDotOfJoin(a: string, b: string)
    requires |b| > 0 && b[0] == '.'
    requires forall i :: 1 <= i < |b| ==> b[i] != '.'
    ensures LastIndexOf(a + b, '.') == |a|
  {
    var n := a + b;
    assert n[|a|] == '.';
    assert forall i :: |a| < i < |n| ==> n[i] == b[i - |a|];
  }

  /** The base name of `dir + "/" + name` is `name`, for a non-empty name without '/'. */
  lemma BasenameAfterSlash(dir: string, name: string)
    requires |name| > 0 && forall i :: 0 <= i < |name| ==> name[i] != '/'
    ensures Basename(dir + "/" + name) == name
  {
    var s := dir + "/" + name;
    assert s[|s| - 1] == name[|name| - 1];
    assert StripTrailingSlashes(s) == s;
    var k := LastIndexOf(s, '/');
    assert s[|dir|] == '/';
    assert k == |dir|;
    assert s[k + 1..] == name;
  }

  /** An extension is empty, or a '.' followed by text with no other '.' and no '/'. */
  lemma ExtnameShape(p: string)
    ensures var e := Extname(p);
      e == "" || (e[0] == '.' && (forall i :: 1 <= i < |e| ==> e[i] != '.')
                  && forall i :: 0 <= i < |e| ==> e[i] != '/')
  {
    var b := Basename(p);
    var k := LastIndexOf(b, '.');
    var e := Extname(p);
    if e != "" {
      assert e == b[k..];
      forall i | 1 <= i < |e| ensures e[i] != '.' {
        assert e[i] == b[k + i];
      }
      forall i | 0 <= i < |e| ensures e[i] != '/' {
        assert e[i] == b[k + i];
      }
    }
  }

  /** A plain name without any '.' has no extension. */
  lemma ExtnameOfDotless(name: string)
    requires forall i :: 0 <= i < |name| ==> name[i] != '/' && name[i] != '.'
    ensures Extname(name) == ""
  {
    BasenameOfPlainName(name);
  }
}

=== FILE: products.dfy ===
/**
 * The product catalogue of `produkService`: product codes built from zero-padded
 * ids, creation with its validation order and defaults, the update merge, the
 * tenant listing filter, and the not-found errors. Prices are integer cents.
 */
module Products {
  import opened Wrappers
  import opened Text
  import opened Decimal

  /** A product row. `kode` is None until the code is written in the creating transaction. */
  datatype Produk = Produk(nama: string, kode: Option<string>, jenisId: nat, harga: int, stok: int,
                           aktif: bool, umkmId: nat)

  /**
   * The product table with its auto-increment counter, and the `kode_jenis` column of
   * the product types that have one (a type that is absent or has no code maps to none).
   */
  datatype Table = Table(rows: map<nat, Produk>, nextId: nat, kodeJenis: map<nat, nat>)

  const NotFound := "Produk tidak ditemukan"

  // ---------------------------------------------------------------- product codes

  /** The type part of a code: the padded `kode_jenis`, or "00" when it is missing or 0. */
  function JenisPart(kode: Option<nat>): (r: string)
    ensures AllDigits(r) && |r| >= 2
    ensures DigitsValue(r) == JenisNumber(kode)
  {
    if kode.Some? && kode.value != 0 then Pad(kode.value, 2) else "00"
  }

  /** The number the type part of a code stands for. */
  function JenisNumber(kode: Option<nat>): nat {
    if kode.Some? then kode.value else 0
  }

  /** `generateKodeProduk`: "PROD", then the tenant, type and product numbers, each padded to two digits. */
  function KodeProduk(umkmId: nat, kode: Option<nat>, produkId: nat): (r: string)
    ensures StartsWith(r, "PROD") && |r| >= 10 && AllDigits(r[4..])
  {
    var u, j, p := Pad(umkmId, 2), JenisPart(kode), Pad(produkId, 2);
    AllDigitsAppend(u, j);
    AllDigitsAppend(u + j, p);
    var r := "PROD" + (u + j + p);
    assert r[4..] == u + j + p;
    r
  }

  /** Reads a ten-character code back into its three numbers. */
  function DecodeKode(s: string): (r: Option<(nat, nat, nat)>)
    ensures r.Some? ==> |s| == 10
  {
    if |s| == 10 && s[..4] == "PROD" && AllDigits(s[4..])
    then Some((DigitsValue(s[4..6]), DigitsValue(s[6..8]), DigitsValue(s[8..10])))
    else None
  }

  /** A four-character head followed by three two-character parts slices back into them. */
  lemma SliceParts(head: string, u: string, j: string, p: string)
    requires |head| == 4 && |u| == 2 && |j| == 2 && |p| == 2
    ensures var s := head + (u + j + p);
      |s| == 10 && s[..4] == head && s[4..6] == u && s[6..8] == j && s[8..10] == p
  {
  }

  /** With every part below 100 the code is ten characters and decodes to its parts. */
  lemma KodeRoundTrip(umkmId: nat, kode: Option<nat>, produkId: nat)
    requires umkmId < 100 && JenisNumber(kode) < 100 && produkId < 100
    ensures DecodeKode(KodeProduk(umkmId, kode, produkId)) == Some((umkmId, JenisNumber(kode), produkId))
  {
    var u, j, p := Pad(umkmId, 2), JenisPart(kode), Pad(produkId, 2);
    assert Pow10(2) == 100;
    PadWidth(umkmId, 2);
    PadWidth(produkId, 2);
    if kode.Some? && kode.value != 0 {
      PadWidth(kode.value, 2);
    }
    SliceParts("PROD", u, j, p);
  }

  /** Codes of parts below 100 are equal only when the parts are. */
  lemma KodeInjective(u1: nat, k1: Option<nat>, p1: nat, u2: nat, k2: Option<nat>, p2: nat)
    requires u1 < 100 && JenisNumber(k1) < 100 && p1 < 100
    requires u2 < 100 && JenisNumber(k2) < 100 && p2 < 100
    requires KodeProduk(u1, k1, p1) == KodeProduk(u2, k2, p2)
    ensures u1 == u2 && JenisNumber(k1) == JenisNumber(k2) && p1 == p2
  {
    KodeRoundTrip(u1, k1, p1);
    KodeRoundTrip(u2, k2, p2);
  }

  /** Padding never truncates: a part of 100 or more makes the code longer than ten characters. */
  lemma KodeGrowsPastTen(umkmId: nat, kode: Option<nat>, produkId: nat)
    requires umkmId >= 100 || produkId >= 100
    ensures |KodeProduk(umkmId, kode, produkId)| > 10
  {
    assert Pow10(2) == 100;
    if umkmId >= 100 {
      PadWidth(umkmId, 2);
    } else {
      PadWidth(produkId, 2);
    }
  }

  /** Beyond two digits the parts run together: tenant 1 has a type-10 product 101 and a type-101 product 1 with one code. */
  lemma KodeCollision()
    ensures KodeProduk(1, Some(10), 101) == KodeProduk(1, Some(101), 1)
  {
    ShortPads();
    var p1, p10, p101 := ['0', '1'], ['1', '0'], ['1', '0', '1'];
    assert JenisPart(Some(10)) == p10 && JenisPart(Some(101)) == p101;
    assert KodeProduk(1, Some(10), 101) == "PROD" + (p1 + p10 + p101);
    assert KodeProduk(1, Some(101), 1) == "PROD" + (p1 + p101 + p1);
    assert p1 + p10 + p101 == p1 + p101 + p1;
  }

  /** The decimal writings of 1, 10 and 101. */
  lemma SmallDecimals()
    ensures NatToString(1) == ['1'] && NatToString(10) == ['1', '0'] && NatToString(101) == ['1', '0', '1']
  {
    assert DigitChar(0) == '0' && DigitChar(1) == '1';
    NatToStringDigit(1, 0);
    NatToStringDigit(10, 1);
  }

  /** 1, 10 and 101 padded to two digits. */
  lemma ShortPads()
    ensures Pad(1, 2) == ['0', '1'] && Pad(10, 2) == ['1', '0'] && Pad(101, 2) == ['1', '0', '1']
  {
    SmallDecimals();
    var one, ten, hundredOne := NatToString(1), NatToString(10), NatToString(101);
    var p1, p10, p101 := PadStart(one, 2), PadStart(ten, 2), PadStart(hundredOne, 2);
    assert p1 == ['0', '1'] by {
      assert |p1| == 2 && p1[1..] == one;
    }
    assert p10 == ten by { assert |p10| == |ten|; }
    assert p101 == hundredOne by { assert |p101| == |hundredOne|; }
  }

  // ---------------------------------------------------------------- creation

  /**
   * The body of a create request. A missing `nama_produk` is "", a missing or zero
   * `harga`, `umkm_id` or `jenis_produk_id` is 0 (all falsy alike), a missing `stok`
   * is 0, and a missing `aktif` is None.
   */
  datatype NewProduk = NewProduk(nama: string, jenisId: nat, harga: int, stok: int, aktif: Option<bool>,
                                 umkmId: nat)

  const NamaRequired := "Nama produk wajib diisi"
  const HargaPositive := "Harga harus lebih dari 0"
  const UmkmRequired := "UMKM ID wajib diisi"
  const JenisRequired := "Jenis produk wajib diisi"
  /** The message of the `UniqueConstraintError` the unique index on `kode_produk` raises. */
  const KodeTaken := "Validation error"

  /** The first validation the request fails, checked in the order the service checks them. */
  function ValidateNew(input: NewProduk): (r: Option<string>)
    ensures r.None? <==> input.nama != "" && input.harga > 0 && input.umkmId != 0 && input.jenisId != 0
    ensures input.nama == "" ==> r == Some(NamaRequired)
    ensures input.nama != "" && input.harga <= 0 ==> r == Some(HargaPositive)
  {
    if input.nama == "" then Some(NamaRequired)
    else if input.harga <= 0 then Some(HargaPositive)
    else if input.umkmId == 0 then Some(UmkmRequired)
    else if input.jenisId == 0 then Some(JenisRequired)
    else None
  }

  /** The product the create request writes, before its code is set. */
  function Fresh(input: NewProduk): Produk {
    Produk(input.nama, None, input.jenisId, input.harga, input.stok, input.aktif.GetOr(true), input.umkmId)
  }

  /** Whether some other row already carries `kode`. */
  predicate KodeUsed(rows: map<nat, Produk>, kode: string) {
    exists id :: id in rows && rows[id].kode == Some(kode)
  }

  /**
   * `createProduk`: after validation, a row with stock 0 and `aktif` true unless given,
   * at the next id, whose code is set in the same database transaction. A code that
   * another row already has violates the unique column and the whole insert rolls back.
   */
  function CreateProduk(t: Table, input: NewProduk): (r: Result<Table>)
    ensures ValidateNew(input).Some? ==> r == Err(ValidateNew(input).value)
    ensures r.Ok? <==> ValidateNew(input).None?
                       && !KodeUsed(t.rows, KodeProduk(input.umkmId, KodeOf(t, input.jenisId), t.nextId))
    ensures ValidateNew(input).None? && !r.Ok? ==> r == Err(KodeTaken)
    ensures r.Ok? ==> r.value.nextId == t.nextId + 1 && r.value.kodeJenis == t.kodeJenis
    ensures r.Ok? ==> r.value.rows.Keys == t.rows.Keys + {t.nextId}
    ensures r.Ok? ==> forall id :: id in t.rows && id != t.nextId ==> r.value.rows[id] == t.rows[id]
    ensures r.Ok? ==> var p := r.value.rows[t.nextId];
      && p.nama == input.nama && p.harga == input.harga && p.umkmId == input.umkmId && p.jenisId == input.jenisId
      && p.stok == input.stok
      && (p.aktif <==> input.aktif != Some(false))
      && p.kode == Some(KodeProduk(input.umkmId, KodeOf(t, input.jenisId), t.nextId))
  {
    var invalid := ValidateNew(input);
    if invalid.Some? then Err(invalid.value)
    else
      var kode := KodeProduk(input.umkmId, KodeOf(t, input.jenisId), t.nextId);
      if KodeUsed(t.rows, kode) then Err(KodeTaken)
      else Ok(t.(rows := t.rows[t.nextId := Fresh(input).(kode := Some(kode))], nextId := t.nextId + 1))
  }

  /** The `kode_jenis` of a product type, if the type exists and has one. */
  function KodeOf(t: Table, jenisId: nat): Option<nat> {
    if jenisId in t.kodeJenis then Some(t.kodeJenis[jenisId]) else None
  }

  /**
   * In a table whose codes all came from `generateKodeProduk` with parts below 100 and
   * a counter above every id, a small new product never collides, and its code
   * decodes to the tenant, type and new id.
   */
  lemma CreateSmallProductSucceeds(t: Table, input: NewProduk)
    requires ValidateNew(input).None?
    requires forall id :: id in t.rows ==> id < t.nextId
    requires forall id :: id in t.rows ==>
      exists u: nat, k: Option<nat> {:trigger KodeProduk(u, k, id)} ::
        u < 100 && JenisNumber(k) < 100 && id < 100 && t.rows[id].kode == Some(KodeProduk(u, k, id))
    requires input.umkmId < 100 && JenisNumber(KodeOf(t, input.jenisId)) < 100 && t.nextId < 100
    ensures CreateProduk(t, input).Ok?
    ensures DecodeKode(CreateProduk(t, input).value.rows[t.nextId].kode.value)
         == Some((input.umkmId, JenisNumber(KodeOf(t, input.jenisId)), t.nextId))
  {
    var kode := KodeProduk(input.umkmId, KodeOf(t, input.jenisId), t.nextId);
    if KodeUsed(t.rows, kode) {
      var id :| id in t.rows && t.rows[id].kode == Some(kode);
      var u: nat, k: Option<nat> :| u < 100 && JenisNumber(k) < 100 && id < 100 && t.rows[id].kode == Some(KodeProduk(u, k, id));
      KodeInjective(u, k, id, input.umkmId, KodeOf(t, input.jenisId), t.nextId);
      assert false;
    }
    KodeRoundTrip(input.umkmId, KodeOf(t, input.jenisId), t.nextId);
  }

  // ---------------------------------------------------------------- update, read, delete

  /**
   * The body of an update request: an empty `nama` keeps the name (any falsy value
   * does), and an absent `harga`, `stok` or `aktif` keeps that field.
   */
  datatype ProdukPatch = ProdukPatch(nama: string, harga: Option<int>, stok: Option<int>, aktif: Option<bool>)

  function Merge(p: Produk, patch: ProdukPatch): Produk {
    p.(nama := if patch.nama != "" then patch.nama else p.nama,
       harga := patch.harga.GetOr(p.harga),
       stok := patch.stok.GetOr(p.stok),
       aktif := patch.aktif.GetOr(p.aktif))
  }

  /** `updateProduk`: a missing id throws; otherwise only name, price, stock and flag can change. */
  function UpdateProduk(t: Table, id: nat, patch: ProdukPatch): (r: Result<Table>)
    ensures r.Err? <==> id !in t.rows
    ensures r.Err? ==> r.msg == NotFound
    ensures r.Ok? ==> r.value.rows.Keys == t.rows.Keys && r.value.nextId == t.nextId
                      && r.value.kodeJenis == t.kodeJenis
    ensures r.Ok? ==> forall j :: j in t.rows && j != id ==> r.value.rows[j] == t.rows[j]
    ensures r.Ok? ==> var p, q := t.rows[id], r.value.rows[id];
      && q.kode == p.kode && q.jenisId == p.jenisId && q.umkmId == p.umkmId
      && (q.nama == if patch.nama == "" then p.nama else patch.nama)
      && (patch.harga.None? ==> q.harga == p.harga) && (patch.harga.Some? ==> q.harga == patch.harga.value)
      && (patch.stok.None? ==> q.stok == p.stok) && (patch.stok.Some? ==> q.stok == patch.stok.value)
      && (patch.aktif.None? ==> q.aktif == p.aktif) && (patch.aktif.Some? ==> q.aktif == patch.aktif.value)
  {
    if id !in t.rows then Err(NotFound) else Ok(t.(rows := t.rows[id := Merge(t.rows[id], patch)]))
  }

  /** Applying one update twice is the same as applying it once, and an empty update changes nothing. */
  lemma UpdateProdukIdempotent(t: Table, id: nat, patch: ProdukPatch)
    requires id in t.rows
    ensures UpdateProduk(UpdateProduk(t, id, patch).value, id, patch) == UpdateProduk(t, id, patch)
    ensures UpdateProduk(t, id, ProdukPatch("", None, None, None)) == Ok(t)
  {
    var once := UpdateProduk(t, id, patch).value;
    assert once.rows[id := Merge(once.rows[id], patch)] == once.rows;
    assert t.rows[id := Merge(t.rows[id], ProdukPatch("", None, None, None))] == t.rows;
  }

  /** `getProdukById`. */
  function GetProduk(t: Table, id: nat): (r: Result<Produk>)
    ensures r.Ok? <==> id in t.rows
    ensures r.Ok? ==> r.value == t.rows[id]
    ensures r.Err? ==> r.msg == NotFound
  {
    if id in t.rows then Ok(t.rows[id]) else Err(NotFound)
  }

  /** `deleteProduk`: a missing id throws; otherwise exactly that row goes. */
  function DeleteProduk(t: Table, id: nat): (r: Result<Table>)
    ensures r.Err? <==> id !in t.rows
    ensures r.Err? ==> r.msg == NotFound
    ensures r.Ok? ==> r.value.rows.Keys == t.rows.Keys - {id}
    ensures r.Ok? ==> forall j :: j in r.value.rows ==> r.value.rows[j] == t.rows[j]
  {
    if id !in t.rows then Err(NotFound) else Ok(t.(rows := t.rows - {id}))
  }

  // ---------------------------------------------------------------- listing

  /**
   * The filters of `getAllProduk`: the tenant (always applied), the `aktif` query text
   * (None when absent) and the search text ("" when absent).
   */
  datatype Filter = Filter(umkmId: nat, aktif: Option<string>, search: string)

  /** The `where` clause: the tenant, then `aktif = (text == 'true')` when given, then a name substring. */
  predicate Matches(p: Produk, f: Filter) {
    && p.umkmId == f.umkmId
    && (f.aktif.Some? ==> p.aktif == (f.aktif.value == "true"))
    && (f.search != "" ==> Contains(p.nama, f.search))
  }

  /** The ids `getAllProduk` selects, before ordering and paging. */
  function ListProduk(rows: map<nat, Produk>, f: Filter): (r: set<nat>)
    ensures forall id :: id in r <==> id in rows && Matches(rows[id], f)
  {
    set id | id in rows && Matches(rows[id], f)
  }

  /** Every listed product is the tenant's, and any `aktif` text other than "true" lists inactive products only. */
  lemma ListProdukTenant(rows: map<nat, Produk>, f: Filter, id: nat)
    requires id in ListProduk(rows, f)
    ensures rows[id].umkmId == f.umkmId
    ensures f.aktif.Some? && f.aktif.value != "true" ==> !rows[id].aktif
  {
  }
}

=== FILE: reports.dfy ===
/**
 * Tenant reports (`LaporanService`): the optional date range, the transaction summary with
 * its averages and gross profit, and the per-customer totals.
 */
module Reports {
  import opened Wrappers
  import Transactions
  import Customers

  type Transaksi = Transactions.Transaksi
  type Pelanggan = Customers.Pelanggan

  /** One day in milliseconds: `end.setDate(end.getDate() + 1)` outside a daylight-saving change. */
  const DayMs: int := 86_400_000

  /** A half-open range of instants `[start, end)`. */
  datatype DateRange = DateRange(start: int, end: int)

  /**
   * `getDateRangeFilter`: with both dates, from the start instant up to but excluding the
   * instant one day after the end date; otherwise no restriction at all. Dates arrive
   * already parsed to milliseconds; an absent or empty query value is `None`.
   */
  function RangeFilter(startDate: Option<int>, endDate: Option<int>): (r: Option<DateRange>)
    ensures r.Some? <==> startDate.Some? && endDate.Some?
    ensures r.Some? ==> r.value.start == startDate.value && r.value.end - endDate.value == DayMs
  {
    if startDate.Some? && endDate.Some? then Some(DateRange(startDate.value, endDate.value + DayMs)) else None
  }

  predicate InRange(f: Option<DateRange>, t: int) {
    f.None? || f.value.start <= t < f.value.end
  }

  /** Every instant of the end day, and nothing from the day after, passes a two-date filter. */
  lemma EndDayIncluded(startDate: int, endDate: int, t: int)
    requires startDate <= t
    ensures endDate <= t < endDate + DayMs ==> InRange(RangeFilter(Some(startDate), Some(endDate)), t)
    ensures t >= endDate + DayMs ==> !InRange(RangeFilter(Some(startDate), Some(endDate)), t)
  {
  }

  /** Leaving either date out drops the range entirely. */
  lemma OneDateIsNoFilter(d: Option<int>, t: int)
    ensures InRange(RangeFilter(d, None), t) && InRange(RangeFilter(None, d), t)
  {
  }

  // ---------------------------------------------------------------- selection

  /** The inner join on `Pelanggan` with `umkm_id`: the tenant is the customer's, not the transaction's. */
  predicate OfTenant(customers: map<nat, Pelanggan>, umkmId: nat, t: Transaksi) {
    t.pelangganId in customers && customers[t.pelangganId].umkmId == umkmId
  }

  predicate Wanted(customers: map<nat, Pelanggan>, umkmId: nat, f: Option<DateRange>, t: Transaksi) {
    OfTenant(customers, umkmId, t) && InRange(f, t.tanggal)
  }

  /** The transactions both queries read, in table order. */
  function Select(rows: seq<Transaksi>, customers: map<nat, Pelanggan>, umkmId: nat, f: Option<DateRange>): (r: seq<Transaksi>)
    ensures |r| <= |rows|
    ensures forall t :: t in r <==> t in rows && Wanted(customers, umkmId, f, t)
  {
    if rows == [] then []
    else
      var rest := Select(rows[1..], customers, umkmId, f);
      assert rows == [rows[0]] + rows[1..];
      if Wanted(customers, umkmId, f, rows[0]) then [rows[0]] + rest else rest
  }

  // ---------------------------------------------------------------- transaction summary

  function SumTotals(ts: seq<Transaksi>): int {
    if ts == [] then 0 else ts[0].total + SumTotals(ts[1..])
  }

  /** SQL `SUM`: NULL over no rows. */
  function SqlSum(ts: seq<Transaksi>): Option<int> {
    if ts == [] then None else Some(SumTotals(ts))
  }

  /** An exact fraction `num / den`, standing in for the service's floating-point numbers. */
  datatype Ratio = Ratio(num: int, den: nat)

  /** SQL `AVG`: NULL over no rows. */
  function SqlAvg(ts: seq<Transaksi>): Option<Ratio> {
    if ts == [] then None else Some(Ratio(SumTotals(ts), |ts|))
  }

  /** The summary block. */
  datatype Summary = Summary(jumlahTransaksi: nat, totalPendapatan: int, rataRata: Ratio, profitKotor: Ratio)

  /**
   * `getTransactionReports`' summary: the count, revenue and average over the selected
   * transactions, NULL aggregates reading as 0, and gross profit at 30% of revenue.
   */
  function TransactionSummary(rows: seq<Transaksi>, customers: map<nat, Pelanggan>, umkmId: nat,
                              startDate: Option<int>, endDate: Option<int>): (r: Summary)
    ensures var sel := Select(rows, customers, umkmId, RangeFilter(startDate, endDate));
      && r.jumlahTransaksi == |sel| && r.totalPendapatan == SumTotals(sel)
      && r.rataRata.den > 0 && r.rataRata.num * |sel| == r.totalPendapatan * r.rataRata.den
      && (sel == [] ==> r.totalPendapatan == 0 && r.rataRata.num == 0 && r.profitKotor.num == 0)
      && r.profitKotor.den > 0 && r.profitKotor.num * 10 == 3 * r.totalPendapatan * r.profitKotor.den
  {
    var sel := Select(rows, customers, umkmId, RangeFilter(startDate, endDate));
    var total := SqlSum(sel).GetOr(0);
    Summary(|sel|, total, SqlAvg(sel).GetOr(Ratio(0, 1)), Ratio(3 * total, 10))
  }

  // ---------------------------------------------------------------- customer report

  /** One row of `getCustomerReport`. */
  datatype CustomerRow = CustomerRow(jumlahTransaksi: nat, totalPembelian: int)

  function CountFor(ts: seq<Transaksi>, id: nat): nat {
    if ts == [] then 0 else (if ts[0].pelangganId == id then 1 else 0) + CountFor(ts[1..], id)
  }

  function SumFor(ts: seq<Transaksi>, id: nat): int {
    if ts == [] then 0 else (if ts[0].pelangganId == id then ts[0].total else 0) + SumFor(ts[1..], id)
  }

  lemma {:induction false} CountForPositive(ts: seq<Transaksi>, id: nat)
    ensures CountFor(ts, id) > 0 <==> exists t :: t in ts && t.pelangganId == id
    decreases |ts|
  {
    if ts != [] {
      CountForPositive(ts[1..], id);
      assert forall t :: t in ts <==> t == ts[0] || t in ts[1..];
    }
  }

  /** The `|| 0` the mapping applies to a NULL aggregate. */
  function OrZero(x: Option<int>): (r: int)
    ensures x.None? ==> r == 0
    ensures x.Some? ==> r == x.value
  {
    x.GetOr(0)
  }

  /**
   * `getCustomerReport`, before ordering: the required join keeps only the tenant's customers
   * with at least one transaction in range, each with its count and sum over those transactions.
   */
  function CustomerReport(rows: seq<Transaksi>, customers: map<nat, Pelanggan>, umkmId: nat,
                          startDate: Option<int>, endDate: Option<int>): (r: map<nat, CustomerRow>)
    ensures var sel := Select(rows, customers, umkmId, RangeFilter(startDate, endDate));
      forall id :: id in r ==> r[id] == CustomerRow(CountFor(sel, id), SumFor(sel, id))
  {
    var sel := Select(rows, customers, umkmId, RangeFilter(startDate, endDate));
    map id | id in customers && customers[id].umkmId == umkmId && CountFor(sel, id) > 0
      :: CustomerRow(OrZero(Some(CountFor(sel, id))), OrZero(Some(SumFor(sel, id))))
  }

  /**
   * A customer appears in the report exactly when one of their transactions falls in range,
   * and every listed customer belongs to the tenant and has at least one transaction.
   */
  lemma CustomerReportMembers(rows: seq<Transaksi>, customers: map<nat, Pelanggan>, umkmId: nat,
                              startDate: Option<int>, endDate: Option<int>, id: nat)
    ensures var f := RangeFilter(startDate, endDate);
      (id in CustomerReport(rows, customers, umkmId, startDate, endDate)
       <==> exists t :: t in rows && t.pelangganId == id && Wanted(customers, umkmId, f, t))
    ensures id in CustomerReport(rows, customers, umkmId, startDate, endDate) ==>
      id in customers && customers[id].umkmId == umkmId
      && CustomerReport(rows, customers, umkmId, startDate, endDate)[id].jumlahTransaksi >= 1
  {
    var sel := Select(rows, customers, umkmId, RangeFilter(startDate, endDate));
    CountForPositive(sel, id);
  }

  // ---------------------------------------------------------------- controller

  /** The methods of `LaporanService`. */
  datatype ServiceMethod = TransactionReports | CustomerReports

  /** Looking a method up on the service object: an undefined property is `None`. */
  function Lookup(name: string): (r: Option<ServiceMethod>)
    ensures r == Some(TransactionReports) <==> name == "getTransactionReports"
    ensures r == Some(CustomerReports) <==> name == "getCustomerReport"
  {
    if name == "getTransactionReports" then Some(TransactionReports)
    else if name == "getCustomerReport" then Some(CustomerReports)
    else None
  }

  /** What a report endpoint answers: 200 with the report, or 500 with the endpoint's message. */
  datatype ReportReply = SummaryOk(summary: Summary) | CustomersOk(customers: map<nat, CustomerRow>)
                       | ReportFailed(status: nat, message: string)

  const SalesFailedMessage := "Gagal mengambil laporan penjualan."
  const CustomersFailedMessage := "Gagal mengambil laporan pelanggan."

  /**
   * A report endpoint of the controller that calls the service method `name`: calling a
   * name the service does not define throws a TypeError, which the catch turns into 500.
   */
  function ReportEndpoint(name: string, failMessage: string, rows: seq<Transaksi>, customers: map<nat, Pelanggan>,
                          umkmId: nat, startDate: Option<int>, endDate: Option<int>): (r: ReportReply)
    ensures r.ReportFailed? <==> Lookup(name).None?
    ensures r.ReportFailed? ==> r.status == 500 && r.message == failMessage
    ensures r.SummaryOk? ==> r.summary == TransactionSummary(rows, customers, umkmId, startDate, endDate)
    ensures r.CustomersOk? ==> r.customers == CustomerReport(rows, customers, umkmId, startDate, endDate)
  {
    match Lookup(name)
    case None => ReportFailed(500, failMessage)
    case Some(TransactionReports) => SummaryOk(TransactionSummary(rows, customers, umkmId, startDate, endDate))
    case Some(CustomerReports) => CustomersOk(CustomerReport(rows, customers, umkmId, startDate, endDate))
  }

  /** The sales endpoint as written calls `getSalesReports`, which the service lacks: it always answers 500. */
  lemma SalesReportsAlwaysFail(rows: seq<Transaksi>, customers: map<nat, Pelanggan>, umkmId: nat,
                               startDate: Option<int>, endDate: Option<int>)
    ensures ReportEndpoint("getSalesReports", SalesFailedMessage, rows, customers, umkmId, startDate, endDate)
      == ReportFailed(500, SalesFailedMessage)
  {
    assert "getSalesReports"[3] != "getTransactionReports"[3];
    assert "getSalesReports"[3] != "getCustomerReport"[3];
  }

  /** Calling `getTransactionReports` instead answers 200 with the summary of the selected transactions. */
  lemma SalesReportsCorrected(rows: seq<Transaksi>, customers: map<nat, Pelanggan>, umkmId: nat,
                              startDate: Option<int>, endDate: Option<int>)
    ensures var r := ReportEndpoint("getTransactionReports", SalesFailedMessage, rows, customers, umkmId, startDate, endDate);
      && r.SummaryOk?
      && r.summary.jumlahTransaksi == |Select(rows, customers, umkmId, RangeFilter(startDate, endDate))|
  {
  }

  /** The customer endpoint names a method the service has, and answers 200 with the customer report. */
  lemma CustomerReportAnswered(rows: seq<Transaksi>, customers: map<nat, Pelanggan>, umkmId: nat,
                               startDate: Option<int>, endDate: Option<int>)
    ensures ReportEndpoint("getCustomerReport", CustomersFailedMessage, rows, customers, umkmId, startDate, endDate)
      == CustomersOk(CustomerReport(rows, customers, umkmId, startDate, endDate))
  {
  }
}

=== FILE: text.dfy ===
/**
 * String helpers with the semantics of the JavaScript built-ins the services use:
 * `\D`-stripping, `startsWith`/`endsWith`/`includes`, ASCII `toLowerCase`, `trim`,
 * literal `replaceAll`, case-insensitive global `replace`, and `split`.
 */
module Text {

  // ---------------------------------------------------------------- digits

  /** The class `\d` of a JavaScript regular expression (ASCII digits only). */
  predicate IsDigit(c: char) {
    '0' <= c <= '9'
  }

  predicate AllDigits(s: string) {
    forall i :: 0 <= i < |s| ==> IsDigit(s[i])
  }

  /** `s.replace(/\D/g, '')`: the digits of `s`, in order. */
  function DigitsOnly(s: string): (r: string)
    ensures AllDigits(r)
    ensures |r| <= |s|
    ensures AllDigits(s) ==> r == s
    decreases |s|
  {
    if |s| == 0 then ""
    else if IsDigit(s[0]) then [s[0]] + DigitsOnly(s[1..])
    else DigitsOnly(s[1..])
  }

  /** Stripping non-digits distributes over concatenation. */
  lemma {:induction false} DigitsOnlyAppend(a: string, b: string)
    ensures DigitsOnly(a + b) == DigitsOnly(a) + DigitsOnly(b)
    decreases |a|
  {
    if |a| == 0 {
      assert a + b == b;
    } else {
      assert (a + b)[1..] == a[1..] + b;
      DigitsOnlyAppend(a[1..], b);
    }
  }

  lemma AllDigitsAppend(a: string, b: string)
    requires AllDigits(a) && AllDigits(b)
    ensures AllDigits(a + b)
  {
  }

  /** Text without digits strips to nothing. */
  lemma {:induction false} DigitsOnlyNoDigits(s: string)
    requires forall i :: 0 <= i < |s| ==> !IsDigit(s[i])
    ensures DigitsOnly(s) == ""
    decreases |s|
  {
    if |s| > 0 {
      DigitsOnlyNoDigits(s[1..]);
    }
  }

  // ---------------------------------------------------------------- prefixes, suffixes, substrings

  predicate StartsWith(s: string, p: string) {
    |p| <= |s| && s[..|p|] == p
  }

  predicate EndsWith(s: string, p: string) {
    |p| <= |s| && s[|s| - |p|..] == p
  }

  /** `s.includes(sub)`. */
  predicate Contains(s: string, sub: string) {
    exists i {:trigger s[i..]} :: 0 <= i && i + |sub| <= |s| && s[i..][..|sub|] == sub
  }

  /** A witness position proves containment. */
  lemma ContainsAt(s: string, sub: string, i: nat)
    requires i + |sub| <= |s|
    requires forall k :: 0 <= k < |sub| ==> s[i + k] == sub[k]
    ensures Contains(s, sub)
  {
    assert s[i..][..|sub|] == sub;
  }

  lemma ContainsSelf(s: string)
    ensures Contains(s, s)
  {
    ContainsAt(s, s, 0);
  }

  lemma ContainsMiddle(a: string, b: string, c: string)
    ensures Contains(a + b + c, b)
  {
    ContainsAt(a + b + c, b, |a|);
  }

  /**
   * When no position where `sub` would fit starts with the first two characters of
   * `sub`, `sub` does not occur in `s`. Used to refute containment in literal messages.
   */
  lemma NoPairNoContains(s: string, sub: string)
    requires |sub| >= 2
    requires forall i :: 0 <= i && i + |sub| <= |s| ==> !(s[i] == sub[0] && s[i + 1] == sub[1])
    ensures !Contains(s, sub)
  {
    forall i | 0 <= i && i + |sub| <= |s|
      ensures s[i..][..|sub|] != sub
    {
      assert s[i..][..|sub|][0] == s[i];
      assert s[i..][..|sub|][1] == s[i + 1];
    }
  }

  /** As `NoPairNoContains`, looking at the first three characters of `sub`. */
  lemma NoTripleNoContains(s: string, sub: string)
    requires |sub| >= 3
    requires forall i :: 0 <= i && i + |sub| <= |s| ==> !(s[i] == sub[0] && s[i + 1] == sub[1] && s[i + 2] == sub[2])
    ensures !Contains(s, sub)
  {
    forall i | 0 <= i && i + |sub| <= |s|
      ensures s[i..][..|sub|] != sub
    {
      assert s[i..][..|sub|][0] == s[i];
      assert s[i..][..|sub|][1] == s[i + 1];
      assert s[i..][..|sub|][2] == s[i + 2];
    }
  }

  /** A character that occurs nowhere `sub` could start rules out `sub`. */
  lemma AbsentCharNoContains(s: string, sub: string)
    requires |sub| >= 1
    requires forall i :: 0 <= i && i + |sub| <= |s| ==> s[i] != sub[0]
    ensures !Contains(s, sub)
  {
    forall i | 0 <= i && i + |sub| <= |s|
      ensures s[i..][..|sub|] != sub
    {
      assert s[i..][..|sub|][0] == s[i];
    }
  }

  /** An occurrence in the tail is an occurrence in the whole. */
  lemma ContainsTail(s: string, sub: string)
    requires |s| > 0
    ensures Contains(s[1..], sub) ==> Contains(s, sub)
  {
    if Contains(s[1..], sub) {
      var i :| 0 <= i && i + |sub| <= |s[1..]| && s[1..][i..][..|sub|] == sub;
      assert s[i + 1..] == s[1..][i..];
    }
  }

  // ---------------------------------------------------------------- case

  /** ASCII `toLowerCase` of one character. */
  function LowerChar(c: char): char {
    if 'A' <= c <= 'Z' then (c as int + 32) as char else c
  }

  /** `s.toLowerCase()`, restricted to ASCII letters. */
  function ToLower(s: string): (r: string)
    ensures |r| == |s|
    ensures forall i :: 0 <= i < |s| ==> r[i] == LowerChar(s[i])
  {
    seq(|s|, i requires 0 <= i < |s| => LowerChar(s[i]))
  }

  lemma ToLowerAppend(a: string, b: string)
    ensures ToLower(a + b) == ToLower(a) + ToLower(b)
  {
  }

  /** A prefix whose lower-case form is `sub` puts `sub` into the lower-case whole. */
  lemma ContainsLowerPrefix(head: string, rest: string, sub: string)
    requires ToLower(head) == sub
    ensures Contains(ToLower(head + rest), sub)
  {
    ToLowerAppend(head, rest);
    ContainsAt(ToLower(head + rest), sub, 0);
  }

  // ---------------------------------------------------------------- whitespace

  /**
   * The white space `String.prototype.trim` removes: tab, line feed, vertical tab, form
   * feed, carriage return and space; the no-break space U+00A0 and the other space
   * separators U+1680, U+2000 to U+200A, U+202F, U+205F and U+3000; the line and
   * paragraph separators U+2028 and U+2029; and the byte order mark U+FEFF.
   */
  predicate IsSpace(c: char) {
    || c == '\t' || c == '\n' || c == '\U{000B}' || c == '\U{000C}' || c == '\r' || c == ' '
    || c == '\U{00A0}' || c == '\U{1680}' || '\U{2000}' <= c <= '\U{200A}' || c == '\U{202F}'
    || c == '\U{205F}' || c == '\U{3000}' || c == '\U{2028}' || c == '\U{2029}' || c == '\U{FEFF}'
  }

  function TrimStart(s: string): (r: string)
    ensures |r| <= |s|
    ensures |r| > 0 ==> !IsSpace(r[0])
    decreases |s|
  {
    if |s| > 0 && IsSpace(s[0]) then TrimStart(s[1..]) else s
  }

  /** `TrimStart` drops only white space, from the front. */
  lemma {:induction false} TrimStartDropsSpaces(s: string)
    ensures TrimStart(s) == s[|s| - |TrimStart(s)|..]
    ensures forall i :: 0 <= i < |s| - |TrimStart(s)| ==> IsSpace(s[i])
    decreases |s|
  {
    if |s| > 0 && IsSpace(s[0]) {
      TrimStartDropsSpaces(s[1..]);
      forall i | 1 <= i < |s| - |TrimStart(s)| ensures IsSpace(s[i]) {
        assert s[i] == s[1..][i - 1];
      }
    }
  }

  function TrimEnd(s: string): (r: string)
    ensures |r| <= |s|
    ensures |r| > 0 ==> !IsSpace(r[|r| - 1])
    decreases |s|
  {
    if |s| > 0 && IsSpace(s[|s| - 1]) then TrimEnd(s[..|s| - 1]) else s
  }

  /** `TrimEnd` drops only white space, from the back. */
  lemma {:induction false} TrimEndDropsSpaces(s: string)
    ensures TrimEnd(s) == s[..|TrimEnd(s)|]
    ensures forall i :: |TrimEnd(s)| <= i < |s| ==> IsSpace(s[i])
    decreases |s|
  {
    if |s| > 0 && IsSpace(s[|s| - 1]) {
      TrimEndDropsSpaces(s[..|s| - 1]);
      assert s[..|s| - 1][..|TrimEnd(s)|] == s[..|TrimEnd(s)|];
      forall i | |TrimEnd(s)| <= i < |s| - 1 ensures IsSpace(s[i]) {
        assert s[i] == s[..|s| - 1][i];
      }
    }
  }

  /** `s.trim()`: a slice of `s` that neither starts nor ends with white space. */
  function Trim(s: string): (r: string)
    ensures |r| <= |s|
    ensures |r| > 0 ==> !IsSpace(r[0]) && !IsSpace(r[|r| - 1])
  {
    var t := TrimStart(s);
    TrimEndDropsSpaces(t);
    TrimEnd(t)
  }

  /** The trimmed text is a slice of the original. */
  lemma TrimIsSlice(s: string)
    ensures exists i :: 0 <= i <= |s| - |Trim(s)| && Trim(s) == s[i..][..|Trim(s)|]
  {
    var t := TrimStart(s);
    TrimStartDropsSpaces(s);
    TrimEndDropsSpaces(t);
    assert Trim(s) == s[|s| - |t|..][..|Trim(s)|];
  }

  /** White space around digits adds none: dropping a space-only part keeps the digits. */
  lemma {:induction false} DigitsOnlyDropSpaces(a: string, b: string)
    requires forall i :: 0 <= i < |a| ==> IsSpace(a[i])
    ensures DigitsOnly(a + b) == DigitsOnly(b)
    ensures DigitsOnly(b + a) == DigitsOnly(b)
  {
    DigitsOnlyAppend(a, b);
    DigitsOnlyAppend(b, a);
    DigitsOnlyNoDigits(a);
  }

  lemma {:induction false} DigitsOnlyTrimStart(s: string)
    ensures DigitsOnly(TrimStart(s)) == DigitsOnly(s)
  {
    var t := TrimStart(s);
    var a := s[..|s| - |t|];
    TrimStartDropsSpaces(s);
    assert s == a + t;
    DigitsOnlyDropSpaces(a, t);
  }

  lemma {:induction false} DigitsOnlyTrimEnd(s: string)
    ensures DigitsOnly(TrimEnd(s)) == DigitsOnly(s)
  {
    var r := TrimEnd(s);
    var b := s[|r|..];
    TrimEndDropsSpaces(s);
    assert s == r + b;
    DigitsOnlyDropSpaces(b, r);
  }

  /** Trimming removes only white space, so it keeps every digit. */
  lemma DigitsOnlyTrim(s: string)
    ensures DigitsOnly(Trim(s)) == DigitsOnly(s)
  {
    DigitsOnlyTrimStart(s);
    DigitsOnlyTrimEnd(TrimStart(s));
  }

  /** Text without surrounding white space is its own trim. */
  lemma TrimNoSpace(s: string)
    requires |s| > 0 ==> !IsSpace(s[0]) && !IsSpace(s[|s| - 1])
    ensures Trim(s) == s
  {
  }

  // ---------------------------------------------------------------- replacement

  /** Text without '$': a replacement string that `replace` and `replaceAll` insert as it stands. */
  predicate NoDollar(s: string) {
    forall i :: 0 <= i < |s| ==> s[i] != '$'
  }

  /**
   * The text one match is replaced by when the replacement is a string, as the
   * `GetSubstitution` operation of ECMA-262 builds it for a pattern without capture
   * groups: "$$" stands for "$", "$&" for the matched text, "$`" for the text before the
   * match and "$'" for the text after it. Any other '$' is kept as it is; with no groups,
   * "$1" and "$<" are plain text.
   */
  function Substitution(rep: string, matched: string, before: string, after: string): (r: string)
    ensures NoDollar(rep) ==> r == rep
    decreases |rep|
  {
    if |rep| == 0 then ""
    else if rep[0] == '$' && |rep| >= 2 && (rep[1] == '$' || rep[1] == '&' || rep[1] == '`' || rep[1] == '\'') then
      var piece := if rep[1] == '$' then "$" else if rep[1] == '&' then matched
                   else if rep[1] == '`' then before else after;
      piece + Substitution(rep[2..], matched, before, after)
    else
      assert rep == [rep[0]] + rep[1..];
      [rep[0]] + Substitution(rep[1..], matched, before, after)
  }

  /** The four patterns, and a '$' that starts none of them. */
  lemma SubstitutionPatterns(m: string, b: string, a: string)
    ensures Substitution("$$", m, b, a) == "$"
    ensures Substitution("$&", m, b, a) == m
    ensures Substitution("$`", m, b, a) == b
    ensures Substitution("$'", m, b, a) == a
    ensures Substitution("$1", m, b, a) == "$1"
  {
    assert "$1"[1..] == "1";
  }

  /**
   * `s.replaceAll(pat, rep)` with a literal pattern and a replacement string, for the part
   * `rest` of the text that follows `before`: a left-to-right scan that replaces every
   * non-overlapping occurrence by the `Substitution` of `rep` for it, the text before and
   * after the occurrence being taken from the whole text `before + rest`.
   */
  function ReplaceRest(before: string, rest: string, pat: string, rep: string): string
    requires |pat| > 0
    decreases |rest|
  {
    if |rest| < |pat| then rest
    else if rest[..|pat|] == pat then
      Substitution(rep, pat, before, rest[|pat|..]) + ReplaceRest(before + pat, rest[|pat|..], pat, rep)
    else
      [rest[0]] + ReplaceRest(before + [rest[0]], rest[1..], pat, rep)
  }

  /** A rest without an occurrence is copied as it is. */
  lemma {:induction false} ReplaceRestUnmatched(before: string, rest: string, pat: string, rep: string)
    requires |pat| > 0
    ensures !Contains(rest, pat) ==> ReplaceRest(before, rest, pat, rep) == rest
    decreases |rest|
  {
    if |rest| >= |pat| && !Contains(rest, pat) {
      assert rest[0..] == rest;
      ContainsTail(rest, pat);
      ReplaceRestUnmatched(before + [rest[0]], rest[1..], pat, rep);
      assert rest == [rest[0]] + rest[1..];
    }
  }

  /** `s.replaceAll(pat, rep)`: the scan over the whole text. */
  function ReplaceAll(s: string, pat: string, rep: string): (r: string)
    requires |pat| > 0
    ensures !Contains(s, pat) ==> r == s
  {
    ReplaceRestUnmatched("", s, pat, rep);
    ReplaceRest("", s, pat, rep)
  }

  /** Case-insensitive occurrence of a lower-case pattern at the front of `s`. */
  predicate MatchesFoldedAt(s: string, pat: string) {
    |pat| <= |s| && ToLower(s[..|pat|]) == pat
  }

  /**
   * `s.replace(/pat/gi, rep)` for a lower-case literal pattern, for the part `rest` of the
   * text that follows `before`: like `ReplaceRest`, except that a run of characters
   * matches when its lower-case form is `pat`, and "$&" stands for the run as it is written.
   */
  function ReplaceRestFolded(before: string, rest: string, pat: string, rep: string): string
    requires |pat| > 0
    decreases |rest|
  {
    if |rest| < |pat| then rest
    else if MatchesFoldedAt(rest, pat) then
      var m := rest[..|pat|];
      Substitution(rep, m, before, rest[|pat|..]) + ReplaceRestFolded(before + m, rest[|pat|..], pat, rep)
    else
      [rest[0]] + ReplaceRestFolded(before + [rest[0]], rest[1..], pat, rep)
  }

  /** As `ReplaceRestUnmatched`, for the case-insensitive scan. */
  lemma {:induction false} ReplaceRestFoldedUnmatched(before: string, rest: string, pat: string, rep: string)
    requires |pat| > 0
    ensures !Contains(ToLower(rest), pat) ==> ReplaceRestFolded(before, rest, pat, rep) == rest
    decreases |rest|
  {
    if |rest| >= |pat| && !Contains(ToLower(rest), pat) {
      assert ToLower(rest)[0..][..|pat|] == ToLower(rest[..|pat|]);
      assert ToLower(rest)[1..] == ToLower(rest[1..]);
      ContainsTail(ToLower(rest), pat);
      ReplaceRestFoldedUnmatched(before + [rest[0]], rest[1..], pat, rep);
      assert rest == [rest[0]] + rest[1..];
    }
  }

  /** `s.replace(/pat/gi, rep)`: the case-insensitive scan over the whole text. */
  function ReplaceAllFolded(s: string, pat: string, rep: string): (r: string)
    requires |pat| > 0
    ensures !Contains(ToLower(s), pat) ==> r == s
  {
    ReplaceRestFoldedUnmatched("", s, pat, rep);
    ReplaceRestFolded("", s, pat, rep)
  }

  /** An occurrence inside a suffix is an occurrence in the whole. */
  lemma ContainsSuffix(s: string, k: nat, sub: string)
    requires k <= |s|
    ensures Contains(s[k..], sub) ==> Contains(s, sub)
  {
    if Contains(s[k..], sub) {
      var i :| 0 <= i && i + |sub| <= |s[k..]| && s[k..][i..][..|sub|] == sub;
      assert s[k + i..] == s[k..][i..];
    }
  }

  /** Splitting off the first character of the left part of a concatenation. */
  lemma HeadThenRest<T>(a: seq<T>, y: seq<T>, z: seq<T>)
    requires |a| > 0
    ensures a + y + z == [a[0]] + (a[1..] + y + z)
  {
    assert a == [a[0]] + a[1..];
  }

  /** Up to the first occurrence, which starts after `a`, the scan copies the text. */
  lemma {:induction false} ScanToFirst(pre: string, a: string, b: string, pat: string, rep: string)
    requires |pat| > 0
    requires !Contains(a + pat[..|pat| - 1], pat)
    ensures ReplaceRest(pre, a + pat + b, pat, rep)
      == a + Substitution(rep, pat, pre + a, b) + ReplaceRest(pre + a + pat, b, pat, rep)
    decreases |a|
  {
    var rest := a + pat + b;
    if |a| == 0 {
      assert rest[..|pat|] == pat && rest[|pat|..] == b;
      assert pre + a == pre;
      ReplaceRestMatch(pre, rest, pat, rep);
    } else {
      var t := a + pat[..|pat| - 1];
      assert rest[..|pat|] == t[..|pat|];
      assert t[0..] == t;
      ReplaceRestSkip(pre, rest, pat, rep);
      assert rest[1..] == a[1..] + pat + b;
      assert !Contains(a[1..] + pat[..|pat| - 1], pat) by {
        assert t[1..] == a[1..] + pat[..|pat| - 1];
        ContainsTail(t, pat);
      }
      ScanToFirst(pre + [a[0]], a[1..], b, pat, rep);
      assert pre + [a[0]] + a[1..] == pre + a;
      HeadThenRest(a, Substitution(rep, pat, pre + a, b), ReplaceRest(pre + a + pat, b, pat, rep));
    }
  }

  /**
   * Without '$' in the replacement, the scan of the rest of a text does not depend on the
   * text in front of it.
   */
  lemma {:induction false} ContextFree(b1: string, b2: string, rest: string, pat: string, rep: string)
    requires |pat| > 0 && NoDollar(rep)
    ensures ReplaceRest(b1, rest, pat, rep) == ReplaceRest(b2, rest, pat, rep)
    decreases |rest|
  {
    if |rest| >= |pat| {
      if rest[..|pat|] == pat {
        ContextFree(b1 + pat, b2 + pat, rest[|pat|..], pat, rep);
      } else {
        ContextFree(b1 + [rest[0]], b2 + [rest[0]], rest[1..], pat, rep);
      }
    }
  }

  /**
   * The scan keeps the text before the first occurrence, puts the substitution for that
   * occurrence in its place, and goes on after it; an occurrence is "first" when none
   * lies wholly inside `a` and all but the last character of the occurrence. A
   * replacement without '$' goes in as it stands, and the rest is scanned on its own.
   */
  lemma ReplaceAllFirst(a: string, b: string, pat: string, rep: string)
    requires |pat| > 0
    requires !Contains(a + pat[..|pat| - 1], pat)
    ensures ReplaceAll(a + pat + b, pat, rep)
      == a + Substitution(rep, pat, a, b) + ReplaceRest(a + pat, b, pat, rep)
    ensures NoDollar(rep) ==> ReplaceAll(a + pat + b, pat, rep) == a + rep + ReplaceAll(b, pat, rep)
  {
    ScanToFirst("", a, b, pat, rep);
    assert "" + a == a;
    if NoDollar(rep) {
      ContextFree(a + pat, "", b, pat, rep);
    }
  }

  /** As `ScanToFirst`, for the case-insensitive scan and an occurrence `m` in any case. */
  lemma {:induction false} FoldedScanToFirst(pre: string, a: string, m: string, b: string, pat: string, rep: string)
    requires |pat| > 0 && |m| == |pat| && ToLower(m) == pat
    requires !Contains(ToLower(a + m[..|m| - 1]), pat)
    ensures ReplaceRestFolded(pre, a + m + b, pat, rep)
      == a + Substitution(rep, m, pre + a, b) + ReplaceRestFolded(pre + a + m, b, pat, rep)
    decreases |a|
  {
    var rest := a + m + b;
    if |a| == 0 {
      assert rest[..|pat|] == m && rest[|pat|..] == b;
      assert pre + a == pre;
      ReplaceRestFoldedMatch(pre, rest, pat, rep);
    } else {
      var t := a + m[..|m| - 1];
      var lt := ToLower(t);
      assert rest[..|pat|] == t[..|pat|];
      assert ToLower(t[..|pat|]) == lt[0..][..|pat|];
      ReplaceRestFoldedSkip(pre, rest, pat, rep);
      assert rest[1..] == a[1..] + m + b;
      assert !Contains(ToLower(a[1..] + m[..|m| - 1]), pat) by {
        assert t[1..] == a[1..] + m[..|m| - 1];
        assert lt[1..] == ToLower(t[1..]);
        ContainsTail(lt, pat);
      }
      FoldedScanToFirst(pre + [a[0]], a[1..], m, b, pat, rep);
      assert pre + [a[0]] + a[1..] == pre + a;
      HeadThenRest(a, Substitution(rep, m, pre + a, b), ReplaceRestFolded(pre + a + m, b, pat, rep));
    }
  }

  /** As `ContextFree`, for the case-insensitive scan. */
  lemma {:induction false} FoldedContextFree(b1: string, b2: string, rest: string, pat: string, rep: string)
    requires |pat| > 0 && NoDollar(rep)
    ensures ReplaceRestFolded(b1, rest, pat, rep) == ReplaceRestFolded(b2, rest, pat, rep)
    decreases |rest|
  {
    if |rest| >= |pat| {
      var m := rest[..|pat|];
      if MatchesFoldedAt(rest, pat) {
        FoldedContextFree(b1 + m, b2 + m, rest[|pat|..], pat, rep);
      } else {
        FoldedContextFree(b1 + [rest[0]], b2 + [rest[0]], rest[1..], pat, rep);
      }
    }
  }

  /** As `ReplaceAllFirst`, for the case-insensitive scan and an occurrence `m` in any case. */
  lemma ReplaceAllFoldedFirst(a: string, m: string, b: string, pat: string, rep: string)
    requires |pat| > 0 && |m| == |pat| && ToLower(m) == pat
    requires !Contains(ToLower(a + m[..|m| - 1]), pat)
    ensures ReplaceAllFolded(a + m + b, pat, rep)
      == a + Substitution(rep, m, a, b) + ReplaceRestFolded(a + m, b, pat, rep)
    ensures NoDollar(rep) ==> ReplaceAllFolded(a + m + b, pat, rep) == a + rep + ReplaceAllFolded(b, pat, rep)
  {
    FoldedScanToFirst("", a, m, b, pat, rep);
    assert "" + a == a;
    if NoDollar(rep) {
      FoldedContextFree(a + m, "", b, pat, rep);
    }
  }

  /** Lower-casing commutes with substitution: the pattern characters are not letters. */
  lemma {:induction false} SubstitutionLower(rep: string, m: string, b: string, a: string)
    ensures ToLower(Substitution(rep, m, b, a)) == Substitution(ToLower(rep), ToLower(m), ToLower(b), ToLower(a))
    decreases |rep|
  {
    if |rep| > 0 {
      var l := ToLower(rep);
      var lm, lb, la := ToLower(m), ToLower(b), ToLower(a);
      assert l[1..] == ToLower(rep[1..]);
      if rep[0] == '$' && |rep| >= 2 && (rep[1] == '$' || rep[1] == '&' || rep[1] == '`' || rep[1] == '\'') {
        assert l[0] == '$' && l[1] == rep[1];
        assert l[2..] == ToLower(rep[2..]);
        var piece := if rep[1] == '$' then "$" else if rep[1] == '&' then m
                     else if rep[1] == '`' then b else a;
        var lpiece := if rep[1] == '$' then "$" else if rep[1] == '&' then lm
                      else if rep[1] == '`' then lb else la;
        assert ToLower("$") == "$";
        assert ToLower(piece) == lpiece;
        assert Substitution(rep, m, b, a) == piece + Substitution(rep[2..], m, b, a);
        assert Substitution(l, lm, lb, la) == lpiece + Substitution(l[2..], lm, lb, la);
        SubstitutionLower(rep[2..], m, b, a);
        ToLowerAppend(piece, Substitution(rep[2..], m, b, a));
      } else {
        assert l[0] == LowerChar(rep[0]);
        assert Substitution(rep, m, b, a) == [rep[0]] + Substitution(rep[1..], m, b, a);
        assert Substitution(l, lm, lb, la) == [l[0]] + Substitution(l[1..], lm, lb, la);
        SubstitutionLower(rep[1..], m, b, a);
        ToLowerAppend([rep[0]], Substitution(rep[1..], m, b, a));
        assert ToLower([rep[0]]) == [l[0]];
      }
    }
  }

  /** One step of the scan, where an occurrence starts the rest. */
  lemma ReplaceRestMatch(before: string, rest: string, pat: string, rep: string)
    requires |pat| > 0 && |pat| <= |rest| && rest[..|pat|] == pat
    ensures ReplaceRest(before, rest, pat, rep)
      == Substitution(rep, pat, before, rest[|pat|..]) + ReplaceRest(before + pat, rest[|pat|..], pat, rep)
  {
  }

  /** One step of the scan, where no occurrence starts the rest. */
  lemma ReplaceRestSkip(before: string, rest: string, pat: string, rep: string)
    requires |pat| > 0 && |pat| <= |rest| && rest[..|pat|] != pat
    ensures ReplaceRest(before, rest, pat, rep)
      == [rest[0]] + ReplaceRest(before + [rest[0]], rest[1..], pat, rep)
  {
  }

  /** One step of the case-insensitive scan, where an occurrence starts the rest. */
  lemma ReplaceRestFoldedMatch(before: string, rest: string, pat: string, rep: string)
    requires |pat| > 0 && MatchesFoldedAt(rest, pat)
    ensures var m := rest[..|pat|];
      ReplaceRestFolded(before, rest, pat, rep)
        == Substitution(rep, m, before, rest[|pat|..]) + ReplaceRestFolded(before + m, rest[|pat|..], pat, rep)
  {
  }

  /** One step of the case-insensitive scan, where no occurrence starts the rest. */
  lemma ReplaceRestFoldedSkip(before: string, rest: string, pat: string, rep: string)
    requires |pat| > 0 && |pat| <= |rest| && !MatchesFoldedAt(rest, pat)
    ensures ReplaceRestFolded(before, rest, pat, rep)
      == [rest[0]] + ReplaceRestFolded(before + [rest[0]], rest[1..], pat, rep)
  {
  }

  /** `ReplaceAllFoldedLower` for the rest of a text. */
  lemma {:induction false} FoldedLowerRest(before: string, rest: string, pat: string, rep: string)
    requires |pat| > 0
    ensures ToLower(ReplaceRestFolded(before, rest, pat, rep))
      == ReplaceRest(ToLower(before), ToLower(rest), pat, ToLower(rep))
    decreases |rest|
  {
    var l := ToLower(rest);
    var lb := ToLower(before);
    var lrep := ToLower(rep);
    if |rest| >= |pat| {
      assert l[..|pat|] == ToLower(rest[..|pat|]);
      if MatchesFoldedAt(rest, pat) {
        var m := rest[..|pat|];
        var after := rest[|pat|..];
        var sub := Substitution(rep, m, before, after);
        var tail := ReplaceRestFolded(before + m, after, pat, rep);
        assert ReplaceRestFolded(before, rest, pat, rep) == sub + tail;
        assert l[|pat|..] == ToLower(after);
        ReplaceRestMatch(lb, l, pat, lrep);
        SubstitutionLower(rep, m, before, after);
        ToLowerAppend(before, m);
        FoldedLowerRest(before + m, after, pat, rep);
        ToLowerAppend(sub, tail);
        assert ToLower(sub) == Substitution(lrep, pat, lb, l[|pat|..]);
        assert ToLower(tail) == ReplaceRest(lb + pat, l[|pat|..], pat, lrep);
      } else {
        var c := rest[0];
        var tail := ReplaceRestFolded(before + [c], rest[1..], pat, rep);
        assert ReplaceRestFolded(before, rest, pat, rep) == [c] + tail;
        assert l[0] == LowerChar(c) && l[1..] == ToLower(rest[1..]);
        ReplaceRestSkip(lb, l, pat, lrep);
        ToLowerAppend(before, [c]);
        assert ToLower([c]) == [l[0]];
        assert ToLower(before + [c]) == lb + [l[0]];
        FoldedLowerRest(before + [c], rest[1..], pat, rep);
        ToLowerAppend([c], tail);
        assert ToLower(tail) == ReplaceRest(lb + [l[0]], l[1..], pat, lrep);
      }
    } else {
      assert |l| == |rest|;
    }
  }

  /**
   * Seen in lower case, the case-insensitive scan is the plain scan of the lower-case
   * text with the lower-case replacement.
   */
  lemma ReplaceAllFoldedLower(s: string, pat: string, rep: string)
    requires |pat| > 0
    ensures ToLower(ReplaceAllFolded(s, pat, rep)) == ReplaceAll(ToLower(s), pat, ToLower(rep))
  {
    FoldedLowerRest("", s, pat, rep);
  }

  /**
   * Every non-overlapping occurrence of `pat` replaced by `rep` as it stands: what the
   * scan does with a replacement without '$' (`LiteralReplacement`).
   */
  function SpliceAll(s: string, pat: string, rep: string): string
    requires |pat| > 0
    decreases |s|
  {
    if |s| < |pat| then s
    else if s[..|pat|] == pat then rep + SpliceAll(s[|pat|..], pat, rep)
    else [s[0]] + SpliceAll(s[1..], pat, rep)
  }

  /** A replacement without '$' is inserted as it stands, whatever surrounds the match. */
  lemma {:induction false} LiteralReplacement(before: string, rest: string, pat: string, rep: string)
    requires |pat| > 0 && NoDollar(rep)
    ensures ReplaceRest(before, rest, pat, rep) == SpliceAll(rest, pat, rep)
    decreases |rest|
  {
    if |rest| >= |pat| {
      if rest[..|pat|] == pat {
        LiteralReplacement(before + pat, rest[|pat|..], pat, rep);
      } else {
        LiteralReplacement(before + [rest[0]], rest[1..], pat, rep);
      }
    }
  }

  /** No character of `rep` occurs in `q`. */
  predicate Disjoint(rep: string, q: string) {
    forall i :: 0 <= i < |rep| ==> rep[i] !in q
  }

  /**
   * The first `m` characters of a scan's result are the first `m` characters of its
   * input, unless a replacement begins among them.
   */
  lemma {:induction false} SpliceAllWindow(t: string, pat: string, rep: string, m: nat)
    requires |pat| > 0 && |rep| > 0 && m <= |SpliceAll(t, pat, rep)|
    ensures var r := SpliceAll(t, pat, rep);
      (m <= |t| && r[..m] == t[..m]) || (exists p :: 0 <= p < m && r[p] == rep[0])
    decreases |t|
  {
    var r := SpliceAll(t, pat, rep);
    if |t| >= |pat| && m > 0 {
      if t[..|pat|] == pat {
        assert r[0] == rep[0];
      } else {
        var r' := SpliceAll(t[1..], pat, rep);
        assert r == [t[0]] + r';
        SpliceAllWindow(t[1..], pat, rep, m - 1);
        if m - 1 <= |t[1..]| && r'[..m - 1] == t[1..][..m - 1] {
          assert r[..m] == [t[0]] + r'[..m - 1] && t[..m] == [t[0]] + t[1..][..m - 1];
        } else {
          var p :| 0 <= p < m - 1 && r'[p] == rep[0];
          assert r[p + 1] == rep[0];
        }
      }
    }
  }

  /**
   * With a non-empty replacement none of whose characters occurs in `q`, the scan
   * creates no occurrence of `q`, and leaves none of the pattern itself.
   */
  lemma {:induction false} SpliceAllLeavesNone(s: string, pat: string, rep: string, q: string)
    requires |pat| > 0 && |rep| > 0 && |q| > 0 && Disjoint(rep, q)
    requires q == pat || !Contains(s, q)
    ensures !Contains(SpliceAll(s, pat, rep), q)
    decreases |s|
  {
    var r := SpliceAll(s, pat, rep);
    if |s| < |pat| {
      assert r == s;
    } else if s[..|pat|] == pat {
      var r' := SpliceAll(s[|pat|..], pat, rep);
      assert !Contains(r', q) by {
        ContainsSuffix(s, |pat|, q);
        SpliceAllLeavesNone(s[|pat|..], pat, rep, q);
      }
      assert r == rep + r';
      PrependDisjoint(rep, r', q);
    } else {
      var r' := SpliceAll(s[1..], pat, rep);
      assert !Contains(r', q) by {
        ContainsTail(s, q);
        SpliceAllLeavesNone(s[1..], pat, rep, q);
      }
      assert r == [s[0]] + r';
      FrontAfterSkip(s, pat, rep, q);
      PrependChar(s[0], r', q);
    }
  }

  /**
   * Where the scan keeps the first character, the result cannot start with `q`: its
   * front is either the input's own front or runs into a replacement.
   */
  lemma FrontAfterSkip(s: string, pat: string, rep: string, q: string)
    requires |pat| > 0 && |rep| > 0 && |q| > 0 && Disjoint(rep, q)
    requires |s| >= |pat| && s[..|pat|] != pat
    requires q == pat || !Contains(s, q)
    ensures var r := [s[0]] + SpliceAll(s[1..], pat, rep);
      |q| <= |r| ==> r[..|q|] != q
  {
    var r' := SpliceAll(s[1..], pat, rep);
    var r := [s[0]] + r';
    if |q| <= |r| {
      SpliceAllWindow(s[1..], pat, rep, |q| - 1);
      if |q| - 1 <= |s[1..]| && r'[..|q| - 1] == s[1..][..|q| - 1] {
        assert r[..|q|] == s[..|q|] by {
          assert r[..|q|] == [s[0]] + r'[..|q| - 1];
          assert s[..|q|] == [s[0]] + s[1..][..|q| - 1];
        }
        assert s[..|q|] != q by {
          assert s[0..] == s;
        }
      } else {
        assert r[..|q|] != q by {
          var p :| 0 <= p < |q| - 1 && r'[p] == rep[0];
          assert r[..|q|][p + 1] == rep[0];
        }
      }
    }
  }

  /** A prefix none of whose characters occurs in `q` adds no occurrence of `q`. */
  lemma PrependDisjoint(rep: string, t: string, q: string)
    requires |q| > 0 && Disjoint(rep, q) && !Contains(t, q)
    ensures !Contains(rep + t, q)
  {
    var r := rep + t;
    forall i | 0 <= i && i + |q| <= |r| ensures r[i..][..|q|] != q {
      if i < |rep| {
        assert r[i..][..|q|][0] == rep[i];
      } else {
        assert r[i..] == t[i - |rep|..];
      }
    }
  }

  /** One character in front adds an occurrence of `q` only at the front. */
  lemma PrependChar(c: char, t: string, q: string)
    requires !Contains(t, q)
    requires |q| <= |t| + 1 ==> ([c] + t)[..|q|] != q
    ensures !Contains([c] + t, q)
  {
    var r := [c] + t;
    forall i | 0 <= i && i + |q| <= |r| ensures r[i..][..|q|] != q {
      if i == 0 {
        assert r[0..] == r;
      } else {
        assert r[i..] == t[i - 1..];
      }
    }
  }

  /**
   * With a non-empty replacement without '$', none of whose characters occurs in `q`, the
   * scan creates no occurrence of `q`, and leaves none of the pattern itself.
   */
  lemma ReplaceAllLeavesNone(s: string, pat: string, rep: string, q: string)
    requires |pat| > 0 && |rep| > 0 && |q| > 0 && Disjoint(rep, q) && NoDollar(rep)
    requires q == pat || !Contains(s, q)
    ensures !Contains(ReplaceAll(s, pat, rep), q)
  {
    LiteralReplacement("", s, pat, rep);
    SpliceAllLeavesNone(s, pat, rep, q);
  }

  /** As `ReplaceAllLeavesNone`, for the case-insensitive scan, looking at the lower-case result. */
  lemma ReplaceAllFoldedLeavesNone(s: string, pat: string, rep: string, q: string)
    requires |pat| > 0 && |rep| > 0 && |q| > 0 && Disjoint(ToLower(rep), q) && NoDollar(rep)
    requires q == pat || !Contains(ToLower(s), q)
    ensures !Contains(ToLower(ReplaceAllFolded(s, pat, rep)), q)
  {
    ReplaceAllFoldedLower(s, pat, rep);
    assert NoDollar(ToLower(rep));
    ReplaceAllLeavesNone(ToLower(s), pat, ToLower(rep), q);
  }

  // ---------------------------------------------------------------- searching and splitting

  /** Index of the first `c` in `s`. */
  function IndexOf(s: string, c: char): (r: int)
    ensures -1 <= r < |s|
    ensures r >= 0 ==> s[r] == c && forall i :: 0 <= i < r ==> s[i] != c
    ensures r == -1 ==> forall i :: 0 <= i < |s| ==> s[i] != c
    decreases |s|
  {
    if |s| == 0 then -1
    else if s[0] == c then 0
    else
      var k := IndexOf(s[1..], c);
      if k == -1 then -1 else k + 1
  }

  /** Index of the last `c` in `s`. */
  function LastIndexOf(s: string, c: char): (r: int)
    ensures -1 <= r < |s|
    ensures r >= 0 ==> s[r] == c && forall i :: r < i < |s| ==> s[i] != c
    ensures r == -1 ==> forall i :: 0 <= i < |s| ==> s[i] != c
    decreases |s|
  {
    if |s| == 0 then -1
    else if s[|s| - 1] == c then |s| - 1
    else LastIndexOf(s[..|s| - 1], c)
  }

  /** `s.split(sep)` for a one-character separator. */
  function Split(s: string, sep: char): (r: seq<string>)
    ensures |r| >= 1
    decreases |s|
  {
    var k := IndexOf(s, sep);
    if k == -1 then [s] else [s[..k]] + Split(s[k + 1..], sep)
  }

  /** A field free of the separator is split off intact. */
  lemma SplitFirst(a: string, sep: char, b: string)
    requires forall i :: 0 <= i < |a| ==> a[i] != sep
    ensures Split(a + [sep] + b, sep) == [a] + Split(b, sep)
  {
    var s := a + [sep] + b;
    assert s[|a|] == sep;
    assert forall i :: 0 <= i < |a| ==> s[i] == a[i];
    assert IndexOf(s, sep) == |a|;
    assert s[..|a|] == a;
    assert s[|a| + 1..] == b;
  }

  lemma SplitNone(s: string, sep: char)
    requires forall i :: 0 <= i < |s| ==> s[i] != sep
    ensures Split(s, sep) == [s]
  {
  }

  // ---------------------------------------------------------------- ordering

  /** JavaScript's `<` on strings: code units compared left to right, a proper prefix first. */
  predicate Less(a: string, b: string)
    decreases |a|
  {
    if a == [] then b != []
    else if b == [] then false
    else if a[0] != b[0] then a[0] < b[0]
    else Less(a[1..], b[1..])
  }

  lemma {:induction false} LessIrreflexive(a: string)
    ensures !Less(a, a)
    decreases |a|
  {
    if a != [] {
      LessIrreflexive(a[1..]);
    }
  }

  lemma {:induction false} LessTransitive(a: string, b: string, c: string)
    requires Less(a, b) && Less(b, c)
    ensures Less(a, c)
    decreases |a|
  {
    if a != [] && b != [] && c != [] && a[0] == b[0] && b[0] == c[0] {
      LessTransitive(a[1..], b[1..], c[1..]);
    }
  }
}

=== FILE: transactions.dfy ===
/**
 * Sales transactions (`transaksiService`): the daily transaction numbers, creation
 * with its per-item product checks and stock deductions, deletion that puts the
 * stock back, and the update merge. Money is integer cents; a database transaction
 * is a function that either returns the new store or an error, in which case the
 * caller keeps the store it had.
 */
module Transactions {
  import opened Wrappers
  import opened Text
  import opened Decimal
  import opened Calendar
  import Products

  type Produk = Products.Produk

  /** A transaction row; `pelangganId` 0 stands for NULL. */
  datatype Transaksi = Transaksi(nomor: string, pelangganId: nat, tanggal: int, total: int, metode: string,
                                 keterangan: Option<string>, umkmId: nat)

  /** A `DETAIL_TRANSAKSI` row. */
  datatype Detail = Detail(transaksiId: nat, produkId: nat, jumlah: int, hargaSatuan: int, subtotal: int)

  /** An invoice row, at most one per transaction. */
  datatype Invoice = Invoice(transaksiId: nat, nomor: string, tanggalCetak: int, pathFile: string)

  /**
   * The tables the service touches; details and invoices are kept in primary-key
   * order, and `nextId` is the next transaction id.
   */
  datatype Db = Db(products: Products.Table, txs: map<nat, Transaksi>, details: seq<Detail>,
                   invoices: seq<Invoice>, nextId: nat)

  const NotFound := "Transaksi tidak ditemukan"

  // ---------------------------------------------------------------- numbering

  /** `TRX-YYYYMMDD`, the prefix every number of one day starts with. */
  function Prefix(d: DateTime): string {
    "TRX" + ['-'] + Ymd(d)
  }

  /** The id of the newest transaction (largest id below `n`) whose number starts with `prefix`. */
  function LatestWithPrefix(txs: map<nat, Transaksi>, prefix: string, n: nat): (r: Option<nat>)
    ensures r.Some? ==> r.value < n && r.value in txs && StartsWith(txs[r.value].nomor, prefix)
    ensures r.Some? ==> forall k :: r.value < k < n && k in txs ==> !StartsWith(txs[k].nomor, prefix)
    ensures r.None? ==> forall k :: k < n && k in txs ==> !StartsWith(txs[k].nomor, prefix)
  {
    if n == 0 then None
    else if n - 1 in txs && StartsWith(txs[n - 1].nomor, prefix) then Some(n - 1)
    else LatestWithPrefix(txs, prefix, n - 1)
  }

  /**
   * The sequence the next number gets: 1 when there is no number today, else the
   * third '-'-separated field of the newest one plus 1. None is JavaScript's NaN,
   * which a field that is absent or does not start with a digit produces.
   */
  function NextSequence(last: Option<string>): Option<nat> {
    if last.None? then Some(1)
    else
      var parts := Split(last.value, '-');
      if |parts| < 3 then None
      else match ParseInt(parts[2])
        case None => None
        case Some(n) => Some(n + 1)
  }

  /** The sequence padded to four digits; `String(NaN).padStart(4, '0')` is "0NaN". */
  function SequenceText(s: Option<nat>): (r: string)
    ensures s.Some? ==> AllDigits(r) && |r| >= 4 && DigitsValue(r) == s.value
    ensures forall i :: 0 <= i < |r| ==> r[i] != '-'
  {
    if s.Some? then Pad(s.value, 4) else "0NaN"
  }

  /** `generateNomorTransaksi`, with `last` the number of the newest transaction of the day, of any tenant. */
  function GenerateNomor(d: DateTime, last: Option<string>): (r: string)
    ensures StartsWith(r, Prefix(d))
  {
    Prefix(d) + ['-'] + SequenceText(NextSequence(last))
  }

  /** Three dash-free fields joined by '-' split back into those fields. */
  lemma SplitThree(a: string, b: string, c: string)
    requires forall i :: 0 <= i < |a| ==> a[i] != '-'
    requires forall i :: 0 <= i < |b| ==> b[i] != '-'
    requires forall i :: 0 <= i < |c| ==> c[i] != '-'
    ensures Split(a + ['-'] + (b + ['-'] + c), '-') == [a, b, c]
  {
    SplitFirst(a, '-', b + ['-'] + c);
    SplitFirst(b, '-', c);
    SplitNone(c, '-');
  }

  lemma JoinAssoc(a: string, b: string, c: string)
    ensures a + ['-'] + b + ['-'] + c == a + ['-'] + (b + ['-'] + c)
  {
  }

  /** A generated number is "TRX", the date stamp and the sequence text, joined by '-'. */
  lemma GenerateNomorShape(d: DateTime, last: Option<string>)
    ensures GenerateNomor(d, last) == "TRX" + ['-'] + (Ymd(d) + ['-'] + SequenceText(NextSequence(last)))
  {
    JoinAssoc("TRX", Ymd(d), SequenceText(NextSequence(last)));
  }

  /** A generated number splits into "TRX", the date stamp and the sequence text. */
  lemma GenerateNomorSplits(d: DateTime, last: Option<string>)
    ensures Split(GenerateNomor(d, last), '-') == ["TRX", Ymd(d), SequenceText(NextSequence(last))]
  {
    var y, s := Ymd(d), SequenceText(NextSequence(last));
    GenerateNomorShape(d, last);
    assert forall i :: 0 <= i < |y| ==> y[i] != '-' by {
      assert AllDigits(y);
    }
    var trx := "TRX";
    assert trx[0] == 'T' && trx[1] == 'R' && trx[2] == 'X';
    forall i | 0 <= i < |trx| ensures trx[i] != '-' {
      if i == 0 {} else if i == 1 {} else {}
    }
    SplitThree(trx, y, s);
  }

  /**
   * Numbers of one day count up: a number generated after `last` reads back, as the
   * next call reads it, to one more than the sequence it was given.
   */
  lemma SequenceAdvances(d: DateTime, last: Option<string>, n: nat)
    requires NextSequence(last) == Some(n)
    ensures NextSequence(Some(GenerateNomor(d, last))) == Some(n + 1)
  {
    var s := SequenceText(Some(n));
    GenerateNomorSplits(d, last);
    assert Split(GenerateNomor(d, last), '-')[2] == s;
    LeadingDigitsOfDigits(s);
    assert ParseInt(s) == Some(n);
  }

  /** The first number of a day has sequence 1 and is `TRX-YYYYMMDD-0001`. */
  lemma FirstOfDay(d: DateTime)
    ensures GenerateNomor(d, None) == Prefix(d) + "-0001"
  {
    assert NatToString(1) == "1" by { assert DigitChar(1) == '1'; }
    assert Zeros(3) == "000";
  }

  // ---------------------------------------------------------------- items

  /** One requested item; a `hargaSatuan` of 0 (any falsy price) means "use the product price". */
  datatype Item = Item(produkId: nat, jumlah: int, hargaSatuan: int)

  /** The validated items, the stock after the deductions, and the total. */
  datatype Checked = Checked(rows: map<nat, Produk>, details: seq<Detail>, total: int)

  /** The quantity the items take from product `p`. */
  function QtyOf(items: seq<Item>, p: nat): int {
    if |items| == 0 then 0
    else (if items[0].produkId == p then items[0].jumlah else 0) + QtyOf(items[1..], p)
  }

  /** The stock product `p` shows when item `k` is checked: earlier items are already deducted. */
  function StockSeenBy(rows: map<nat, Produk>, items: seq<Item>, k: nat): int
    requires k < |items| && items[k].produkId in rows
  {
    rows[items[k].produkId].stok - QtyOf(items[..k], items[k].produkId)
  }

  /** Item `k` passes its checks: the product exists, is active, and has enough stock left. */
  predicate Admissible(rows: map<nat, Produk>, items: seq<Item>, k: nat)
    requires k < |items|
  {
    && items[k].produkId in rows
    && rows[items[k].produkId].aktif
    && StockSeenBy(rows, items, k) >= items[k].jumlah
  }

  /** The unit price of an item: its own when truthy, else the product's. */
  function UnitPrice(it: Item, p: Produk): int {
    if it.hargaSatuan != 0 then it.hargaSatuan else p.harga
  }

  /**
   * The item loop of `createTransaksi`, in request order: each item's product is
   * looked up, checked, priced and has its stock reduced before the next item is
   * checked. The first failing item throws its message.
   */
  function CheckItems(rows: map<nat, Produk>, items: seq<Item>, tid: nat): (r: Result<Checked>)
    ensures r.Ok? ==> r.value.rows.Keys == rows.Keys && |r.value.details| == |items|
    decreases |items|
  {
    if |items| == 0 then Ok(Checked(rows, [], 0))
    else
      var it := items[0];
      if it.produkId !in rows then Err("Produk dengan ID " + NatToString(it.produkId) + " tidak ditemukan")
      else
        var p := rows[it.produkId];
        if !p.aktif then Err("Produk " + p.nama + " tidak aktif")
        else if p.stok < it.jumlah then
          Err("Stok produk " + p.nama + " tidak mencukupi. Stok tersedia: " + IntToString(p.stok))
        else
          var harga := UnitPrice(it, p);
          var line := Detail(tid, it.produkId, it.jumlah, harga, harga * it.jumlah);
          var rest := CheckItems(rows[it.produkId := p.(stok := p.stok - it.jumlah)], items[1..], tid);
          if rest.Err? then rest
          else Ok(Checked(rest.value.rows, [line] + rest.value.details, line.subtotal + rest.value.total))
  }

  /** The sum of the subtotals. */
  function SumSubtotals(ds: seq<Detail>): int {
    if |ds| == 0 then 0 else ds[0].subtotal + SumSubtotals(ds[1..])
  }

  /** Taking the first item off shifts the running stock by that item's quantity. */
  lemma StockSeenShift(rows: map<nat, Produk>, items: seq<Item>, k: nat)
    requires 0 < k < |items| && items[0].produkId in rows && items[k].produkId in rows
    ensures var p := rows[items[0].produkId];
      var rows' := rows[items[0].produkId := p.(stok := p.stok - items[0].jumlah)];
      StockSeenBy(rows', items[1..], k - 1) == StockSeenBy(rows, items, k)
  {
    assert items[..k][1..] == items[1..][..k - 1];
  }

  /** The items all pass, each seeing the stock the earlier ones left, iff the loop does not throw. */
  lemma {:induction false} CheckItemsOkIff(rows: map<nat, Produk>, items: seq<Item>, tid: nat)
    ensures CheckItems(rows, items, tid).Ok? <==> forall k :: 0 <= k < |items| ==> Admissible(rows, items, k)
    decreases |items|
  {
    if |items| > 0 {
      var it := items[0];
      assert items[..0] == [];
      if it.produkId in rows && rows[it.produkId].aktif && rows[it.produkId].stok >= it.jumlah {
        var p := rows[it.produkId];
        var rows' := rows[it.produkId := p.(stok := p.stok - it.jumlah)];
        CheckItemsOkIff(rows', items[1..], tid);
        forall k | 0 < k < |items|
          ensures Admissible(rows, items, k) <==> Admissible(rows', items[1..], k - 1)
        {
          assert items[1..][k - 1] == items[k];
          if items[k].produkId in rows {
            StockSeenShift(rows, items, k);
          }
        }
        if forall k :: 0 <= k < |items| ==> Admissible(rows, items, k) {
          forall j | 0 <= j < |items[1..]| ensures Admissible(rows', items[1..], j) {
            assert Admissible(rows, items, j + 1);
          }
        } else {
          var k :| 0 <= k < |items| && !Admissible(rows, items, k);
          assert k > 0;
          assert !Admissible(rows', items[1..], k - 1);
        }
      } else {
        assert !Admissible(rows, items, 0);
      }
    }
  }

  /**
   * A successful check deducts from each product exactly the quantity the items take
   * from it, and changes nothing else about the products.
   */
  lemma {:induction false} CheckItemsStock(rows: map<nat, Produk>, items: seq<Item>, tid: nat)
    requires CheckItems(rows, items, tid).Ok?
    ensures var out := CheckItems(rows, items, tid).value.rows;
      forall p :: p in rows ==> out[p] == rows[p].(stok := rows[p].stok - QtyOf(items, p))
    decreases |items|
  {
    if |items| > 0 {
      var it := items[0];
      var q := rows[it.produkId];
      var rows' := rows[it.produkId := q.(stok := q.stok - it.jumlah)];
      CheckItemsStock(rows', items[1..], tid);
    }
  }

  /**
   * A successful check yields one detail per item, in order, priced at the item's
   * price or else the product's, with subtotal price times quantity, and the total
   * is the sum of the subtotals.
   */
  lemma {:induction false} CheckItemsDetails(rows: map<nat, Produk>, items: seq<Item>, tid: nat)
    requires CheckItems(rows, items, tid).Ok?
    ensures var c := CheckItems(rows, items, tid).value;
      && c.total == SumSubtotals(c.details)
      && forall k :: 0 <= k < |items| ==>
           && items[k].produkId in rows
           && c.details[k] == Detail(tid, items[k].produkId, items[k].jumlah, UnitPrice(items[k], rows[items[k].produkId]),
                                     UnitPrice(items[k], rows[items[k].produkId]) * items[k].jumlah)
    decreases |items|
  {
    if |items| > 0 {
      var it := items[0];
      var q := rows[it.produkId];
      var rows' := rows[it.produkId := q.(stok := q.stok - it.jumlah)];
      CheckItemsDetails(rows', items[1..], tid);
      var c := CheckItems(rows, items, tid).value;
      var c' := CheckItems(rows', items[1..], tid).value;
      assert c.details[1..] == c'.details;
      forall k | 0 < k < |items|
        ensures items[k].produkId in rows
        ensures UnitPrice(items[k], rows'[items[k].produkId]) == UnitPrice(items[k], rows[items[k].produkId])
      {
        assert items[1..][k - 1] == items[k];
      }
    }
  }

  // ---------------------------------------------------------------- create

  /** The body of a create request; a missing `umkm_id` or `pelanggan_id` is 0. */
  datatype NewTransaksi = NewTransaksi(pelangganId: nat, items: seq<Item>, metode: string,
                                       keterangan: Option<string>, umkmId: nat)

  const ItemsRequired := "Items transaksi wajib diisi"
  const UmkmRequired := "UMKM ID wajib diisi"

  /** The number the next transaction gets on day `d`. */
  function NextNomor(db: Db, d: DateTime): string {
    var last := LatestWithPrefix(db.txs, Prefix(d), db.nextId);
    GenerateNomor(d, if last.Some? then Some(db.txs[last.value].nomor) else None)
  }

  /**
   * `createTransaksi`: the two request checks, then in one database transaction the
   * number, the item loop, the transaction row and its details. Any throw rolls the
   * whole transaction back, so an error leaves the store as it was.
   */
  function CreateTransaksi(db: Db, input: NewTransaksi, d: DateTime, now: int): (r: Result<Db>)
    ensures |input.items| == 0 ==> r == Err(ItemsRequired)
    ensures |input.items| > 0 && input.umkmId == 0 ==> r == Err(UmkmRequired)
    ensures r.Ok? <==> |input.items| > 0 && input.umkmId != 0
                       && forall k :: 0 <= k < |input.items| ==> Admissible(db.products.rows, input.items, k)
    ensures r.Ok? ==> r.value.nextId == db.nextId + 1 && r.value.invoices == db.invoices
    ensures r.Ok? ==> |r.value.details| == |db.details| + |input.items|
                      && r.value.details[..|db.details|] == db.details
    ensures r.Ok? ==> db.nextId in r.value.txs && r.value.txs == db.txs[db.nextId := r.value.txs[db.nextId]]
    ensures r.Ok? ==> var t := r.value.txs[db.nextId];
      && t.nomor == NextNomor(db, d) && t.umkmId == input.umkmId && t.pelangganId == input.pelangganId
      && t.tanggal == now && t.metode == input.metode && t.keterangan == input.keterangan
      && t.total == SumSubtotals(r.value.details[|db.details|..])
    ensures r.Ok? ==> r.value.products.nextId == db.products.nextId
                      && r.value.products.kodeJenis == db.products.kodeJenis
                      && r.value.products.rows.Keys == db.products.rows.Keys
  {
    CheckItemsOkIff(db.products.rows, input.items, db.nextId);
    if |input.items| == 0 then Err(ItemsRequired)
    else if input.umkmId == 0 then Err(UmkmRequired)
    else
      var nomor := NextNomor(db, d);
      var checked := CheckItems(db.products.rows, input.items, db.nextId);
      if checked.Err? then Err(checked.msg)
      else
        CheckItemsDetails(db.products.rows, input.items, db.nextId);
        var c := checked.value;
        var t := Transaksi(nomor, input.pelangganId, now, c.total, input.metode, input.keterangan, input.umkmId);
        assert (db.details + c.details)[|db.details|..] == c.details;
        Ok(db.(products := db.products.(rows := c.rows), txs := db.txs[db.nextId := t],
               details := db.details + c.details, nextId := db.nextId + 1))
  }

  // ---------------------------------------------------------------- delete

  /** The details of transaction `id`, in table order. */
  function DetailsOf(ds: seq<Detail>, id: nat): (r: seq<Detail>)
    ensures forall k :: 0 <= k < |r| ==> r[k].transaksiId == id
  {
    if |ds| == 0 then [] else (if ds[0].transaksiId == id then [ds[0]] else []) + DetailsOf(ds[1..], id)
  }

  /** The details of every other transaction, in table order. */
  function DetailsNotOf(ds: seq<Detail>, id: nat): (r: seq<Detail>)
    ensures forall k :: 0 <= k < |r| ==> r[k].transaksiId != id
  {
    if |ds| == 0 then [] else (if ds[0].transaksiId != id then [ds[0]] else []) + DetailsNotOf(ds[1..], id)
  }

  function InvoicesNotOf(vs: seq<Invoice>, id: nat): (r: seq<Invoice>)
    ensures forall k :: 0 <= k < |r| ==> r[k].transaksiId != id
  {
    if |vs| == 0 then [] else (if vs[0].transaksiId != id then [vs[0]] else []) + InvoicesNotOf(vs[1..], id)
  }

  /** The quantity the details took from product `p`. */
  function DetailQty(ds: seq<Detail>, p: nat): int {
    if |ds| == 0 then 0 else (if ds[0].produkId == p then ds[0].jumlah else 0) + DetailQty(ds[1..], p)
  }

  /** The stock loop of `deleteTransaksi`: each detail's quantity goes back to its product if it still exists. */
  function Restock(rows: map<nat, Produk>, ds: seq<Detail>): (r: map<nat, Produk>)
    ensures r.Keys == rows.Keys
  {
    if |ds| == 0 then rows
    else
      var p := ds[0].produkId;
      var rows' := if p in rows then rows[p := rows[p].(stok := rows[p].stok + ds[0].jumlah)] else rows;
      Restock(rows', ds[1..])
  }

  /** Restocking adds back to each product the quantity the details took from it, and nothing else. */
  lemma {:induction false} RestockAdds(rows: map<nat, Produk>, ds: seq<Detail>)
    ensures forall p :: p in rows ==> Restock(rows, ds)[p] == rows[p].(stok := rows[p].stok + DetailQty(ds, p))
    decreases |ds|
  {
    if |ds| > 0 {
      var p := ds[0].produkId;
      var rows' := if p in rows then rows[p := rows[p].(stok := rows[p].stok + ds[0].jumlah)] else rows;
      RestockAdds(rows', ds[1..]);
    }
  }

  /**
   * `deleteTransaksi`: a missing id throws; otherwise, in one database transaction,
   * the stock of every detail goes back to its product (if the product still exists),
   * and the details, the invoice and the transaction are removed.
   */
  function DeleteTransaksi(db: Db, id: nat): (r: Result<Db>)
    ensures r.Err? <==> id !in db.txs
    ensures r.Err? ==> r.msg == NotFound
    ensures r.Ok? ==> r.value.txs == db.txs - {id} && r.value.nextId == db.nextId
    ensures r.Ok? ==> r.value.details == DetailsNotOf(db.details, id)
    ensures r.Ok? ==> r.value.invoices == InvoicesNotOf(db.invoices, id)
    ensures r.Ok? ==> r.value.products.rows.Keys == db.products.rows.Keys
    ensures r.Ok? ==> forall p :: p in db.products.rows ==>
      r.value.products.rows[p] == db.products.rows[p].(stok := db.products.rows[p].stok
                                                              + DetailQty(DetailsOf(db.details, id), p))
  {
    if id !in db.txs then Err(NotFound)
    else
      RestockAdds(db.products.rows, DetailsOf(db.details, id));
      Ok(db.(products := db.products.(rows := Restock(db.products.rows, DetailsOf(db.details, id))),
             txs := db.txs - {id}, details := DetailsNotOf(db.details, id),
             invoices := InvoicesNotOf(db.invoices, id)))
  }

  // ---------------------------------------------------------------- create then delete

  /** Every id the tables mention is below the counter. */
  predicate WellFormed(db: Db) {
    && (forall id :: id in db.txs ==> id < db.nextId)
    && (forall k :: 0 <= k < |db.details| ==> db.details[k].transaksiId < db.nextId)
    && (forall k :: 0 <= k < |db.invoices| ==> db.invoices[k].transaksiId < db.nextId)
  }

  lemma {:induction false} DetailsOfAppend(a: seq<Detail>, b: seq<Detail>, id: nat)
    ensures DetailsOf(a + b, id) == DetailsOf(a, id) + DetailsOf(b, id)
    ensures DetailsNotOf(a + b, id) == DetailsNotOf(a, id) + DetailsNotOf(b, id)
    decreases |a|
  {
    if |a| == 0 {
      assert a + b == b;
    } else {
      assert (a + b)[1..] == a[1..] + b;
      DetailsOfAppend(a[1..], b, id);
    }
  }

  lemma {:induction false} DetailsOfNone(a: seq<Detail>, id: nat)
    requires forall k :: 0 <= k < |a| ==> a[k].transaksiId != id
    ensures DetailsOf(a, id) == [] && DetailsNotOf(a, id) == a
    decreases |a|
  {
    if |a| > 0 {
      DetailsOfNone(a[1..], id);
    }
  }

  lemma {:induction false} DetailsOfAll(a: seq<Detail>, id: nat)
    requires forall k :: 0 <= k < |a| ==> a[k].transaksiId == id
    ensures DetailsOf(a, id) == a && DetailsNotOf(a, id) == []
    decreases |a|
  {
    if |a| > 0 {
      DetailsOfAll(a[1..], id);
    }
  }

  lemma {:induction false} InvoicesNone(a: seq<Invoice>, id: nat)
    requires forall k :: 0 <= k < |a| ==> a[k].transaksiId != id
    ensures InvoicesNotOf(a, id) == a
    decreases |a|
  {
    if |a| > 0 {
      InvoicesNone(a[1..], id);
    }
  }

  /** The details of a checked request take from each product what its items do. */
  lemma {:induction false} DetailQtyOfItems(rows: map<nat, Produk>, items: seq<Item>, tid: nat, p: nat)
    requires CheckItems(rows, items, tid).Ok?
    ensures DetailQty(CheckItems(rows, items, tid).value.details, p) == QtyOf(items, p)
    decreases |items|
  {
    if |items| > 0 {
      var it := items[0];
      var q := rows[it.produkId];
      var rows' := rows[it.produkId := q.(stok := q.stok - it.jumlah)];
      DetailQtyOfItems(rows', items[1..], tid, p);
      assert CheckItems(rows, items, tid).value.details[1..] == CheckItems(rows', items[1..], tid).value.details;
    }
  }

  /** Putting back what a successful check took restores every product. */
  lemma RestockUndoesCheck(rows: map<nat, Produk>, items: seq<Item>, tid: nat)
    requires CheckItems(rows, items, tid).Ok?
    ensures var c := CheckItems(rows, items, tid).value; Restock(c.rows, c.details) == rows
  {
    var c := CheckItems(rows, items, tid).value;
    CheckItemsStock(rows, items, tid);
    RestockAdds(c.rows, c.details);
    forall p | p in rows ensures Restock(c.rows, c.details)[p] == rows[p] {
      var q := rows[p];
      DetailQtyOfItems(rows, items, tid, p);
      assert c.rows[p] == q.(stok := q.stok - QtyOf(items, p));
    }
  }

  /** What a successful create writes: the checked stock, a new row and the checked details. */
  lemma CreateTransaksiWrites(db: Db, input: NewTransaksi, d: DateTime, now: int)
    requires CreateTransaksi(db, input, d, now).Ok?
    ensures CheckItems(db.products.rows, input.items, db.nextId).Ok?
    ensures var c := CheckItems(db.products.rows, input.items, db.nextId).value;
      var db1 := CreateTransaksi(db, input, d, now).value;
      db.nextId in db1.txs
      && db1 == db.(products := db.products.(rows := c.rows), txs := db.txs[db.nextId := db1.txs[db.nextId]],
                    details := db.details + c.details, nextId := db.nextId + 1)
  {
  }

  /** Deleting the transaction just written, whose details all follow the old ones, gives the old store back. */
  lemma DeleteUndoes(db: Db, t: Transaksi, rows: map<nat, Produk>, added: seq<Detail>)
    requires WellFormed(db)
    requires Restock(rows, added) == db.products.rows
    requires forall k :: 0 <= k < |added| ==> added[k].transaksiId == db.nextId
    ensures var db1 := db.(products := db.products.(rows := rows), txs := db.txs[db.nextId := t],
                           details := db.details + added, nextId := db.nextId + 1);
      DeleteTransaksi(db1, db.nextId) == Ok(db.(nextId := db.nextId + 1))
  {
    DeleteUndoesUnused(db, t, rows, added);
  }

  /** As `DeleteUndoes`, for any id the store does not use yet. */
  lemma DeleteUndoesUnused(db: Db, t: Transaksi, rows: map<nat, Produk>, added: seq<Detail>)
    requires db.nextId !in db.txs
    requires forall k :: 0 <= k < |db.details| ==> db.details[k].transaksiId != db.nextId
    requires forall k :: 0 <= k < |db.invoices| ==> db.invoices[k].transaksiId != db.nextId
    requires Restock(rows, added) == db.products.rows
    requires forall k :: 0 <= k < |added| ==> added[k].transaksiId == db.nextId
    ensures var db1 := db.(products := db.products.(rows := rows), txs := db.txs[db.nextId := t],
                           details := db.details + added, nextId := db.nextId + 1);
      DeleteTransaksi(db1, db.nextId) == Ok(db.(nextId := db.nextId + 1))
  {
    var id := db.nextId;
    var db1 := db.(products := db.products.(rows := rows), txs := db.txs[id := t],
                   details := db.details + added, nextId := id + 1);
    AppendedDetails(db.details, added, id);
    InvoicesNone(db.invoices, id);
    assert db1.txs - {id} == db.txs;
    DeleteRestores(db, db1, id, added);
  }

  /** A delete that undoes every field of a store except the counter gives that store back. */
  lemma DeleteRestores(db: Db, db1: Db, id: nat, ds: seq<Detail>)
    requires id in db1.txs && db1.txs - {id} == db.txs
    requires DetailsOf(db1.details, id) == ds && DetailsNotOf(db1.details, id) == db.details
    requires InvoicesNotOf(db1.invoices, id) == db.invoices
    requires db1.products.(rows := Restock(db1.products.rows, ds)) == db.products
    ensures DeleteTransaksi(db1, id) == Ok(db.(nextId := db1.nextId))
  {
    DeleteUnfolds(db1, id, ds);
  }

  /** The details of a new id, appended after details of other ids, are exactly the appended ones. */
  lemma AppendedDetails(prior: seq<Detail>, added: seq<Detail>, id: nat)
    requires forall k :: 0 <= k < |prior| ==> prior[k].transaksiId != id
    requires forall k :: 0 <= k < |added| ==> added[k].transaksiId == id
    ensures DetailsOf(prior + added, id) == added && DetailsNotOf(prior + added, id) == prior
  {
    DetailsOfAppend(prior, added, id);
    DetailsOfNone(prior, id);
    DetailsOfAll(added, id);
  }

  /** Deleting a transaction whose details are `ds` puts their quantities back and drops its rows. */
  lemma DeleteUnfolds(db: Db, id: nat, ds: seq<Detail>)
    requires id in db.txs && DetailsOf(db.details, id) == ds
    ensures DeleteTransaksi(db, id) ==
      Ok(db.(products := db.products.(rows := Restock(db.products.rows, ds)), txs := db.txs - {id},
             details := DetailsNotOf(db.details, id), invoices := InvoicesNotOf(db.invoices, id)))
  {
  }

  /**
   * Creating a transaction and then deleting it restores the store, stock included;
   * only the id counter has moved on.
   */
  lemma CreateThenDelete(db: Db, input: NewTransaksi, d: DateTime, now: int)
    requires WellFormed(db) && CreateTransaksi(db, input, d, now).Ok?
    ensures DeleteTransaksi(CreateTransaksi(db, input, d, now).value, db.nextId) == Ok(db.(nextId := db.nextId + 1))
  {
    var db1 := CreateTransaksi(db, input, d, now).value;
    CreateTransaksiWrites(db, input, d, now);
    var c := CheckItems(db.products.rows, input.items, db.nextId).value;
    CheckItemsDetails(db.products.rows, input.items, db.nextId);
    RestockUndoesCheck(db.products.rows, input.items, db.nextId);
    DeleteUndoes(db, db1.txs[db.nextId], c.rows, c.details);
  }

  // ---------------------------------------------------------------- update

  /**
   * The body of an update request: a falsy `metode` ("") or `pelangganId` (0) keeps
   * the old value; `keterangan` is kept only when absent (None), and Some(None)
   * writes NULL.
   */
  datatype TransaksiPatch = TransaksiPatch(metode: string, keterangan: Option<Option<string>>, pelangganId: nat)

  /** `updateTransaksi`: a missing id throws; otherwise only the three fields can change. */
  function UpdateTransaksi(db: Db, id: nat, patch: TransaksiPatch): (r: Result<Db>)
    ensures r.Err? <==> id !in db.txs
    ensures r.Err? ==> r.msg == NotFound
    ensures r.Ok? ==> r.value == db.(txs := r.value.txs) && r.value.txs.Keys == db.txs.Keys
    ensures r.Ok? ==> forall j :: j in db.txs && j != id ==> r.value.txs[j] == db.txs[j]
    ensures r.Ok? ==> var t, u := db.txs[id], r.value.txs[id];
      && u.nomor == t.nomor && u.tanggal == t.tanggal && u.total == t.total && u.umkmId == t.umkmId
      && (u.metode == if patch.metode == "" then t.metode else patch.metode)
      && (u.pelangganId == if patch.pelangganId == 0 then t.pelangganId else patch.pelangganId)
      && (patch.keterangan.None? ==> u.keterangan == t.keterangan)
      && (patch.keterangan.Some? ==> u.keterangan == patch.keterangan.value)
  {
    if id !in db.txs then Err(NotFound)
    else
      var t := db.txs[id];
      var t' := t.(metode := if patch.metode != "" then patch.metode else t.metode,
                   keterangan := if patch.keterangan.Some? then patch.keterangan.value else t.keterangan,
                   pelangganId := if patch.pelangganId != 0 then patch.pelangganId else t.pelangganId);
      Ok(db.(txs := db.txs[id := t']))
  }

  /** An update applied twice is applied once, and an empty update changes nothing. */
  lemma UpdateTransaksiIdempotent(db: Db, id: nat, patch: TransaksiPatch)
    requires id in db.txs
    ensures UpdateTransaksi(UpdateTransaksi(db, id, patch).value, id, patch) == UpdateTransaksi(db, id, patch)
    ensures UpdateTransaksi(db, id, TransaksiPatch("", None, 0)) == Ok(db)
  {
    var once := UpdateTransaksi(db, id, patch).value;
    assert once.txs[id := once.txs[id]] == once.txs;
    assert db.txs[id := db.txs[id]] == db.txs;
  }
}

=== FILE: uploads.dfy ===
/**
 * Broadcast image uploads (`uploadBroadcastImage`): which files are accepted, the name a
 * stored file gets, its public URL, and how a stored file is found again and deleted.
 * The upload directory is modelled as the set of names of the regular files directly in it.
 */
module Uploads {
  import opened Wrappers
  import opened Text
  import opened Decimal
  import Paths

  const AllowedExts: seq<string> := [".jpg", ".jpeg", ".png", ".gif", ".webp"]
  const AllowedMimes: seq<string> := ["image/jpeg", "image/png", "image/gif", "image/webp"]

  /** The `fileSize` limit: 5 MiB. */
  const MaxFileSize: nat := 5 * 1024 * 1024

  const UploadUrlPrefix := "/public/broadcasts/images"
  const FormatRejected := "File format tidak didukung. Gunakan: JPG, PNG, GIF, WebP"
  /** What the upload library reports when a file runs past the size limit. */
  const TooLarge := "File too large"

  /** An incoming file part: its client-side name, declared type and size in bytes. */
  datatype Upload = Upload(originalname: string, mimetype: string, size: nat)

  predicate Plain(s: string) {
    forall i :: 0 <= i < |s| ==> s[i] != '/'
  }

  predicate Dotless(s: string) {
    forall i :: 0 <= i < |s| ==> s[i] != '.'
  }

  // ---------------------------------------------------------------- filter

  /**
   * `fileFilter`: the lower-cased extension and the declared type must each be on their
   * list; the two are not compared with each other.
   */
  function FileFilter(f: Upload): (r: Result<bool>)
    ensures r.Ok? ==> r.value
    ensures r.Err? ==> r.msg == FormatRejected
  {
    if ToLower(Paths.Extname(f.originalname)) in AllowedExts && f.mimetype in AllowedMimes then Ok(true)
    else Err(FormatRejected)
  }

  /**
   * A name built from a plain stem and an allowed extension, in any letter case, passes
   * the filter exactly when the declared type is allowed.
   */
  lemma FilterByParts(stem: string, ext: string, mimetype: string, size: nat)
    requires |stem| > 0 && stem[0] != '.' && Plain(stem)
    requires |ext| > 0 && ext[0] == '.' && Plain(ext) && Dotless(ext[1..])
    requires ToLower(ext) in AllowedExts
    ensures FileFilter(Upload(stem + ext, mimetype, size)).Ok? <==> mimetype in AllowedMimes
  {
    forall i | 1 <= i < |ext| ensures ext[i] != '.' {
      assert ext[i] == ext[1..][i - 1];
    }
    Paths.ExtnameOfSuffix(stem, ext);
  }

  /**
   * An accepted file has an allowed type, and its base name ends in a '.'-suffix, not
   * the whole name, whose lower case is an allowed extension.
   */
  lemma AcceptedHasImageSuffix(f: Upload)
    requires FileFilter(f).Ok?
    ensures f.mimetype in AllowedMimes
    ensures var b := Paths.Basename(f.originalname);
      exists k :: 0 < k < |b| && b[k] == '.' && ToLower(b[k..]) in AllowedExts
  {
    var b := Paths.Basename(f.originalname);
    var e := Paths.Extname(f.originalname);
    var k := |b| - |e|;
    assert e == b[k..];
    assert 0 < k < |b| && b[k] == '.';
  }

  /** A file without an extension is refused whatever type it declares. */
  lemma DotlessNameRefused(f: Upload)
    requires Plain(f.originalname) && Dotless(f.originalname)
    ensures FileFilter(f) == Err(FormatRejected)
  {
    Paths.ExtnameOfDotless(f.originalname);
    assert ToLower("") == "";
  }

  /** The extension and the declared type are not cross-checked: a ".png" declared as a GIF passes. */
  lemma MismatchedTypeAccepted(stem: string, size: nat)
    requires |stem| > 0 && stem[0] != '.' && Plain(stem)
    ensures FileFilter(Upload(stem + ".png", "image/gif", size)).Ok?
  {
    var ext := ".png";
    assert ext[0] == '.' && ext[1] == 'p' && ext[2] == 'n' && ext[3] == 'g';
    assert ToLower(ext) == ext;
    assert ToLower(ext) == AllowedExts[2];
    assert "image/gif" == AllowedMimes[2];
    FilterByParts(stem, ext, "image/gif", size);
  }

  // ---------------------------------------------------------------- storage

  /** The base-36 digits `Math.random().toString(36).substr(2, 9)` yields. */
  predicate RandomPart(s: string) {
    |s| <= 9 && forall i :: 0 <= i < |s| ==> ('0' <= s[i] <= '9' || 'a' <= s[i] <= 'z')
  }

  /** The fixed start of every stored name. */
  const StoredPrefix := "broadcast_"

  /** The part of a stored name before its extension. */
  function StoredStem(timestamp: nat, random: string): string {
    StoredPrefix + NatToString(timestamp) + "_" + random
  }

  /** The `filename` callback: `broadcast_<timestamp>_<random>` followed by the original extension. */
  function StoredFilename(timestamp: nat, random: string, originalname: string): (r: string)
    ensures |r| > |StoredPrefix| && r[..|StoredPrefix|] == StoredPrefix
  {
    var stem := StoredStem(timestamp, random);
    assert (stem + Paths.Extname(originalname))[..|StoredPrefix|] == StoredPrefix;
    stem + Paths.Extname(originalname)
  }

  lemma StoredPrefixShape()
    ensures Plain(StoredPrefix) && Dotless(StoredPrefix) && StoredPrefix[0] == 'b'
  {
    var p := StoredPrefix;
    assert p[0] == 'b' && p[1] == 'r' && p[2] == 'o' && p[3] == 'a' && p[4] == 'd';
    assert p[5] == 'c' && p[6] == 'a' && p[7] == 's' && p[8] == 't' && p[9] == '_';
  }

  /** The stem of a stored name has no '/' and no '.', and does not start with '.'. */
  lemma StoredStemShape(timestamp: nat, random: string)
    requires RandomPart(random)
    ensures var s := StoredStem(timestamp, random);
            |s| > 0 && s[0] == 'b' && Plain(s) && Dotless(s)
  {
    StoredPrefixShape();
    var d := NatToString(timestamp);
    var s := StoredStem(timestamp, random);
    var a := StoredPrefix + d;
    assert s == a + "_" + random;
    forall i | 0 <= i < |s| ensures s[i] != '/' && s[i] != '.' {
      if i < |StoredPrefix| {
        assert s[i] == StoredPrefix[i];
      } else if i < |a| {
        assert s[i] == d[i - |StoredPrefix|];
      } else if i == |a| {
        assert s[i] == '_';
      } else {
        assert s[i] == random[i - |a| - 1];
      }
    }
  }

  /** A stored name has no directory part and keeps the extension of the original name. */
  lemma StoredNameShape(timestamp: nat, random: string, originalname: string)
    requires RandomPart(random)
    ensures var n := StoredFilename(timestamp, random, originalname);
      && Plain(n) && !DotName(n)
      && Paths.Extname(n) == Paths.Extname(originalname)
  {
    var stem := StoredStem(timestamp, random);
    var e := Paths.Extname(originalname);
    var n := StoredFilename(timestamp, random, originalname);
    assert n == stem + e;
    StoredStemShape(timestamp, random);
    assert Plain(e) && (e == "" || (e[0] == '.' && Dotless(e[1..]))) by {
      ExtensionShape(originalname);
    }
    assert Plain(n) by {
      PlainAppend(stem, e);
    }
    assert !DotName(n) by {
      assert n[0] == stem[0] == 'b';
    }
    assert Paths.Extname(n) == e by {
      StemThenExtension(stem, e);
    }
  }

  lemma PlainAppend(a: string, b: string)
    requires Plain(a) && Plain(b)
    ensures Plain(a + b)
  {
  }

  /** `Paths.ExtnameShape` in this module's terms. */
  lemma ExtensionShape(name: string)
    ensures var e := Paths.Extname(name);
            Plain(e) && (e == "" || (e[0] == '.' && Dotless(e[1..])))
  {
    var e := Paths.Extname(name);
    Paths.ExtnameShape(name);
    if e != "" {
      forall i | 0 <= i < |e| - 1 ensures e[1..][i] != '.' {
        assert e[1..][i] == e[i + 1];
      }
    }
  }

  /** A dot-free stem followed by an extension (or by nothing) has that extension. */
  lemma StemThenExtension(stem: string, e: string)
    requires |stem| > 0 && stem[0] != '.' && Plain(stem) && Dotless(stem)
    requires Plain(e) && (e == "" || (e[0] == '.' && Dotless(e[1..])))
    ensures Paths.Extname(stem + e) == e
  {
    if e == "" {
      assert stem + e == stem;
      Paths.ExtnameOfDotless(stem);
    } else {
      forall i | 1 <= i < |e| ensures e[i] != '.' {
        assert e[i] == e[1..][i - 1];
      }
      Paths.ExtnameOfSuffix(stem, e);
    }
  }

  /** The filter decides the same on the stored name as on the original name. */
  lemma StoredNameKeepsFilterDecision(timestamp: nat, random: string, f: Upload)
    requires RandomPart(random)
    ensures FileFilter(f.(originalname := StoredFilename(timestamp, random, f.originalname))) == FileFilter(f)
  {
    StoredNameShape(timestamp, random, f.originalname);
  }

  /**
   * One upload through the middleware: the filter runs first, a file past the size limit
   * is refused, and otherwise it is stored under its generated name.
   */
  function Receive(f: Upload, timestamp: nat, random: string): (r: Result<string>)
    ensures r.Ok? <==> FileFilter(f).Ok? && f.size <= MaxFileSize
    ensures r.Err? && FileFilter(f).Ok? ==> r.msg == TooLarge
    ensures r.Err? && FileFilter(f).Err? ==> r.msg == FormatRejected
    ensures r.Ok? ==> r.value == StoredFilename(timestamp, random, f.originalname)
  {
    match FileFilter(f)
    case Err(m) => Err(m)
    case Ok(_) =>
      if f.size > MaxFileSize then Err(TooLarge) else Ok(StoredFilename(timestamp, random, f.originalname))
  }

  /** A file of exactly 5 MiB is still taken; one byte more is refused. */
  lemma SizeLimitBoundary(f: Upload, timestamp: nat, random: string)
    requires FileFilter(f).Ok?
    ensures Receive(f.(size := 5242880), timestamp, random).Ok?
    ensures Receive(f.(size := 5242881), timestamp, random) == Err(TooLarge)
  {
  }

  // ---------------------------------------------------------------- URLs and paths

  /** `generateImageUrl`: no file gives `null`; a stored file is served under the public prefix. */
  function GenerateImageUrl(appUrl: string, filename: Option<string>): (r: Option<string>)
    ensures r.None? <==> filename.None?
  {
    match filename
    case None => None
    case Some(n) => Some(appUrl + UploadUrlPrefix + "/" + n)
  }

  /**
   * Where `path.join(UPLOAD_DIR, name)` lands for a name without '/': the directory itself
   * for "" and ".", its parent for "..", and otherwise an entry directly inside it.
   */
  datatype Location = InUploadDir(name: string) | UploadDir | AboveUploadDir

  /** The names `path.join` does not keep as an entry of the directory. */
  predicate DotName(name: string) {
    name == "" || name == "." || name == ".."
  }

  function JoinUploadDir(name: string): Location {
    if name == "" || name == "." then UploadDir
    else if name == ".." then AboveUploadDir
    else InUploadDir(name)
  }

  /** `getImagePath`: the base name of the given name, joined to the upload directory. */
  function ImagePath(filename: string): (r: Location)
    ensures r.InUploadDir? ==> Plain(r.name) && !DotName(r.name)
    ensures r.InUploadDir? <==> !DotName(Paths.Basename(filename))
  {
    JoinUploadDir(Paths.Basename(filename))
  }

  /** Any directory part is dropped: `../../x` and `a/b/x` both name `x` in the upload directory. */
  lemma DirectoryPartDropped(dir: string, name: string)
    requires Plain(name) && !DotName(name)
    ensures ImagePath(dir + "/" + name) == InUploadDir(name)
  {
    Paths.BasenameAfterSlash(dir, name);
  }

  /** A plain name that is not a dot name names itself in the upload directory. */
  lemma PlainNameInside(name: string)
    requires Plain(name) && !DotName(name)
    ensures ImagePath(name) == InUploadDir(name)
  {
    Paths.BasenameOfPlainName(name);
  }

  /** The URL of a stored file ends in its name, and that name leads back to the same file. */
  lemma UrlNamesStoredFile(appUrl: string, timestamp: nat, random: string, originalname: string)
    requires RandomPart(random)
    ensures var n := StoredFilename(timestamp, random, originalname);
            var url := GenerateImageUrl(appUrl, Some(n));
            url.Some? && Paths.Basename(url.value) == n && ImagePath(url.value) == InUploadDir(n)
  {
    var n := StoredFilename(timestamp, random, originalname);
    StoredNameShape(timestamp, random, originalname);
    Paths.BasenameAfterSlash(appUrl + UploadUrlPrefix, n);
  }

  /** `getImagePath("..")` resolves to the directory above the upload directory. */
  lemma DotDotLeavesUploadDir()
    ensures ImagePath("..") == AboveUploadDir
  {
    var d := "..";
    assert JoinUploadDir(d) == AboveUploadDir by {
      assert |d| == 2;
    }
    assert Paths.Basename(d) == d by {
      assert d[0] == '.' && d[1] == '.';
      Paths.BasenameOfPlainName(d);
    }
  }

  /** `getImagePath` that refuses the names `path.join` would not keep inside the directory. */
  function ConfinedImagePath(filename: string): (r: Option<string>)
    ensures r.Some? ==> JoinUploadDir(r.value) == InUploadDir(r.value) && Plain(r.value)
    ensures r.Some? <==> ImagePath(filename).InUploadDir?
    ensures r.Some? ==> r.value == Paths.Basename(filename)
  {
    var b := Paths.Basename(filename);
    if DotName(b) then None else Some(b)
  }

  /** The confined path never names the directory or its parent, and agrees with `getImagePath` elsewhere. */
  lemma ConfinedPathInside(filename: string)
    ensures match ConfinedImagePath(filename)
      case Some(n) => ImagePath(filename) == InUploadDir(n)
      case None => !ImagePath(filename).InUploadDir?
  {
  }

  // ---------------------------------------------------------------- deletion

  /**
   * `deleteImageFile`: an empty name gives false; a name that resolves to a regular file
   * removes it and gives true; anything else gives false and removes nothing (a
   * directory exists, but unlinking it throws, and the error is swallowed).
   */
  function DeleteImageFile(filename: Option<string>, files: set<string>): (r: (bool, set<string>))
    ensures r.0 <==> filename.Some? && filename.value != "" && ImagePath(filename.value).InUploadDir?
                     && ImagePath(filename.value).name in files
    ensures r.0 ==> r.1 == files - {ImagePath(filename.value).name}
    ensures !r.0 ==> r.1 == files
  {
    if filename.None? || filename.value == "" then (false, files)
    else
      match ImagePath(filename.value)
      case InUploadDir(n) => if n in files then (true, files - {n}) else (false, files)
      case _ => (false, files)
  }

  /** A delete removes at most one file, and reports true exactly when it removed one. */
  lemma DeleteRemovesAtMostOne(filename: Option<string>, files: set<string>)
    ensures var (ok, after) := DeleteImageFile(filename, files);
      && after <= files && |files - after| <= 1 && (ok <==> after != files)
  {
    var (ok, after) := DeleteImageFile(filename, files);
    if ok {
      var n := ImagePath(filename.value).name;
      assert files - after == {n};
      assert n !in after;
    } else {
      assert files - after == {};
    }
  }

  /** Deleting a stored image by its name removes it; deleting it again answers false. */
  lemma DeleteStoredImage(timestamp: nat, random: string, originalname: string, files: set<string>)
    requires RandomPart(random)
    requires StoredFilename(timestamp, random, originalname) in files
    ensures var n := StoredFilename(timestamp, random, originalname);
            var (ok, after) := DeleteImageFile(Some(n), files);
            ok && after == files - {n} && DeleteImageFile(Some(n), after) == (false, after)
  {
    var n := StoredFilename(timestamp, random, originalname);
    StoredNameShape(timestamp, random, originalname);
    PlainNameInside(n);
  }
}

=== FILE: watzap.dfy ===
/**
 * The Watzap.id gateway client: phone normalisation and validation, image-URL
 * acceptance, the guards that run before a request is posted, and the per-recipient
 * loops that aggregate broadcast results. The HTTP client is a parameter `post`
 * that maps a request to the gateway's reply.
 */
module Watzap {
  import opened Wrappers
  import opened Text
  import opened Decimal

  // ---------------------------------------------------------------- phone numbers

  /**
   * `formatPhoneNumber`: strip non-digits, turn a leading "0" into "62", and prefix
   * "62" when the number does not already start with it.
   */
  function FormatPhoneNumber(phone: string): (r: string)
    ensures AllDigits(r) && StartsWith(r, "62")
  {
    var digits := DigitsOnly(phone);
    var local := if StartsWith(digits, "0") then "62" + digits[1..] else digits;
    if StartsWith(local, "62") then local else "62" + local
  }

  /** The three cases of `formatPhoneNumber`, in terms of the digits of the input. */
  lemma FormatPhoneNumberCases(phone: string)
    ensures var d := DigitsOnly(phone);
      && (StartsWith(d, "0") ==> FormatPhoneNumber(phone) == "62" + d[1..])
      && (StartsWith(d, "62") ==> FormatPhoneNumber(phone) == d)
      && (!StartsWith(d, "0") && !StartsWith(d, "62") ==> FormatPhoneNumber(phone) == "62" + d)
  {
    var d := DigitsOnly(phone);
    if StartsWith(d, "62") {
      assert d[0] == '6';
    }
  }

  /** Formatting an already formatted number changes nothing. */
  lemma FormatPhoneNumberIdempotent(phone: string)
    ensures FormatPhoneNumber(FormatPhoneNumber(phone)) == FormatPhoneNumber(phone)
  {
    var f := FormatPhoneNumber(phone);
    assert DigitsOnly(f) == f;
    assert !StartsWith(f, "0");
  }

  /** The regular expression `/^628\d{8,11}$/`. */
  predicate IndonesianMobile(s: string) {
    |s| >= 3 && s[..3] == "628" && 8 <= |s| - 3 <= 11 && AllDigits(s[3..])
  }

  /** `isValidPhoneNumber`: the formatted number is "628" followed by 8 to 11 digits. */
  function IsValidPhoneNumber(phone: string): (r: bool)
    ensures r <==> StartsWith(FormatPhoneNumber(phone), "628") && 11 <= |FormatPhoneNumber(phone)| <= 14
  {
    IndonesianMobile(FormatPhoneNumber(phone))
  }

  /** Validity does not change when the number is formatted first, as `sendMessage` does. */
  lemma ValidityOfFormatted(phone: string)
    ensures IsValidPhoneNumber(FormatPhoneNumber(phone)) == IsValidPhoneNumber(phone)
  {
    FormatPhoneNumberIdempotent(phone);
  }

  // ---------------------------------------------------------------- image URLs

  /** The parts of a WHATWG URL that `isValidImageUrl` reads. */
  datatype Url = Url(protocol: string, hostname: string, pathname: string, search: string)

  /** A URL argument: its text, and its parse (None when `new URL` throws). */
  datatype UrlText = UrlText(text: string, parsed: Option<Url>)

  const ImageExtensions: seq<string> := [".jpg", ".jpeg", ".png", ".gif", ".webp"]

  predicate HasImageExtension(pathname: string) {
    exists k :: 0 <= k < |ImageExtensions| && EndsWith(ToLower(pathname), ImageExtensions[k])
  }

  /** A query string, or a host name that names a known image CDN. */
  predicate LooksLikeImageHost(u: Url) {
    u.search != "" || Contains(u.hostname, "unsplash") || Contains(u.hostname, "imgur")
    || Contains(u.hostname, "cloudinary") || Contains(u.hostname, "cdn")
  }

  /**
   * `isValidImageUrl`, step by step as written: protocol, then extension, then host
   * hints, then the extension test again.
   */
  function IsValidImageUrl(url: Option<Url>): (r: bool)
    ensures r <==> url.Some? && (url.value.protocol == "http:" || url.value.protocol == "https:")
                   && (HasImageExtension(url.value.pathname) || LooksLikeImageHost(url.value))
  {
    match url
    case None => false
    case Some(u) =>
      if !(u.protocol == "http:" || u.protocol == "https:") then false
      else if HasImageExtension(u.pathname) then true
      else if LooksLikeImageHost(u) then true
      else HasImageExtension(u.pathname)
  }

  /** The extension test ignores case: an upper-case ".PNG" path is accepted. */
  lemma UpperCaseExtensionAccepted()
    ensures IsValidImageUrl(Some(Url("https:", "example.org", "/A.PNG", "")))
  {
    var lower := ToLower("/A.PNG");
    assert lower == "/a.png";
    assert EndsWith(lower, ImageExtensions[2]);
  }

  // ---------------------------------------------------------------- single sends

  /** The service configuration: API key, default number key and the broadcast delay. */
  datatype Config = Config(apiKey: string, numberKey: string, delayMs: nat)

  /** `config.broadcast.delayMs` when the environment does not set it. */
  const DefaultDelayMs: nat := 1000

  /** A request body posted to the gateway. */
  datatype Request =
    | TextRequest(apiKey: string, numberKey: string, phoneNo: string, message: string)
    | ImageRequest(apiKey: string, numberKey: string, phoneNo: string, url: string,
                   message: string, separateCaption: string)

  /** The `status` field of the gateway's JSON body: a string, a number, or absent. */
  datatype ReplyStatus = StatusText(text: string) | StatusNumber(n: int) | StatusAbsent

  /**
   * The outcome of a post: a 2xx reply with its body fields, or a rejection carrying
   * the reply body's `message` ("" when absent) and the client error's own message.
   */
  datatype Reply =
    | Delivered(status: ReplyStatus, message: string)
    | Rejected(responseMessage: string, errorMessage: string)

  /** What a send reports, and the request it posted (None when a guard stopped it). */
  datatype SendResult = SendResult(success: bool, request: Option<Request>, error: string)

  const NotConfigured := "API Key atau Number Key tidak dikonfigurasi"
  const ImageUrlRejected := "URL gambar tidak valid. Gunakan HTTP/HTTPS URL PUBLIC yang dapat diakses dari internet."
  const ImageSendFailed := "Gagal mengirim gambar"

  /** `numberKey || this.numberKey`: the argument, else the configured default. */
  function EffectiveKey(cfg: Config, numberKey: string): (k: string)
    ensures numberKey != "" ==> k == numberKey
    ensures numberKey == "" ==> k == cfg.numberKey
  {
    if numberKey != "" then numberKey else cfg.numberKey
  }

  /** `error.response?.data?.message || error.message`. */
  function RejectionText(responseMessage: string, errorMessage: string): string {
    if responseMessage != "" then responseMessage else errorMessage
  }

  /** `sendMessage`: guards, then one post; any 2xx reply counts as success. */
  function SendMessage(cfg: Config, phone: string, message: string, numberKey: string,
                       post: Request -> Reply): (r: SendResult)
    ensures r.request.None? <==>
      (cfg.apiKey == "" || EffectiveKey(cfg, numberKey) == "" || !IsValidPhoneNumber(phone))
    ensures r.request.Some? ==>
      r.request.value == TextRequest(cfg.apiKey, EffectiveKey(cfg, numberKey), FormatPhoneNumber(phone), message)
    ensures r.success <==> r.request.Some? && post(r.request.value).Delivered?
    ensures !r.success ==> r.error != "" || r.request.Some?
  {
    var key := EffectiveKey(cfg, numberKey);
    if cfg.apiKey == "" || key == "" then SendResult(false, None, NotConfigured)
    else
      var formatted := FormatPhoneNumber(phone);
      ValidityOfFormatted(phone);
      if !IsValidPhoneNumber(formatted) then SendResult(false, None, "Nomor telepon tidak valid: " + phone)
      else
        var req := TextRequest(cfg.apiKey, key, formatted, message);
        match post(req)
        case Delivered(_, _) => SendResult(true, Some(req), "")
        case Rejected(rm, em) => SendResult(false, Some(req), RejectionText(rm, em))
  }

  /** The reply statuses `sendImage` treats as success: the string "200" or the number 200. */
  predicate IsOkStatus(s: ReplyStatus) {
    s == StatusText("200") || s == StatusNumber(200)
  }

  /**
   * `sendImage`: the `sendMessage` guards plus the image-URL check, then one post to
   * the image endpoint; success needs a body status of "200" or 200.
   */
  function SendImage(cfg: Config, phone: string, image: UrlText, caption: string, numberKey: string,
                     separateCaption: nat, post: Request -> Reply): (r: SendResult)
    ensures r.request.None? <==>
      (cfg.apiKey == "" || EffectiveKey(cfg, numberKey) == "" || !IsValidPhoneNumber(phone)
       || image.text == "" || !IsValidImageUrl(image.parsed))
    ensures r.request.Some? ==>
      r.request.value == ImageRequest(cfg.apiKey, EffectiveKey(cfg, numberKey), FormatPhoneNumber(phone),
                                      image.text, caption, NatToString(separateCaption))
    ensures r.success <==>
      r.request.Some? && post(r.request.value).Delivered? && IsOkStatus(post(r.request.value).status)
    ensures r.request.Some? && post(r.request.value).Delivered? && !r.success ==>
      r.error == (if post(r.request.value).message != "" then post(r.request.value).message else ImageSendFailed)
  {
    var key := EffectiveKey(cfg, numberKey);
    if cfg.apiKey == "" || key == "" then SendResult(false, None, NotConfigured)
    else
      var formatted := FormatPhoneNumber(phone);
      ValidityOfFormatted(phone);
      if !IsValidPhoneNumber(formatted) then SendResult(false, None, "Nomor telepon tidak valid: " + phone)
      else if image.text == "" || !IsValidImageUrl(image.parsed) then SendResult(false, None, ImageUrlRejected)
      else
        var req := ImageRequest(cfg.apiKey, key, formatted, image.text, caption, NatToString(separateCaption));
        match post(req)
        case Delivered(status, msg) =>
          if IsOkStatus(status) then SendResult(true, Some(req), "")
          else SendResult(false, Some(req), if msg != "" then msg else ImageSendFailed)
        case Rejected(rm, em) => SendResult(false, Some(req), RejectionText(rm, em))
  }

  /** `checkDeviceStatus`: "connected" means only that both keys are configured. */
  datatype DeviceStatus = DeviceStatus(success: bool, connected: bool, text: string)

  function CheckDeviceStatus(cfg: Config, numberKey: string): (r: DeviceStatus)
    ensures r.success == r.connected
    ensures !r.connected ==> r.text == NotConfigured
  {
    if cfg.apiKey == "" || EffectiveKey(cfg, numberKey) == "" then DeviceStatus(false, false, NotConfigured)
    else DeviceStatus(true, true, "Watzap.id ready (API Key & Number Key configured)")
  }

  /**
   * The device is reported connected exactly when a send to a valid number gets past
   * the guards and reaches the gateway.
   */
  lemma ConnectedIffSendPosts(cfg: Config, numberKey: string, phone: string, message: string,
                              post: Request -> Reply)
    requires IsValidPhoneNumber(phone)
    ensures CheckDeviceStatus(cfg, numberKey).connected <==> SendMessage(cfg, phone, message, numberKey, post).request.Some?
  {
  }

  // ---------------------------------------------------------------- broadcast loops

  /** One entry of `results.details`: the phone, whether it was sent, and the message. */
  datatype Delivery = Delivery(phone: string, ok: bool, message: string)

  /** The argument of one progress callback. */
  datatype Progress = Progress(current: nat, total: nat, phone: string, success: nat, failed: nat)

  /** What happened around one recipient: the progress report and the pause after it. */
  datatype Step = Step(progress: Option<Progress>, pauseAfter: Option<nat>)

  datatype BroadcastResults = BroadcastResults(total: nat, success: nat, failed: nat, details: seq<Delivery>)

  /** The number of successful deliveries. */
  function CountOk(ds: seq<Delivery>): (n: nat)
    ensures n <= |ds|
  {
    if |ds| == 0 then 0 else CountOk(ds[..|ds| - 1]) + (if ds[|ds| - 1].ok then 1 else 0)
  }

  /** The detail pushed for one send result. */
  function DeliveryOf(phone: string, r: SendResult): (d: Delivery)
    ensures d.phone == phone && d.ok == r.success
    ensures d.ok ==> d.message == "Terkirim"
    ensures !d.ok ==> d.message == r.error
  {
    Delivery(phone, r.success, if r.success then "Terkirim" else r.error)
  }

  /** The progress report after the `k`-th delivery of `ds`. */
  function ProgressAt(phones: seq<string>, ds: seq<Delivery>, k: nat): Progress
    requires k < |ds| && k < |phones|
  {
    Progress(k + 1, |phones|, phones[k], CountOk(ds[..k + 1]), k + 1 - CountOk(ds[..k + 1]))
  }

  /** Appending a delivery leaves the earlier progress reports as they were. */
  lemma ProgressAtAppend(phones: seq<string>, ds: seq<Delivery>, d: Delivery, k: nat)
    requires k < |ds| && k < |phones|
    ensures ProgressAt(phones, ds + [d], k) == ProgressAt(phones, ds, k)
  {
    assert (ds + [d])[..k + 1] == ds[..k + 1];
  }

  /** The deliveries for the first `n` phones, one send each. */
  function DeliveriesUpTo(send: string -> SendResult, phones: seq<string>, n: nat): (ds: seq<Delivery>)
    requires n <= |phones|
    ensures |ds| == n
  {
    seq(n, k requires 0 <= k < n => DeliveryOf(phones[k], send(phones[k])))
  }

  /** The step taken around the `k`-th phone once `ds` holds its delivery. */
  function StepOf(phones: seq<string>, ds: seq<Delivery>, delayMs: nat, withProgress: bool, k: nat): Step
    requires k < |ds| && k < |phones|
  {
    Step(if withProgress then Some(ProgressAt(phones, ds, k)) else None,
         if k < |phones| - 1 then Some(delayMs) else None)
  }

  /** The steps taken around the first `n` phones. */
  function StepsUpTo(phones: seq<string>, ds: seq<Delivery>, delayMs: nat, withProgress: bool, n: nat)
    : (steps: seq<Step>)
    requires n <= |ds| && n <= |phones|
    ensures |steps| == n
  {
    seq(n, k requires 0 <= k < n => StepOf(phones, ds, delayMs, withProgress, k))
  }

  /** The deliveries grow by one send per phone. */
  lemma DeliveriesUpToNext(send: string -> SendResult, phones: seq<string>, i: nat)
    requires i < |phones|
    ensures DeliveriesUpTo(send, phones, i + 1)
         == DeliveriesUpTo(send, phones, i) + [DeliveryOf(phones[i], send(phones[i]))]
  {
    var a := DeliveriesUpTo(send, phones, i + 1);
    var b := DeliveriesUpTo(send, phones, i) + [DeliveryOf(phones[i], send(phones[i]))];
    forall k | 0 <= k < i + 1 ensures a[k] == b[k] {
    }
  }

  /** Appending a delivery keeps the earlier steps and adds the step around it. */
  lemma StepsUpToNext(phones: seq<string>, ds: seq<Delivery>, d: Delivery, delayMs: nat, withProgress: bool)
    requires |ds| < |phones|
    ensures StepsUpTo(phones, ds + [d], delayMs, withProgress, |ds| + 1)
         == StepsUpTo(phones, ds, delayMs, withProgress, |ds|) + [StepOf(phones, ds + [d], delayMs, withProgress, |ds|)]
  {
    var a := StepsUpTo(phones, ds + [d], delayMs, withProgress, |ds| + 1);
    var b := StepsUpTo(phones, ds, delayMs, withProgress, |ds|) + [StepOf(phones, ds + [d], delayMs, withProgress, |ds|)];
    forall k | 0 <= k < |ds| + 1 ensures a[k] == b[k] {
      if k < |ds| {
        ProgressAtAppend(phones, ds, d, k);
      }
    }
  }

  /** One pass of the loop of `RunSends`: the delivery of phone `i` and the step around it. */
  method SendOne(send: string -> SendResult, phones: seq<string>, delayMs: nat, withProgress: bool,
                 i: nat, details: seq<Delivery>, steps: seq<Step>, success: nat)
    returns (details': seq<Delivery>, steps': seq<Step>, success': nat)
    requires i < |phones| && details == DeliveriesUpTo(send, phones, i) && success == CountOk(details)
    requires steps == StepsUpTo(phones, details, delayMs, withProgress, i)
    ensures details' == DeliveriesUpTo(send, phones, i + 1) && success' == CountOk(details')
    ensures steps' == StepsUpTo(phones, details', delayMs, withProgress, i + 1)
  {
    var d := DeliveryOf(phones[i], send(phones[i]));
    details' := details + [d];
    assert details'[..i] == details;
    success' := success + (if d.ok then 1 else 0);
    DeliveriesUpToNext(send, phones, i);
    StepsUpToNext(phones, details, d, delayMs, withProgress);
    var step := StepOf(phones, details', delayMs, withProgress, i);
    steps' := steps + [step];
  }

  /**
   * The loop shared by `sendBroadcast` and `sendImageBroadcast`: one send per phone,
   * in order, a progress report after each when a callback is given, and a pause of
   * `delayMs` between consecutive sends only.
   */
  method RunSends(send: string -> SendResult, phones: seq<string>, delayMs: nat, withProgress: bool)
    returns (res: BroadcastResults, steps: seq<Step>)
    ensures res.total == |phones| && res.success + res.failed == res.total
    ensures |res.details| == |phones| && |steps| == |phones|
    ensures forall i :: 0 <= i < |phones| ==> res.details[i] == DeliveryOf(phones[i], send(phones[i]))
    ensures res.success == CountOk(res.details)
    ensures forall i :: 0 <= i < |phones| ==>
      steps[i].pauseAfter == (if i < |phones| - 1 then Some(delayMs) else None)
    ensures forall i :: 0 <= i < |phones| ==>
      steps[i].progress == (if withProgress then Some(ProgressAt(phones, res.details, i)) else None)
  {
    var success := 0;
    var details: seq<Delivery> := [];
    steps := [];
    var i := 0;
    while i < |phones|
      invariant i <= |phones| && details == DeliveriesUpTo(send, phones, i) && success == CountOk(details)
      invariant steps == StepsUpTo(phones, details, delayMs, withProgress, i)
    {
      details, steps, success := SendOne(send, phones, delayMs, withProgress, i, details, steps, success);
      i := i + 1;
    }
    var failed := |phones| - success;
    res := BroadcastResults(|phones|, success, failed, details);
  }

  /** `sendBroadcast`: one text send per phone with the configured default number key. */
  method SendBroadcast(cfg: Config, phones: seq<string>, message: string, post: Request -> Reply,
                       withProgress: bool)
    returns (res: BroadcastResults, steps: seq<Step>)
    ensures res.total == |phones| && res.success + res.failed == res.total
    ensures |res.details| == |phones| && |steps| == |phones|
    ensures forall i :: 0 <= i < |phones| ==>
      res.details[i] == DeliveryOf(phones[i], SendMessage(cfg, phones[i], message, "", post))
    ensures res.success == CountOk(res.details)
    ensures forall i :: 0 <= i < |phones| ==>
      steps[i].pauseAfter == (if i < |phones| - 1 then Some(cfg.delayMs) else None)
    ensures forall i :: 0 <= i < |phones| ==>
      steps[i].progress == (if withProgress then Some(ProgressAt(phones, res.details, i)) else None)
    ensures forall i :: 0 <= i < |phones| ==>
      (steps[i].progress.Some? <==> withProgress) &&
      (withProgress ==> steps[i].progress.value.current == i + 1 && steps[i].progress.value.phone == phones[i])
  {
    res, steps := RunSends(p => SendMessage(cfg, p, message, "", post), phones, cfg.delayMs, withProgress);
  }

  const BroadcastUrlRejected := "URL gambar tidak valid. Gunakan HTTP/HTTPS URL."

  /**
   * `sendImageBroadcast`: the image URL is checked once before the loop, and an
   * unacceptable URL throws without any send; otherwise one image send per phone.
   */
  method SendImageBroadcast(cfg: Config, phones: seq<string>, image: UrlText, caption: string,
                            post: Request -> Reply, withProgress: bool)
    returns (res: Result<BroadcastResults>, steps: seq<Step>)
    ensures res.Err? <==> !IsValidImageUrl(image.parsed)
    ensures res.Err? ==> res.msg == BroadcastUrlRejected && steps == []
    ensures res.Ok? ==> res.value.total == |phones| && res.value.success + res.value.failed == |phones|
    ensures res.Ok? ==> |res.value.details| == |phones| && |steps| == |phones|
    ensures res.Ok? ==> forall i :: 0 <= i < |phones| ==>
      res.value.details[i] == DeliveryOf(phones[i], SendImage(cfg, phones[i], image, caption, "", 1, post))
    ensures res.Ok? ==> res.value.success == CountOk(res.value.details)
    ensures res.Ok? ==> forall i :: 0 <= i < |phones| ==>
      steps[i].pauseAfter == (if i < |phones| - 1 then Some(cfg.delayMs) else None)
    ensures res.Ok? ==> forall i :: 0 <= i < |phones| ==>
      steps[i].progress == (if withProgress then Some(ProgressAt(phones, res.value.details, i)) else None)
  {
    if !IsValidImageUrl(image.parsed) {
      return Err(BroadcastUrlRejected), [];
    }
    var r;
    r, steps := RunSends(p => SendImage(cfg, p, image, caption, "", 1, post), phones, cfg.delayMs, withProgress);
    res := Ok(r);
  }
}

=== FILE: wrappers.dfy ===
/** Option and Result, shared by every module of the model. */
module Wrappers {

  /** A value that may be absent (JavaScript `null`/`undefined`). */
  datatype Option<+T> = None | Some(value: T) {

    /** The carried value, or `default` when absent. */
    function GetOr(default: T): T {
      match this
      case Some(v) => v
      case None => default
    }
  }

  /** The outcome of an operation that may throw: `msg` is the thrown Error's message. */
  datatype Result<+T> = Ok(value: T) | Err(msg: string)
}
